=== FILE: README.md ===
# AutoOCR preprocessing core in Dafny

AutoOCR prepares scanned document pages for OCR. A page is pushed through an
ordered list of modules. Each module first *detects* whether its correction
is needed and, only when it is, *processes* the page. The `Pipeline` records
one step per module and keeps a copy of the page taken just before
binarisation. Three preprocessor profiles build the module list from a
configuration record:

- the standard document profile;
- the conservative security-document profile, driven by a security
  classifier;
- the aggressive OCR-optimised profile, which first removes security
  features (guilloche, watermarks, holograms) and can enhance the passport
  machine-readable zone (MRZ).

The project models this deterministic logic:

- the pipeline fold (`pipeline.dfy`), the module registry (`registry.dfy`),
  the configuration defaults (`config.dfy`), the profile assembly
  (`profiles.dfy`) and the preprocessors' file handling
  (`preprocessor.dfy`);
- the security classifier (`security_detector.dfy`, with its frequency
  analysis in `spectrum.dfy`);
- the detection rule, parameter choice and every exact part of the
  correction of each of the twenty-two modules, one Dafny module per source
  file;
- the page-budget checks of the PDF helpers (`image_io.dfy`).

Pages are `Raster.Image` values: a height, a width and one gray plane or
three BGR planes, each a `seq<seq<int>>`. Every computation OpenCV, NumPy or
scikit-image performs enters as an input whose value the model does not
fix: FFT magnitudes, contours, Hough lines, component labels, CLAHE, blurs,
inpainting and warps. Every module groups these inputs in a `Filters`
record or takes them as statistics. What the code does around those calls
is modelled exactly:

- thresholds, ratios and rounding;
- the selection, ordering and counting;
- which pixels change and which do not;
- the result metadata.

Python floats are modelled as exact reals.

## Model

| member | source | states |
|---|---|---|
| Pipeline.Trace | autoocr/api/pipeline.py:65-78 | the working image before module k+1 is the one module k returned when it detected, else the one it saw; the first is the input page |
| Pipeline.TraceMostRecent | autoocr/api/pipeline.py:65-78 | the image a module sees is the output of the most recent module that detected, or the input page when none did |
| Pipeline.LastSnapshotSpec | autoocr/api/pipeline.py:67-77 | the pre-binarize snapshot is set iff some "binarize" module detected, and then it is the image that the last such module received |
| Pipeline.RunModule | autoocr/api/pipeline.py:69-94 | one loop iteration: process runs iff detect said so; the step records name, detected, applied == detected, both metadata and the timings; the snapshot is taken iff the module is named "binarize" and detected |
| Pipeline.StepRecordFacts | autoocr/api/pipeline.py:83-94 | every step log entry carries its module's name and applied == detected; a skipped module has no process metadata and 0.0 process time; the total time is detect time plus the time after detect |
| Pipeline.RunModules | autoocr/api/pipeline.py:65-94 | the loop leaves one step per module in order, the working image equal to the trace's last image (the input when nothing detected) and the snapshot of the last detecting "binarize" module |
| Pipeline.RunPage | autoocr/api/pipeline.py:57-100 | original is the caller's page; one step per module in order with applied == detected; final is the working image after the last module, equal to the input when no module detected; pre_binarize is set iff a "binarize" module detected and is the image it received |
| Pipeline.RunDocument | autoocr/api/pipeline.py:102-108 | one result per page, in order, with page_index the page's position and each result keeping every promise of run_page (steps, applied == detected, detect/process coupling, final image, pre_binarize) for that page under its share of the clock |
| Registry.PipelineModules | autoocr/api/pipeline.py:35-55 | a given list is used as is; otherwise the 16 default modules, from edge_mask to artifact_removal with binarize thirteenth, in the package order and without the security-feature modules |
| Registry.DefaultModulesMembers | autoocr/api/pipeline.py:37-54 | the default list holds every module except the four security-document ones (guilloche, watermark, hologram, MRZ) and dots_removal |
| Registry.NameRoundTrip | autoocr/api/modules/base_module.py:18-19 | every module's `name` attribute reads back as that module |
| Registry.NameInjective | autoocr/api/modules/base_module.py:18-19 | two modules share a name iff they are the same module |
| Registry.BinarizeStages | autoocr/api/pipeline.py:76 | in a module list built by name, the stage named "binarize" is exactly the Binarize module |
| Config.AllowBinarization | autoocr/api/utils/config.py:40-112 | the `allow_binarization` attribute is absent exactly for a plain ProcessingConfig |
| Profiles.StandardMembers | autoocr/api/preprocessor.py:66-96 | the standard list holds edge_mask, orientation, perspective and text_refine always, deskew, denoise and enhance iff their flags are set, and binarize iff the config has no allow_binarization attribute or it is true |
| Profiles.StandardOrder | autoocr/api/preprocessor.py:66-96 | the standard list is in the package order, hence free of repeats |
| Profiles.StandardEnds | autoocr/api/preprocessor.py:70-94 | the standard list starts edge_mask, orientation, perspective and ends with binarize when present, else text_refine |
| Profiles.CorrectionsSorted | autoocr/api/preprocessor.py:70-87 | the corrections before text_refine are in the package order |
| Profiles.BuildConservative | autoocr/api/preprocessor.py:190-207 | the conservative list is orientation, then deskew iff deskew_enabled, then denoise iff noise_reduction and max_denoising > 0; sorted; never binarize, enhance or edge_mask |
| Profiles.OcrMembers | autoocr/api/preprocessor.py:273-305 | the OCR list holds each security removal iff its flag, the six standard corrections always, mrz_enhancement iff mrz_priority, text_refine always and binarize iff allow_binarization |
| Profiles.RemovalsSorted | autoocr/api/preprocessor.py:277-285 | the removals come guilloche, watermark, hologram, before every standard correction |
| Profiles.OcrCoreBetween | autoocr/api/preprocessor.py:287-293 | the six unconditional corrections are in the package order, after the removals and before mrz_enhancement |
| Profiles.OcrCorrectionsSorted | autoocr/api/preprocessor.py:277-297 | the OCR list up to mrz_enhancement is in the package order |
| Profiles.OcrOrder | autoocr/api/preprocessor.py:273-305 | the whole OCR list is in the package order |
| Profiles.OcrEnds | autoocr/api/preprocessor.py:295-303 | mrz_enhancement, when present, sits immediately before text_refine; the list ends with binarize iff allow_binarization, else with text_refine |
| Profiles.ConfigOrDefault | autoocr/api/preprocessor.py:182 | a missing config is replaced by the default one, a given one is kept |
| Profiles.DefaultStandard | autoocr/api/preprocessor.py:66-96 | with the ProcessingConfig defaults the list is edge_mask, orientation, perspective, deskew, denoise, enhance, text_refine, binarize |
| Profiles.DefaultStandardUnderSecurity | autoocr/api/preprocessor.py:93-94 | a SecurityDocumentConfig (allow_binarization False) gets the standard list without binarize |
| Profiles.DefaultConservative | autoocr/api/preprocessor.py:190-207 | with the SecurityDocumentConfig defaults the list is orientation, deskew, denoise |
| Profiles.DefaultOcr | autoocr/api/preprocessor.py:273-305 | with the OCROptimizedConfig defaults the list is the twelve modules from guilloche_removal to binarize |
| Preprocessor.ProcessStandard | autoocr/api/preprocessor.py:98-128 | a page that does not load is an error naming the path; otherwise the written image is the pipeline's final image and the steps are one per module of the standard list |
| Preprocessor.Compliance | autoocr/api/preprocessor.py:248 | the compliance label is "ICAO 9303" iff the document is a passport, else "N/A" |
| Preprocessor.SkewGate | autoocr/api/preprocessor.py:231 | the pipeline runs iff the measured skew exceeds 2 degrees in absolute value (a failed measurement reads as 0.0) |
| Preprocessor.ProcessSecurity | autoocr/api/preprocessor.py:209-250 | the result carries the document type, the feature names and the compliance label; with significant skew the conservative pipeline's output is written, otherwise the loaded page with no steps |
| Preprocessor.LegalCompliance | autoocr/api/preprocessor.py:307-330 | the check always lets processing proceed; it warns exactly for passports and currency when the check is enabled |
| Preprocessor.OcrNeverRefuses | autoocr/api/preprocessor.py:343-347 | the "Legal authorization required" result is never produced |
| Preprocessor.ProcessOcr | autoocr/api/preprocessor.py:332-373 | a page that does not load fails; otherwise the written image is the OCR pipeline's output, with the analysis' document type and feature names |
| Preprocessor.LastDot | autoocr/api/preprocessor.py:156 | the position of the last '.' of a file name, or none |
| Preprocessor.StemSuffix | autoocr/api/preprocessor.py:156 | stem and suffix split a file name without loss |
| Preprocessor.OutputKeepsSuffix | autoocr/api/preprocessor.py:156 | the output name stem + "_processed" + suffix keeps the suffix and extends the stem |
| Preprocessor.Discover | autoocr/api/preprocessor.py:146-150 | the files found are those of the listing matching one of the six patterns |
| Preprocessor.ProcessBatch | autoocr/api/preprocessor.py:130-167 | one entry per file found, in order, each with the file's name and the outcome of processing it into output_dir |
| Preprocessor.BatchContinuesAfterFailure | autoocr/api/preprocessor.py:154-165 | a failure on one file does not stop later files being processed |
| SecurityDetector.MrzBandStart | autoocr/api/utils/security_detector.py:104-105 | the MRZ search band is the bottom int(0.15 h) rows, and the whole page when that count is zero (`gray[-0:]`) |
| SecurityDetector.MrzBandWholePage | autoocr/api/utils/security_detector.py:104-105 | the band is the whole page exactly when the page has fewer than seven rows |
| SecurityDetector.BandDensity | autoocr/api/utils/security_detector.py:108-110 | the Otsu-foreground density of the band is a fraction in [0, 1] |
| SecurityDetector.HologramOneInTwenty | autoocr/api/utils/security_detector.py:124-132 | a hologram is detected iff more than one pixel in twenty has saturation < 50 and value > 200 |
| SecurityDetector.WatermarkRatio | autoocr/api/utils/security_detector.py:189-193 | the share of pixels farther than 10 from the opening lies in [0, 1] |
| SecurityDetector.DetectWarp | autoocr/api/utils/security_detector.py:250-274 | no lines means no warp; otherwise warp iff more than 30% of the lines have an angle strictly between 5 and 85 degrees |
| SecurityDetector.WarpExtremes | autoocr/api/utils/security_detector.py:266-274 | no oblique line never signals warp; all lines oblique always does |
| SecurityDetector.Classify | autoocr/api/utils/security_detector.py:67-90 | passport iff MRZ; id_card iff hologram without MRZ; certificate iff a seal without either; standard otherwise |
| SecurityDetector.NeverCurrency | autoocr/api/utils/security_detector.py:78-90 | the classifier never answers 'currency' |
| SecurityDetector.RiskLevel | autoocr/api/utils/security_detector.py:276-294 | passport high, currency critical, certificate and standard low, every other type (id_card included) medium |
| SecurityDetector.ClassifiedRiskNotCritical | autoocr/api/utils/security_detector.py:57 | a classified page is never rated critical |
| SecurityDetector.AppendedFacts | autoocr/api/utils/security_detector.py:165-184 | running the tests in rank order appends exactly the present features, in rank order |
| SecurityDetector.FeatureList | autoocr/api/utils/security_detector.py:165-184 | the feature list holds a feature iff its test passes, ordered watermark, microtext, guilloche, hologram |
| SecurityDetector.SecurityFeatures | autoocr/api/utils/security_detector.py:156-232 | each feature is listed iff its predicate holds on the page (watermark ratio > 0.20, Laplacian variance > 150, band strength > 0.15, the hologram test) |
| SecurityDetector.FeaturesDistinct | autoocr/api/utils/security_detector.py:165-184 | no feature is listed twice |
| SecurityDetector.IdCardHasHologram | autoocr/api/utils/security_detector.py:83-84 | a page classified id_card always lists the hologram feature, both tests being the same |
| SecurityDetector.Analyze | autoocr/api/utils/security_detector.py:43-65 | the document type follows the MRZ, hologram, seal priority (passport, id_card, certificate, standard) and is never currency; the features are exactly those present, in rank order; the skew is 0.0 when the library fails; the risk is the type's (never critical); has_warp is exactly the warp test's answer |
| EdgeMask.BandWidth | autoocr/api/modules/edge_mask.py:52 | the band is at least 5 and otherwise min(h, w) // 70 |
| EdgeMask.LeadingSpan | autoocr/api/modules/edge_mask.py:53-55 | `[:band]` keeps the first min(band, n) rows or columns |
| EdgeMask.TrailingSpan | autoocr/api/modules/edge_mask.py:54-56 | `[-band:]` keeps the last min(band, n) rows or columns |
| EdgeMask.Narrow | autoocr/api/modules/edge_mask.py:58-64 | a strip thicker than 3 keeps half its thickness (floor), inside the strip; a thinner one is kept whole |
| EdgeMask.FirstHalfMissesOuterEdge | autoocr/api/modules/edge_mask.py:57-68 | as written, the narrowed bottom and right strips never reach the last two rows or columns of the page |
| EdgeMask.FirstHalfExample | autoocr/api/modules/edge_mask.py:52-66 | on a 700 x 700 page the bottom strip is rows 690-699 but only rows 690-694 are examined |
| EdgeMask.OuterHalfKeepsEdge | autoocr/api/modules/edge_mask.py:57 | the outer-half narrowing keeps the outermost row or column of every strip, at the code's thickness |
| EdgeMask.BorderPixels | autoocr/api/modules/edge_mask.py:69-71 | the concatenated strips of a non-empty page are never empty, so the 255.0 / 0.0 defaults are never used there |
| EdgeMask.CenterPixels | autoocr/api/modules/edge_mask.py:72 | the centre region (the whole page when a side is at most 2 band) of a non-empty page is never empty |
| Raster.Quotient | autoocr/api/modules/edge_mask.py:44 | the area ratio is exact: multiplied back by the page's pixel count it gives the contour area again |
| EdgeMask.Strips | autoocr/api/modules/edge_mask.py:69-76 | the border mean is the mean of the narrowed strips, the centre mean the mean of the inner window (the whole page when the page is too small for one), and the dark fraction the share of strip pixels below 60, in [0, 1] |
| EdgeMask.UniformPageNoContrast | autoocr/api/modules/edge_mask.py:69-76 | on a page of one gray level the strips and the centre both have that level as their mean, so the contrast is 0 |
| EdgeMask.Detect | autoocr/api/modules/edge_mask.py:34-91 | detected iff a border contour (ratio < area_threshold) or a thin border; no contour means ratio 0 and no border contour; the border and centre means are those of the page's gray strips and centre, and contrast is centre mean minus border mean; thin border iff (contrast > 20 and dark > 0.15) or dark > 0.35 |
| EdgeMask.ThinBorderByCounts | autoocr/api/modules/edge_mask.py:76-78 | the thin-border rule in whole numbers: more than 3 dark strip pixels in 20 with contrast > 20, or more than 7 in 20 |
| EdgeMask.FramedPageDetected | autoocr/tests/test_harness.py:11-17 | a page whose band-wide frame is dark is detected, with dark fraction 1.0 |
| EdgeMask.CleanStripsNotThin | autoocr/api/modules/edge_mask.py:76-78 | strips with no pixel below 60 never trigger the thin-border rule |
| EdgeMask.PaintPlane | autoocr/api/modules/edge_mask.py:100-105 | a plane keeps its pixels inside the filled contour and is 255 elsewhere |
| EdgeMask.Process | autoocr/api/modules/edge_mask.py:93-112 | no contour returns the page with reason "no_contours"; otherwise pixels inside the filled contour are unchanged, all others are white, the shape is kept and border_pixels_masked counts the pixels outside |
| EdgeMask.ProcessIdempotent | autoocr/api/modules/edge_mask.py:100-105 | masking twice with the same contour gives the same page as masking once |
| EdgeMask.MaskedPlusKept | autoocr/api/modules/edge_mask.py:107 | masked plus kept pixels make up the whole page |
| Orientation.DigitRun | autoocr/api/modules/orientation.py:39 | `\d+` takes the longest run of decimal digits at a position, a digit being any of the 680 Unicode Nd code points that `\d` matches on a str |
| Orientation.DigitBlocks | autoocr/api/modules/orientation.py:39-40 | a character is a digit iff it lies in one of the 68 blocks of ten Unicode decimal digits; the ASCII digits are one block, valued as their offset from '0' |
| Orientation.DigitBlocksAscend | autoocr/api/modules/orientation.py:39-40 | the 68 digit blocks ascend without overlapping, so every digit has one value, as int() gives it |
| Orientation.ArabicIndicAngle | autoocr/api/modules/orientation.py:39-40 | "Rotate: " followed by Arabic-Indic nine and zero parses to 90 |
| Orientation.MixedScriptAngle | autoocr/api/modules/orientation.py:39-40 | "Rotate: 90" followed by an Arabic-Indic three parses to 903: a run of digits may mix scripts |
| Orientation.ShowNatValue | autoocr/api/modules/orientation.py:40 | int() of a printed number gives the number back |
| Orientation.Search | autoocr/api/modules/orientation.py:39 | re.search finds nothing iff no position matches "Rotate: " followed by a Unicode decimal digit, and otherwise captures at the first matching position |
| Orientation.Angle | autoocr/api/modules/orientation.py:39-40 | with no match (in the Unicode-digit sense of `\d`) the angle is 0 |
| Orientation.SearchFirst | autoocr/api/modules/orientation.py:39 | the first matching position decides the capture, where a match is "Rotate: " followed by a Unicode decimal digit |
| Orientation.ParsePrinted | autoocr/api/modules/orientation.py:39-40 | text holding "Rotate: n" (not followed by any Unicode decimal digit, no earlier match) parses to the angle n |
| Orientation.MatchPrinted | autoocr/api/modules/orientation.py:39 | "Rotate: " plus a run of Unicode decimal digits matches at that position and captures the run's value, each digit read by int() |
| Orientation.Detect | autoocr/api/modules/orientation.py:25-44 | a missing engine gives (False, "tesseract_missing"), an OSD error (False, "osd_failed" with the error); otherwise the parsed angle (digits of any script, as `\d` and int() read them) and the OSD text, detected iff the angle is 90, 180 or 270 |
| Orientation.RotateCcw | autoocr/api/modules/orientation.py:52 | ROTATE_90_COUNTERCLOCKWISE on one plane: a w x h plane with r[i][j] = g[j][w-1-i] |
| Orientation.RotateCw | autoocr/api/modules/orientation.py:56 | ROTATE_90_CLOCKWISE on one plane: a w x h plane with r[i][j] = g[h-1-j][i] |
| Orientation.Rotate180 | autoocr/api/modules/orientation.py:54 | ROTATE_180 on one plane: r[i][j] = g[h-1-i][w-1-j] |
| Orientation.CwUndoesCcw | autoocr/api/modules/orientation.py:52-56 | a clockwise quarter turn undoes a counter-clockwise one |
| Orientation.CcwUndoesCw | autoocr/api/modules/orientation.py:52-56 | a counter-clockwise quarter turn undoes a clockwise one |
| Orientation.HalfTurnInvolution | autoocr/api/modules/orientation.py:54 | two half turns give the plane back |
| Orientation.TwoQuartersMakeHalf | autoocr/api/modules/orientation.py:52-54 | two counter-clockwise quarter turns are a half turn |
| Orientation.TurnPlanes | autoocr/api/modules/orientation.py:51-56 | a turn applies to every plane and swaps height and width for quarter turns |
| Orientation.Process | autoocr/api/modules/orientation.py:46-63 | angle 0 (or absent) returns the page with applied False; 90 turns counter-clockwise and 270 clockwise, swapping height and width; 180 turns half way; any other angle keeps the size; every rotation reports applied and the original angle |
| Orientation.CorrectionRestores | autoocr/api/modules/orientation.py:51-56 | a page turned by a quarter or half turn is restored by processing the matching reported angle |
| Perspective.Detect | autoocr/api/modules/perspective.py:31-55 | no contour gives (False, no_contours); a non-quadrilateral or an area ratio below min_area_ratio gives not_quad_or_small with the ratio; an empty bounding box gives zero_box; otherwise the area ratio, the fill ratio against the box and the four corners, with "needs" iff the fill ratio is below 1 - skew_tolerance |
| Perspective.FillTestDefault | autoocr/api/modules/perspective.py:27-54 | with the default tolerance 0.015 the test is 1000 * area < 985 * box area |
| Perspective.ArgMin | autoocr/api/modules/perspective.py:86-89 | np.argmin: the first index holding the minimum |
| Perspective.ArgMax | autoocr/api/modules/perspective.py:87-90 | np.argmax: the first index holding the maximum |
| Perspective.OrderPoints | autoocr/api/modules/perspective.py:81-91 | every chosen corner is one of the points; top-left and bottom-right have the least and greatest x + y, top-right and bottom-left the least and greatest y - x |
| Perspective.RectangleOrdered | autoocr/api/modules/perspective.py:81-91 | the corners of an axis-aligned rectangle are ordered top-left, top-right, bottom-right, bottom-left |
| Perspective.ISqrt | autoocr/api/modules/perspective.py:65-70 | int() of a Euclidean norm in exact arithmetic: the integer square root r with r*r <= n < (r+1)*(r+1) |
| Perspective.ISqrtSquare | autoocr/api/modules/perspective.py:65-70 | the integer length of an axis-aligned edge of length d is d |
| Perspective.OutputSize | autoocr/api/modules/perspective.py:65-70 | in exact arithmetic, the output width is the larger of the top and bottom edge lengths, the height the larger of the left and right edge lengths |
| Perspective.Destination | autoocr/api/modules/perspective.py:71-76 | the destination corners form the rectangle from (0, 0) to (maxWidth - 1, maxHeight - 1) |
| Perspective.Process | autoocr/api/modules/perspective.py:57-79 | without corners the page is returned with applied False; otherwise the page is warped to the output size (in exact arithmetic), which is reported |
| Perspective.RectangleSize | autoocr/api/modules/perspective.py:63-70 | an axis-aligned rectangle's output size is its width and height |
| Perspective.RectangleKeepsSize | autoocr/api/modules/perspective.py:57-79 | a quadrilateral that is an axis-aligned rectangle is warped to its own width and height |
| Deskew.Normalize | autoocr/api/modules/deskew.py:39-42 | an angle below -45 has 90 added, any other is kept; an angle in [-90, 0) lands in [-45, 45) |
| Deskew.Detect | autoocr/api/modules/deskew.py:28-45 | no text pixel in the Otsu mask gives (False, no_text_pixels); otherwise the normalised angle, with "needs" iff its magnitude exceeds SKEW_DEGREE_MIN |
| Deskew.BlankPageDeclines | autoocr/api/modules/deskew.py:34-37 | an all-white mask has no text pixels and is declined |
| Deskew.Process | autoocr/api/modules/deskew.py:47-55 | an angle (0 when absent) within SKEW_DEGREE_MIN leaves the page unchanged with applied False; otherwise the page is rotated by the angle about (w // 2, h // 2) into an image of the same size, and only the angle is reported |
| Deskew.ProcessFollowsDetect | autoocr/api/modules/deskew.py:28-55 | processing applies a rotation exactly when detection reported the need |
| Language.OcrSize | autoocr/api/modules/language.py:56-63 | a page at most 1600 wide keeps its size; in exact arithmetic a wider one gets width 1600 and height h * 1600 / w rounded down |
| Language.Words | autoocr/api/modules/language.py:70 | str.split(): the words are non-empty and hold none of the 29 whitespace code points |
| Language.WhitespaceListed | autoocr/api/modules/language.py:70 | the separators of str.split() are exactly 29 code points: \t to \r, \x1c to the space, NEL, NBSP, U+1680, U+2000 to U+200A, U+2028, U+2029, U+202F, U+205F and U+3000 |
| Language.NoBreakSpaceSeparates | autoocr/api/modules/language.py:70 | a no-break space separates words: "abc\xa0def" splits into "abc" and "def" |
| Language.WordLengthOf | autoocr/api/modules/language.py:70 | a word followed by whitespace or the end is read whole |
| Language.WordsOfJoin | autoocr/api/modules/language.py:70 | splitting words joined by single spaces gives the words back |
| Language.CleanIdempotent | autoocr/api/modules/language.py:70 | collapsing whitespace twice is the same as once |
| Language.Sample | autoocr/api/modules/language.py:73 | the sample is the first min(len, 1000) characters of the cleaned text |
| Language.RemoveLabelNoUnderscore | autoocr/api/modules/language.py:79 | str.replace of "__label__" leaves a string without underscores alone |
| Language.LabelCode | autoocr/api/modules/language.py:79 | "__label__" + code yields the code |
| Language.Round4 | autoocr/api/modules/language.py:83 | round(p, 4) is within half a unit of the fourth decimal and keeps a probability in [0, 1] |
| Language.Detect | autoocr/api/modules/language.py:46-88 | the early exits in order (model_unavailable, tesseract_missing, ocr_failed, insufficient_text with the cleaned length when it is below 20 characters, prediction_failed with the error, no_prediction on an empty answer); a success reports the label without its prefix, the rounded first probability (0 when there is none) and the sample length; with the model, tesseract and OCR available and enough text, the page is detected iff the prediction returns at least one label |
| Language.DetectIgnoresSpacing | autoocr/api/modules/language.py:70-88 | two OCR texts that differ only in whitespace give the same detection |
| Language.DummyModel | autoocr/api/modules/language.py:75-86 | a model answering "__label__en" with 0.987654 gives language "en" with probability 0.9877 |
| Language.Process | autoocr/api/modules/language.py:90-92 | the page is unchanged; applied iff a non-empty language was detected |
| TextRefine.Invert | autoocr/api/modules/text_refine.py:39 | 255 - otsu at every pixel |
| TextRefine.SumInvert | autoocr/api/modules/text_refine.py:38-39 | inverting a mask turns its pixel sum s into 255 * n - s |
| TextRefine.DarkTextIsLight | autoocr/api/modules/text_refine.py:37-39 | after the conditional inversion the mask's mean is at least 127 |
| TextRefine.Detect | autoocr/api/modules/text_refine.py:29-55 | contrast above 65 gives sufficient_contrast; with no component beyond the background the label count is reported; otherwise the component count, the count below SPECKLE_COMPONENT_MAX_AREA and their ratio, with "needs" iff the ratio exceeds SPECKLE_RATIO_THRESHOLD and more than 5 are small |
| TextRefine.SpeckleByCounts | autoocr/api/modules/text_refine.py:47-48 | with threshold 0.35 the test reads 20 * small > 7 * total and small > 5 |
| TextRefine.RevertByCounts | autoocr/api/modules/text_refine.py:79 | the cleanup is reverted iff 3 * removed > 7 * kept (over 70% removed, never with no component) |
| TextRefine.Binarised | autoocr/api/modules/text_refine.py:60-65 | the Sauvola mask, or the adaptive threshold when Sauvola fails, is a 0/255 plane of the page's size |
| TextRefine.Filter | autoocr/api/modules/text_refine.py:66-88 | components at or above the area limit are kept and the rest removed; a revert keeps the binarised plane, otherwise the kept pixels go through close then open |
| TextRefine.Process | autoocr/api/modules/text_refine.py:57-99 | the cleaned plane comes back in three channels with the removed and kept counts, the detection's speckle ratio, the white ratio, the revert flag and the method used |
| TextRefine.NoSpecklesNoRevert | autoocr/api/modules/text_refine.py:71-83 | when every component is large nothing is removed and nothing reverted |
| Binarize.Detect | autoocr/api/modules/binarize.py:20-24 | binarisation is always requested and records the contrast |
| Binarize.Process | autoocr/api/modules/binarize.py:26-39 | the page becomes three equal 0/255 planes; with Sauvola a pixel is white iff its gray value exceeds the threshold, otherwise iff the adaptive threshold marks it; the method names the path taken |
| Binarize.ThresholdIdempotent | autoocr/api/modules/binarize.py:33-34 | thresholding a 0/255 plane again against any threshold in [0, 255) changes nothing |
| Binarize.ProcessIdempotent | autoocr/api/modules/binarize.py:26-39 | binarising a binarised page again with Sauvola gives the same page |
| Components.Keep | autoocr/api/modules/text_refine.py:68-77 | the canvas is white exactly at pixels of components whose area passes the test |
| Components.KeepWithinForeground | autoocr/api/modules/text_refine.py:71-77 | kept pixels are foreground pixels of the labelled plane |
| Components.KeepEverything | autoocr/api/modules/text_refine.py:71-77 | keeping every component reproduces the labelled 0/255 plane |
| Enhance.Detect | autoocr/api/modules/enhance.py:21-37 | enhancement is always requested; the flags compare contrast, Laplacian variance and brightness with their configured thresholds |
| Enhance.ClipLimit | autoocr/api/modules/enhance.py:42-43 | above contrast 70 the CLAHE clip is 0.6 of the configured 2.0, otherwise 2.0, never more |
| Enhance.Amount | autoocr/api/modules/enhance.py:49-51 | the unsharp amount is 1.1 exactly for a high-contrast page that is not low contrast, else UNSHARP_AMOUNT |
| Enhance.MildTogether | autoocr/api/modules/enhance.py:43-50 | the milder clip and the milder amount are chosen together, exactly for contrast above 70 |
| Enhance.Saturate | autoocr/api/modules/enhance.py:53 | the uint8 store (cvRound, then saturation) lies in [0, 255], is within half a unit of an in-range value, is 0 below and 255 above the range, and keeps a byte |
| Enhance.SaturateTiesToEven | autoocr/api/modules/enhance.py:53 | a value halfway between two bytes is stored as the even one, e.g. 2.5 as 2 |
| Enhance.Blend | autoocr/api/modules/enhance.py:53 | addWeighted(cl, amount, blurred, -(amount - 1)) saturated at every pixel |
| Enhance.BlendKeepsFlat | autoocr/api/modules/enhance.py:52-53 | unsharp masking a plane against itself leaves it unchanged |
| Enhance.Process | autoocr/api/modules/enhance.py:39-62 | CLAHE at the adaptive clip, min-max normalised only for bad brightness, then unsharp masked; three equal planes and the clip and amount reported |
| Denoise.Detect | autoocr/api/modules/denoise.py:23-34 | denoising is always requested; high_noise and blurry compare the metrics with their thresholds |
| Denoise.Strength | autoocr/api/modules/denoise.py:37 | strength 10 for a high-noise page, else 5 |
| Denoise.FallbackKernel | autoocr/api/modules/denoise.py:66 | median kernel 5 for a high-noise page, else 3 |
| Denoise.StrongerTogether | autoocr/api/modules/denoise.py:37-66 | the stronger filter and the larger kernel go together |
| Denoise.NoiseSetsStrength | autoocr/api/modules/denoise.py:23-74 | whichever path runs, it uses the harder setting (strength 10 or aperture 5) exactly when the measured noise is above the threshold, and the fallback plane is the median at the reported aperture |
| Denoise.Process | autoocr/api/modules/denoise.py:36-74 | NL-means runs on the dot-free gray plane in three equal channels (GRAY2BGR) at the chosen strength, and its output is the page when it succeeds; otherwise the median of the dot-free plane with the fallback kernel in three planes; dots_removed always |
| Denoise.DotsCleaned | autoocr/api/modules/denoise.py:53-54 | the dot-free gray plane copied into three channels of the page's size |
| Denoise.ColourDropped | autoocr/api/modules/denoise.py:36-74 | two pages of the same size with the same dot-free gray plane come out identical: the page's own colours never reach the result |
| TextSegmentation.Detect | autoocr/api/modules/text_segmentation.py:17-31 | the page has text iff ink (gray at most 127) covers strictly between 5% and 95% of it; the ratio is rounded to 3 places and absent for an empty page |
| TextSegmentation.TextBand | autoocr/api/modules/text_segmentation.py:26 | the 5% and 95% bounds read 20 * ink > total and 20 * ink < 19 * total |
| TextSegmentation.InkMask | autoocr/api/modules/text_segmentation.py:61 | THRESH_BINARY_INV at 127: a pixel is 255 exactly when it is ink |
| TextSegmentation.RowProfile | autoocr/api/modules/text_segmentation.py:64 | the horizontal projection holds each row's sum |
| TextSegmentation.ColumnProfile | autoocr/api/modules/text_segmentation.py:99 | the vertical projection holds each column's sum |
| TextSegmentation.RowProfileInk | autoocr/api/modules/text_segmentation.py:61-64 | a row's projection is positive iff the row holds an ink pixel |
| TextSegmentation.ColumnProfileInk | autoocr/api/modules/text_segmentation.py:96-99 | a column's projection is positive iff the column holds an ink pixel |
| TextSegmentation.FindRuns | autoocr/api/modules/text_segmentation.py:66-92 | the scan returns exactly the maximal runs of positive projection values, in increasing order, a run still open at the end closing at the length |
| TextSegmentation.RunsIncrease | autoocr/api/modules/text_segmentation.py:71-82 | every run ends before any later run starts |
| TextSegmentation.RunsDisjoint | autoocr/api/modules/text_segmentation.py:71-90 | no row or column lies in two runs |
| TextSegmentation.Candidates | autoocr/api/modules/text_segmentation.py:138-159 | in label order, the entries of exactly the labels with 10 < area < 10000, centres rounded to 2 places |
| TextSegmentation.Insert | autoocr/api/modules/text_segmentation.py:162 | inserting into an ordered list keeps it ordered and adds exactly the one entry |
| TextSegmentation.Sort | autoocr/api/modules/text_segmentation.py:162 | the sort by (y, x), ties kept in label order, is an ordered permutation |
| TextSegmentation.Characters | autoocr/api/modules/text_segmentation.py:129-164 | the characters are ordered by (y, x, label) and are exactly the entries of character-sized components |
| TextSegmentation.Process | autoocr/api/modules/text_segmentation.py:33-57 | the page is returned unchanged; lines and words are the segmentations of the row and column projections of the ink mask, with their counts, and the characters those of the statistics |
| MrzEnhancement.Best | autoocr/api/modules/mrz_enhancement.py:86-99 | the scan keeps the first candidate (wider than 60% of the page, lower than half the band) of largest positive area, or none |
| MrzEnhancement.FindBbox | autoocr/api/modules/mrz_enhancement.py:64-99 | a box is found iff some contour box is a candidate of positive area; it is a largest such box moved down by the rows above the 20% band |
| MrzEnhancement.Detect | autoocr/api/modules/mrz_enhancement.py:21-62 | the bottom int(0.15 h) rows must hold strictly between 30% and 80% Otsu foreground and a box must be found; the density, box and band height are reported |
| MrzEnhancement.DetectImpliesPassportBand | autoocr/api/modules/mrz_enhancement.py:37-50 | a page on which the module finds an MRZ also passes the security detector's MRZ density test |
| MrzEnhancement.DarkCounts | autoocr/api/modules/mrz_enhancement.py:163 | the projection counts the zero pixels of each row |
| MrzEnhancement.BaselineTest | autoocr/api/modules/mrz_enhancement.py:169-177 | the squared test is count > mean + 2 * std |
| MrzEnhancement.RemoveBaseline | autoocr/api/modules/mrz_enhancement.py:153-181 | exactly the rows above the baseline threshold are filled with 255; the others are kept |
| MrzEnhancement.BaselineWeight | autoocr/api/modules/mrz_enhancement.py:169-177 | the whitened rows each deviate by more than twice the standard deviation, so together they weigh less than the total squared deviation |
| MrzEnhancement.FewBaselines | autoocr/api/modules/mrz_enhancement.py:169-181 | fewer than a quarter of the region's rows are ever whitened |
| MrzEnhancement.Fallback | autoocr/api/modules/mrz_enhancement.py:117-120 | with no box, the bottom int(0.12 h) rows at full width |
| MrzEnhancement.Clamp | autoocr/api/modules/mrz_enhancement.py:125 | the slice [y:y+h, x:x+w] covers exactly the page pixels inside the box |
| MrzEnhancement.Crop | autoocr/api/modules/mrz_enhancement.py:125 | the cropped region holds the page's pixels at their offsets |
| MrzEnhancement.Paste | autoocr/api/modules/mrz_enhancement.py:143-145 | pasting changes exactly the window, which takes the patch |
| MrzEnhancement.Binary | autoocr/api/modules/mrz_enhancement.py:135 | THRESH_BINARY at the Otsu level: 255 iff above it, else 0 |
| MrzEnhancement.PasteAll | autoocr/api/modules/mrz_enhancement.py:138-145 | every plane takes the patch inside the window and keeps its pixels outside |
| MrzEnhancement.Process | autoocr/api/modules/mrz_enhancement.py:101-151 | the box from detection (or the fallback) is reported; the page is its patch pasted into every plane over the clamped box, so pixels outside the box are unchanged and every pixel inside it is 0 or 255, the binarisation of the sharpened, baseline-free crop |
| MrzEnhancement.Patch | autoocr/api/modules/mrz_enhancement.py:125-135 | the patch has the window's size and is two-level; a pixel is 255 exactly where the sharpened crop, with its baselines whitened, lies above its own Otsu level |
| HologramRemoval.Detect | autoocr/api/modules/hologram_removal.py:25-63 | the reflection count is the pixels brighter than the threshold; processing is wanted iff more than 2% reflect or, on a colour page, more than 5% are bright and desaturated |
| HologramRemoval.Decision | autoocr/api/modules/hologram_removal.py:57 | the two ratio tests read 50 * reflections > pixels and 20 * desaturated > pixels |
| HologramRemoval.ClassifierHologramTriggers | autoocr/api/modules/hologram_removal.py:51-57 | a colour page the security detector flags for a hologram also triggers this module at its default threshold 200 |
| HologramRemoval.ReflectionMask | autoocr/api/modules/hologram_removal.py:78-87 | on a colour page the mask is white where saturation is below 50 and value above the threshold; on a gray page where the pixel exceeds the threshold |
| HologramRemoval.Select | autoocr/api/modules/hologram_removal.py:98-103 | inside the mask the 1.5 / -0.5 unsharp blend, elsewhere the inpainted pixel |
| HologramRemoval.SharpenMasked | autoocr/api/modules/hologram_removal.py:97-103 | inside the mask every plane's pixel is the 1.5 / -0.5 blend of the inpainted plane and its Gaussian blur; outside it the inpainted pixel is kept |
| HologramRemoval.Process | autoocr/api/modules/hologram_removal.py:65-111 | an empty dilated mask returns the page unchanged; otherwise the result is the masked sharpening of the inpainted page, so pixels outside the mask are the inpainted ones and those inside are sharpened; the detection ratio and the mask size are reported |
| WatermarkRemoval.KernelSize | autoocr/api/modules/watermark_removal.py:37-77 | the opening kernel is max(15, min(h, w) // 50): 15 for pages whose short side is under 800, else min(h, w) // 50 |
| WatermarkRemoval.Detect | autoocr/api/modules/watermark_removal.py:25-55 | the watermark count is the pixels differing from the opened background by more than 10; processing is wanted iff their ratio exceeds the minimum, which is reported |
| WatermarkRemoval.AgreesWithClassifier | autoocr/api/modules/watermark_removal.py:37-49 | on a page whose short side is under 800, at the default 0.20 the module triggers exactly when the security detector reports a watermark ratio above 0.20 |
| WatermarkRemoval.Subtract | autoocr/api/modules/watermark_removal.py:82 | cv2.subtract(l, est // 2) clipped at 0 at every pixel |
| WatermarkRemoval.SubtractDarkens | autoocr/api/modules/watermark_removal.py:82 | on 8-bit planes the subtraction stays 8-bit and never brightens a pixel |
| WatermarkRemoval.FlatLosesHalf | autoocr/api/modules/watermark_removal.py:79-82 | where the opening is the plane itself, each pixel loses its floor half |
| WatermarkRemoval.Process | autoocr/api/modules/watermark_removal.py:57-99 | a gray page has its plane cleaned; a colour page has its LAB lightness cleaned and a and b kept; the detection ratio is reported with contrast_enhanced |
| Spectrum.Radii | autoocr/api/modules/guilloche_removal.py:49 | range(30, 120, 10): the nine radii 30, 40, ..., 110 |
| Spectrum.BandMasked | autoocr/api/modules/guilloche_removal.py:51-56 | the magnitude is kept inside the ring of half-width 5 around the radius and zeroed outside |
| Spectrum.GridSumMono | autoocr/api/modules/guilloche_removal.py:56-60 | a pointwise smaller plane has a smaller sum |
| Spectrum.BandBelowTotal | autoocr/api/modules/guilloche_removal.py:56-60 | a band's energy lies between 0 and the total energy |
| Spectrum.PeakFrom | autoocr/api/modules/guilloche_removal.py:48-57 | the running max(pattern_strength, band_energy) is at least every band's energy and is one of them or the start |
| Spectrum.PeakBounds | autoocr/api/modules/guilloche_removal.py:48-60 | the peak band energy lies between 0 and the total energy |
| Spectrum.PatternStrength | autoocr/api/modules/guilloche_removal.py:59-61 | the normalised strength (peak over total + 1e-10) lies in [0, 1) |
| Spectrum.NoPatternWithoutBandEnergy | autoocr/api/utils/security_detector.py:205-228 | a spectrum with no energy in any band never shows a pattern |
| Spectrum.ZeroPeakZeroStrength | autoocr/api/modules/guilloche_removal.py:59-61 | zero peak energy gives strength 0 |
| Spectrum.ThresholdOneUnreachable | autoocr/api/modules/guilloche_removal.py:61-63 | no threshold of 1 or more is ever exceeded |
| GuillocheRemoval.Detect | autoocr/api/modules/guilloche_removal.py:26-68 | the strength is the spectrum's normalised peak band energy, in [0, 1); processing is wanted iff it exceeds the minimum, which is reported |
| GuillocheRemoval.AgreesWithClassifier | autoocr/api/modules/guilloche_removal.py:47-63 | at the default 0.15 the module triggers exactly when the security detector finds guilloche on the same spectrum |
| GuillocheRemoval.UnreachableThreshold | autoocr/api/modules/guilloche_removal.py:18-63 | a minimum strength of 1 or more never triggers |
| GuillocheRemoval.Process | autoocr/api/modules/guilloche_removal.py:70-120 | every plane holds the one filtered and sharpened gray plane, the page keeps its layout and the detection strength is reported |
| DotsRemoval.Dots | autoocr/api/modules/dots_removal.py:36-43 | the count of components with 5 < area < 20, at most the number of components |
| DotsRemoval.DensityTest | autoocr/api/modules/dots_removal.py:46-49 | a density above 2 per 100x100 pixels reads 10000 * dots > 2 * pixels |
| DotsRemoval.Detect | autoocr/api/modules/dots_removal.py:25-55 | dots are reported iff more than 50 or a density above 2; the density is rounded to 2 places and the verdict named |
| DotsRemoval.ManyDotsTrigger | autoocr/api/modules/dots_removal.py:49 | more than 50 dots always trigger |
| DotsRemoval.Cleaned | autoocr/api/modules/dots_removal.py:78-91 | a pixel is black exactly when it belongs to a component of area at least 15 |
| DotsRemoval.KeptPlusRemoved | autoocr/api/modules/dots_removal.py:85-91 | kept and removed components together are all the non-background labels |
| DotsRemoval.DotsCanSurvive | autoocr/api/modules/dots_removal.py:38-82 | a component of area 17 counts as a dot in detection yet is kept by processing |
| DotsRemoval.Process | autoocr/api/modules/dots_removal.py:57-104 | three equal planes holding the median of the cleaned plane; the removed count, the minimum area 15 and the four stages are reported |
| ArtifactRemoval.LineCount | autoocr/api/modules/artifact_removal.py:58 | fold_mark_count is the number of Hough lines, 0 when there are none |
| ArtifactRemoval.AspectTestEndpoints | autoocr/api/modules/artifact_removal.py:40 | the aspect clause rejects only the ratios exactly 0.3 and 3.0 |
| ArtifactRemoval.AspectNeverRejects | autoocr/api/modules/artifact_removal.py:37-40 | w / (h + 1e-6) is never exactly 0.3 or 3.0, so the clause accepts every box |
| ArtifactRemoval.TapeIsSize | autoocr/api/modules/artifact_removal.py:40 | a contour is tape iff its area lies strictly between 100 and 100000 |
| ArtifactRemoval.TapeCountBySize | autoocr/api/modules/artifact_removal.py:33-41 | tape_count counts exactly the contours of tape size |
| ArtifactRemoval.MarkovCount | autoocr/api/modules/artifact_removal.py:49-50 | the entries above t >= 0 together weigh more than t times their number |
| ArtifactRemoval.PatternsBelowHalf | autoocr/api/modules/artifact_removal.py:49-50 | fewer than half of a spectrum's entries exceed twice its mean plus its standard deviation |
| ArtifactRemoval.PatternTest | autoocr/api/modules/artifact_removal.py:52 | patterns > 0.01 reads 100 * count > size |
| ArtifactRemoval.Detect | autoocr/api/modules/artifact_removal.py:20-62 | fold marks iff more than 5 lines; the tape count is the contours of tape size; patterns iff more than 1% of the spectrum exceeds twice (mean + std); the ratio is rounded to 4 places and at most one half; processing is wanted iff any of the three holds |
| ArtifactRemoval.SuppressionSigma | autoocr/api/modules/artifact_removal.py:162 | sigma is max(rows, cols) // 20 |
| ArtifactRemoval.AsBgr | autoocr/api/modules/artifact_removal.py:108-111 | a colour page is inpainted as is, a gray page after GRAY2BGR |
| ArtifactRemoval.Repaired | autoocr/api/modules/artifact_removal.py:69-75 | fold marks only: the page inpainted under the fold mask; tape only: inpainted under the tape mask; both: the fold repair then the tape repair on its output, both masks from the input page's gray; neither: the page untouched; any repair comes back in colour |
| ArtifactRemoval.ProcessAsWritten | autoocr/api/modules/artifact_removal.py:64-86 | the flags report the three steps; when patterns are detected every plane is the suppression of the original page's gray plane; otherwise the result is the repaired page |
| ArtifactRemoval.RepairsDiscarded | autoocr/api/modules/artifact_removal.py:66-79 | on a colour page with patterns, the output is the same whether or not fold marks and tape were repaired |
| ArtifactRemoval.Process | autoocr/api/modules/artifact_removal.py:64-86 | the three steps in order: without patterns the result is the repaired page, with patterns every plane is the suppression of the repaired page's gray; a page needing nothing is unchanged; the output is in colour iff the input was or a repair ran (corrected reading; see ## Findings) |
| ArtifactRemoval.AgreeWithoutRepairs | autoocr/api/modules/artifact_removal.py:64-86 | without repairs the corrected and the as-written processing agree |
| ArtifactRemoval.CleanPageUntouched | autoocr/api/modules/artifact_removal.py:20-86 | a page detection declines is returned unchanged with all flags false |
| BackgroundClean.Ceil4 | autoocr/api/modules/background_clean.py:33-37 | `-n // 4` is a floor division of -n, so it equals -ceil(n / 4) |
| BackgroundClean.Corners | autoocr/api/modules/background_clean.py:31-36 | the four corner slices fit the page, the top and left ones span floor(n / 4) and the bottom and right ones ceil(n / 4); all are non-empty iff both sides are at least 4 |
| BackgroundClean.Center | autoocr/api/modules/background_clean.py:37 | the centre slice fits the page and is non-empty iff both sides are at least 2 |
| BackgroundClean.BlockMean | autoocr/api/modules/background_clean.py:31-37 | np.mean of a slice is defined (not NaN) iff the slice is non-empty |
| BackgroundClean.Brightness | autoocr/api/modules/background_clean.py:31-37 | the corner and centre brightness are defined iff both sides are at least 4 |
| BackgroundClean.LightingDiff | autoocr/api/modules/background_clean.py:38 | the lighting difference is defined iff both sides are at least 4, and is then non-negative |
| BackgroundClean.Relative | autoocr/api/modules/background_clean.py:38-53 | the difference exceeds 0.2 iff the corner differs from the centre by more than 0.2 * (centre + 1e-6), and is 0 iff they are equal |
| BackgroundClean.Detect | autoocr/api/modules/background_clean.py:20-55 | shadows iff more than 10% of pixels are below 50; bleed-through iff more than 15% differ from the blur by more than 10; uneven lighting iff the difference is defined and above 0.2 (never on a page under 4 pixels a side); ratios rounded to 3 places; processing is wanted iff any holds |
| BackgroundClean.Thresholds | autoocr/api/modules/background_clean.py:52-54 | the ratio tests read 10 * count > pixels and 20 * count > 3 * pixels |
| BackgroundClean.UniformBlockMean | autoocr/api/modules/background_clean.py:31-37 | the mean of a non-empty block of a uniform page is its value |
| BackgroundClean.UniformBrightness | autoocr/api/modules/background_clean.py:31-37 | on a uniform page the corner and centre brightness both equal its value |
| BackgroundClean.UniformPageEvenlyLit | autoocr/api/modules/background_clean.py:31-38 | a uniform page has lighting difference 0 |
| BackgroundClean.LightingKernel | autoocr/api/modules/background_clean.py:85-87 | the kernel is max(51, min(h, w) // 10) raised to the next odd number |
| BackgroundClean.BleedMask | autoocr/api/modules/background_clean.py:152-157 | the mask is white exactly at pixels of components of area below 10 |
| BackgroundClean.BleedWithinText | autoocr/api/modules/background_clean.py:149-157 | bleed pixels are foreground of the inverted closed binarisation |
| BackgroundClean.CorrectLighting | autoocr/api/modules/background_clean.py:81-109 | every plane holds the corrected gray plane computed with the lighting kernel; the layout is kept |
| BackgroundClean.RemoveShadows | autoocr/api/modules/background_clean.py:111-132 | the inpainted page is in colour with the page's size |
| BackgroundClean.RemoveBleed | autoocr/api/modules/background_clean.py:134-165 | the colour page inpainted with radius 2 under the bleed mask |
| BackgroundClean.Process | autoocr/api/modules/background_clean.py:57-79 | for each of the eight flag combinations, the flagged steps composed in the order lighting, shadows, bleed-through (e.g. all three: RemoveBleed(RemoveShadows(CorrectLighting(page)))); nothing flagged leaves the page unchanged; the output is in colour iff the input was or a shadow or bleed step ran; the flags are reported |
| DeRaster.GridLineCount | autoocr/api/modules/de_raster.py:53 | grid_line_count is the number of Hough lines, 0 when there are none |
| DeRaster.RectMasked | autoocr/api/modules/de_raster.py:45 | the magnitude is kept inside the block and zeroed outside it |
| DeRaster.EnergyRatio | autoocr/api/modules/de_raster.py:47-49 | low / (total + 1e-6) lies in [0, 1) and exceeds 0.3 iff low > 0.3 * (total + 1e-6) |
| DeRaster.QuarterBelowTotal | autoocr/api/modules/de_raster.py:45-46 | a quarter block's energy lies between 0 and the total |
| DeRaster.WatermarkRatioAsWritten | autoocr/api/modules/de_raster.py:40-47 | the ratio of the shifted spectrum's top-left quarter lies in [0, 1) |
| DeRaster.AsWrittenMissesFlatPage | autoocr/api/modules/de_raster.py:40-47 | as written, a uniform page, all of whose energy is at the zero frequency, scores ratio 0 |
| DeRaster.WatermarkRatio | autoocr/api/modules/de_raster.py:44-47 | the ratio over the low-frequency quarter lies in [0, 1) and exceeds 0.3 iff that quarter holds more than 0.3 of the total + 1e-6 |
| DeRaster.FlatPageIsLowFrequency | autoocr/api/modules/de_raster.py:44-49 | over the low-frequency quarter, a uniform page of brightness at least 1 scores above 0.3 |
| DeRaster.Detect | autoocr/api/modules/de_raster.py:20-56 | as written: a grid iff more than 10 lines; stamps are the contours with 500 < area < 50000; processing is wanted iff a grid, more than 2 stamps, or a ratio above 0.3, the ratio taken over the shifted magnitude's top-left quarter; the ratio is reported rounded to 3 places |
| DeRaster.DetectCorrected | autoocr/api/modules/de_raster.py:20-56 | the same verdict and metadata with the ratio taken over the low-frequency block that starts at (rows // 2, cols // 2) |
| DeRaster.FlatPageMissed | autoocr/api/modules/de_raster.py:44-56 | as written, a uniform page with no grid and at most two stamps is not flagged and reports ratio 0 |
| DeRaster.FlatPageDetected | autoocr/api/modules/de_raster.py:44-56 | the corrected detect flags a uniform page of brightness 1 or more whose sides are at least 4 |
| DeRaster.HighPassSigma | autoocr/api/modules/de_raster.py:141 | sigma is max(rows, cols) // 6 |
| DeRaster.RemoveWatermark | autoocr/api/modules/de_raster.py:122-161 | every plane holds the high-pass filtered gray plane; the layout is kept |
| DeRaster.Process | autoocr/api/modules/de_raster.py:58-80 | for each of the eight flag combinations, the flagged steps composed in the order grid, stamps, watermark, with the grid and stamp masks taken from the input page's gray and the watermark step on the previous output; the watermark gate reads the rounded ratio; a page needing nothing is unchanged; the flags are reported |
| DeRaster.RoundingHidesWatermark | autoocr/api/modules/de_raster.py:49-72 | a ratio of 0.3004 passes detection yet rounds to 0.3, which processing does not act on |
| DeRaster.DetectedButUntouched | autoocr/api/modules/de_raster.py:49-78 | a page detected only for a ratio that rounds down to 0.3 is returned unchanged with every flag false |
| ColorCorrection.Max3 | autoocr/api/modules/color_correction.py:38 | max of three values is one of them and at least each |
| ColorCorrection.CastAnyPair | autoocr/api/modules/color_correction.py:34-38 | the largest pairwise channel difference exceeds 30 iff some pair differs by more than 30 |
| ColorCorrection.Stats | autoocr/api/modules/color_correction.py:34-53 | a cast iff some pair of channel means differs by more than 30; fading iff the mean intensity is below 100; the means and intensity rounded to 2 places |
| ColorCorrection.Detect | autoocr/api/modules/color_correction.py:20-53 | a gray page is reported as grayscale and not processed; a colour page gets the channel statistics and is processed iff a cast or fading is found |
| ColorCorrection.NeutralPageHasNoCast | autoocr/api/modules/color_correction.py:27-38 | a page whose three channels are equal shows no cast |
| ColorCorrection.BalancedPixel | autoocr/api/modules/color_correction.py:98-106 | v / 255 * gain clipped to [0, 1], times 255 and truncated: a byte, unchanged at gain 1, not darker for gain >= 1 and not brighter for gain <= 1 |
| ColorCorrection.BalancePlane | autoocr/api/modules/color_correction.py:98-106 | the gain applied at every pixel of a channel |
| ColorCorrection.Gain | autoocr/api/modules/color_correction.py:94-102 | gray_value / channel mean, or 1 when the mean is 0: at least 1 for a channel at or below the gray value, at most 1 above it, exactly 1 when the means agree |
| ColorCorrection.WhiteBalance | autoocr/api/modules/color_correction.py:83-108 | the gray world correction keeps an 8-bit colour page of the same size; channels at or below the gray value never darken and those at or above it never brighten |
| ColorCorrection.BalancedPageUnchanged | autoocr/api/modules/color_correction.py:83-108 | a page whose channel means agree is unchanged by white balance |
| ColorCorrection.Process | autoocr/api/modules/color_correction.py:55-81 | a grayscale page is returned with "Grayscale image"; otherwise normalisation of the page after white balance (if a cast was flagged) and then ink restoration (if fading was flagged), one clause per flag combination, with the flags reported |
| ColorCorrection.GrayPassesThrough | autoocr/api/modules/color_correction.py:22-61 | a gray page is neither detected nor changed |
| Smooth.Detect | autoocr/api/modules/smooth.py:17-33 | smoothing is wanted iff the graininess exceeds 20; the graininess is reported rounded to 2 places |
| Smooth.TierOf | autoocr/api/modules/smooth.py:41-50 | strong above 40, medium above 25 up to 40, light at 25 or below |
| Smooth.GaussianFor | autoocr/api/modules/smooth.py:60-73 | each Gaussian setting has an odd kernel and a positive sigma |
| Smooth.BilateralFor | autoocr/api/modules/smooth.py:89-112 | each bilateral setting uses equal colour and space sigmas |
| Smooth.Steps | autoocr/api/modules/smooth.py:41-50 | three steps for strong, two otherwise, always ending with the tier's bilateral filter; a Gaussian runs iff the tier is not light, a median iff it is not medium |
| Smooth.Apply | autoocr/api/modules/smooth.py:37-50 | a chain of filters keeps the page's shape; an empty chain changes nothing |
| Smooth.ApplyLast | autoocr/api/modules/smooth.py:42-50 | a chain is its prefix followed by its last filter |
| Smooth.Process | autoocr/api/modules/smooth.py:35-58 | the page goes through its tier's chain (graininess 0 when absent), ending with the bilateral filter; all three flags are reported true with the input graininess |
| Smooth.MetadataOverclaims | autoocr/api/modules/smooth.py:41-57 | the metadata claims a Gaussian and a median step although the light tier runs no Gaussian and the medium tier no median |
| Smooth.RoundingLowersTier | autoocr/api/modules/smooth.py:31-45 | a graininess of 40.004 is reported as 40.0, so processing picks the medium tier instead of strong |
| Smooth.TierAgreesWithDetect | autoocr/api/modules/smooth.py:28-48 | a page detection declines, or a grainy page at or below 25, is processed in the light tier |
| Sharpen.Detect | autoocr/api/modules/sharpen.py:17-30 | the page is blurry iff the Laplacian variance is below 100; the variance is reported rounded to 2 places |
| Sharpen.SatSub | autoocr/api/modules/sharpen.py:62-87 | cv2.subtract on bytes: 0 when the subtrahend is at least the value, else the difference |
| Sharpen.EdgePixel | autoocr/api/modules/sharpen.py:58-65 | gray + 0.8 * edges saturated: never darker, unchanged where the blur is not darker, strictly brighter where the blur is darker and the pixel below 255 |
| Sharpen.EdgeEnhanced | autoocr/api/modules/sharpen.py:49-73 | the edge-enhanced plane holds EdgePixel at every pixel's facts |
| Sharpen.DetailPixel | autoocr/api/modules/sharpen.py:89-96 | gray / 255 + high_pass / 255 * 0.5 clipped, times 255 and truncated: between the value and the value plus half the high pass, unchanged with no high pass |
| Sharpen.Refined | autoocr/api/modules/sharpen.py:84-96 | the refined plane never darkens a pixel and keeps those not brighter than the low pass |
| Sharpen.Relayout | autoocr/api/modules/sharpen.py:68-102 | the gray result comes back in the page's layout, every plane equal to it |
| Sharpen.EnhanceEdges | autoocr/api/modules/sharpen.py:49-73 | an 8-bit page of the same shape whose planes are all equal |
| Sharpen.RefineDetails | autoocr/api/modules/sharpen.py:75-104 | an 8-bit page of the same shape whose planes are all equal |
| Sharpen.Process | autoocr/api/modules/sharpen.py:32-47 | detail refinement applied to the edge-enhanced page, giving equal planes of the page's shape; both flags true and the input variance (0 when absent) reported |
| Sharpen.GrayPageNeverDarkened | autoocr/api/modules/sharpen.py:49-104 | on a gray 8-bit page no pixel gets darker |
| Sharpen.ColorPageLosesColor | autoocr/api/modules/sharpen.py:51-69 | a colour page comes back as three copies of one gray plane |
| ImageIo.SliceEnd | autoocr/api/utils/image_io.py:97-98 | the end of pages[:n]: min(n, len) for n >= 0, max(len + n, 0) for negative n |
| ImageIo.Truncate | autoocr/api/utils/image_io.py:97-98 | without max_pages every page is kept; otherwise a prefix, of length min(n, len) for n >= 0 |
| ImageIo.TotalPrefix | autoocr/api/utils/image_io.py:102-107 | a prefix of the pages never holds more pixels than all of them |
| ImageIo.ModeName | autoocr/api/utils/image_io.py:111-118 | the mode is "GRAY" iff grayscale output was asked for, else "BGR" |
| ImageIo.Converted | autoocr/api/utils/image_io.py:104-118 | a page keeps its size; it is colour iff not grayscale, and then its channels are the RGB channels reversed |
| ImageIo.MetaOf | autoocr/api/utils/image_io.py:33-119 | each page's record holds its index, width, height, the dpi and the mode |
| ImageIo.ConvertWithinBudget | autoocr/api/utils/image_io.py:100-121 | the loop succeeds iff the pages' total pixel count stays within the budget, and then yields every converted page and its record in order |
| ImageIo.PdfToImages | autoocr/api/utils/image_io.py:45-121 | a rasterisation error is reported as such; otherwise the kept pages fail iff their pixels exceed the budget, and on success every converted page is returned, with the records iff return_metadata |
| ImageIo.PdfToImagesSimple | autoocr/api/utils/image_io.py:206-208 | the legacy wrapper returns every page in colour, failing iff the pages exceed 250,000,000 pixels |
| ImageIo.Scaled | autoocr/api/utils/image_io.py:182 | int(n * (d / m)) taken in exact arithmetic: the floor of n * d / m |
| ImageIo.Resized | autoocr/api/utils/image_io.py:178-183 | no limit (None or 0) keeps the size; with a limit, a zero-by-zero page fails on the division, a page within the limit keeps its size, and a larger page fails exactly when a side would scale to 0 (Pillow refuses that size, and the error names it); a successful resize ends within the limit, never grows a side, and keeps every non-zero side non-zero |
| ImageIo.ThinPageRefused | autoocr/api/utils/image_io.py:178-183 | a 3000-by-1 page limited to 1500 would become 1500 by 0, so the resize fails |
| ImageIo.DownscaleHitsLimit | autoocr/api/utils/image_io.py:178-183 | in exact arithmetic, a page larger than the limit whose sides both survive the scale has its longer side scaled to the limit and the other side in proportion, rounded down |
| ImageIo.PageOf | autoocr/api/utils/image_io.py:166-184 | a shape other than 2-D or 3-channel is refused with its shape; an empty array that goes through cvtColor (colour, or gray with force_rgb) is refused; otherwise the page succeeds iff its resize does, failing with the resize's error; the page is "L" iff gray without force_rgb, and never grows |
| ImageIo.Pages | autoocr/api/utils/image_io.py:165-184 | on success every array becomes its page, in order |
| ImageIo.PagesFailAtFirst | autoocr/api/utils/image_io.py:165-184 | the conversion fails iff some array fails, and then with the error of the first failing array |
| ImageIo.ImagesToPdf | autoocr/api/utils/image_io.py:127-200 | no images raises "No images to write"; otherwise it succeeds iff every page converts, with the pages in order, the optimize flag and the quality only when 1 <= q <= 95 |
| ImageIo.FourChannelRefused | autoocr/api/utils/image_io.py:172-176 | any 4-channel array makes the export fail |
| Profiles.StandardCorrections | autoocr/api/preprocessor.py:70-87 | the standard list always opens with edge mask, orientation and perspective, and its optional deskew, denoise and enhancement steps bring it to at most six corrections |
| Profiles.BuildStandard | autoocr/api/preprocessor.py:66-96 | the standard pipeline always holds at least the three fixed corrections and text refinement |
| Profiles.OcrRemovals | autoocr/api/preprocessor.py:277-285 | the OCR profile puts at most the three security-feature removals in front |
| Profiles.OcrCorrections | autoocr/api/preprocessor.py:277-297 | the OCR profile always runs its six standard corrections, plus up to three removals and the MRZ step |
| Profiles.BuildOcr | autoocr/api/preprocessor.py:273-305 | the OCR pipeline always holds the six standard corrections and text refinement |

## Left out

- Pixel numerics. These are FFT and inverse FFT, Canny, Hough, contours and polygon approximation, connected-component labelling, morphology, inpainting, CLAHE, non-local means, Sauvola and adaptive thresholds, colour-space conversion, warps, and Gaussian, bilateral and median filters. They are library code. They enter as inputs (`Filters` records, statistics, `Raster.Sampled` and `Raster.Fit` results), so contracts hold for every possible library output.
- Floating point: ratios, means and standard deviations are exact reals. A comparison whose outcome would change by float rounding is not modelled. `int(h * 0.15)`-style band sizes are written as exact integer arithmetic (`h * 15 / 100`).
- Language.OcrSize: `int(w * (1600 / w))` is computed in doubles and can truncate to one below the exact quotient. For w = 2156 the product is 1599.9999999999998 and the width 1599. The model gives the exact width 1600 and the exact floor of h * 1600 / w.
- ImageIo.Scaled: the same double product `int(n * (d / m))` can be one below the exact floor of n * d / m. The model uses the exact floor.
- ImageIo.PageOf: an empty gray array without force_rgb skips cvtColor and is passed on as a page; what Pillow's fromarray and PDF writer then do with a zero-sized image is not modelled.
- ImageIo.DownscaleHitsLimit: in doubles the longer side can come out one below the limit (2156 scaled to 1600 gives 1599). The lemma states the exact-arithmetic size.
- Perspective.ISqrt: the source turns the corners into float32 (autoocr/api/modules/perspective.py:61), so the squared length and its square root are float32 values before `int()`. The model takes the exact integer square root. Edges longer than 4096 px can come out one apart: for the edge (2219, 3469) the sum 16957922 is exact in float32, its root 4117.99976 rounds to 4118.0f, and the source reports 4118 where the model gives 4117.
- Perspective.OutputSize: built on Perspective.ISqrt, so on edges longer than 4096 px a side can be one below the source's float32 size.
- Perspective.Process: the output size it reports and warps to inherits the same float32 difference on edges longer than 4096 px.
- Enhance.Blend: at amount 1.5 both weights and every sum are exact binary fractions, so the model matches the double computation. At amount 1.1 they are not: a result within rounding error of a half-way point can be stored one byte apart from the exact model.
- Wall-clock timing: the timing fields of a step record read a clock parameter. Rounding to two decimals is not modelled.
- External processes: the tesseract OSD and text calls and the fastText model are probes returning a value or a failure. An exception becomes the failure branch the source takes.
- Image reading and writing in `process_file`, PDF rasterisation and PDF writing: loaded pages are parameters. Only the validation and budget logic around them is modelled.
- The FastAPI handler (autoocr/api/main.py), the command line (autoocr/cli.py), the OCR benchmark wrapper, GPU probing, logging, metrics and the YAML/environment configuration loader are not part of this model. They are I/O, global state or concurrency.
- ICAO Doc 9303 field layout and check digits: the code never checks them, and the passport label is only an output string.
- Profiles.StandardCorrections: its contract states only the length and the three fixed first entries. Exact membership and order are stated by Profiles.StandardMembers, Profiles.StandardOrder and Profiles.StandardEnds.
- Profiles.BuildStandard: its contract states only a lower bound on the length. Membership, order and the final binarize are stated by Profiles.StandardMembers, Profiles.StandardOrder and Profiles.StandardEnds.
- Profiles.OcrRemovals: its contract states only the length bound. Which removals appear, and in which order, is stated by Profiles.OcrMembers and Profiles.OcrOrder.
- Profiles.OcrCorrections: its contract states only the length bounds. Its contents are stated by Profiles.OcrMembers and Profiles.OcrEnds.
- Profiles.BuildOcr: its contract states only a lower bound on the length. Membership, order, the MRZ position and the final binarize are stated by Profiles.OcrMembers, Profiles.OcrOrder and Profiles.OcrEnds.

## Behaviour of the code worth knowing

- Text refinement reverts its cleanup when more than 70 % of the components were removed, as its comment says ("removed too much (e.g., >70% of components)"). The test is `removed / (removed + kept) > 0.7` and runs only when there is at least one component (autoocr/api/modules/text_refine.py:78-79). A page with no components keeps its cleanup.
- Unsharp masking in the sharpen module adds the edge layer with a fixed weight of 0.8 (autoocr/api/modules/sharpen.py:65).
- The MRZ detector tests the bottom 15 % of the page, the bounding-box search looks at the bottom 20 %, and the fallback crop is the bottom 12 % (autoocr/api/modules/mrz_enhancement.py:37, 74, 119).
- The MRZ baseline projection counts, per row, the pixels exactly equal to 0 in the binarised band, the ones its comment calls "dark pixels" (autoocr/api/modules/mrz_enhancement.py:163).
- The OCR profile's legal-compliance gate returns True on every path, so its refusal branch is unreachable (Preprocessor.OcrNeverRefuses).
- The classifier never returns "currency", although the risk table lists it (SecurityDetector.NeverCurrency).
- A zero-row MRZ search band (`gray[-0:]`) is the whole page (SecurityDetector.MrzBandWholePage).
- The de-raster module decides on the unrounded watermark ratio but removes the watermark only when the rounded metadata ratio exceeds 0.3. A page can therefore be detected and returned unchanged (DeRaster.DetectedButUntouched).
- The tape test's aspect clause `w / (h + 1e-6)` never equals 0.3 or 3.0 exactly, so it never rejects a rectangle (ArtifactRemoval.AspectNeverRejects).
- The smoothing metadata can name a stronger tier than the one applied, and rounding can lower the tier (Smooth.MetadataOverclaims, Smooth.RoundingLowersTier).
- Sharpening returns a colour page as three copies of its gray plane (Sharpen.ColorPageLosesColor).

## Findings

| source | as written | input that shows it | evidently intended | confidence | as-written member | corrected member |
|---|---|---|---|---|---|---|
| autoocr/api/modules/edge_mask.py:57-68 | `narrow_strip` keeps the first half of every strip. For the bottom and right strips that is the half nearer the centre. | A 700 x 700 page: band 10, and the bottom strip is rows 690..699. Only rows 690..694 are examined, and the last two rows never are. | The comment asks to narrow "near outer edge": keep the outer half of the bottom and right strips. | not executed; follows from the slicing | EdgeMask.FirstHalfMissesOuterEdge | EdgeMask.OuterHalfKeepsEdge |
| autoocr/api/modules/artifact_removal.py:66-79 | The gray page is computed once, before the fold-mark and tape repairs. Pattern suppression filters that stale gray and replaces the result with it. | Any colour page with fold marks and a repeated pattern. Its output is identical with and without the fold-mark repair. | Each step works on the previous step's output, so the repairs survive pattern suppression. | not executed; follows from the data flow | ArtifactRemoval.RepairsDiscarded | ArtifactRemoval.Process |
| autoocr/api/modules/de_raster.py:44-47 | The "low frequency" energy is summed over `magnitude[:rows//4, :cols//4]` of the fftshift-ed spectrum. That corner holds the highest frequencies. | A uniform page of brightness 1 or more, with no grid and at most two stamps. All its energy is at the zero frequency, its ratio is 0, and detect passes over it. | Sum the block that fftshift moves the low frequencies to, starting at (rows//2, cols//2). A uniform page then scores above 0.3 and is flagged (DeRaster.FlatPageDetected). | not executed; follows from fftshift's layout | DeRaster.FlatPageMissed | DeRaster.DetectCorrected |

=== FILE: artifact_removal.dfy ===
/** ArtifactRemovalModule of autoocr/api/modules/artifact_removal.py: fold
    marks (probabilistic Hough lines), tape or stickers (bright contours) and
    repeated patterns (peaks of the 2-D Fourier magnitude). Line detection,
    contours, the FFT, mask drawing, dilation and inpainting are library
    work and arrive as inputs; the gates built from them are modelled
    exactly. */
module ArtifactRemoval {
  import opened Wrappers
  import opened Raster
  import Spectrum

  // --------------------------------------------------------------- detect

  /** One HoughLinesP segment (x1, y1, x2, y2). */
  datatype Segment = Segment(x1: int, y1: int, x2: int, y2: int)

  /** HoughLinesP returns None when it finds no line at all. */
  function LineCount(lines: Option<seq<Segment>>): (n: nat)
    ensures lines.None? ==> n == 0
    ensures lines.Some? ==> n == |lines.value|
  {
    match lines
    case None => 0
    case Some(ls) => |ls|
  }

  /** Fold marks: more than five Hough lines. */
  predicate FoldMarks(lines: Option<seq<Segment>>) {
    lines.Some? && |lines.value| > 5
  }

  /** An external contour of the pixels above 200: its contourArea and the
      width and height of its boundingRect. */
  datatype Blob = Blob(area: real, width: nat, height: nat)

  /** float(w) / (h + 1e-6). */
  function Aspect(width: nat, height: nat): real {
    width as real / (height as real + 0.000001)
  }

  /** The aspect clause of the tape test: 0.3 < a < 3.0 or a > 3 or a < 0.3. */
  predicate AspectTest(a: real) {
    (0.3 < a < 3.0) || a > 3.0 || a < 0.3
  }

  predicate TapeSized(b: Blob) { 100.0 < b.area < 100000.0 }

  /** The tape test exactly as written. */
  predicate IsTape(b: Blob) {
    TapeSized(b) && AspectTest(Aspect(b.width, b.height))
  }

  /** The aspect clause rejects only the two exact ratios 0.3 and 3.0. */
  lemma AspectTestEndpoints(a: real)
    ensures AspectTest(a) <==> a != 0.3 && a != 3.0
  {
  }

  /** An integer width over an integer height plus 1e-6 is never exactly 0.3
      or 3.0, so the aspect clause accepts every bounding box. */
  lemma AspectNeverRejects(width: nat, height: nat)
    ensures AspectTest(Aspect(width, height))
  {
    var d := height as real + 0.000001;
    var a := Aspect(width, height);
    assert a * d == width as real;
    AspectTestEndpoints(a);
  }

  /** A contour counts as tape iff its area lies strictly between 100 and
      100000: the shape clause never decides anything. */
  lemma TapeIsSize(b: Blob)
    ensures IsTape(b) <==> TapeSized(b)
  {
    AspectNeverRejects(b.width, b.height);
  }

  function TapeCount(blobs: seq<Blob>): (n: nat)
    ensures n <= |blobs|
  {
    CountBound(blobs, IsTape);
    Count(blobs, IsTape)
  }

  /** tape_count is the number of contours of tape size. */
  lemma {:induction false} TapeCountBySize(blobs: seq<Blob>)
    ensures TapeCount(blobs) == Count(blobs, TapeSized)
    decreases |blobs|
  {
    if |blobs| > 0 {
      TapeIsSize(blobs[0]);
      TapeCountBySize(blobs[1..]);
    }
  }

  /** np.mean of a non-empty array of reals. */
  function Average(s: seq<real>): real
    requires |s| > 0
  {
    SumR(s) / |s| as real
  }

  function SquaredDeviations(s: seq<real>, m: real): (d: seq<real>)
    ensures |d| == |s|
    ensures forall k :: 0 <= k < |s| ==> d[k] == (s[k] - m) * (s[k] - m)
  {
    seq(|s|, k requires 0 <= k < |s| => (s[k] - m) * (s[k] - m))
  }

  /** np.var: the population variance (np.std is its square root). */
  function Variance(s: seq<real>): real
    requires |s| > 0
  {
    SumR(SquaredDeviations(s, Average(s))) / |s| as real
  }

  /** The predicate "x > t" as a value, so that counts over it compare. */
  function Above(t: real): real -> bool {
    (x: real) => x > t
  }

  /** np.sum(magnitude > threshold * 2), with threshold = mean + std. */
  function PatternCount(s: seq<real>, std: real): nat
    requires |s| > 0
  {
    Count(s, Above(2.0 * (Average(s) + std)))
  }

  predicate NonNegativeSeq(s: seq<real>) {
    forall k :: 0 <= k < |s| ==> s[k] >= 0.0
  }

  /** Markov's inequality on counts: the entries above t >= 0 carry more
      than t each. */
  lemma {:induction false} MarkovCount(s: seq<real>, t: real)
    requires t >= 0.0 && NonNegativeSeq(s)
    ensures t * (Count(s, Above(t)) as real) <= SumR(s)
    ensures Count(s, Above(t)) > 0 ==> t * (Count(s, Above(t)) as real) < SumR(s)
    decreases |s|
  {
    if |s| > 0 {
      var rest := s[1..];
      assert NonNegativeSeq(rest);
      MarkovCount(rest, t);
      var c' := Count(rest, Above(t)) as real;
      assert t * (c' + 1.0) == t * c' + t;
      MulNonNeg(t, c');
    }
  }

  /** Fewer than half of the entries of a non-negative spectrum can exceed
      twice its mean plus its standard deviation. */
  lemma PatternsBelowHalf(s: seq<real>, std: real)
    requires |s| > 0 && NonNegativeSeq(s) && std >= 0.0
    ensures 2 * PatternCount(s, std) < |s|
  {
    var m := Average(s);
    var n := |s| as real;
    var t := 2.0 * (m + std);
    var c := PatternCount(s, std);
    assert m * n == SumR(s);
    MarkovCount(s, 0.0);
    assert m >= 0.0 by {
      if m < 0.0 {
        MulPos(-m, n);
      }
    }
    MarkovCount(s, t);
    if c > 0 {
      var cr := c as real;
      var tc := t * cr;
      var mc := m * cr;
      assert tc < m * n;
      MulNonNeg(2.0 * std, cr);
      assert (2.0 * std) * cr == tc - 2.0 * mc;
      assert 2.0 * mc < m * n;
      if m == 0.0 {
        assert false;
      }
      assert m * (2.0 * cr) < m * n;
      assert 2.0 * cr < n;
    }
  }

  datatype DetectMeta = DetectMeta(
    foldMarksDetected: bool,
    foldMarkCount: nat,
    tapeCount: nat,
    patternsDetected: bool,
    patternRatio: real)

  /** Python's `patterns > 0.01` on pattern_ratio = count / size. */
  lemma PatternTest(count: nat, size: nat)
    requires size > 0
    ensures Ratio(count, size) > 0.01 <==> 100 * count > size
  {
    RatioCompare(count, size, 1, 100);
    assert 0.01 == 1 as real / 100 as real;
  }

  /** ArtifactRemovalModule.detect. `lines` are the Hough lines of the Canny
      edges of the gray page, `blobs` the external contours of gray > 200,
      `mag` the shifted FFT magnitude of the rows x cols gray page and `std`
      its standard deviation. */
  function Detect(lines: Option<seq<Segment>>, blobs: seq<Blob>, mag: RealGrid, rows: nat, cols: nat, std: real): (r: (bool, DetectMeta))
    requires rows > 0 && cols > 0 && IsGrid(mag, rows, cols) && Spectrum.NonNegative(mag)
    requires std >= 0.0 && std * std == Variance(Flatten(mag))
    ensures r.1.foldMarksDetected <==> LineCount(lines) > 5
    ensures r.1.foldMarkCount == LineCount(lines)
    ensures r.1.tapeCount == Count(blobs, TapeSized)
    ensures r.1.patternsDetected <==> 100 * PatternCount(Flatten(mag), std) > rows * cols
    ensures r.1.patternRatio == Round(Ratio(PatternCount(Flatten(mag), std), rows * cols), 10000)
    ensures 0.0 <= r.1.patternRatio <= 0.50005
    ensures r.0 <==> r.1.foldMarksDetected || r.1.tapeCount > 1 || r.1.patternsDetected
  {
    var flat := Flatten(mag);
    FlattenLength(mag, rows, cols);
    var count := PatternCount(flat, std);
    assert NonNegativeSeq(flat) by {
      forall k | 0 <= k < |flat|
        ensures flat[k] >= 0.0
      {
        FlattenNonNegative(mag, k);
      }
    }
    PatternsBelowHalf(flat, std);
    var ratio := Ratio(count, rows * cols);
    PatternTest(count, rows * cols);
    RatioCompare(count, rows * cols, 1, 2);
    assert ratio <= 0.5;
    TapeCountBySize(blobs);
    var fold := FoldMarks(lines);
    var patterns := ratio > 0.01;
    var tapes := TapeCount(blobs);
    (fold || tapes > 1 || patterns,
     DetectMeta(fold, LineCount(lines), tapes, patterns, Round(ratio, 10000)))
  }

  /** Every entry of the flattening of a non-negative grid is non-negative. */
  lemma {:induction false} FlattenNonNegative(g: RealGrid, k: nat)
    requires Spectrum.NonNegative(g) && k < |Flatten(g)|
    ensures Flatten(g)[k] >= 0.0
    decreases |g|
  {
    if |g| > 0 {
      if k < |g[0]| {
        assert Flatten(g)[k] == g[0][k];
      } else {
        assert Spectrum.NonNegative(g[1..]) by {
          forall i, j | 0 <= i < |g[1..]| && 0 <= j < |g[1..][i]|
            ensures g[1..][i][j] >= 0.0
          {
            assert g[1..][i] == g[i + 1];
          }
        }
        assert Flatten(g)[k] == Flatten(g[1..])[k - |g[0]|];
        FlattenNonNegative(g[1..], k - |g[0]|);
      }
    }
  }

  // -------------------------------------------------------------- process

  /** The library steps of process. `foldMask` redraws the Hough lines of a
      gray page five pixels thick and dilates them twice with an 11x11
      ellipse; `tapeMask` fills the tape contours and dilates twice with a
      9x9 ellipse; `inpaint` is Telea inpainting (radius 3) of a colour page
      under a mask; `suppress` attenuates the spectrum of a gray page with
      1 - 0.5 exp(-D^2 / 2 sigma^2) for the given sigma, inverts it and
      stretches it to 0..255. */
  datatype Filters = Filters(
    luma: (int, int, int) -> int,
    foldMask: Grid -> Grid,
    tapeMask: Grid -> Grid,
    inpaint: (Image, Grid) -> (nat, nat, nat) -> int,
    suppress: (Grid, nat) -> Grid)

  datatype ProcessMeta = ProcessMeta(foldMarksRemoved: bool, tapeRemoved: bool, patternsSuppressed: bool)
  // method "Hough_lines + Contours + FFT_filtering"

  /** sigma = max(rows, cols) // 20 of the suppression mask. */
  function SuppressionSigma(rows: nat, cols: nat): (s: nat)
    ensures s * 20 <= (if rows >= cols then rows else cols) < (s + 1) * 20
  {
    (if rows >= cols then rows else cols) / 20
  }

  /** The page as three planes: a gray page is converted GRAY2BGR before
      inpainting. */
  function AsBgr(page: Image): (r: Image)
    requires page.Valid()
    ensures r.Valid() && r.IsColor() && r.h == page.h && r.w == page.w
    ensures page.IsColor() ==> r == page
  {
    if page.IsColor() then page else ToBgr(page.planes[0], page.h, page.w)
  }

  /** cv2.inpaint(page as BGR, mask, 3, INPAINT_TELEA): always three planes. */
  function Inpainted(page: Image, mask: Grid, f: Filters): (r: Image)
    requires page.Valid()
    ensures r.Valid() && r.IsColor() && r.h == page.h && r.w == page.w
  {
    Sampled(page.h, page.w, 3, f.inpaint(AsBgr(page), Fit(mask, page.h, page.w)))
  }

  /** _suppress_patterns(page, gray): the result depends on `gray` only, and
      comes back in the page's channel count. */
  function Suppressed(page: Image, gray: Grid, f: Filters): (r: Image)
    requires page.Valid()
    ensures r.Valid() && SameShape(r, page)
    ensures forall c :: 0 <= c < |r.planes| ==> r.planes[c] == Fit(f.suppress(gray, SuppressionSigma(page.h, page.w)), page.h, page.w)
  {
    var g := Fit(f.suppress(gray, SuppressionSigma(page.h, page.w)), page.h, page.w);
    if page.IsColor() then ToBgr(g, page.h, page.w) else FromGray(g, page.h, page.w)
  }

  /** Steps 1 and 2 of process: fold marks, then tape, each on the previous
      result, with the masks taken from the gray of the input page. */
  function Repaired(img: Image, meta: DetectMeta, f: Filters): (r: Image)
    requires img.Valid()
    ensures r.Valid() && r.h == img.h && r.w == img.w
    ensures !meta.foldMarksDetected && meta.tapeCount <= 1 ==> r == img
    ensures meta.foldMarksDetected || meta.tapeCount > 1 ==> r.IsColor()
    ensures meta.foldMarksDetected && meta.tapeCount <= 1 ==>
      r == Inpainted(img, f.foldMask(GrayOf(img, f.luma)), f)
    ensures !meta.foldMarksDetected && meta.tapeCount > 1 ==>
      r == Inpainted(img, f.tapeMask(GrayOf(img, f.luma)), f)
    ensures meta.foldMarksDetected && meta.tapeCount > 1 ==>
      r == Inpainted(Inpainted(img, f.foldMask(GrayOf(img, f.luma)), f), f.tapeMask(GrayOf(img, f.luma)), f)
  {
    var gray := GrayOf(img, f.luma);
    var r1 := if meta.foldMarksDetected then Inpainted(img, f.foldMask(gray), f) else img;
    if meta.tapeCount > 1 then Inpainted(r1, f.tapeMask(gray), f) else r1
  }

  function Flags(meta: DetectMeta): ProcessMeta {
    ProcessMeta(meta.foldMarksDetected, meta.tapeCount > 1, meta.patternsDetected)
  }

  /** ArtifactRemovalModule.process as written: the pattern step filters the
      gray of the INPUT page, computed before the fold and tape steps. */
  function ProcessAsWritten(img: Image, meta: DetectMeta, f: Filters): (r: (Image, ProcessMeta))
    requires img.Valid()
    ensures r.0.Valid() && r.0.h == img.h && r.0.w == img.w
    ensures r.1.foldMarksRemoved == meta.foldMarksDetected
    ensures r.1.tapeRemoved <==> meta.tapeCount > 1
    ensures r.1.patternsSuppressed == meta.patternsDetected
    ensures meta.patternsDetected ==> forall c :: 0 <= c < |r.0.planes| ==>
      r.0.planes[c] == Fit(f.suppress(GrayOf(img, f.luma), SuppressionSigma(img.h, img.w)), img.h, img.w)
    ensures !meta.patternsDetected ==> r.0 == Repaired(img, meta, f)
  {
    var gray := GrayOf(img, f.luma);
    var r2 := Repaired(img, meta, f);
    var r3 := if meta.patternsDetected then Suppressed(r2, gray, f) else r2;
    (r3, Flags(meta))
  }

  /** On a colour page with patterns, the page process returns is the same
      whether or not fold marks and tape were inpainted first: both repairs
      are lost. */
  lemma RepairsDiscarded(img: Image, meta: DetectMeta, f: Filters)
    requires img.Valid() && img.IsColor() && meta.patternsDetected
    ensures ProcessAsWritten(img, meta, f).0 ==
      ProcessAsWritten(img, meta.(foldMarksDetected := false, tapeCount := 0), f).0
  {
  }

  /** ArtifactRemovalModule.process with the pattern step applied to the
      gray of the repaired page, so each step works on the previous step's
      output. */
  function Process(img: Image, meta: DetectMeta, f: Filters): (r: (Image, ProcessMeta))
    requires img.Valid()
    ensures r.0.Valid() && r.0.h == img.h && r.0.w == img.w
    ensures r.1.foldMarksRemoved == meta.foldMarksDetected
    ensures r.1.tapeRemoved <==> meta.tapeCount > 1
    ensures r.1.patternsSuppressed == meta.patternsDetected
    ensures !meta.foldMarksDetected && meta.tapeCount <= 1 && !meta.patternsDetected ==> r.0 == img
    ensures |r.0.planes| == 3 <==> img.IsColor() || meta.foldMarksDetected || meta.tapeCount > 1
    ensures meta.patternsDetected ==> forall c :: 0 <= c < |r.0.planes| ==>
      r.0.planes[c] == Fit(f.suppress(GrayOf(Repaired(img, meta, f), f.luma), SuppressionSigma(img.h, img.w)), img.h, img.w)
    ensures !meta.patternsDetected ==> r.0 == Repaired(img, meta, f)
  {
    var r2 := Repaired(img, meta, f);
    var r3 := if meta.patternsDetected then Suppressed(r2, GrayOf(r2, f.luma), f) else r2;
    (r3, Flags(meta))
  }

  /** When neither fold marks nor tape were repaired, the corrected process
      and the source's agree. */
  lemma AgreeWithoutRepairs(img: Image, meta: DetectMeta, f: Filters)
    requires img.Valid() && !meta.foldMarksDetected && meta.tapeCount <= 1
    ensures Process(img, meta, f) == ProcessAsWritten(img, meta, f)
  {
  }

  /** A page that detect passes over, handed to process with its metadata,
      comes back unchanged with every flag down. */
  lemma CleanPageUntouched(lines: Option<seq<Segment>>, blobs: seq<Blob>, mag: RealGrid, rows: nat, cols: nat, std: real, img: Image, f: Filters)
    requires rows > 0 && cols > 0 && IsGrid(mag, rows, cols) && Spectrum.NonNegative(mag)
    requires std >= 0.0 && std * std == Variance(Flatten(mag))
    requires img.Valid() && !Detect(lines, blobs, mag, rows, cols, std).0
    ensures Process(img, Detect(lines, blobs, mag, rows, cols, std).1, f) ==
      (img, ProcessMeta(false, false, false))
  {
  }
}

=== FILE: background_clean.dfy ===
/** BackgroundCleanModule of autoocr/api/modules/background_clean.py: dark
    shadows, uneven lighting (corner blocks against the centre) and
    bleed-through (pixels far from their 5x5 blur). The blur, morphology,
    CLAHE, adaptive threshold, labelling and inpainting are library work and
    arrive as inputs; the ratios, the block geometry, the kernel rule and the
    bleed mask are modelled exactly. */
module BackgroundClean {
  import opened Wrappers
  import opened Raster
  import Components

  // --------------------------------------------------------------- detect

  /** Number of pixels darker than 50. */
  function ShadowPixels(gray: Grid, h: nat, w: nat): nat {
    PixelCount(h, w, (i: nat, j: nat) => i < |gray| && j < |gray[i]| && gray[i][j] < 50)
  }

  function Abs(x: int): nat { if x < 0 then -x else x }

  /** Number of pixels whose absolute difference from the blurred page
      exceeds 10 (cv2.absdiff(gray, blurred) > 10). */
  function BleedPixels(gray: Grid, blurred: Grid, h: nat, w: nat): nat {
    PixelCount(h, w, (i: nat, j: nat) =>
      i < |gray| && j < |gray[i]| && i < |blurred| && j < |blurred[i]| && Abs(gray[i][j] - blurred[i][j]) > 10)
  }

  /** ceil(n / 4). Python's `-n // 4` parses as `(-n) // 4`, a floor
      division, so the slice `[-n // 4:]` keeps the last ceil(n / 4) entries. */
  function Ceil4(n: nat): (c: nat)
    ensures (-(n as int)) / 4 == -(c as int)
    ensures n <= 4 * c < n + 4
  {
    (n + 3) / 4
  }

  /** Rows r0 .. r1-1 and columns c0 .. c1-1 of the page. */
  datatype Block = Block(r0: nat, r1: nat, c0: nat, c1: nat) {
    predicate Fits(h: nat, w: nat) { r0 <= r1 <= h && c0 <= c1 <= w }
    predicate NonEmpty() { r0 < r1 && c0 < c1 }
  }

  /** gray[:h//4, :w//4], gray[:h//4, -w//4:], gray[-h//4:, :w//4] and
      gray[-h//4:, -w//4:]: the top and left blocks span floor(n / 4), the
      bottom and right ones ceil(n / 4). */
  function Corners(h: nat, w: nat): (cs: seq<Block>)
    requires h > 0 && w > 0
    ensures |cs| == 4 && forall k :: 0 <= k < 4 ==> cs[k].Fits(h, w)
    ensures cs[0].r1 - cs[0].r0 == h / 4 && cs[3].r1 - cs[3].r0 == Ceil4(h)
    ensures cs[0].c1 - cs[0].c0 == w / 4 && cs[3].c1 - cs[3].c0 == Ceil4(w)
    ensures (forall k :: 0 <= k < 4 ==> cs[k].NonEmpty()) <==> h >= 4 && w >= 4
  {
    var top := Block(0, h / 4, 0, w / 4);
    [top,
     Block(0, h / 4, w - Ceil4(w), w),
     Block(h - Ceil4(h), h, 0, w / 4),
     Block(h - Ceil4(h), h, w - Ceil4(w), w)]
  }

  /** gray[h//4:-h//4, w//4:-w//4]. */
  function Center(h: nat, w: nat): (b: Block)
    requires h > 0 && w > 0
    ensures b.Fits(h, w)
    ensures b.NonEmpty() <==> h >= 2 && w >= 2
  {
    Block(h / 4, h - Ceil4(h), w / 4, w - Ceil4(w))
  }

  /** np.mean of a block; the mean of an empty slice is NaN (None). */
  function BlockMean(g: Grid, h: nat, w: nat, b: Block): (m: Option<real>)
    requires IsGrid(g, h, w) && b.Fits(h, w)
    ensures m.Some? <==> b.NonEmpty()
    ensures Bytes(g) && m.Some? ==> m.value >= 0.0
  {
    if b.NonEmpty() then
      var win := Window(g, h, w, b.r0, b.r1, b.c0, b.c1);
      MulPositive(b.r1 - b.r0, b.c1 - b.c0);
      if Bytes(g) then
        WindowNonNegative(g, h, w, b);
        Some(Mean(win))
      else Some(Mean(win))
    else None
  }

  function NonNegative(): int -> bool {
    (x: int) => x >= 0
  }

  /** A block of a byte page has a non-negative sum. */
  lemma WindowNonNegative(g: Grid, h: nat, w: nat, b: Block)
    requires IsGrid(g, h, w) && b.Fits(h, w) && Bytes(g)
    ensures Sum(Window(g, h, w, b.r0, b.r1, b.c0, b.c1)) >= 0
  {
    var win := Window(g, h, w, b.r0, b.r1, b.c0, b.c1);
    WindowAll(g, h, w, b.r0, b.r1, b.c0, b.c1, NonNegative());
    SumOfCounted(win, NonNegative(), 0);
  }

  /** When every element passes `p` and `p` means "at least lo" or "equal to
      lo", the sum is at least |s| * lo. */
  lemma {:induction false} SumOfCounted(s: seq<int>, p: int -> bool, lo: int)
    requires Count(s, p) == |s|
    requires forall x :: p(x) ==> x >= lo
    ensures Sum(s) >= |s| * lo
    decreases |s|
  {
    if |s| > 0 {
      CountBound(s[1..], p);
      SumOfCounted(s[1..], p, lo);
    }
  }

  /** corner_brightness and center_brightness, when every block is
      non-empty. */
  function Brightness(g: Grid, h: nat, w: nat): (cc: Option<(real, real)>)
    requires IsGrid(g, h, w) && h > 0 && w > 0
    ensures cc.Some? <==> h >= 4 && w >= 4
    ensures Bytes(g) && cc.Some? ==> cc.value.0 >= 0.0 && cc.value.1 >= 0.0
  {
    var cs := Corners(h, w);
    var m0 := BlockMean(g, h, w, cs[0]);
    var m1 := BlockMean(g, h, w, cs[1]);
    var m2 := BlockMean(g, h, w, cs[2]);
    var m3 := BlockMean(g, h, w, cs[3]);
    var c := BlockMean(g, h, w, Center(h, w));
    if m0.Some? && m1.Some? && m2.Some? && m3.Some? && c.Some? then
      Some(((m0.value + m1.value + m2.value + m3.value) / 4.0, c.value))
    else None
  }

  /** abs(corner - center) / (center + 1e-6); NaN (None) on pages with fewer
      than four rows or columns, where a corner slice is empty. */
  function LightingDiff(g: Grid, h: nat, w: nat): (d: Option<real>)
    requires IsGrid(g, h, w) && Bytes(g) && h > 0 && w > 0
    ensures d.Some? <==> h >= 4 && w >= 4
    ensures d.Some? ==> d.value >= 0.0
  {
    var b := Brightness(g, h, w);
    if b.Some? then Some(Relative(b.value.0, b.value.1)) else None
  }

  /** abs(corner - center) / (center + 1e-6) for a non-negative centre, and
      its comparison with 0.2 without the division. */
  function Relative(corner: real, center: real): (r: real)
    requires center >= 0.0
    ensures r >= 0.0
    ensures r > 0.2 <==> RealAbs(corner - center) > 0.2 * (center + 0.000001)
    ensures r == 0.0 <==> corner == center
  {
    var d := center + 0.000001;
    var diff := RealAbs(corner - center) / d;
    assert diff * d == RealAbs(corner - center);
    ScaleOrder(0.2, diff, d);
    diff
  }

  function RealAbs(x: real): (a: real)
    ensures a >= 0.0 && (a == x || a == -x)
  {
    if x < 0.0 then -x else x
  }

  predicate Uneven(d: Option<real>) { d.Some? && d.value > 0.2 }

  datatype DetectMeta = DetectMeta(
    shadowRatio: real,
    lightingDiff: Option<real>,
    bleedRatio: real,
    hasShadows: bool,
    hasUnevenLighting: bool,
    hasBleedThrough: bool)

  /** BackgroundCleanModule.detect on the h x w gray page; `blurred` is its
      5x5 Gaussian blur. */
  function Detect(gray: Grid, h: nat, w: nat, blurred: Grid): (r: (bool, DetectMeta))
    requires IsGrid(gray, h, w) && Bytes(gray) && h > 0 && w > 0
    ensures r.1.hasShadows <==> 10 * ShadowPixels(gray, h, w) > h * w
    ensures r.1.hasBleedThrough <==> 20 * BleedPixels(gray, blurred, h, w) > 3 * (h * w)
    ensures r.1.hasUnevenLighting <==> Uneven(LightingDiff(gray, h, w))
    ensures h < 4 || w < 4 ==> !r.1.hasUnevenLighting && r.1.lightingDiff.None?
    ensures r.1.shadowRatio == Round(PageRatio(ShadowPixels(gray, h, w), h, w), 1000)
    ensures r.1.bleedRatio == Round(PageRatio(BleedPixels(gray, blurred, h, w), h, w), 1000)
    ensures r.1.lightingDiff.Some? <==> LightingDiff(gray, h, w).Some?
    ensures r.1.lightingDiff.Some? ==> r.1.lightingDiff.value == Round(LightingDiff(gray, h, w).value, 1000)
    ensures r.0 <==> r.1.hasShadows || r.1.hasUnevenLighting || r.1.hasBleedThrough
  {
    var shadow := PageRatio(ShadowPixels(gray, h, w), h, w);
    var bleed := PageRatio(BleedPixels(gray, blurred, h, w), h, w);
    Thresholds(ShadowPixels(gray, h, w), h, w);
    Thresholds(BleedPixels(gray, blurred, h, w), h, w);
    var diff := LightingDiff(gray, h, w);
    var rounded := match diff case None => None case Some(d) => Some(Round(d, 1000));
    var m := DetectMeta(Round(shadow, 1000), rounded, Round(bleed, 1000), shadow > 0.1, Uneven(diff), bleed > 0.15);
    (m.hasShadows || m.hasUnevenLighting || m.hasBleedThrough, m)
  }

  /** The shadow and bleed-through thresholds without the division. */
  lemma Thresholds(count: nat, h: nat, w: nat)
    requires h > 0 && w > 0
    ensures PageRatio(count, h, w) > 0.1 <==> 10 * count > h * w
    ensures PageRatio(count, h, w) > 0.15 <==> 20 * count > 3 * (h * w)
  {
    MulPositive(h, w);
    RatioCompare(count, h * w, 1, 10);
    RatioCompare(count, h * w, 3, 20);
    assert 0.1 == 1 as real / 10 as real;
    assert 0.15 == 3 as real / 20 as real;
  }

  /** A block of a uniform page has that page's value as its mean. */
  lemma UniformBlockMean(g: Grid, h: nat, w: nat, b: Block, v: int)
    requires IsGrid(g, h, w) && b.Fits(h, w) && b.NonEmpty()
    requires forall i, j :: 0 <= i < h && 0 <= j < w ==> g[i][j] == v
    ensures BlockMean(g, h, w, b) == Some(v as real)
  {
    var win := Window(g, h, w, b.r0, b.r1, b.c0, b.c1);
    MulPositive(b.r1 - b.r0, b.c1 - b.c0);
    WindowAll(g, h, w, b.r0, b.r1, b.c0, b.c1, Equals(v));
    SumOfEquals(win, v);
    MeanOfEquals(win, v);
  }

  /** A page of one gray level is evenly lit: its lighting difference is
      zero. */
  lemma UniformPageEvenlyLit(g: Grid, h: nat, w: nat, v: int)
    requires IsGrid(g, h, w) && Bytes(g) && h >= 4 && w >= 4
    requires forall i, j :: 0 <= i < h && 0 <= j < w ==> g[i][j] == v
    ensures LightingDiff(g, h, w) == Some(0.0)
  {
    var vr := v as real;
    UniformBrightness(g, h, w, v);
    assert LightingDiff(g, h, w) == Some(Relative(vr, vr));
    RelativeOfEqual(vr);
  }

  lemma RelativeOfEqual(x: real)
    requires x >= 0.0
    ensures Relative(x, x) == 0.0
  {
  }

  lemma UniformBrightness(g: Grid, h: nat, w: nat, v: int)
    requires IsGrid(g, h, w) && h >= 4 && w >= 4
    requires forall i, j :: 0 <= i < h && 0 <= j < w ==> g[i][j] == v
    ensures Brightness(g, h, w) == Some((v as real, v as real))
  {
    UniformCorners(g, h, w, v);
    UniformBlockMean(g, h, w, Center(h, w), v);
    var vr := v as real;
    assert (vr + vr + vr + vr) / 4.0 == vr;
  }

  lemma UniformCorners(g: Grid, h: nat, w: nat, v: int)
    requires IsGrid(g, h, w) && h >= 4 && w >= 4
    requires forall i, j :: 0 <= i < h && 0 <= j < w ==> g[i][j] == v
    ensures forall k :: 0 <= k < 4 ==> BlockMean(g, h, w, Corners(h, w)[k]) == Some(v as real)
  {
    var cs := Corners(h, w);
    forall k | 0 <= k < 4
      ensures BlockMean(g, h, w, cs[k]) == Some(v as real)
    {
      UniformBlockMean(g, h, w, cs[k], v);
    }
  }

  // -------------------------------------------------------------- process

  /** The opening kernel of the lighting correction: max(51, min(h, w) // 10),
      plus one when even. */
  function LightingKernel(h: nat, w: nat): (k: nat)
    ensures k % 2 == 1 && k >= 51
    ensures k >= (if h <= w then h else w) / 10
    ensures k <= (if h <= w then h else w) / 10 + 1 || k == 51
    ensures k == 51 <==> (if h <= w then h else w) / 10 <= 51
  {
    var m := (if h <= w then h else w) / 10;
    var k := if m >= 51 then m else 51;
    if k % 2 == 0 then k + 1 else k
  }

  /** A component of fewer than 10 pixels is taken for bleed-through. */
  predicate Faint(area: nat) { area < 10 }

  /** The bleed-through mask: 255 on the pixels of every non-background
      component of area below 10, 0 elsewhere. */
  function BleedMask(l: Components.Labelling, h: nat, w: nat): (m: Grid)
    ensures IsGrid(m, h, w) && TwoLevel(m)
    ensures Components.WellFormed(l, h, w) ==> forall i, j :: 0 <= i < h && 0 <= j < w ==>
      (m[i][j] == 255 <==> l.labels[i][j] > 0 && Faint(l.areas[l.labels[i][j] - 1]))
    ensures Components.WellFormed(l, h, w) ==> m == Components.Keep(l, h, w, Faint)
  {
    if Components.WellFormed(l, h, w) then Components.Keep(l, h, w, Faint)
    else
      Tabulate(h, w, (i: nat, j: nat) =>
        if i < |l.labels| && j < |l.labels[i]| && 0 < l.labels[i][j] <= |l.areas| &&
           Faint(l.areas[l.labels[i][j] - 1]) then 255 else 0)
  }

  /** Only text found by the binarisation is ever masked as bleed-through. */
  lemma BleedWithinText(l: Components.Labelling, inverted: Grid, h: nat, w: nat)
    requires Components.WellFormed(l, h, w) && IsGrid(inverted, h, w) && Components.Covers(l, inverted, h, w)
    ensures forall i, j :: 0 <= i < h && 0 <= j < w && BleedMask(l, h, w)[i][j] == 255 ==> inverted[i][j] != 0
  {
    Components.KeepWithinForeground(l, inverted, h, w, Faint);
  }

  /** The library steps of process. `lighting` is the illumination
      correction of a gray page for an opening kernel size (opening,
      normalisation, division, normalisation, CLAHE 2.0 / 8x8);
      `shadowMask` the dilated threshold of |gray - opening(21x21, twice)|
      at 30; `binarize` the Gaussian adaptive threshold (21, 10) closed with
      a 5x5 ellipse; `labelling` the 8-connected labelling of an inverted
      binarisation; `inpaint` Telea inpainting of a colour page under a mask
      with the given radius. */
  datatype Filters = Filters(
    luma: (int, int, int) -> int,
    lighting: (Grid, nat) -> Grid,
    shadowMask: Grid -> Grid,
    binarize: Grid -> Grid,
    labelling: Grid -> Components.Labelling,
    inpaint: (Image, Grid, nat) -> (nat, nat, nat) -> int)

  datatype ProcessMeta = ProcessMeta(shadowsRemoved: bool, lightingCorrected: bool, bleedThroughRemoved: bool)
  // method "Morphology + Illumination + Thresholding"

  function AsBgr(page: Image): (r: Image)
    requires page.Valid()
    ensures r.Valid() && r.IsColor() && r.h == page.h && r.w == page.w
  {
    if page.IsColor() then page else ToBgr(page.planes[0], page.h, page.w)
  }

  /** cv2.inpaint of the page (converted to BGR when gray) under `mask`. */
  function Inpainted(page: Image, mask: Grid, radius: nat, f: Filters): (r: Image)
    requires page.Valid()
    ensures r.Valid() && r.IsColor() && r.h == page.h && r.w == page.w
  {
    Sampled(page.h, page.w, 3, f.inpaint(AsBgr(page), mask, radius))
  }

  /** _correct_uneven_lighting: the corrected gray page in the page's own
      channel count. */
  function CorrectLighting(page: Image, f: Filters): (r: Image)
    requires page.Valid()
    ensures r.Valid() && SameShape(r, page)
    ensures forall c :: 0 <= c < |r.planes| ==>
      r.planes[c] == Fit(f.lighting(GrayOf(page, f.luma), LightingKernel(page.h, page.w)), page.h, page.w)
  {
    var g := Fit(f.lighting(GrayOf(page, f.luma), LightingKernel(page.h, page.w)), page.h, page.w);
    if page.IsColor() then ToBgr(g, page.h, page.w) else FromGray(g, page.h, page.w)
  }

  /** _remove_shadows: inpaint (radius 3) under the shadow mask of the page's gray. */
  function RemoveShadows(page: Image, f: Filters): (r: Image)
    requires page.Valid()
    ensures r.Valid() && r.IsColor() && r.h == page.h && r.w == page.w
  {
    Inpainted(page, Fit(f.shadowMask(GrayOf(page, f.luma)), page.h, page.w), 3, f)
  }

  /** The inverted binarisation whose components are labelled. */
  function Inverted(page: Image, f: Filters): Grid
    requires page.Valid()
  {
    MapGrid(f.binarize(GrayOf(page, f.luma)), (v: int) => 255 - v)
  }

  /** _remove_bleed_through: inpaint (radius 2) under the mask of the
      components of fewer than 10 pixels. */
  function RemoveBleed(page: Image, f: Filters): (r: Image)
    requires page.Valid()
    ensures r.Valid() && r.IsColor() && r.h == page.h && r.w == page.w
    ensures r == Sampled(page.h, page.w, 3,
      f.inpaint(AsBgr(page), BleedMask(f.labelling(Inverted(page, f)), page.h, page.w), 2))
  {
    Inpainted(page, BleedMask(f.labelling(Inverted(page, f)), page.h, page.w), 2, f)
  }

  /** BackgroundCleanModule.process: lighting, then shadows, then
      bleed-through, each gated by its detect flag and applied to the
      previous step's output. */
  function Process(img: Image, meta: DetectMeta, f: Filters): (r: (Image, ProcessMeta))
    requires img.Valid()
    ensures r.0.Valid() && r.0.h == img.h && r.0.w == img.w
    ensures r.1 == ProcessMeta(meta.hasShadows, meta.hasUnevenLighting, meta.hasBleedThrough)
    ensures |r.0.planes| == 3 <==> img.IsColor() || meta.hasShadows || meta.hasBleedThrough
    ensures !meta.hasShadows && !meta.hasUnevenLighting && !meta.hasBleedThrough ==> r.0 == img
    ensures meta.hasUnevenLighting && !meta.hasShadows && !meta.hasBleedThrough ==> r.0 == CorrectLighting(img, f)
    ensures !meta.hasUnevenLighting && meta.hasShadows && !meta.hasBleedThrough ==> r.0 == RemoveShadows(img, f)
    ensures !meta.hasUnevenLighting && !meta.hasShadows && meta.hasBleedThrough ==> r.0 == RemoveBleed(img, f)
    ensures meta.hasUnevenLighting && meta.hasShadows && !meta.hasBleedThrough ==>
      r.0 == RemoveShadows(CorrectLighting(img, f), f)
    ensures meta.hasUnevenLighting && !meta.hasShadows && meta.hasBleedThrough ==>
      r.0 == RemoveBleed(CorrectLighting(img, f), f)
    ensures !meta.hasUnevenLighting && meta.hasShadows && meta.hasBleedThrough ==>
      r.0 == RemoveBleed(RemoveShadows(img, f), f)
    ensures meta.hasUnevenLighting && meta.hasShadows && meta.hasBleedThrough ==>
      r.0 == RemoveBleed(RemoveShadows(CorrectLighting(img, f), f), f)
  {
    var r1 := if meta.hasUnevenLighting then CorrectLighting(img, f) else img;
    var r2 := if meta.hasShadows then RemoveShadows(r1, f) else r1;
    var r3 := if meta.hasBleedThrough then RemoveBleed(r2, f) else r2;
    (r3, ProcessMeta(meta.hasShadows, meta.hasUnevenLighting, meta.hasBleedThrough))
  }
}

=== FILE: binarize.dfy ===
/** BinarizeModule of autoocr/api/modules/binarize.py: the final two-level
    rendering of the page. Sauvola's local threshold (skimage) is used when
    it is available; otherwise OpenCV's adaptive Gaussian threshold. Both
    threshold computations are library work: the Sauvola threshold map and
    the adaptive decision mask are inputs. */
module Binarize {
  import opened Wrappers
  import opened Raster
  import Config

  /** window_size and k handed to threshold_sauvola. */
  const WindowSize: nat := Config.SauvolaWindowSize
  const K: real := Config.SauvolaK

  datatype DetectMeta = DetectMeta(preBinarizeContrast: real)

  /** BinarizeModule.detect: always runs, recording np.std of the gray page. */
  function Detect(contrastStd: real): (r: (bool, DetectMeta))
    ensures r.0 && r.1.preBinarizeContrast == contrastStd
  {
    (true, DetectMeta(contrastStd))
  }

  datatype Method = Sauvola | AdaptiveGaussian

  datatype ProcessMeta = ProcessMeta(applied: bool, via: Method)

  /** BinarizeModule.process on a BGR page. `sauvola` is the threshold map
      (None when skimage is unavailable or raises); `adaptive` marks the
      pixels adaptiveThreshold(gray, 255, GAUSSIAN, BINARY, 15, 10) sets. */
  function Process(img: Image, luma: (int, int, int) -> int, sauvola: Option<RealGrid>,
                   adaptive: seq<seq<bool>>): (r: (Image, ProcessMeta))
    requires img.Valid() && img.IsColor()
    requires sauvola.Some? ==> IsGrid(sauvola.value, img.h, img.w)
    requires sauvola.None? ==> IsGrid(adaptive, img.h, img.w)
    ensures r.0.Valid() && r.0.IsColor() && SameShape(r.0, img)
    ensures r.0.planes[0] == r.0.planes[1] == r.0.planes[2] && TwoLevel(r.0.planes[0])
    ensures r.1.applied && (r.1.via == Sauvola <==> sauvola.Some?)
    ensures sauvola.Some? ==> forall i, j :: 0 <= i < img.h && 0 <= j < img.w ==>
      (r.0.planes[0][i][j] == 255 <==> GrayOf(img, luma)[i][j] as real > sauvola.value[i][j])
    ensures sauvola.None? ==> forall i, j :: 0 <= i < img.h && 0 <= j < img.w ==>
      (r.0.planes[0][i][j] == 255 <==> adaptive[i][j])
  {
    var gray := GrayOf(img, luma);
    var bin := if sauvola.Some? then Threshold(gray, sauvola.value, img.h, img.w)
               else FromMask(adaptive, img.h, img.w);
    (ToBgr(bin, img.h, img.w), ProcessMeta(true, if sauvola.Some? then Sauvola else AdaptiveGaussian))
  }

  /** Thresholding a two-level page again, with any threshold in [0, 255),
      reproduces it: binarisation is idempotent. */
  lemma ThresholdIdempotent(gray: Grid, t1: RealGrid, t2: RealGrid, h: nat, w: nat)
    requires IsGrid(gray, h, w) && IsGrid(t1, h, w) && IsGrid(t2, h, w)
    requires forall i, j :: 0 <= i < h && 0 <= j < w ==> 0.0 <= t2[i][j] < 255.0
    ensures Threshold(Threshold(gray, t1, h, w), t2, h, w) == Threshold(gray, t1, h, w)
  {
    var once := Threshold(gray, t1, h, w);
    var twice := Threshold(once, t2, h, w);
    forall i | 0 <= i < h ensures twice[i] == once[i] {
      forall j | 0 <= j < w ensures twice[i][j] == once[i][j] {
        assert once[i][j] == 0 || once[i][j] == 255;
      }
    }
  }

  /** Binarising an already binarised BGR page (whose gray conversion keeps
      equal channels' value) on the Sauvola path with a threshold in
      [0, 255) changes nothing. */
  lemma ProcessIdempotent(img: Image, luma: (int, int, int) -> int, t1: RealGrid, t2: RealGrid,
                          adaptive: seq<seq<bool>>)
    requires img.Valid() && img.IsColor()
    requires IsGrid(t1, img.h, img.w) && IsGrid(t2, img.h, img.w)
    requires forall v :: luma(v, v, v) == v
    requires forall i, j :: 0 <= i < img.h && 0 <= j < img.w ==> 0.0 <= t2[i][j] < 255.0
    ensures var once := Process(img, luma, Some(t1), adaptive).0;
      Process(once, luma, Some(t2), adaptive).0 == once
  {
    var once := Process(img, luma, Some(t1), adaptive).0;
    var g := GrayOf(once, luma);
    var b := once.planes[0];
    forall i | 0 <= i < img.h ensures g[i] == b[i] {
      assert forall j :: 0 <= j < img.w ==> g[i][j] == luma(b[i][j], b[i][j], b[i][j]);
    }
    assert g == b;
    ThresholdIdempotent(GrayOf(img, luma), t1, t2, img.h, img.w);
  }
}

=== FILE: color_correction.dfy ===
/** ColorCorrectionModule of autoocr/api/modules/color_correction.py: colour
    cast and fading detection from the B, G, R channel means; gray-world
    white balance (modelled exactly, with floats taken as exact reals);
    LAB-based ink restoration and normalisation (library work, as inputs). */
module ColorCorrection {
  import opened Raster

  /** Every plane holds 8-bit values. */
  predicate Pixels8(img: Image) {
    forall c :: 0 <= c < |img.planes| ==> Bytes(img.planes[c])
  }

  /** np.mean(image[:, :, c]) of a non-empty page. */
  function PlaneMean(g: Grid, h: nat, w: nat): real
    requires IsGrid(g, h, w) && h > 0 && w > 0
  {
    FlattenLength(g, h, w);
    MulPositive(h, w);
    Mean(Flatten(g))
  }

  function RealAbs(x: real): (a: real)
    ensures a >= 0.0 && (a == x || a == -x)
  {
    if x < 0.0 then -x else x
  }

  function Max3(a: real, b: real, c: real): (m: real)
    ensures m >= a && m >= b && m >= c
    ensures m == a || m == b || m == c
  {
    if a >= b && a >= c then a else if b >= c then b else c
  }

  /** max(|b - g|, |b - r|, |g - r|) > 30. */
  predicate Cast(b: real, g: real, r: real) {
    Max3(RealAbs(b - g), RealAbs(b - r), RealAbs(g - r)) > 30.0
  }

  /** The largest pairwise difference exceeds 30 iff some pair differs by
      more than 30. */
  lemma CastAnyPair(b: real, g: real, r: real)
    ensures Cast(b, g, r) <==> RealAbs(b - g) > 30.0 || RealAbs(b - r) > 30.0 || RealAbs(g - r) > 30.0
  {
  }

  /** detect's metadata: a gray page is only marked as such. */
  datatype DetectMeta =
    | Grayscale
    | ColorStats(colorCastDetected: bool, fadingDetected: bool, bMean: real, gMean: real, rMean: real, intensity: real)

  /** detect's verdicts and rounded statistics from the three channel
      means. */
  function Stats(b: real, g: real, rr: real): (m: DetectMeta)
    ensures m.ColorStats?
    ensures m.colorCastDetected <==> RealAbs(b - g) > 30.0 || RealAbs(b - rr) > 30.0 || RealAbs(g - rr) > 30.0
    ensures m.fadingDetected <==> b + g + rr < 300.0
    ensures m.bMean == Round(b, 100) && m.gMean == Round(g, 100) && m.rMean == Round(rr, 100)
    ensures m.intensity == Round((b + g + rr) / 3.0, 100)
  {
    CastAnyPair(b, g, rr);
    var intensity := (b + g + rr) / 3.0;
    ColorStats(Cast(b, g, rr), intensity < 100.0, Round(b, 100), Round(g, 100), Round(rr, 100), Round(intensity, 100))
  }

  /** The B, G and R channel means of a non-empty colour page. */
  function ChannelMeans(img: Image): (real, real, real)
    requires img.Valid() && img.IsColor() && img.NonEmpty()
  {
    (PlaneMean(img.planes[0], img.h, img.w), PlaneMean(img.planes[1], img.h, img.w),
     PlaneMean(img.planes[2], img.h, img.w))
  }

  /** ColorCorrectionModule.detect. */
  function Detect(img: Image): (r: (bool, DetectMeta))
    requires img.Valid() && (img.IsColor() ==> img.NonEmpty())
    ensures !img.IsColor() ==> r == (false, Grayscale)
    ensures img.IsColor() ==> (
      var (b, g, rr) := ChannelMeans(img);
      && r.1.ColorStats?
      && (r.1.colorCastDetected <==> RealAbs(b - g) > 30.0 || RealAbs(b - rr) > 30.0 || RealAbs(g - rr) > 30.0)
      && (r.1.fadingDetected <==> b + g + rr < 300.0)
      && r.1.bMean == Round(b, 100) && r.1.gMean == Round(g, 100) && r.1.rMean == Round(rr, 100)
      && r.1.intensity == Round((b + g + rr) / 3.0, 100))
    ensures r.0 <==> r.1.ColorStats? && (r.1.colorCastDetected || r.1.fadingDetected)
  {
    if !img.IsColor() then (false, Grayscale)
    else
      var (b, g, rr) := ChannelMeans(img);
      var m := Stats(b, g, rr);
      (m.colorCastDetected || m.fadingDetected, m)
  }

  /** A page whose three planes are equal shows no colour cast. */
  lemma NeutralPageHasNoCast(img: Image)
    requires img.Valid() && img.IsColor() && img.NonEmpty()
    requires img.planes[0] == img.planes[1] == img.planes[2]
    ensures Detect(img).1.ColorStats? && !Detect(img).1.colorCastDetected
  {
  }

  // ---------------------------------------------------------- white balance

  /** One pixel of _fix_white_balance: v / 255 times the channel gain,
      clipped to [0, 1], times 255, truncated to uint8. */
  function BalancedPixel(v: int, gain: real): (p: int)
    requires gain >= 0.0
    ensures IsByte(p)
    ensures IsByte(v) && gain == 1.0 ==> p == v
    ensures IsByte(v) && gain >= 1.0 ==> p >= v
    ensures IsByte(v) && gain <= 1.0 ==> p <= v
  {
    var x := v as real / 255.0 * gain;
    var c := if x < 0.0 then 0.0 else if x > 1.0 then 1.0 else x;
    ClipScale(v, gain, x, c);
    (c * 255.0).Floor
  }

  lemma ClipScale(v: int, gain: real, x: real, c: real)
    requires gain >= 0.0 && x == v as real / 255.0 * gain
    requires c == (if x < 0.0 then 0.0 else if x > 1.0 then 1.0 else x)
    ensures 0.0 <= c * 255.0 <= 255.0
    ensures IsByte(v) && gain >= 1.0 ==> c * 255.0 >= v as real
    ensures IsByte(v) && gain <= 1.0 ==> c * 255.0 <= v as real
    ensures IsByte(v) && gain == 1.0 ==> c * 255.0 == v as real
  {
    var u := v as real / 255.0;
    assert u * 255.0 == v as real;
    if IsByte(v) {
      assert 0.0 <= u <= 1.0;
      if gain >= 1.0 {
        MulNonNeg(u, gain - 1.0);
      }
      if gain <= 1.0 {
        MulNonNeg(u, 1.0 - gain);
      }
    }
  }

  /** A plane scaled by `gain`. */
  function BalancePlane(g: Grid, gain: real): (r: Grid)
    requires gain >= 0.0
    ensures |r| == |g| && forall i :: 0 <= i < |g| ==> |r[i]| == |g[i]|
    ensures Bytes(r)
    ensures forall i, j :: 0 <= i < |g| && 0 <= j < |g[i]| ==> r[i][j] == BalancedPixel(g[i][j], gain)
  {
    MapGrid(g, (v: int) => BalancedPixel(v, gain))
  }

  /** The three channel means as reals, for a colour page. */
  function Means(img: Image): (m: seq<real>)
    requires img.Valid() && img.IsColor() && img.NonEmpty()
    ensures |m| == 3
  {
    [PlaneMean(img.planes[0], img.h, img.w), PlaneMean(img.planes[1], img.h, img.w), PlaneMean(img.planes[2], img.h, img.w)]
  }

  lemma PlaneMeanNonNeg(g: Grid, h: nat, w: nat)
    requires IsGrid(g, h, w) && h > 0 && w > 0 && Bytes(g)
    ensures PlaneMean(g, h, w) >= 0.0
  {
    var s := Flatten(g);
    forall k | 0 <= k < |s|
      ensures s[k] >= 0
    {
      FlattenMembers(g, s[k]);
    }
    SumNonNeg(s);
  }

  lemma {:induction false} SumNonNeg(s: seq<int>)
    requires forall k :: 0 <= k < |s| ==> s[k] >= 0
    ensures Sum(s) >= 0
    decreases |s|
  {
    if |s| > 0 {
      SumNonNeg(s[1..]);
    }
  }

  /** The gain of channel c: gray_value / channel mean when the mean is
      positive; a channel of mean zero is left unscaled (gain 1). */
  function Gain(m: seq<real>, c: nat): (g: real)
    requires |m| == 3 && c < 3 && forall k :: 0 <= k < 3 ==> m[k] >= 0.0
    ensures g >= 0.0
    ensures m[c] > 0.0 && m[c] <= (m[0] + m[1] + m[2]) / 3.0 ==> g >= 1.0
    ensures m[c] > 0.0 && m[c] >= (m[0] + m[1] + m[2]) / 3.0 ==> g <= 1.0
    ensures m[0] == m[1] == m[2] ==> g == 1.0
  {
    var grayValue := (m[0] + m[1] + m[2]) / 3.0;
    if m[c] > 0.0 then
      DivOrder(grayValue, m[c]);
      grayValue / m[c]
    else 1.0
  }

  lemma DivOrder(a: real, d: real)
    requires d > 0.0 && a >= 0.0
    ensures a / d >= 0.0
    ensures a >= d ==> a / d >= 1.0
    ensures a <= d ==> a / d <= 1.0
  {
    assert a / d * d == a;
  }

  /** _fix_white_balance (gray world) on a colour page of 8-bit planes. */
  function WhiteBalance(img: Image): (r: Image)
    requires img.Valid() && img.IsColor() && Pixels8(img)
    ensures r.Valid() && r.IsColor() && SameShape(r, img) && Pixels8(r)
    ensures img.NonEmpty() ==> forall c, i, j :: 0 <= c < 3 && 0 <= i < img.h && 0 <= j < img.w ==> (
      var m := Means(img);
      && (0.0 < m[c] <= (m[0] + m[1] + m[2]) / 3.0 ==> r.planes[c][i][j] >= img.planes[c][i][j])
      && (m[c] >= (m[0] + m[1] + m[2]) / 3.0 ==> r.planes[c][i][j] <= img.planes[c][i][j]))
  {
    if !img.NonEmpty() then img
    else
      var m := Means(img);
      PlaneMeanNonNeg(img.planes[0], img.h, img.w);
      PlaneMeanNonNeg(img.planes[1], img.h, img.w);
      PlaneMeanNonNeg(img.planes[2], img.h, img.w);
      Image(img.h, img.w, [BalancePlane(img.planes[0], Gain(m, 0)),
                           BalancePlane(img.planes[1], Gain(m, 1)),
                           BalancePlane(img.planes[2], Gain(m, 2))])
  }

  /** A page whose channel means already agree is left exactly as it is. */
  lemma BalancedPageUnchanged(img: Image)
    requires img.Valid() && img.IsColor() && Pixels8(img) && img.NonEmpty()
    requires Means(img)[0] == Means(img)[1] == Means(img)[2]
    ensures WhiteBalance(img) == img
  {
    var r := WhiteBalance(img);
    forall c | 0 <= c < 3
      ensures r.planes[c] == img.planes[c]
    {
      forall i | 0 <= i < img.h
        ensures r.planes[c][i] == img.planes[c][i]
      {
      }
    }
  }

  // -------------------------------------------------------------- process

  /** The library steps of process: ink restoration (LAB, CLAHE 3.0 on L,
      min-max stretch of a and b) and normalisation (min-max stretch of L, a
      and b), each mapping a colour page to a colour page. */
  datatype Filters = Filters(
    restoreInk: Image -> (nat, nat, nat) -> int,
    normalize: Image -> (nat, nat, nat) -> int)

  datatype ProcessMeta =
    | Skipped(reason: string)
    | Applied(whiteBalanceFixed: bool, fadedInkRestored: bool, colorNormalized: bool)
  // method "Gray_World + Contrast_Stretching + Histogram_Match"

  /** ColorCorrectionModule.process. */
  function Process(img: Image, meta: DetectMeta, f: Filters): (r: (Image, ProcessMeta))
    requires img.Valid() && (meta.ColorStats? ==> img.IsColor() && Pixels8(img))
    ensures meta.Grayscale? ==> r == (img, Skipped("Grayscale image"))
    ensures meta.ColorStats? ==>
      && r.0.Valid() && r.0.IsColor() && SameShape(r.0, img)
      && r.1 == Applied(meta.colorCastDetected, meta.fadingDetected, true)
    ensures meta.ColorStats? && !meta.colorCastDetected && !meta.fadingDetected ==>
      r.0 == Sampled(img.h, img.w, 3, f.normalize(img))
    ensures meta.ColorStats? && meta.colorCastDetected && !meta.fadingDetected ==>
      r.0 == Sampled(img.h, img.w, 3, f.normalize(WhiteBalance(img)))
    ensures meta.ColorStats? && !meta.colorCastDetected && meta.fadingDetected ==>
      r.0 == Sampled(img.h, img.w, 3, f.normalize(Sampled(img.h, img.w, 3, f.restoreInk(img))))
    ensures meta.ColorStats? && meta.colorCastDetected && meta.fadingDetected ==>
      r.0 == Sampled(img.h, img.w, 3, f.normalize(Sampled(img.h, img.w, 3, f.restoreInk(WhiteBalance(img)))))
  {
    match meta
    case Grayscale => (img, Skipped("Grayscale image"))
    case ColorStats(cast, faded, _, _, _, _) =>
      var r1 := if cast then WhiteBalance(img) else img;
      var r2 := if faded then Sampled(img.h, img.w, 3, f.restoreInk(r1)) else r1;
      (Sampled(img.h, img.w, 3, f.normalize(r2)), Applied(cast, faded, true))
  }

  /** A gray page passes through detect and process untouched. */
  lemma GrayPassesThrough(img: Image, f: Filters)
    requires img.Valid() && !img.IsColor()
    ensures !Detect(img).0
    ensures Process(img, Detect(img).1, f) == (img, Skipped("Grayscale image"))
  {
  }
}

=== FILE: components.dfy ===
/** Connected components as cv2.connectedComponentsWithStats reports them: a
    label for every pixel (0 for the background) and, for each label
    1 .. n-1, its pixel area. The labelling itself is library work; these
    definitions say what the modules do with it. */
module Components {
  import opened Raster

  /** labels[i][j] is the pixel's label; areas[k - 1] is stats[k, CC_STAT_AREA]. */
  datatype Labelling = Labelling(labels: Grid, areas: seq<nat>) {
    /** num_labels, background included. */
    function NumLabels(): nat { |areas| + 1 }
  }

  predicate WellFormed(l: Labelling, h: nat, w: nat) {
    IsGrid(l.labels, h, w) &&
    forall i, j :: 0 <= i < h && 0 <= j < w ==> 0 <= l.labels[i][j] <= |l.areas|
  }

  /** The labelling was computed from `bin`: exactly its nonzero pixels carry
      a label. */
  predicate Covers(l: Labelling, bin: Grid, h: nat, w: nat)
    requires WellFormed(l, h, w) && IsGrid(bin, h, w)
  {
    forall i, j :: 0 <= i < h && 0 <= j < w ==> (l.labels[i][j] > 0 <==> bin[i][j] != 0)
  }

  /** The canvas with the pixels of every component whose area passes `keep`
      set to 255 and all others 0. */
  function Keep(l: Labelling, h: nat, w: nat, keep: nat -> bool): (g: Grid)
    requires WellFormed(l, h, w)
    ensures IsGrid(g, h, w) && TwoLevel(g)
    ensures forall i, j :: 0 <= i < h && 0 <= j < w ==>
      (g[i][j] == 255 <==> l.labels[i][j] > 0 && keep(l.areas[l.labels[i][j] - 1]))
  {
    Tabulate(h, w, (i: nat, j: nat) =>
      if i < h && j < w && l.labels[i][j] > 0 && keep(l.areas[l.labels[i][j] - 1]) then 255 else 0)
  }

  /** Filtering only removes: a kept pixel was foreground. */
  lemma KeepWithinForeground(l: Labelling, bin: Grid, h: nat, w: nat, keep: nat -> bool)
    requires WellFormed(l, h, w) && IsGrid(bin, h, w) && Covers(l, bin, h, w)
    ensures forall i, j :: 0 <= i < h && 0 <= j < w && Keep(l, h, w, keep)[i][j] == 255 ==> bin[i][j] != 0
  {
  }

  /** When every component passes, filtering a two-level image returns it. */
  lemma KeepEverything(l: Labelling, bin: Grid, h: nat, w: nat, keep: nat -> bool)
    requires WellFormed(l, h, w) && IsGrid(bin, h, w) && TwoLevel(bin) && Covers(l, bin, h, w)
    requires forall k :: 0 <= k < |l.areas| ==> keep(l.areas[k])
    ensures Keep(l, h, w, keep) == bin
  {
    var g := Keep(l, h, w, keep);
    forall i | 0 <= i < h ensures g[i] == bin[i] {
      forall j | 0 <= j < w ensures g[i][j] == bin[i][j] {
        if l.labels[i][j] > 0 {
          assert keep(l.areas[l.labels[i][j] - 1]);
        }
      }
    }
  }
}

=== FILE: config.dfy ===
/** Thresholds and configuration records of autoocr/api/utils/config.py. */
module Config {
  import opened Wrappers

  const EdgeAreaThreshold: real := 0.90
  const LaplacianVarianceNoiseThreshold: real := 50.0
  const LowContrastStdThreshold: real := 40.0
  const SkewDegreeMin: real := 0.5
  const LaplacianVarianceSharpnessThreshold: real := 120.0
  const BrightnessLowThreshold: real := 80.0
  const BrightnessHighThreshold: real := 220.0
  const NoiseLevelThreshold: real := 12.0
  const SpeckleComponentMaxArea: nat := 30
  const SpeckleRatioThreshold: real := 0.35
  const SauvolaWindowSize: nat := 25
  const SauvolaK: real := 0.2
  const UnsharpAmount: real := 1.5
  const ClaheClipLimit: real := 2.0

  /** ProcessingConfig: the switches shared by every preprocessor. */
  datatype ProcessingConfig = ProcessingConfig(
    borderThreshold: int,
    deskewEnabled: bool,
    noiseReduction: bool,
    speckSize: int,
    contrastEnhancement: bool,
    aiWarpCorrection: bool,
    fingerRemoval: bool,
    preserveBarcodes: bool,
    preserveQrcodes: bool,
    preserveSignatures: bool,
    outputDpi: int,
    outputFormat: string,
    preserveMetadata: bool,
    maskingEnabled: bool,
    maskOutputPath: Option<string>,
    gpu: bool)

  /** SecurityDocumentConfig: ProcessingConfig plus the preservation settings. */
  datatype SecurityDocumentConfig = SecurityDocumentConfig(
    base: ProcessingConfig,
    documentType: string,
    securityMode: bool,
    preserveBackground: bool,
    preserveColor: bool,
    maxDenoising: int,
    allowBinarization: bool,
    allowContrastBoost: bool,
    watermarkThreshold: real)

  /** OCROptimizedConfig: ProcessingConfig plus the feature-removal switches. */
  datatype OcrOptimizedConfig = OcrOptimizedConfig(
    base: ProcessingConfig,
    removeWatermarks: bool,
    removeGuilloche: bool,
    flattenHolograms: bool,
    mrzPriority: bool,
    textEnhancement: string,
    securityFeatureThreshold: real,
    legalComplianceCheck: bool,
    preserveMrz: bool,
    allowBinarization: bool,
    allowContrastBoost: bool,
    preserveColor: bool)

  /** A configuration object of any of the three dataclasses. */
  datatype AnyConfig = Plain(p: ProcessingConfig) | Security(s: SecurityDocumentConfig) | Ocr(o: OcrOptimizedConfig)

  function DefaultProcessingConfig(): ProcessingConfig {
    ProcessingConfig(50, true, true, 10, true, false, false, true, true, false, 300, "pdfa", true, true, None, false)
  }

  function DefaultSecurityDocumentConfig(): SecurityDocumentConfig {
    SecurityDocumentConfig(DefaultProcessingConfig(), "auto", true, true, true, 3, false, false, 0.95)
  }

  function DefaultOcrOptimizedConfig(): OcrOptimizedConfig {
    OcrOptimizedConfig(DefaultProcessingConfig(), true, true, true, true, "aggressive", 0.85, true, true, true, true, false)
  }

  /** The ProcessingConfig fields every configuration carries. */
  function Base(c: AnyConfig): ProcessingConfig {
    match c
    case Plain(p) => p
    case Security(s) => s.base
    case Ocr(o) => o.base
  }

  /** The `allow_binarization` attribute, None when the object has none. */
  function AllowBinarization(c: AnyConfig): (r: Option<bool>)
    ensures r.None? <==> c.Plain?
  {
    match c
    case Plain(_) => None
    case Security(s) => Some(s.allowBinarization)
    case Ocr(o) => Some(o.allowBinarization)
  }
}

=== FILE: de_raster.dfy ===
/** DeRasterModule of autoocr/api/modules/de_raster.py: grid lines (Hough
    lines), stamps (mid-sized bright contours) and watermarks (low-frequency
    energy of the 2-D Fourier magnitude). Line and contour detection, the
    FFT, the masks and the inpainting are library work and arrive as inputs;
    the gates, the energy ratio and the rounding of the metadata are
    modelled exactly. */
module DeRaster {
  import opened Wrappers
  import opened Raster
  import Spectrum

  // --------------------------------------------------------------- detect

  /** HoughLinesP's result: None, or the number of segments found. */
  function GridLineCount(lines: Option<nat>): (n: nat)
    ensures lines.None? ==> n == 0
    ensures lines.Some? ==> n == lines.value
  {
    lines.GetOr(0)
  }

  /** A stamp is an external contour of gray > 127 with 500 < area < 50000. */
  predicate StampSized(area: real) { 500.0 < area < 50000.0 }

  /** The magnitude restricted to rows r0 .. r1-1 and columns c0 .. c1-1,
      zero elsewhere. */
  function RectMasked(mag: RealGrid, rows: nat, cols: nat, r0: nat, r1: nat, c0: nat, c1: nat): (m: RealGrid)
    requires IsGrid(mag, rows, cols)
    ensures IsGrid(m, rows, cols)
    ensures forall i, j :: 0 <= i < rows && 0 <= j < cols ==>
      m[i][j] == (if r0 <= i < r1 && c0 <= j < c1 then mag[i][j] else 0.0)
  {
    Tabulate(rows, cols, (i: nat, j: nat) =>
      if i < |mag| && j < |mag[i]| && r0 <= i < r1 && c0 <= j < c1 then mag[i][j] else 0.0)
  }

  /** np.sum over the rows/4 x cols/4 block of the magnitude whose first
      entry is (r0, c0). */
  function QuarterEnergy(mag: RealGrid, rows: nat, cols: nat, r0: nat, c0: nat): real
    requires IsGrid(mag, rows, cols)
  {
    Spectrum.GridSum(RectMasked(mag, rows, cols, r0, r0 + rows / 4, c0, c0 + cols / 4))
  }

  /** low / (total + 1e-6), in [0, 1) whenever 0 <= low <= total. */
  function EnergyRatio(low: real, total: real): (r: real)
    requires 0.0 <= low <= total
    ensures 0.0 <= r < 1.0
    ensures r > 0.3 <==> low > 0.3 * (total + 0.000001)
  {
    var d := total + 0.000001;
    Spectrum.DivBelowOne(low, d);
    DivCompare(low, d, 0.3);
    low / d
  }

  lemma DivCompare(x: real, d: real, t: real)
    requires d > 0.0
    ensures x / d > t <==> x > t * d
  {
    assert x / d * d == x;
    ScaleOrder(t, x / d, d);
  }

  /** A quarter block never holds more than the whole spectrum. */
  lemma QuarterBelowTotal(mag: RealGrid, rows: nat, cols: nat, r0: nat, c0: nat)
    requires IsGrid(mag, rows, cols) && Spectrum.NonNegative(mag)
    ensures 0.0 <= QuarterEnergy(mag, rows, cols, r0, c0) <= Spectrum.GridSum(mag)
  {
    var m := RectMasked(mag, rows, cols, r0, r0 + rows / 4, c0, c0 + cols / 4);
    Spectrum.GridSumMono(m, mag, rows, cols);
    var zero := Tabulate(rows, cols, (i: nat, j: nat) => 0.0);
    Spectrum.GridSumMono(zero, m, rows, cols);
    Spectrum.ZeroSum(rows, cols);
  }

  /** watermark_ratio as written: the top-left quarter of the SHIFTED
      magnitude, magnitude[:rows//4, :cols//4]. After np.fft.fftshift the
      zero frequency sits at (rows//2, cols//2), so this block holds the
      highest frequencies. */
  function WatermarkRatioAsWritten(mag: RealGrid, rows: nat, cols: nat): (r: real)
    requires IsGrid(mag, rows, cols) && Spectrum.NonNegative(mag)
    ensures 0.0 <= r < 1.0
  {
    QuarterBelowTotal(mag, rows, cols, 0, 0);
    EnergyRatio(QuarterEnergy(mag, rows, cols, 0, 0), Spectrum.GridSum(mag))
  }

  /** watermark_ratio over the low frequencies the source names: the
      top-left quarter of the UNSHIFTED spectrum, which fftshift moves to
      rows rows//2 .. rows//2 + rows//4 - 1 and the matching columns. */
  function WatermarkRatio(mag: RealGrid, rows: nat, cols: nat): (r: real)
    requires IsGrid(mag, rows, cols) && Spectrum.NonNegative(mag)
    ensures 0.0 <= r < 1.0
    ensures r > 0.3 <==> QuarterEnergy(mag, rows, cols, rows / 2, cols / 2) > 0.3 * (Spectrum.GridSum(mag) + 0.000001)
  {
    QuarterBelowTotal(mag, rows, cols, rows / 2, cols / 2);
    EnergyRatio(QuarterEnergy(mag, rows, cols, rows / 2, cols / 2), Spectrum.GridSum(mag))
  }

  /** The shifted magnitude of a uniform page: all of its energy `dc` at the
      zero frequency, which fftshift places at (rows//2, cols//2). */
  function FlatSpectrum(dc: real, rows: nat, cols: nat): (m: RealGrid)
    requires dc >= 0.0
    ensures IsGrid(m, rows, cols) && Spectrum.NonNegative(m)
  {
    Tabulate(rows, cols, (i: nat, j: nat) => if i == rows / 2 && j == cols / 2 then dc else 0.0)
  }

  lemma {:induction false} SumRSingle(s: seq<real>, l: nat)
    requires l < |s| && forall k :: 0 <= k < |s| && k != l ==> s[k] == 0.0
    ensures SumR(s) == s[l]
    decreases |s|
  {
    if l == 0 {
      Spectrum.SumRZero(s[1..]);
    } else {
      SumRSingle(s[1..], l - 1);
    }
  }

  /** A grid with one non-zero entry sums to that entry. */
  lemma GridSumSingle(g: RealGrid, rows: nat, cols: nat, k: nat, l: nat)
    requires IsGrid(g, rows, cols) && k < rows && l < cols
    requires forall i, j :: 0 <= i < rows && 0 <= j < cols && (i != k || j != l) ==> g[i][j] == 0.0
    ensures Spectrum.GridSum(g) == g[k][l]
  {
    var sums := Spectrum.RowSums(g);
    forall i | 0 <= i < rows && i != k
      ensures sums[i] == 0.0
    {
      Spectrum.SumRZero(g[i]);
    }
    SumRSingle(g[k], l);
    SumRSingle(sums, k);
  }

  /** A grid of zeros sums to zero. */
  lemma GridSumZero(g: RealGrid, rows: nat, cols: nat)
    requires IsGrid(g, rows, cols)
    requires forall i, j :: 0 <= i < rows && 0 <= j < cols ==> g[i][j] == 0.0
    ensures Spectrum.GridSum(g) == 0.0
  {
    var sums := Spectrum.RowSums(g);
    forall i | 0 <= i < rows
      ensures sums[i] == 0.0
    {
      Spectrum.SumRZero(g[i]);
    }
    Spectrum.SumRZero(sums);
  }

  /** As written, a uniform page scores a watermark ratio of zero: its
      energy is all at the zero frequency, outside the block measured. */
  lemma AsWrittenMissesFlatPage(dc: real, rows: nat, cols: nat)
    requires dc >= 0.0
    ensures WatermarkRatioAsWritten(FlatSpectrum(dc, rows, cols), rows, cols) == 0.0
  {
    var mag := FlatSpectrum(dc, rows, cols);
    var corner := RectMasked(mag, rows, cols, 0, rows / 4, 0, cols / 4);
    GridSumZero(corner, rows, cols);
    QuarterBelowTotal(mag, rows, cols, 0, 0);
    Spectrum.ZeroOver(0.0, Spectrum.GridSum(mag) + 0.000001);
  }

  /** Over the low-frequency block, a uniform page of any brightness from 1
      up is all watermark or background: its ratio exceeds 0.3. */
  lemma FlatPageIsLowFrequency(dc: real, rows: nat, cols: nat)
    requires dc >= 1.0 && rows >= 4 && cols >= 4
    ensures WatermarkRatio(FlatSpectrum(dc, rows, cols), rows, cols) > 0.3
  {
    var mag := FlatSpectrum(dc, rows, cols);
    FlatEnergies(dc, rows, cols);
    assert QuarterEnergy(mag, rows, cols, rows / 2, cols / 2) > 0.3 * (Spectrum.GridSum(mag) + 0.000001);
  }

  /** A uniform page's energy, all of it inside the low-frequency block. */
  lemma FlatEnergies(dc: real, rows: nat, cols: nat)
    requires dc >= 0.0 && rows >= 4 && cols >= 4
    ensures Spectrum.GridSum(FlatSpectrum(dc, rows, cols)) == dc
    ensures QuarterEnergy(FlatSpectrum(dc, rows, cols), rows, cols, rows / 2, cols / 2) == dc
  {
    FlatTotal(dc, rows, cols);
    FlatQuarter(dc, rows, cols);
  }

  lemma FlatTotal(dc: real, rows: nat, cols: nat)
    requires dc >= 0.0 && rows >= 4 && cols >= 4
    ensures Spectrum.GridSum(FlatSpectrum(dc, rows, cols)) == dc
  {
    FlatIsSingle(dc, rows, cols, rows / 2, cols / 2);
    GridSumSingle(FlatSpectrum(dc, rows, cols), rows, cols, rows / 2, cols / 2);
  }

  lemma FlatQuarter(dc: real, rows: nat, cols: nat)
    requires dc >= 0.0 && rows >= 4 && cols >= 4
    ensures QuarterEnergy(FlatSpectrum(dc, rows, cols), rows, cols, rows / 2, cols / 2) == dc
  {
    var (k, l) := (rows / 2, cols / 2);
    FlatIsSingle(dc, rows, cols, k, l);
    QuarterHoldsCentre(rows);
    QuarterHoldsCentre(cols);
    SingleMasked(FlatSpectrum(dc, rows, cols), rows, cols, k, l, k, k + rows / 4, l, l + cols / 4);
  }

  /** The uniform page's spectrum is zero except at (k, l), where it is dc. */
  lemma FlatIsSingle(dc: real, rows: nat, cols: nat, k: nat, l: nat)
    requires dc >= 0.0 && k == rows / 2 && l == cols / 2 && rows > 0 && cols > 0
    ensures var m := FlatSpectrum(dc, rows, cols);
      k < rows && l < cols && m[k][l] == dc &&
      forall i, j :: 0 <= i < rows && 0 <= j < cols && (i != k || j != l) ==> m[i][j] == 0.0
  {
  }

  /** From four rows up the block starting at the centre row is non-empty. */
  lemma QuarterHoldsCentre(n: nat)
    requires n >= 4
    ensures n / 2 < n / 2 + n / 4 <= n
  {
  }

  /** Masking a rectangle that holds the one non-zero entry keeps the sum. */
  lemma SingleMasked(g: RealGrid, rows: nat, cols: nat, k: nat, l: nat, r0: nat, r1: nat, c0: nat, c1: nat)
    requires IsGrid(g, rows, cols) && k < rows && l < cols
    requires r0 <= k < r1 && c0 <= l < c1
    requires forall i, j :: 0 <= i < rows && 0 <= j < cols && (i != k || j != l) ==> g[i][j] == 0.0
    ensures Spectrum.GridSum(RectMasked(g, rows, cols, r0, r1, c0, c1)) == g[k][l]
  {
    GridSumSingle(RectMasked(g, rows, cols, r0, r1, c0, c1), rows, cols, k, l);
  }

  datatype DetectMeta = DetectMeta(gridDetected: bool, gridLineCount: nat, stampCount: nat, watermarkRatio: real)

  /** The verdict and metadata of detect for a given watermark ratio: the
      decision uses the exact ratio, the metadata the ratio rounded to three
      decimals. */
  function Decide(lines: Option<nat>, areas: seq<real>, ratio: real): (r: (bool, DetectMeta))
    requires 0.0 <= ratio < 1.0
    ensures r.1.gridDetected <==> GridLineCount(lines) > 10
    ensures r.1.gridLineCount == GridLineCount(lines)
    ensures r.1.stampCount == Count(areas, StampSized) && r.1.stampCount <= |areas|
    ensures r.1.watermarkRatio == Round(ratio, 1000)
    ensures 0.0 <= r.1.watermarkRatio <= 1.0
    ensures r.0 <==> r.1.gridDetected || r.1.stampCount > 2 || ratio > 0.3
  {
    RoundUnit(ratio, 1000);
    CountBound(areas, StampSized);
    var grid := lines.Some? && lines.value > 10;
    var stamps := Count(areas, StampSized);
    (grid || stamps > 2 || ratio > 0.3, DetectMeta(grid, GridLineCount(lines), stamps, Round(ratio, 1000)))
  }

  /** DeRasterModule.detect as written. `lines` are the Hough lines of the
      Canny edges of the gray page, `areas` the contour areas of gray > 127,
      `mag` the shifted FFT magnitude of the rows x cols gray page, whose
      top-left quarter gives the watermark ratio. */
  function Detect(lines: Option<nat>, areas: seq<real>, mag: RealGrid, rows: nat, cols: nat): (r: (bool, DetectMeta))
    requires IsGrid(mag, rows, cols) && Spectrum.NonNegative(mag)
    ensures r.1.gridDetected <==> GridLineCount(lines) > 10
    ensures r.1.gridLineCount == GridLineCount(lines)
    ensures r.1.stampCount == Count(areas, StampSized) && r.1.stampCount <= |areas|
    ensures r.1.watermarkRatio == Round(WatermarkRatioAsWritten(mag, rows, cols), 1000)
    ensures 0.0 <= r.1.watermarkRatio <= 1.0
    ensures r.0 <==> r.1.gridDetected || r.1.stampCount > 2 || WatermarkRatioAsWritten(mag, rows, cols) > 0.3
  {
    Decide(lines, areas, WatermarkRatioAsWritten(mag, rows, cols))
  }

  /** detect with the ratio taken over the low-frequency block. */
  function DetectCorrected(lines: Option<nat>, areas: seq<real>, mag: RealGrid, rows: nat, cols: nat): (r: (bool, DetectMeta))
    requires IsGrid(mag, rows, cols) && Spectrum.NonNegative(mag)
    ensures r.1.gridDetected <==> GridLineCount(lines) > 10
    ensures r.1.gridLineCount == GridLineCount(lines)
    ensures r.1.stampCount == Count(areas, StampSized) && r.1.stampCount <= |areas|
    ensures r.1.watermarkRatio == Round(WatermarkRatio(mag, rows, cols), 1000)
    ensures 0.0 <= r.1.watermarkRatio <= 1.0
    ensures r.0 <==> r.1.gridDetected || r.1.stampCount > 2 || WatermarkRatio(mag, rows, cols) > 0.3
  {
    Decide(lines, areas, WatermarkRatio(mag, rows, cols))
  }

  /** As written, detect passes over a uniform page that has no grid and at
      most two stamps, and reports a watermark ratio of 0. */
  lemma FlatPageMissed(lines: Option<nat>, areas: seq<real>, dc: real, rows: nat, cols: nat)
    requires dc >= 0.0 && GridLineCount(lines) <= 10 && Count(areas, StampSized) <= 2
    ensures var r := Detect(lines, areas, FlatSpectrum(dc, rows, cols), rows, cols);
      !r.0 && r.1.watermarkRatio == 0.0
  {
    AsWrittenMissesFlatPage(dc, rows, cols);
    assert Nearest(0.0 * 1000.0) == 0;
  }

  /** The corrected detect flags the same page once its brightness is 1 or
      more and both sides are at least 4 pixels. */
  lemma FlatPageDetected(lines: Option<nat>, areas: seq<real>, dc: real, rows: nat, cols: nat)
    requires dc >= 1.0 && rows >= 4 && cols >= 4
    ensures DetectCorrected(lines, areas, FlatSpectrum(dc, rows, cols), rows, cols).0
  {
    FlatPageIsLowFrequency(dc, rows, cols);
  }

  // -------------------------------------------------------------- process

  /** sigma = max(rows, cols) // 6 of the Gaussian high-pass filter. */
  function HighPassSigma(rows: nat, cols: nat): (s: nat)
    ensures 6 * s <= (if rows >= cols then rows else cols) < 6 * (s + 1)
  {
    (if rows >= cols then rows else cols) / 6
  }

  /** The library steps of process. `gridMask` is the union of the 30x1 and
      1x30 openings of the Canny edges of a gray page; `stampMask` the filled
      stamp contours dilated twice by a 7x7 ellipse; `inpaint` Telea
      inpainting (radius 3) of the page under a mask, in the page's channel
      count; `highPass` multiplies the shifted spectrum of a gray page by
      1 - exp(-D^2 / 2 sigma^2) for the given sigma, inverts it and
      stretches it to 0..255. */
  datatype Filters = Filters(
    luma: (int, int, int) -> int,
    gridMask: Grid -> Grid,
    stampMask: Grid -> Grid,
    inpaint: (Image, Grid) -> (nat, nat, nat) -> int,
    highPass: (Grid, nat) -> Grid)

  datatype ProcessMeta = ProcessMeta(gridRemoved: bool, stampsRemoved: bool, watermarkRemoved: bool)
  // method "Hough_lines + Contour + FFT"

  function Inpainted(page: Image, mask: Grid, f: Filters): (r: Image)
    requires page.Valid()
    ensures r.Valid() && SameShape(r, page)
  {
    Sampled(page.h, page.w, |page.planes|, f.inpaint(page, Fit(mask, page.h, page.w)))
  }

  /** _remove_watermark: the high-passed gray of the page, in the page's
      channel count. */
  function RemoveWatermark(page: Image, f: Filters): (r: Image)
    requires page.Valid()
    ensures r.Valid() && SameShape(r, page)
    ensures forall c :: 0 <= c < |r.planes| ==>
      r.planes[c] == Fit(f.highPass(GrayOf(page, f.luma), HighPassSigma(page.h, page.w)), page.h, page.w)
  {
    var g := Fit(f.highPass(GrayOf(page, f.luma), HighPassSigma(page.h, page.w)), page.h, page.w);
    if page.IsColor() then ToBgr(g, page.h, page.w) else FromGray(g, page.h, page.w)
  }

  /** DeRasterModule.process: grid lines, then stamps (both masks from the
      gray of the input page), then the watermark (from the gray of the
      result so far), each gated by the metadata; the watermark gate reads
      the ROUNDED ratio. */
  function Process(img: Image, meta: DetectMeta, f: Filters): (r: (Image, ProcessMeta))
    requires img.Valid()
    ensures r.0.Valid() && SameShape(r.0, img)
    ensures r.1.gridRemoved == meta.gridDetected
    ensures r.1.stampsRemoved <==> meta.stampCount > 2
    ensures r.1.watermarkRemoved <==> meta.watermarkRatio > 0.3
    ensures !meta.gridDetected && meta.stampCount <= 2 && meta.watermarkRatio <= 0.3 ==> r.0 == img
    ensures meta.gridDetected && meta.stampCount <= 2 && meta.watermarkRatio <= 0.3 ==>
      r.0 == Inpainted(img, f.gridMask(GrayOf(img, f.luma)), f)
    ensures !meta.gridDetected && meta.stampCount > 2 && meta.watermarkRatio <= 0.3 ==>
      r.0 == Inpainted(img, f.stampMask(GrayOf(img, f.luma)), f)
    ensures meta.gridDetected && meta.stampCount > 2 && meta.watermarkRatio <= 0.3 ==>
      r.0 == Inpainted(Inpainted(img, f.gridMask(GrayOf(img, f.luma)), f), f.stampMask(GrayOf(img, f.luma)), f)
    ensures !meta.gridDetected && meta.stampCount <= 2 && meta.watermarkRatio > 0.3 ==>
      r.0 == RemoveWatermark(img, f)
    ensures meta.gridDetected && meta.stampCount <= 2 && meta.watermarkRatio > 0.3 ==>
      r.0 == RemoveWatermark(Inpainted(img, f.gridMask(GrayOf(img, f.luma)), f), f)
    ensures !meta.gridDetected && meta.stampCount > 2 && meta.watermarkRatio > 0.3 ==>
      r.0 == RemoveWatermark(Inpainted(img, f.stampMask(GrayOf(img, f.luma)), f), f)
    ensures meta.gridDetected && meta.stampCount > 2 && meta.watermarkRatio > 0.3 ==>
      r.0 == RemoveWatermark(Inpainted(Inpainted(img, f.gridMask(GrayOf(img, f.luma)), f), f.stampMask(GrayOf(img, f.luma)), f), f)
  {
    var gray := GrayOf(img, f.luma);
    var r1 := if meta.gridDetected then Inpainted(img, f.gridMask(gray), f) else img;
    var r2 := if meta.stampCount > 2 then Inpainted(r1, f.stampMask(gray), f) else r1;
    var r3 := if meta.watermarkRatio > 0.3 then RemoveWatermark(r2, f) else r2;
    (r3, ProcessMeta(meta.gridDetected, meta.stampCount > 2, meta.watermarkRatio > 0.3))
  }

  /** Rounding the ratio for the metadata loses the decision: a ratio of
      0.3004 passes detect's test yet rounds to 0.3, which fails process's. */
  lemma RoundingHidesWatermark()
    ensures 0.3004 > 0.3 && Round(0.3004, 1000) == 0.3
  {
    assert Nearest(0.3004 * 1000.0) == 300;
  }

  /** A page flagged by detect for its watermark ratio alone, with a ratio
      that rounds down to 0.3, comes back from process unchanged and with
      every flag down. */
  lemma DetectedButUntouched(lines: Option<nat>, areas: seq<real>, mag: RealGrid, rows: nat, cols: nat, img: Image, f: Filters)
    requires IsGrid(mag, rows, cols) && Spectrum.NonNegative(mag) && img.Valid()
    requires GridLineCount(lines) <= 10 && Count(areas, StampSized) <= 2
    requires WatermarkRatioAsWritten(mag, rows, cols) > 0.3 && Round(WatermarkRatioAsWritten(mag, rows, cols), 1000) <= 0.3
    ensures Detect(lines, areas, mag, rows, cols).0
    ensures Process(img, Detect(lines, areas, mag, rows, cols).1, f) == (img, ProcessMeta(false, false, false))
  {
  }
}

=== FILE: denoise.dfy ===
/** DenoiseModule of autoocr/api/modules/denoise.py: always runs; removes
    background dots (adaptive threshold, opening, median) and then applies
    non-local-means denoising whose strength follows the measured noise,
    falling back to a median blur when that call raises. The statistics and
    every filter are library work and arrive as inputs. */
module Denoise {
  import opened Wrappers
  import opened Raster
  import Config

  datatype DetectMeta = DetectMeta(
    laplacianVariance: real,
    noiseLevel: real,
    highNoise: bool,
    blurry: bool)

  /** DenoiseModule.detect: always runs. `noiseLevel` is the mean absolute
      difference between the gray page and its 3x3 blur. */
  function Detect(laplacianVariance: real, noiseLevel: real): (r: (bool, DetectMeta))
    ensures r.0
    ensures r.1.laplacianVariance == laplacianVariance && r.1.noiseLevel == noiseLevel
    ensures r.1.highNoise <==> noiseLevel > Config.NoiseLevelThreshold
    ensures r.1.blurry <==> laplacianVariance < Config.LaplacianVarianceNoiseThreshold
  {
    (true, DetectMeta(laplacianVariance, noiseLevel, noiseLevel > Config.NoiseLevelThreshold,
                      laplacianVariance < Config.LaplacianVarianceNoiseThreshold))
  }

  /** The filter strength h = hColor of fastNlMeansDenoisingColored. */
  function Strength(meta: DetectMeta): (s: nat)
    ensures s == 10 || s == 5
    ensures s == 10 <==> meta.highNoise
  {
    if meta.highNoise then 10 else 5
  }

  /** The aperture of the fallback median blur. */
  function FallbackKernel(meta: DetectMeta): (k: nat)
    ensures k == 5 || k == 3
    ensures k == 5 <==> meta.highNoise
  {
    if meta.highNoise then 5 else 3
  }

  /** Both paths denoise harder on exactly the same pages. */
  lemma StrongerTogether(meta: DetectMeta)
    ensures Strength(meta) == 10 <==> FallbackKernel(meta) == 5
  {
  }

  datatype ProcessMeta =
    | NlMeans(strength: nat, dotsRemoved: bool)      // method "fastNlMeans + dots_removal"
    | MedianFallback(kernel: nat, dotsRemoved: bool) // method "median_fallback + dots_removal"

  /** dots_cleaned: the dot-removed gray plane as a three-channel page
      (GRAY2BGR). */
  function DotsCleaned(img: Image, smoothed: Grid): (r: Image)
    requires img.Valid()
    ensures r.Valid() && r.IsColor() && r.h == img.h && r.w == img.w
    ensures forall c :: 0 <= c < 3 ==> r.planes[c] == Fit(smoothed, img.h, img.w)
  {
    ToBgr(Fit(smoothed, img.h, img.w), img.h, img.w)
  }

  /** DenoiseModule.process. `smoothed` is the dot-removed gray page
      (adaptive mean threshold, 2x2 opening twice, 3x3 median);
      `nlMeans` denoises a colour page at a strength, None when the call
      raises; `median` a median blur at an aperture. Both paths start from
      the dot-removed gray page, so the page's own colours never reach the
      result. */
  function Process(img: Image, meta: DetectMeta, smoothed: Grid,
                   nlMeans: (Image, nat) -> Option<(nat, nat, nat) -> int>, median: (Grid, nat) -> Grid)
    : (r: (Image, ProcessMeta))
    requires img.Valid() && img.IsColor()
    ensures r.0.Valid() && r.0.IsColor() && SameShape(r.0, img)
    ensures r.1.dotsRemoved
    ensures r.1.NlMeans? <==> nlMeans(DotsCleaned(img, smoothed), Strength(meta)).Some?
    ensures r.1.NlMeans? ==>
      && r.1.strength == Strength(meta)
      && r.0 == Sampled(img.h, img.w, 3, nlMeans(DotsCleaned(img, smoothed), Strength(meta)).value)
    ensures r.1.MedianFallback? ==> (
      var m := Fit(median(Fit(smoothed, img.h, img.w), FallbackKernel(meta)), img.h, img.w);
      r.1.kernel == FallbackKernel(meta) && r.0.planes == [m, m, m])
  {
    var s := Strength(meta);
    match nlMeans(DotsCleaned(img, smoothed), s)
    case Some(pixels) => (Sampled(img.h, img.w, 3, pixels), NlMeans(s, true))
    case None =>
      var k := FallbackKernel(meta);
      var m := Fit(median(Fit(smoothed, img.h, img.w), k), img.h, img.w);
      (ToBgr(m, img.h, img.w), MedianFallback(k, true))
  }

  /** Whichever path runs, it runs at the harder setting (strength 10 or
      aperture 5) exactly when the measured noise is above the threshold,
      and the fallback's plane is the median at the aperture it reports. */
  lemma NoiseSetsStrength(img: Image, laplacianVariance: real, noiseLevel: real, smoothed: Grid,
                          nlMeans: (Image, nat) -> Option<(nat, nat, nat) -> int>, median: (Grid, nat) -> Grid)
    requires img.Valid() && img.IsColor()
    ensures var r := Process(img, Detect(laplacianVariance, noiseLevel).1, smoothed, nlMeans, median);
      && (((r.1.NlMeans? && r.1.strength == 10) || (r.1.MedianFallback? && r.1.kernel == 5)) <==>
            noiseLevel > Config.NoiseLevelThreshold)
      && (r.1.MedianFallback? ==>
            r.0.planes[0] == Fit(median(Fit(smoothed, img.h, img.w), r.1.kernel), img.h, img.w))
  {
  }

  /** The page's own pixels never reach the result: two pages of the same
      size with the same dot-removed gray plane come out identical. */
  lemma ColourDropped(a: Image, b: Image, meta: DetectMeta, smoothed: Grid,
                      nlMeans: (Image, nat) -> Option<(nat, nat, nat) -> int>, median: (Grid, nat) -> Grid)
    requires a.Valid() && a.IsColor() && b.Valid() && b.IsColor() && a.h == b.h && a.w == b.w
    ensures Process(a, meta, smoothed, nlMeans, median) == Process(b, meta, smoothed, nlMeans, median)
  {
  }
}

=== FILE: deskew.dfy ===
/** DeskewModule of autoocr/api/modules/deskew.py: the skew of the text is
    the angle of the minimum-area rectangle around the dark pixels of an
    Otsu-binarised page, folded into a small angle, and the page is rotated
    back about its centre when that angle exceeds SKEW_DEGREE_MIN. The Otsu
    binarisation, cv2.minAreaRect and the affine warp are library work. */
module Deskew {
  import opened Raster
  import Config

  datatype DetectMeta =
    | NoTextPixels             // reason "no_text_pixels"
    | Measured(angle: real)

  /** minAreaRect reports angles in a quarter-turn range; one below -45
      degrees describes the same rectangle as 90 + angle. */
  function Normalize(raw: real): (a: real)
    ensures a == raw || a == raw + 90.0
    ensures raw >= -45.0 ==> a == raw
    ensures -135.0 <= raw ==> a >= -45.0
    ensures -90.0 <= raw < 0.0 ==> -45.0 <= a < 45.0
  {
    if raw < -45.0 then 90.0 + raw else raw
  }

  /** |angle| > SKEW_DEGREE_MIN. */
  predicate Significant(angle: real) {
    angle > Config.SkewDegreeMin || angle < -Config.SkewDegreeMin
  }

  /** The text pixels: where 255 - thresh is positive. */
  function TextPixels(thresh: Grid, h: nat, w: nat): nat
    requires IsGrid(thresh, h, w)
  {
    PixelCount(h, w, (i: nat, j: nat) => i < |thresh| && j < |thresh[i]| && 255 - thresh[i][j] > 0)
  }

  /** DeskewModule.detect, given the Otsu-thresholded blurred page and the
      angle minAreaRect reports for its text pixels. */
  function Detect(thresh: Grid, h: nat, w: nat, rectAngle: real): (r: (bool, DetectMeta))
    requires IsGrid(thresh, h, w)
    ensures TextPixels(thresh, h, w) == 0 <==> r.1 == NoTextPixels
    ensures r.1 == NoTextPixels ==> !r.0
    ensures r.1.Measured? ==> r.1.angle == Normalize(rectAngle) && (r.0 <==> Significant(r.1.angle))
  {
    if TextPixels(thresh, h, w) == 0 then (false, NoTextPixels)
    else
      var angle := Normalize(rectAngle);
      (Significant(angle), Measured(angle))
  }

  /** A page whose binarisation is all white has no text to measure. */
  lemma BlankPageDeclines(h: nat, w: nat, rectAngle: real)
    ensures Detect(Tabulate(h, w, (i: nat, j: nat) => 255), h, w, rectAngle) == (false, NoTextPixels)
  {
    var t := Tabulate(h, w, (i: nat, j: nat) => 255);
    var p := (i: nat, j: nat) => i < |t| && j < |t[i]| && 255 - t[i][j] > 0;
    var always := (i: nat, j: nat) => true;
    assert forall i: nat, j: nat :: always(i, j) == !p(i, j);
    PixelCountComplement(h, w, p, always);
    AllPixels(h, w);
  }

  /** Every pixel satisfies the constantly true mask. */
  lemma AllPixels(h: nat, w: nat)
    ensures PixelCount(h, w, (i: nat, j: nat) => true) == h * w
  {
    var m := Tabulate(h, w, (i: nat, j: nat) => true);
    FlattenLength(m, h, w);
    var f := Flatten(m);
    forall k | 0 <= k < |f| ensures f[k] {
      FlattenMembers(m, f[k]);
    }
    CountAll(f, (b: bool) => b);
  }

  datatype ProcessMeta =
    | NotApplied                 // applied False
    | Deskewed(angle: real)      // applied True, deskew_angle

  /** The angle process reads: detect_meta.get("angle", 0.0). */
  function MetaAngle(meta: DetectMeta): real {
    if meta.Measured? then meta.angle else 0.0
  }

  /** cv2.warpAffine of the page under getRotationMatrix2D(center, angle, 1.0),
      cubic with replicated borders: pixel (c, i, j) of the rotated page. */
  type Warp = ((nat, nat), real) -> (nat, nat, nat) -> int

  /** DeskewModule.process: a small angle leaves the page alone; otherwise
      the page is rotated by the angle about (w // 2, h // 2) into an image
      of the same size, and only the angle is reported. */
  function Process(img: Image, meta: DetectMeta, warp: Warp): (r: (Image, ProcessMeta))
    requires img.Valid()
    ensures r.0.Valid() && SameShape(r.0, img)
    ensures !Significant(MetaAngle(meta)) ==> r == (img, NotApplied)
    ensures Significant(MetaAngle(meta)) ==>
      && r.1 == Deskewed(MetaAngle(meta))
      && r.0 == Sampled(img.h, img.w, |img.planes|, warp((img.w / 2, img.h / 2), MetaAngle(meta)))
  {
    var angle := MetaAngle(meta);
    if !Significant(angle) then (img, NotApplied)
    else
      var center := (img.w / 2, img.h / 2);
      (Sampled(img.h, img.w, |img.planes|, warp(center, angle)), Deskewed(angle))
  }

  /** The gate of process agrees with detect: the rotation happens exactly
      when detect asked for it. */
  lemma ProcessFollowsDetect(img: Image, thresh: Grid, rectAngle: real, warp: Warp)
    requires img.Valid() && IsGrid(thresh, img.h, img.w)
    ensures var d := Detect(thresh, img.h, img.w, rectAngle);
      Process(img, d.1, warp).1.Deskewed? <==> d.0
  {
  }
}

=== FILE: dots_removal.dfy ===
/** DotsRemovalModule of autoocr/api/modules/dots_removal.py: counts small
    specks on the page and rebuilds the page from the connected components
    large enough to be text. Thresholds, morphology, labelling and the
    final median blur are library work and arrive as inputs; the counting,
    the density rule and the component filter are modelled exactly. */
module DotsRemoval {
  import opened Raster
  import opened Components

  /** A detected dot has 5 < area < 20 pixels. */
  predicate DotSized(area: nat) { 5 < area < 20 }

  /** Components of at least this many pixels survive process. */
  const MinAreaKept: nat := 15

  function Dots(areas: seq<nat>): (n: nat)
    ensures n <= |areas|
  {
    CountBound(areas, DotSized);
    Count(areas, DotSized)
  }

  datatype DetectMeta = DetectMeta(smallComponents: nat, dotsDensity: real, thresholdDetection: string)

  /** small_dots / (total_pixels / 10000): dots per 100 x 100 pixels. */
  function Density(dots: nat, pixels: nat): (d: real)
    requires pixels > 0
    ensures d >= 0.0
  {
    dots as real / (pixels as real / 10000.0)
  }

  /** The density test without division. */
  lemma DensityTest(dots: nat, pixels: nat)
    requires pixels > 0
    ensures Density(dots, pixels) > 2.0 <==> 10000 * dots > 2 * pixels
  {
    var q := pixels as real / 10000.0;
    assert q > 0.0;
    assert Density(dots, pixels) * q == dots as real;
    ScaleOrder(2.0, Density(dots, pixels), q);
  }

  /** DotsRemovalModule.detect on a colour page of h x w pixels; `areas`
      are the component areas of the pixels at or below 200. */
  function Detect(h: nat, w: nat, areas: seq<nat>): (r: (bool, DetectMeta))
    requires h > 0 && w > 0
    ensures r.1.smallComponents == Dots(areas)
    ensures r.1.dotsDensity == Round(Density(Dots(areas), h * w), 100)
    ensures r.0 <==> Dots(areas) > 50 || 10000 * Dots(areas) > 2 * (h * w)
    ensures r.1.thresholdDetection == (if r.0 then "background_dots" else "clean")
  {
    var small := Dots(areas);
    var density := Density(small, h * w);
    DensityTest(small, h * w);
    var hasDots := small > 50 || density > 2.0;
    (hasDots, DetectMeta(small, Round(density, 100), if hasDots then "background_dots" else "clean"))
  }

  /** More than fifty dots always trigger, whatever the page size. */
  lemma ManyDotsTrigger(h: nat, w: nat, areas: seq<nat>)
    requires h > 0 && w > 0 && Dots(areas) > 50
    ensures Detect(h, w, areas).0
  {
  }

  // -------------------------------------------------------------- process

  predicate Kept(area: nat) { area >= MinAreaKept }

  /** The white canvas with every kept component painted black. */
  function Cleaned(l: Labelling, h: nat, w: nat): (g: Grid)
    requires WellFormed(l, h, w)
    ensures IsGrid(g, h, w) && TwoLevel(g)
    ensures forall i, j :: 0 <= i < h && 0 <= j < w ==>
      (g[i][j] == 0 <==> l.labels[i][j] > 0 && Kept(l.areas[l.labels[i][j] - 1]))
  {
    var keep := Keep(l, h, w, Kept);
    MapGrid(keep, (v: int) => 255 - v)
  }

  function Removed(l: Labelling): nat {
    Count(l.areas, (a: nat) => !Kept(a))
  }

  /** Every non-background component is either kept or counted as removed. */
  lemma KeptPlusRemoved(l: Labelling)
    ensures Count(l.areas, Kept) + Removed(l) == l.NumLabels() - 1
  {
    CountComplement(l.areas, Kept, (a: nat) => !Kept(a));
  }

  /** A dot as detect counts it (area below 20) may still be kept when its
      area is 15 to 19: the two size rules overlap. */
  lemma DotsCanSurvive()
    ensures DotSized(17) && Kept(17)
  {
  }

  const Stages: seq<string> := ["adaptive_threshold", "morphological_opening", "component_filtering", "median_blur"]

  datatype ProcessMeta = ProcessMeta(componentsRemoved: nat, minAreaKept: nat, stagesApplied: seq<string>)

  /** DotsRemovalModule.process: `l` labels the inverted opening of the
      adaptive threshold of the page; `median` is the 3x3 median blur. */
  function Process(img: Image, l: Labelling, median: Grid -> Grid): (r: (Image, ProcessMeta))
    requires img.Valid() && img.IsColor() && WellFormed(l, img.h, img.w)
    ensures r.0.Valid() && r.0.IsColor() && SameShape(r.0, img)
    ensures forall c :: 0 <= c < 3 ==> r.0.planes[c] == Fit(median(Cleaned(l, img.h, img.w)), img.h, img.w)
    ensures r.1 == ProcessMeta(Removed(l), MinAreaKept, Stages)
    ensures r.1.componentsRemoved + Count(l.areas, Kept) == l.NumLabels() - 1
  {
    KeptPlusRemoved(l);
    var final := Fit(median(Cleaned(l, img.h, img.w)), img.h, img.w);
    (ToBgr(final, img.h, img.w), ProcessMeta(Removed(l), MinAreaKept, Stages))
  }
}

=== FILE: edge_mask.dfy ===
/** EdgeMaskModule of autoocr/api/modules/edge_mask.py: a dark frame around the
    page is detected from the largest bright contour or from the darkness of
    thin strips along the edges, and is masked (painted white) rather than
    cropped. Contour finding and filling are library work: the largest
    external contour arrives as its area and its filled mask. */
module EdgeMask {
  import opened Wrappers
  import opened Raster

  /** The largest external contour of the page thresholded at 10:
      cv2.contourArea of it, and the mask drawContours fills with it
      (true inside). */
  datatype Contour = Contour(area: real, filled: seq<seq<bool>>)

  const DefaultAreaThreshold: real := 0.90

  /** Border pixels below this gray level count as dark. */
  const DarkLevel: int := 60

  /** The band width max(5, min(h, w) // 70). */
  function BandWidth(h: nat, w: nat): (band: nat)
    ensures band >= 5
    ensures band * 70 >= (if h <= w then h else w) - 69
    ensures band == 5 || band * 70 <= (if h <= w then h else w)
  {
    var m := if h <= w then h else w;
    if m / 70 > 5 then m / 70 else 5
  }

  /** A half-open range [lo, hi) of rows or columns. */
  datatype Span = Span(lo: nat, hi: nat) {
    predicate Valid() { lo <= hi }
    function Thickness(): nat requires Valid() { hi - lo }
  }

  /** `[:band]` along an axis of length n. */
  function LeadingSpan(n: nat, band: nat): (s: Span)
    ensures s.Valid() && s.lo == 0 && s.hi <= n
    ensures s.Thickness() == (if band <= n then band else n)
  {
    Span(0, if band <= n then band else n)
  }

  /** `[-band:]` along an axis of length n (band > 0, so never `[-0:]`). */
  function TrailingSpan(n: nat, band: nat): (s: Span)
    requires band > 0
    ensures s.Valid() && s.hi == n
    ensures s.Thickness() == (if band <= n then band else n)
  {
    Span(if band <= n then n - band else 0, n)
  }

  /** How narrow_strip halves a strip: the code keeps the first half along
      the axis; the outer half is what its comment describes. */
  datatype StripPolicy = FirstHalf | OuterHalf

  /** narrow_strip: a strip thicker than 3 keeps half of its thickness. */
  function Narrow(s: Span, atEnd: bool, policy: StripPolicy): (r: Span)
    requires s.Valid()
    ensures r.Valid() && s.lo <= r.lo && r.hi <= s.hi
    ensures r.Thickness() == (if s.Thickness() > 3 then s.Thickness() / 2 else s.Thickness())
  {
    var t := s.Thickness();
    if t <= 3 then s
    else if policy.OuterHalf? && atEnd then Span(s.hi - t / 2, s.hi)
    else Span(s.lo, s.lo + t / 2)
  }

  /** As written, the narrowed bottom and right strips never reach the last
      two rows (columns) of the page: the half kept is the one nearer the
      centre. */
  lemma FirstHalfMissesOuterEdge(n: nat, band: nat)
    requires band > 3 && n > 3
    ensures Narrow(TrailingSpan(n, band), true, FirstHalf).hi <= n - 2
  {
  }

  /** A 700 x 700 page: band 10, bottom strip rows 690..699, and only rows
      690..694 are examined. */
  lemma FirstHalfExample()
    ensures BandWidth(700, 700) == 10
    ensures TrailingSpan(700, 10) == Span(690, 700)
    ensures Narrow(TrailingSpan(700, 10), true, FirstHalf) == Span(690, 695)
  {
  }

  /** The corrected policy keeps the outermost row or column of every strip,
      with the same thickness as the code's. */
  lemma OuterHalfKeepsEdge(n: nat, band: nat)
    requires band > 0 && n > 0
    ensures var r := Narrow(LeadingSpan(n, band), false, OuterHalf);
      r.lo == 0 && r.hi > 0
    ensures var r := Narrow(TrailingSpan(n, band), true, OuterHalf);
      r.hi == n && r.lo < n
    ensures Narrow(TrailingSpan(n, band), true, OuterHalf).Thickness() ==
      Narrow(TrailingSpan(n, band), true, FirstHalf).Thickness()
  {
  }

  /** The concatenation of the four narrowed strips (top, bottom, left,
      right), flattened. */
  function BorderPixels(gray: Grid, h: nat, w: nat, band: nat, policy: StripPolicy): (s: seq<int>)
    requires IsGrid(gray, h, w) && band > 0
    ensures h > 0 && w > 0 ==> |s| > 0
  {
    TopStripNonEmpty(gray, h, w, band, policy);
    TopStrip(gray, h, w, band, policy) + OtherStrips(gray, h, w, band, policy)
  }

  /** The narrowed top strip. */
  function TopStrip(gray: Grid, h: nat, w: nat, band: nat, policy: StripPolicy): seq<int>
    requires IsGrid(gray, h, w) && band > 0
  {
    var top := Narrow(LeadingSpan(h, band), false, policy);
    Window(gray, h, w, top.lo, top.hi, 0, w)
  }

  /** The top strip is never empty on a non-empty page. */
  lemma TopStripNonEmpty(gray: Grid, h: nat, w: nat, band: nat, policy: StripPolicy)
    requires IsGrid(gray, h, w) && band > 0
    ensures h > 0 && w > 0 ==> |TopStrip(gray, h, w, band, policy)| > 0
  {
    if h > 0 && w > 0 {
      var top := Narrow(LeadingSpan(h, band), false, policy);
      TopNonEmpty(h, band, policy);
      assert TopStrip(gray, h, w, band, policy) == Window(gray, h, w, 0, top.hi, 0, w);
      WindowNonEmpty(gray, h, w, 0, top.hi, 0, w);
    }
  }

  lemma TopNonEmpty(h: nat, band: nat, policy: StripPolicy)
    requires band > 0
    ensures var top := Narrow(LeadingSpan(h, band), false, policy);
      top.lo == 0 && top.hi <= h && (h > 0 ==> 0 < top.hi)
  {
  }

  lemma WindowNonEmpty(g: Grid, h: nat, w: nat, r0: nat, r1: nat, c0: nat, c1: nat)
    requires IsGrid(g, h, w) && r0 <= r1 <= h && c0 <= c1 <= w
    ensures r0 < r1 && c0 < c1 ==> |Window(g, h, w, r0, r1, c0, c1)| > 0
  {
    if r0 < r1 && c0 < c1 {
      MulPositive(r1 - r0, c1 - c0);
    }
  }

  /** The narrowed bottom, left and right strips. */
  function OtherStrips(gray: Grid, h: nat, w: nat, band: nat, policy: StripPolicy): seq<int>
    requires IsGrid(gray, h, w) && band > 0
  {
    var bottom := Narrow(TrailingSpan(h, band), true, policy);
    var left := Narrow(LeadingSpan(w, band), false, policy);
    var right := Narrow(TrailingSpan(w, band), true, policy);
    Window(gray, h, w, bottom.lo, bottom.hi, 0, w) +
    Window(gray, h, w, 0, h, left.lo, left.hi) + Window(gray, h, w, 0, h, right.lo, right.hi)
  }

  /** gray[band:-band, band:-band] when both sides exceed 2 * band, otherwise
      the whole page. */
  function CenterPixels(gray: Grid, h: nat, w: nat, band: nat): (s: seq<int>)
    requires IsGrid(gray, h, w)
    ensures h > 0 && w > 0 ==> |s| > 0
  {
    if h > 2 * band && w > 2 * band then Window(gray, h, w, band, h - band, band, w - band)
    else Window(gray, h, w, 0, h, 0, w)
  }

  predicate IsDark(v: int) { v < DarkLevel }

  datatype DetectMeta = DetectMeta(
    imageArea: nat,
    contourArea: real,
    areaRatio: real,
    hasBorderContour: bool,
    borderMean: real,
    centerMean: real,
    contrast: real,
    thinBorder: bool,
    darkFraction: real)

  /** The thin-border heuristic on the strip statistics. */
  predicate ThinBorder(contrast: real, darkFraction: real) {
    (contrast > 20.0 && darkFraction > 0.15) || darkFraction > 0.35
  }

  /** Mean of the strips, mean of the centre, and the dark fraction of the
      strips. */
  datatype StripStats = StripStats(borderMean: real, centerMean: real, darkFraction: real)

  function Strips(gray: Grid, h: nat, w: nat, policy: StripPolicy): (s: StripStats)
    requires IsGrid(gray, h, w) && h > 0 && w > 0
    ensures 0.0 <= s.darkFraction <= 1.0
    ensures var border := BorderPixels(gray, h, w, BandWidth(h, w), policy);
      s.darkFraction == Ratio(Count(border, IsDark), |border|)
    ensures s.borderMean == Mean(BorderPixels(gray, h, w, BandWidth(h, w), policy))
    ensures s.centerMean == Mean(CenterPixels(gray, h, w, BandWidth(h, w)))
  {
    var band := BandWidth(h, w);
    var border := BorderPixels(gray, h, w, band, policy);
    var center := CenterPixels(gray, h, w, band);
    CountBound(border, IsDark);
    StripStats(Mean(border), Mean(center), Ratio(Count(border, IsDark), |border|))
  }

  /** EdgeMaskModule.detect on a BGR page (cvtColor rejects an empty one). */
  function Detect(img: Image, luma: (int, int, int) -> int, contour: Option<Contour>,
                  areaThreshold: real, policy: StripPolicy): (r: (bool, DetectMeta))
    requires img.Valid() && img.IsColor() && img.NonEmpty()
    ensures r.0 <==> r.1.hasBorderContour || r.1.thinBorder
    ensures r.1.imageArea == img.h * img.w
    ensures contour.None? ==> !r.1.hasBorderContour && r.1.areaRatio == 0.0 && r.1.contourArea == 0.0
    ensures contour.Some? ==> (r.1.contourArea == contour.value.area &&
      r.1.areaRatio == Quotient(contour.value.area, img.h * img.w) &&
      (r.1.hasBorderContour <==> r.1.areaRatio < areaThreshold))
    ensures r.1.thinBorder <==> ThinBorder(r.1.contrast, r.1.darkFraction)
    ensures r.1.contrast == r.1.centerMean - r.1.borderMean
    ensures r.1.darkFraction == Strips(GrayOf(img, luma), img.h, img.w, policy).darkFraction
    ensures r.1.borderMean == Strips(GrayOf(img, luma), img.h, img.w, policy).borderMean
    ensures r.1.centerMean == Strips(GrayOf(img, luma), img.h, img.w, policy).centerMean
  {
    var area := img.h * img.w;
    var (contourArea, ratio, hasBorder) :=
      if contour.Some? then
        var q := Quotient(contour.value.area, area);
        (contour.value.area, q, q < areaThreshold)
      else (0.0, 0.0, false);
    var s := Strips(GrayOf(img, luma), img.h, img.w, policy);
    var contrast := s.centerMean - s.borderMean;
    var thin := ThinBorder(contrast, s.darkFraction);
    (hasBorder || thin, DetectMeta(area, contourArea, ratio, hasBorder, s.borderMean, s.centerMean,
                                   contrast, thin, s.darkFraction))
  }

  /** On a page of one gray level the strips and the centre share that
      level as their mean, so the contrast is zero and only the dark
      fraction can make the border thin. */
  lemma UniformPageNoContrast(gray: Grid, h: nat, w: nat, policy: StripPolicy, v: int)
    requires IsGrid(gray, h, w) && h > 0 && w > 0
    requires forall i, j :: 0 <= i < h && 0 <= j < w ==> gray[i][j] == v
    ensures var s := Strips(gray, h, w, policy);
      s.borderMean == v as real && s.centerMean == v as real
  {
    var band := BandWidth(h, w);
    var border := BorderPixels(gray, h, w, band, policy);
    var center := CenterPixels(gray, h, w, band);
    UniformBorder(gray, h, w, band, policy, v);
    SumOfEquals(border, v);
    MeanOfEquals(border, v);
    UniformCenter(gray, h, w, band, v);
    SumOfEquals(center, v);
    MeanOfEquals(center, v);
  }

  lemma UniformWindow(gray: Grid, h: nat, w: nat, r0: nat, r1: nat, c0: nat, c1: nat, v: int)
    requires IsGrid(gray, h, w) && r0 <= r1 <= h && c0 <= c1 <= w
    requires forall i, j :: 0 <= i < h && 0 <= j < w ==> gray[i][j] == v
    ensures Count(Window(gray, h, w, r0, r1, c0, c1), Equals(v)) == |Window(gray, h, w, r0, r1, c0, c1)|
  {
    WindowAll(gray, h, w, r0, r1, c0, c1, Equals(v));
  }

  lemma UniformBorder(gray: Grid, h: nat, w: nat, band: nat, policy: StripPolicy, v: int)
    requires IsGrid(gray, h, w) && band > 0
    requires forall i, j :: 0 <= i < h && 0 <= j < w ==> gray[i][j] == v
    ensures Count(BorderPixels(gray, h, w, band, policy), Equals(v)) == |BorderPixels(gray, h, w, band, policy)|
  {
    var top := Narrow(LeadingSpan(h, band), false, policy);
    var bottom := Narrow(TrailingSpan(h, band), true, policy);
    var left := Narrow(LeadingSpan(w, band), false, policy);
    var right := Narrow(TrailingSpan(w, band), true, policy);
    var t := Window(gray, h, w, top.lo, top.hi, 0, w);
    var b := Window(gray, h, w, bottom.lo, bottom.hi, 0, w);
    var l := Window(gray, h, w, 0, h, left.lo, left.hi);
    var r := Window(gray, h, w, 0, h, right.lo, right.hi);
    UniformWindow(gray, h, w, top.lo, top.hi, 0, w, v);
    UniformWindow(gray, h, w, bottom.lo, bottom.hi, 0, w, v);
    UniformWindow(gray, h, w, 0, h, left.lo, left.hi, v);
    UniformWindow(gray, h, w, 0, h, right.lo, right.hi, v);
    CountAppend(b, l, Equals(v));
    CountAppend(b + l, r, Equals(v));
    CountAppend(t, b + l + r, Equals(v));
  }

  lemma UniformCenter(gray: Grid, h: nat, w: nat, band: nat, v: int)
    requires IsGrid(gray, h, w)
    requires forall i, j :: 0 <= i < h && 0 <= j < w ==> gray[i][j] == v
    ensures Count(CenterPixels(gray, h, w, band), Equals(v)) == |CenterPixels(gray, h, w, band)|
  {
    if h > 2 * band && w > 2 * band {
      UniformWindow(gray, h, w, band, h - band, band, w - band, v);
    } else {
      UniformWindow(gray, h, w, 0, h, 0, w, v);
    }
  }

  /** The dark-fraction cut-offs in whole numbers: more than 3 dark pixels in
      20, or more than 7 in 20. */
  lemma ThinBorderByCounts(dark: nat, total: nat, contrast: real)
    requires total > 0
    ensures ThinBorder(contrast, Ratio(dark, total)) <==>
      (contrast > 20.0 && 20 * dark > 3 * total) || 20 * dark > 7 * total
  {
    RatioCompare(dark, total, 3, 20);
    RatioCompare(dark, total, 7, 20);
    assert 0.15 == 3 as real / 20 as real;
    assert 0.35 == 7 as real / 20 as real;
  }

  /** Every pixel within `band` of an edge is dark. */
  predicate DarkFrame(gray: Grid, h: nat, w: nat, band: nat)
    requires IsGrid(gray, h, w)
  {
    forall i, j :: 0 <= i < h && 0 <= j < w ==>
      ((i < band || i + band >= h || j < band || j + band >= w) ==> IsDark(gray[i][j]))
  }

  /** Under a dark frame of width `band` every strip pixel is dark. */
  lemma FramedStripsDark(gray: Grid, h: nat, w: nat, band: nat, policy: StripPolicy)
    requires IsGrid(gray, h, w) && band > 0 && DarkFrame(gray, h, w, band)
    ensures Count(BorderPixels(gray, h, w, band, policy), IsDark) == |BorderPixels(gray, h, w, band, policy)|
  {
    var t := TopStrip(gray, h, w, band, policy);
    var o := OtherStrips(gray, h, w, band, policy);
    var top := Narrow(LeadingSpan(h, band), false, policy);
    WindowDark(gray, h, w, band, top.lo, top.hi, 0, w);
    OtherStripsDark(gray, h, w, band, policy);
    CountAppend(t, o, IsDark);
  }

  lemma OtherStripsDark(gray: Grid, h: nat, w: nat, band: nat, policy: StripPolicy)
    requires IsGrid(gray, h, w) && band > 0 && DarkFrame(gray, h, w, band)
    ensures Count(OtherStrips(gray, h, w, band, policy), IsDark) == |OtherStrips(gray, h, w, band, policy)|
  {
    var bottom := Narrow(TrailingSpan(h, band), true, policy);
    var left := Narrow(LeadingSpan(w, band), false, policy);
    var right := Narrow(TrailingSpan(w, band), true, policy);
    var b := Window(gray, h, w, bottom.lo, bottom.hi, 0, w);
    var l := Window(gray, h, w, 0, h, left.lo, left.hi);
    var r := Window(gray, h, w, 0, h, right.lo, right.hi);
    WindowDark(gray, h, w, band, bottom.lo, bottom.hi, 0, w);
    WindowDark(gray, h, w, band, 0, h, left.lo, left.hi);
    WindowDark(gray, h, w, band, 0, h, right.lo, right.hi);
    CountAppend(b, l, IsDark);
    CountAppend(b + l, r, IsDark);
  }

  /** A window lying inside one edge band of a dark frame is all dark. */
  lemma WindowDark(gray: Grid, h: nat, w: nat, band: nat, r0: nat, r1: nat, c0: nat, c1: nat)
    requires IsGrid(gray, h, w) && r0 <= r1 <= h && c0 <= c1 <= w && DarkFrame(gray, h, w, band)
    requires r1 <= band || r0 + band >= h || c1 <= band || c0 + band >= w
    ensures Count(Window(gray, h, w, r0, r1, c0, c1), IsDark) == |Window(gray, h, w, r0, r1, c0, c1)|
  {
    WindowAll(gray, h, w, r0, r1, c0, c1, IsDark);
  }

  /** A page whose edge bands are dark is detected, under either strip
      policy, whatever the contour: every strip pixel is dark. */
  lemma FramedPageDetected(img: Image, luma: (int, int, int) -> int, contour: Option<Contour>,
                           areaThreshold: real, policy: StripPolicy)
    requires img.Valid() && img.IsColor() && img.NonEmpty()
    requires DarkFrame(GrayOf(img, luma), img.h, img.w, BandWidth(img.h, img.w))
    ensures Detect(img, luma, contour, areaThreshold, policy).0
    ensures Detect(img, luma, contour, areaThreshold, policy).1.darkFraction == 1.0
  {
    var gray := GrayOf(img, luma);
    var border := BorderPixels(gray, img.h, img.w, BandWidth(img.h, img.w), policy);
    FramedStripsDark(gray, img.h, img.w, BandWidth(img.h, img.w), policy);
    RatioWhole(|border|);
    var s := Strips(gray, img.h, img.w, policy);
    assert s.darkFraction == 1.0;
  }

  /** A page with no dark pixel in its strips never shows a thin border. */
  lemma CleanStripsNotThin(img: Image, luma: (int, int, int) -> int, contour: Option<Contour>,
                           areaThreshold: real, policy: StripPolicy)
    requires img.Valid() && img.IsColor() && img.NonEmpty()
    requires var border := BorderPixels(GrayOf(img, luma), img.h, img.w, BandWidth(img.h, img.w), policy);
      forall k :: 0 <= k < |border| ==> !IsDark(border[k])
    ensures !Detect(img, luma, contour, areaThreshold, policy).1.thinBorder
  {
    NoDarkStrips(GrayOf(img, luma), img.h, img.w, policy);
  }

  /** Strips without a dark pixel have a dark fraction of zero. */
  lemma NoDarkStrips(gray: Grid, h: nat, w: nat, policy: StripPolicy)
    requires IsGrid(gray, h, w) && h > 0 && w > 0
    requires var border := BorderPixels(gray, h, w, BandWidth(h, w), policy);
      forall k :: 0 <= k < |border| ==> !IsDark(border[k])
    ensures Strips(gray, h, w, policy).darkFraction == 0.0
  {
    CountPositive(BorderPixels(gray, h, w, BandWidth(h, w), policy), IsDark);
  }

  // ------------------------------------------------------------ process

  datatype ProcessMeta =
    | NoContours                                         // applied False, reason "no_contours"
    | Masked(borderPixelsMasked: nat, areaRatio: real)   // applied True

  /** The plane with every pixel outside the filled contour set to 255. */
  function PaintPlane(g: Grid, h: nat, w: nat, filled: seq<seq<bool>>): (r: Grid)
    requires IsGrid(g, h, w) && IsGrid(filled, h, w)
    ensures IsGrid(r, h, w)
    ensures forall i, j :: 0 <= i < h && 0 <= j < w ==>
      r[i][j] == (if filled[i][j] then g[i][j] else 255)
  {
    Tabulate(h, w, (i: nat, j: nat) =>
      if i < |g| && j < |g[i]| && i < |filled| && j < |filled[i]| && !filled[i][j] then 255
      else if i < |g| && j < |g[i]| then g[i][j] else 255)
  }

  /** EdgeMaskModule.process: without a contour the page is returned as is;
      otherwise every pixel outside the largest contour becomes white in all
      three channels, pixels inside are kept, and the number of painted
      pixels is reported. */
  function Process(img: Image, contour: Option<Contour>, meta: DetectMeta): (r: (Image, ProcessMeta))
    requires img.Valid() && img.IsColor() && img.NonEmpty()
    requires contour.Some? ==> IsGrid(contour.value.filled, img.h, img.w)
    ensures contour.None? ==> r == (img, NoContours)
    ensures contour.Some? ==>
      && r.0.Valid() && SameShape(r.0, img)
      && (forall c, i, j :: 0 <= c < 3 && 0 <= i < img.h && 0 <= j < img.w ==>
            r.0.planes[c][i][j] == (if contour.value.filled[i][j] then img.planes[c][i][j] else 255))
      && r.1 == Masked(PixelCount(img.h, img.w, (i: nat, j: nat) =>
                         !(i < img.h && j < img.w && contour.value.filled[i][j])), meta.areaRatio)
  {
    if contour.None? then (img, NoContours)
    else
      var f := contour.value.filled;
      var planes := seq(3, c requires 0 <= c < 3 => PaintPlane(img.planes[c], img.h, img.w, f));
      var masked := PixelCount(img.h, img.w, (i: nat, j: nat) => !(i < img.h && j < img.w && f[i][j]));
      (Image(img.h, img.w, planes), Masked(masked, meta.areaRatio))
  }

  /** Masking is idempotent: a second pass with the same contour changes
      nothing. */
  lemma ProcessIdempotent(img: Image, contour: Option<Contour>, meta: DetectMeta)
    requires img.Valid() && img.IsColor() && img.NonEmpty()
    requires contour.Some? ==> IsGrid(contour.value.filled, img.h, img.w)
    ensures Process(Process(img, contour, meta).0, contour, meta).0 == Process(img, contour, meta).0
  {
    if contour.Some? {
      var once := Process(img, contour, meta).0;
      var twice := Process(once, contour, meta).0;
      forall c | 0 <= c < 3
        ensures twice.planes[c] == once.planes[c]
      {
        forall i | 0 <= i < img.h
          ensures twice.planes[c][i] == once.planes[c][i]
        {
          assert forall j :: 0 <= j < img.w ==> twice.planes[c][i][j] == once.planes[c][i][j];
        }
      }
    }
  }

  /** The painted pixels and the kept pixels partition the page. */
  lemma MaskedPlusKept(img: Image, contour: Contour, meta: DetectMeta)
    requires img.Valid() && img.IsColor() && img.NonEmpty()
    requires IsGrid(contour.filled, img.h, img.w)
    ensures Process(img, Some(contour), meta).1.borderPixelsMasked +
      PixelCount(img.h, img.w, (i: nat, j: nat) => i < img.h && j < img.w && contour.filled[i][j])
      == img.h * img.w
  {
    var f := contour.filled;
    PixelCountComplement(img.h, img.w,
      (i: nat, j: nat) => i < img.h && j < img.w && f[i][j],
      (i: nat, j: nat) => !(i < img.h && j < img.w && f[i][j]));
  }
}

=== FILE: enhance.dfy ===
/** EnhanceModule of autoocr/api/modules/enhance.py: always runs, with CLAHE
    and unsharp masking whose strength adapts to the page's contrast. The
    statistics (np.std, Laplacian variance, np.mean), CLAHE, min-max
    normalisation and the Gaussian blur are library work and arrive as
    inputs; the blend cv2.addWeighted, with its round-half-to-even store, is
    modelled exactly on the real numbers. */
module Enhance {
  import opened Raster
  import Config

  /** Contrast above which CLAHE and sharpening are toned down. */
  const HighContrastStd: real := 70.0

  datatype DetectMeta = DetectMeta(
    contrastStd: real,
    laplacianVariance: real,
    brightnessMean: real,
    lowContrast: bool,
    blurry: bool,
    badBrightness: bool)

  /** EnhanceModule.detect: always runs and reports the three flags. */
  function Detect(contrastStd: real, laplacianVariance: real, brightnessMean: real): (r: (bool, DetectMeta))
    ensures r.0
    ensures r.1.contrastStd == contrastStd && r.1.laplacianVariance == laplacianVariance &&
      r.1.brightnessMean == brightnessMean
    ensures r.1.lowContrast <==> contrastStd < Config.LowContrastStdThreshold
    ensures r.1.blurry <==> laplacianVariance < Config.LaplacianVarianceSharpnessThreshold
    ensures r.1.badBrightness <==>
      brightnessMean < Config.BrightnessLowThreshold || brightnessMean > Config.BrightnessHighThreshold
  {
    (true, DetectMeta(contrastStd, laplacianVariance, brightnessMean,
                      contrastStd < Config.LowContrastStdThreshold,
                      laplacianVariance < Config.LaplacianVarianceSharpnessThreshold,
                      brightnessMean < Config.BrightnessLowThreshold ||
                      brightnessMean > Config.BrightnessHighThreshold))
  }

  /** CLAHE_CLIP_LIMIT scaled by 0.6 on high-contrast pages. */
  function ClipLimit(meta: DetectMeta): (clip: real)
    ensures meta.contrastStd > HighContrastStd ==> clip == 1.2
    ensures meta.contrastStd <= HighContrastStd ==> clip == Config.ClaheClipLimit
    ensures clip <= Config.ClaheClipLimit
  {
    Config.ClaheClipLimit * (if meta.contrastStd > HighContrastStd then 0.6 else 1.0)
  }

  /** The unsharp amount: 1.1 on high-contrast pages that are not low in
      contrast, UNSHARP_AMOUNT (1.5) otherwise. */
  function Amount(meta: DetectMeta): (amount: real)
    ensures amount == 1.1 || amount == Config.UnsharpAmount
    ensures amount == 1.1 <==> meta.contrastStd > HighContrastStd && !meta.lowContrast
  {
    if meta.contrastStd > HighContrastStd && !meta.lowContrast then 1.1 else Config.UnsharpAmount
  }

  /** For metadata produced by detect the low-contrast clause is redundant:
      a page with std above 70 is never below 40, so the milder sharpening
      goes with exactly the lower clip limit. */
  lemma MildTogether(contrastStd: real, laplacianVariance: real, brightnessMean: real)
    ensures var meta := Detect(contrastStd, laplacianVariance, brightnessMean).1;
      (Amount(meta) == 1.1 <==> ClipLimit(meta) == 1.2) &&
      (Amount(meta) == 1.1 <==> contrastStd > HighContrastStd)
  {
  }

  /** saturate_cast<uchar> of a real: cvRound (nearest, ties to even) clipped
      to [0, 255]. */
  function Saturate(x: real): (v: int)
    ensures IsByte(v)
    ensures 0.0 <= x <= 255.0 ==> x - 0.5 <= v as real <= x + 0.5
    ensures x <= 0.0 ==> v == 0
    ensures x >= 255.0 ==> v == 255
    ensures 0.0 <= x <= 255.0 && x.Floor as real == x ==> v == x.Floor
  {
    var n := Nearest(x);
    if n < 0 then 0 else if n > 255 then 255 else n
  }

  /** A value halfway between two bytes goes to the even one. */
  lemma SaturateTiesToEven(k: int)
    requires 0 <= k < 255
    ensures Saturate(k as real + 0.5) == if k % 2 == 0 then k else k + 1
  {
    assert (k as real + 0.5).Floor == k;
  }

  function BlendAt(a: Grid, b: Grid, amount: real, i: nat, j: nat): (v: int)
    ensures IsByte(v)
  {
    if i < |a| && j < |a[i]| && i < |b| && j < |b[i]|
    then Saturate(amount * a[i][j] as real - (amount - 1.0) * b[i][j] as real) else 0
  }

  /** cv2.addWeighted(a, amount, b, -(amount - 1), 0). */
  function Blend(a: Grid, b: Grid, h: nat, w: nat, amount: real): (r: Grid)
    requires IsGrid(a, h, w) && IsGrid(b, h, w)
    ensures IsGrid(r, h, w) && Bytes(r)
    ensures forall i, j :: 0 <= i < h && 0 <= j < w ==>
      r[i][j] == Saturate(amount * a[i][j] as real - (amount - 1.0) * b[i][j] as real)
  {
    var r := Tabulate(h, w, (i: nat, j: nat) => BlendAt(a, b, amount, i, j));
    assert forall i, j :: 0 <= i < |r| && 0 <= j < |r[i]| ==> r[i][j] == BlendAt(a, b, amount, i, j);
    r
  }

  /** The blend weights sum to one: where the blurred page equals the page,
      an 8-bit pixel is left as it is. */
  lemma BlendKeepsFlat(a: Grid, h: nat, w: nat, amount: real)
    requires IsGrid(a, h, w) && Bytes(a)
    ensures Blend(a, a, h, w, amount) == a
  {
    var r := Blend(a, a, h, w, amount);
    forall i | 0 <= i < h ensures r[i] == a[i] {
      forall j | 0 <= j < w ensures r[i][j] == a[i][j] {
        var x := a[i][j] as real;
        assert amount * x - (amount - 1.0) * x == x;
      }
    }
  }

  datatype ProcessMeta = ProcessMeta(
    applied: bool,
    preContrast: real,
    postContrast: real,
    adaptiveClipLimit: real,
    adaptiveUnsharpAmount: real)

  /** The library steps process relies on: CLAHE at a clip limit, min-max
      normalisation, the unsharp Gaussian blur and np.std. */
  datatype Filters = Filters(
    clahe: real -> Grid,
    normalize: Grid -> Grid,
    blur: Grid -> Grid,
    std: Grid -> real)

  /** EnhanceModule.process. */
  function Process(img: Image, meta: DetectMeta, f: Filters): (r: (Image, ProcessMeta))
    requires img.Valid() && img.IsColor()
    ensures r.0.Valid() && r.0.IsColor() && SameShape(r.0, img)
    ensures var clip := ClipLimit(meta);
      var cl := if meta.badBrightness then Fit(f.normalize(Fit(f.clahe(clip), img.h, img.w)), img.h, img.w)
                else Fit(f.clahe(clip), img.h, img.w);
      var sharpened := Blend(cl, Fit(f.blur(cl), img.h, img.w), img.h, img.w, Amount(meta));
      && r.0.planes == [sharpened, sharpened, sharpened]
      && r.1 == ProcessMeta(true, meta.contrastStd, f.std(sharpened), clip, Amount(meta))
  {
    var (h, w) := (img.h, img.w);
    var clip := ClipLimit(meta);
    var cl := Fit(f.clahe(clip), h, w);
    var cl := if meta.badBrightness then Fit(f.normalize(cl), h, w) else cl;
    var amount := Amount(meta);
    var sharpened := Blend(cl, Fit(f.blur(cl), h, w), h, w, amount);
    (ToBgr(sharpened, h, w), ProcessMeta(true, meta.contrastStd, f.std(sharpened), clip, amount))
  }
}

=== FILE: guilloche_removal.dfy ===
/** GuillocheRemovalModule of autoocr/api/modules/guilloche_removal.py:
    detects the fine curved line patterns of security paper through the
    energy of circular bands of the page's spectrum, and removes them by
    notching rings of frequencies. The FFT, the inverse FFT, the ring mask
    drawn by cv2.circle, normalisation and sharpening are library work: the
    magnitude spectrum and the filtered gray page arrive as inputs. */
module GuillocheRemoval {
  import opened Raster
  import Spectrum
  import SecurityDetector

  datatype DetectMeta = DetectMeta(patternStrength: real, threshold: real)

  /** GuillocheRemovalModule.detect on the magnitude spectrum of an
      rows x cols gray page. */
  function Detect(mag: RealGrid, rows: nat, cols: nat, minPatternStrength: real): (r: (bool, DetectMeta))
    requires IsGrid(mag, rows, cols) && Spectrum.NonNegative(mag)
    ensures r.1.patternStrength == Spectrum.PatternStrength(mag, rows, cols)
    ensures r.1.threshold == minPatternStrength
    ensures 0.0 <= r.1.patternStrength < 1.0
    ensures r.0 <==> r.1.patternStrength > minPatternStrength
  {
    var s := Spectrum.PatternStrength(mag, rows, cols);
    (s > minPatternStrength, DetectMeta(s, minPatternStrength))
  }

  /** At the default strength the module fires exactly on the pages whose
      feature list names a guilloche. */
  lemma AgreesWithClassifier(img: Image, o: SecurityDetector.Observations)
    requires SecurityDetector.WellFormed(img, o)
    ensures Detect(o.magnitude, img.h, img.w, Spectrum.MinPatternStrength).0 <==>
      SecurityDetector.HasGuilloche(img, o)
  {
  }

  /** A threshold of one or more is never reached: normalised strength is
      always below one. */
  lemma UnreachableThreshold(mag: RealGrid, rows: nat, cols: nat, minPatternStrength: real)
    requires IsGrid(mag, rows, cols) && Spectrum.NonNegative(mag) && minPatternStrength >= 1.0
    ensures !Detect(mag, rows, cols, minPatternStrength).0
  {
  }

  /** The label process reports for the notched band. */
  const FrequenciesFiltered: string := "30-120px radius"

  datatype ProcessMeta = ProcessMeta(patternStrength: real, frequenciesFiltered: string)

  /** GuillocheRemovalModule.process: `filtered` is the notch-filtered,
      normalised and sharpened gray page; it is returned in the input's
      layout. */
  function Process(img: Image, meta: DetectMeta, filtered: Grid): (r: (Image, ProcessMeta))
    requires img.Valid()
    ensures r.0.Valid() && SameShape(r.0, img)
    ensures r.0.IsColor() <==> img.IsColor()
    ensures forall c :: 0 <= c < |r.0.planes| ==> r.0.planes[c] == Fit(filtered, img.h, img.w)
    ensures r.1 == ProcessMeta(meta.patternStrength, FrequenciesFiltered)
  {
    var g := Fit(filtered, img.h, img.w);
    (if img.IsColor() then ToBgr(g, img.h, img.w) else FromGray(g, img.h, img.w),
     ProcessMeta(meta.patternStrength, FrequenciesFiltered))
  }
}

=== FILE: hologram_removal.dfy ===
/** HologramRemovalModule of autoocr/api/modules/hologram_removal.py: finds
    bright, washed-out reflections, inpaints them and re-sharpens only the
    inpainted pixels. The HSV planes, the dilation, Telea inpainting and
    the Gaussian blur are library work and arrive as inputs; the selection
    between inpainted and sharpened pixels is modelled exactly. */
module HologramRemoval {
  import opened Raster
  import SecurityDetector
  import Enhance

  /** Default reflection_threshold. */
  const DefaultReflectionThreshold: int := 200

  /** gray > threshold (THRESH_BINARY). */
  function Reflections(gray: Grid, h: nat, w: nat, threshold: int): nat
    requires IsGrid(gray, h, w)
  {
    PixelCount(h, w, (i: nat, j: nat) => i < |gray| && j < |gray[i]| && gray[i][j] > threshold)
  }

  /** s < 50 and v > threshold. */
  predicate Desaturated(sat: Grid, val: Grid, i: nat, j: nat, threshold: int) {
    i < |sat| && j < |sat[i]| && i < |val| && j < |val[i]| && sat[i][j] < 50 && val[i][j] > threshold
  }

  function DesaturatedPixels(sat: Grid, val: Grid, h: nat, w: nat, threshold: int): nat {
    PixelCount(h, w, (i: nat, j: nat) => Desaturated(sat, val, i, j, threshold))
  }

  datatype DetectMeta = DetectMeta(reflectionRatio: real, desaturatedBrightRatio: real, reflectionPixels: nat)

  /** HologramRemovalModule.detect; `sat` and `val` are the HSV planes of a
      colour page and are not consulted for a gray one. */
  function Detect(img: Image, luma: (int, int, int) -> int, sat: Grid, val: Grid, threshold: int): (r: (bool, DetectMeta))
    requires img.Valid() && img.NonEmpty()
    ensures r.1.reflectionPixels == Reflections(GrayOf(img, luma), img.h, img.w, threshold)
    ensures r.1.reflectionRatio == PageRatio(r.1.reflectionPixels, img.h, img.w)
    ensures r.1.desaturatedBrightRatio ==
      (if img.IsColor() then PageRatio(DesaturatedPixels(sat, val, img.h, img.w, threshold), img.h, img.w) else 0.0)
    ensures r.0 <==> r.1.reflectionRatio > 0.02 || r.1.desaturatedBrightRatio > 0.05
    ensures r.0 <==> (50 * r.1.reflectionPixels > img.h * img.w ||
      (img.IsColor() && 20 * DesaturatedPixels(sat, val, img.h, img.w, threshold) > img.h * img.w))
  {
    var refl := Reflections(GrayOf(img, luma), img.h, img.w, threshold);
    var rr := PageRatio(refl, img.h, img.w);
    var des := DesaturatedPixels(sat, val, img.h, img.w, threshold);
    var dr := if img.IsColor() then PageRatio(des, img.h, img.w) else 0.0;
    Decision(refl, des, img.h, img.w, img.IsColor());
    (rr > 0.02 || dr > 0.05, DetectMeta(rr, dr, refl))
  }

  /** The two ratio tests, cross-multiplied. */
  lemma Decision(refl: nat, des: nat, h: nat, w: nat, color: bool)
    requires h > 0 && w > 0
    ensures (PageRatio(refl, h, w) > 0.02 || (if color then PageRatio(des, h, w) else 0.0) > 0.05) <==>
      (50 * refl > h * w || (color && 20 * des > h * w))
  {
    MulPositive(h, w);
    RatioCompare(refl, h * w, 1, 50);
    RatioCompare(des, h * w, 1, 20);
    assert 0.02 == 1 as real / 50 as real;
    assert 0.05 == 1 as real / 20 as real;
  }

  /** Every colour page the document classifier credits with a hologram
      triggers this module at its default threshold. */
  lemma ClassifierHologramTriggers(img: Image, luma: (int, int, int) -> int, sat: Grid, val: Grid)
    requires img.Valid() && img.IsColor() && img.NonEmpty()
    requires IsGrid(sat, img.h, img.w) && IsGrid(val, img.h, img.w)
    ensures SecurityDetector.DetectHologram(sat, val, img.h, img.w) ==>
      Detect(img, luma, sat, val, DefaultReflectionThreshold).0
  {
    SecurityDetector.HologramOneInTwenty(sat, val, img.h, img.w);
    PixelCountExt(img.h, img.w,
      (i: nat, j: nat) => i < |sat| && j < |sat[i]| && i < |val| && j < |val[i]| && sat[i][j] < 50 && val[i][j] > 200,
      (i: nat, j: nat) => Desaturated(sat, val, i, j, DefaultReflectionThreshold));
  }

  // -------------------------------------------------------------- process

  /** The reflection mask before dilation: low saturation and high value on
      a colour page, gray > threshold on a gray one. */
  function ReflectionMask(img: Image, sat: Grid, val: Grid, threshold: int): (m: Grid)
    requires img.Valid()
    ensures IsGrid(m, img.h, img.w) && TwoLevel(m)
    ensures img.IsColor() ==> forall i, j :: 0 <= i < img.h && 0 <= j < img.w ==>
      (m[i][j] == 255 <==> Desaturated(sat, val, i, j, threshold))
    ensures !img.IsColor() ==> forall i, j :: 0 <= i < img.h && 0 <= j < img.w ==>
      (m[i][j] == 255 <==> img.planes[0][i][j] > threshold)
  {
    if img.IsColor() then
      FromMask(Tabulate(img.h, img.w, (i: nat, j: nat) => Desaturated(sat, val, i, j, threshold)), img.h, img.w)
    else
      FromMask(Tabulate(img.h, img.w, (i: nat, j: nat) =>
        i < img.h && j < img.w && img.planes[0][i][j] > threshold), img.h, img.w)
  }

  function Nonzero(m: Grid, h: nat, w: nat): nat {
    PixelCount(h, w, (i: nat, j: nat) => i < |m| && j < |m[i]| && m[i][j] != 0)
  }

  /** The library steps of process: 7x7 elliptical dilation (twice), Telea
      inpainting of a page under a mask, and the sigma-3 Gaussian blur. */
  datatype Filters = Filters(
    dilate: Grid -> Grid,
    inpaint: (Image, Grid) -> (nat, nat, nat) -> int,
    blur: Grid -> Grid)

  datatype ProcessMeta = ProcessMeta(reflectionRatio: real, inpaintedPixels: nat)  // method "telea_inpainting"

  /** np.where(mask > 0, sharpened, inpainted) on one plane, where
      sharpened = addWeighted(inpainted, 1.5, blurred, -0.5, 0). */
  function Select(inpainted: Grid, blurred: Grid, mask: Grid, h: nat, w: nat): (r: Grid)
    requires IsGrid(inpainted, h, w) && IsGrid(blurred, h, w) && IsGrid(mask, h, w)
    ensures IsGrid(r, h, w)
    ensures forall i, j :: 0 <= i < h && 0 <= j < w && mask[i][j] == 0 ==> r[i][j] == inpainted[i][j]
    ensures forall i, j :: 0 <= i < h && 0 <= j < w && mask[i][j] != 0 ==>
      r[i][j] == Enhance.Blend(inpainted, blurred, h, w, 1.5)[i][j]
  {
    var sharpened := Enhance.Blend(inpainted, blurred, h, w, 1.5);
    Tabulate(h, w, (i: nat, j: nat) =>
      if i < h && j < w then (if mask[i][j] != 0 then sharpened[i][j] else inpainted[i][j]) else 0)
  }

  /** The sharpened reflections written over the inpainted page, plane by
      plane: inside the mask each pixel is the 1.5 / -0.5 blend with the
      blurred plane, outside it the inpainted pixel. */
  function SharpenMasked(inpainted: Image, mask: Grid, f: Filters): (r: Image)
    requires inpainted.Valid() && IsGrid(mask, inpainted.h, inpainted.w)
    ensures r.Valid() && SameShape(r, inpainted)
    ensures forall c, i, j :: 0 <= c < |inpainted.planes| && 0 <= i < inpainted.h && 0 <= j < inpainted.w && mask[i][j] == 0 ==>
      r.planes[c][i][j] == inpainted.planes[c][i][j]
    ensures forall c, i, j :: 0 <= c < |inpainted.planes| && 0 <= i < inpainted.h && 0 <= j < inpainted.w && mask[i][j] != 0 ==>
      r.planes[c][i][j] == Enhance.Blend(inpainted.planes[c], Fit(f.blur(inpainted.planes[c]), inpainted.h, inpainted.w),
                                         inpainted.h, inpainted.w, 1.5)[i][j]
  {
    var planes := seq(|inpainted.planes|, c requires 0 <= c < |inpainted.planes| =>
      Select(inpainted.planes[c], Fit(f.blur(inpainted.planes[c]), inpainted.h, inpainted.w), mask, inpainted.h, inpainted.w));
    assert forall c :: 0 <= c < |planes| ==>
      planes[c] == Select(inpainted.planes[c], Fit(f.blur(inpainted.planes[c]), inpainted.h, inpainted.w), mask, inpainted.h, inpainted.w);
    Image(inpainted.h, inpainted.w, planes)
  }

  /** HologramRemovalModule.process. */
  function Process(img: Image, meta: DetectMeta, sat: Grid, val: Grid, threshold: int, f: Filters): (r: (Image, ProcessMeta))
    requires img.Valid()
    ensures r.0.Valid() && SameShape(r.0, img)
    ensures var mask := Fit(f.dilate(ReflectionMask(img, sat, val, threshold)), img.h, img.w);
      && r.1 == ProcessMeta(meta.reflectionRatio, Nonzero(mask, img.h, img.w))
      && (r.1.inpaintedPixels == 0 ==> r.0 == img)
      && (r.1.inpaintedPixels > 0 ==>
            var inpainted := Sampled(img.h, img.w, |img.planes|, f.inpaint(img, mask));
            forall c, i, j :: 0 <= c < |img.planes| && 0 <= i < img.h && 0 <= j < img.w && mask[i][j] == 0 ==>
              r.0.planes[c][i][j] == inpainted.planes[c][i][j])
    ensures var mask := Fit(f.dilate(ReflectionMask(img, sat, val, threshold)), img.h, img.w);
      r.1.inpaintedPixels > 0 ==>
        r.0 == SharpenMasked(Sampled(img.h, img.w, |img.planes|, f.inpaint(img, mask)), mask, f)
  {
    var (h, w) := (img.h, img.w);
    var mask := Fit(f.dilate(ReflectionMask(img, sat, val, threshold)), h, w);
    var n := Nonzero(mask, h, w);
    if n == 0 then (img, ProcessMeta(meta.reflectionRatio, 0))
    else
      var inpainted := Sampled(h, w, |img.planes|, f.inpaint(img, mask));
      (SharpenMasked(inpainted, mask, f), ProcessMeta(meta.reflectionRatio, n))
  }
}

=== FILE: image_io.dfy ===
/** The PDF helpers of autoocr/api/utils/image_io.py, minus the PDF
    rasterisation and writing themselves: page truncation, the cumulative
    pixel budget and page metadata of pdf_to_images, and the shape checks,
    downscale sizing and save options of images_to_pdf. */
module ImageIo {
  import opened Wrappers
  import opened Raster

  const DefaultDpi: nat := 300
  const DefaultMaxTotalPixels: nat := 250_000_000
  const DefaultJpegQuality: int := 85

  /** The errors the helpers raise. */
  datatype Error =
    | RasterizationFailed(detail: string)  // RuntimeError from pdf2image
    | PixelBudgetExceeded(limit: nat)      // RuntimeError
    | NoImages                             // ValueError
    | UnsupportedShape(shape: seq<nat>)    // ValueError
    | ZeroSizedImage                       // ZeroDivisionError in the scale
    | EmptyResize(width: nat, height: nat) // ValueError from Pillow's resize
    | EmptyArray                           // cv2.error: cvtColor of an empty array

  // ------------------------------------------------------------ PDF -> images

  datatype PageMeta = PageMeta(index: nat, width: nat, height: nat, dpi: nat, mode: string)

  /** pdf_to_images returns the images alone, or with their metadata when
      return_metadata is set. */
  datatype Output =
    | Images(images: seq<Image>)
    | ImagesAndMeta(images: seq<Image>, meta: seq<PageMeta>)

  /** The end of the Python slice pages[:n]. */
  function SliceEnd(n: int, len: nat): (e: nat)
    ensures e <= len
    ensures n >= 0 ==> e == (if n < len then n else len)
    ensures n < 0 ==> e as int == (if len as int + n < 0 then 0 else len as int + n)
  {
    if n >= 0 then (if n < len then n else len)
    else if len as int + n < 0 then 0 else len + n
  }

  /** pil_pages[:max_pages] when max_pages is given. */
  function Truncate(pages: seq<Image>, maxPages: Option<int>): (r: seq<Image>)
    ensures maxPages.None? ==> r == pages
    ensures |r| <= |pages| && r == pages[..|r|]
    ensures maxPages.Some? && maxPages.value >= 0 ==> |r| == (if maxPages.value < |pages| then maxPages.value else |pages|)
  {
    match maxPages
    case None => pages
    case Some(n) => pages[..SliceEnd(n, |pages|)]
  }

  /** h * w of one page. */
  function Pixels(p: Image): nat {
    p.h * p.w
  }

  /** The running total of h * w over a list of pages. */
  function TotalPixels(pages: seq<Image>): nat
    decreases |pages|
  {
    if |pages| == 0 then 0 else TotalPixels(pages[..|pages| - 1]) + Pixels(pages[|pages| - 1])
  }

  /** A prefix never holds more pixels than the whole list. */
  lemma {:induction false} TotalPrefix(pages: seq<Image>, k: nat)
    requires k <= |pages|
    ensures TotalPixels(pages[..k]) <= TotalPixels(pages)
    decreases |pages|
  {
    if k < |pages| {
      var init := pages[..|pages| - 1];
      assert pages[..k] == init[..k];
      TotalPrefix(init, k);
    } else {
      assert pages[..k] == pages;
    }
  }

  function ModeName(grayscale: bool): (m: string)
    ensures m == "GRAY" <==> grayscale
  {
    if grayscale then "GRAY" else "BGR"
  }

  /** One page as pdf_to_images hands it back: RGB2GRAY through the luma
      weights, or RGB2BGR, which reverses the planes. */
  function Converted(page: Image, grayscale: bool, luma: (int, int, int) -> int): (r: Image)
    requires page.Valid() && page.IsColor()
    ensures r.Valid() && r.h == page.h && r.w == page.w
    ensures r.IsColor() <==> !grayscale
    ensures !grayscale ==> r.planes == [page.planes[2], page.planes[1], page.planes[0]]
  {
    if grayscale then FromGray(GrayOf(page, luma), page.h, page.w)
    else Image(page.h, page.w, [page.planes[2], page.planes[1], page.planes[0]])
  }

  function MetaOf(k: nat, page: Image, dpi: nat, grayscale: bool): (m: PageMeta)
    ensures m.index == k && m.width == page.w && m.height == page.h && m.dpi == dpi
    ensures m.mode == ModeName(grayscale)
  {
    PageMeta(k, page.w, page.h, dpi, ModeName(grayscale))
  }

  predicate RgbPages(pages: seq<Image>) {
    forall k :: 0 <= k < |pages| ==> pages[k].Valid() && pages[k].IsColor()
  }

  /** The running total grows by one page at a time. */
  lemma TotalStep(pages: seq<Image>, i: nat)
    requires i < |pages|
    ensures TotalPixels(pages[..i + 1]) == TotalPixels(pages[..i]) + Pixels(pages[i])
  {
    assert pages[..i + 1][..i] == pages[..i];
  }

  /** images holds the conversions of the first |images| kept pages. */
  predicate ConvertedUpTo(kept: seq<Image>, images: seq<Image>, grayscale: bool, luma: (int, int, int) -> int)
    requires RgbPages(kept)
  {
    |images| <= |kept| && forall k :: 0 <= k < |images| ==> images[k] == Converted(kept[k], grayscale, luma)
  }

  lemma ConvertedNext(kept: seq<Image>, images: seq<Image>, grayscale: bool, luma: (int, int, int) -> int)
    requires RgbPages(kept) && |images| < |kept| && ConvertedUpTo(kept, images, grayscale, luma)
    ensures ConvertedUpTo(kept, images + [Converted(kept[|images|], grayscale, luma)], grayscale, luma)
  {
  }

  /** meta holds the metadata of the first |meta| kept pages. */
  predicate MetaUpTo(kept: seq<Image>, meta: seq<PageMeta>, dpi: nat, grayscale: bool) {
    |meta| <= |kept| && forall k :: 0 <= k < |meta| ==> meta[k] == MetaOf(k, kept[k], dpi, grayscale)
  }

  lemma MetaNext(kept: seq<Image>, meta: seq<PageMeta>, dpi: nat, grayscale: bool)
    requires |meta| < |kept| && MetaUpTo(kept, meta, dpi, grayscale)
    ensures MetaUpTo(kept, meta + [MetaOf(|meta|, kept[|meta|], dpi, grayscale)], dpi, grayscale)
  {
  }

  /** The loop of pdf_to_images over the kept pages: the running pixel total
      is checked before each page is converted. */
  method ConvertWithinBudget(kept: seq<Image>, dpi: nat, grayscale: bool, maxTotalPixels: nat, luma: (int, int, int) -> int)
    returns (ok: bool, images: seq<Image>, meta: seq<PageMeta>)
    requires RgbPages(kept)
    ensures ok <==> TotalPixels(kept) <= maxTotalPixels
    ensures ok ==> |images| == |kept| && |meta| == |kept|
    ensures ok ==> forall k :: 0 <= k < |kept| ==> images[k] == Converted(kept[k], grayscale, luma)
    ensures ok ==> forall k :: 0 <= k < |kept| ==> meta[k] == MetaOf(k, kept[k], dpi, grayscale)
  {
    images := [];
    meta := [];
    var total: nat := 0;
    var i := 0;
    while i < |kept|
      invariant 0 <= i <= |kept|
      invariant total == TotalPixels(kept[..i]) && total <= maxTotalPixels
      invariant |images| == i && |meta| == i
      invariant ConvertedUpTo(kept, images, grayscale, luma)
      invariant MetaUpTo(kept, meta, dpi, grayscale)
    {
      TotalStep(kept, i);
      total := total + Pixels(kept[i]);
      if total > maxTotalPixels {
        TotalPrefix(kept, i + 1);
        return false, images, meta;
      }
      ConvertedNext(kept, images, grayscale, luma);
      MetaNext(kept, meta, dpi, grayscale);
      images := images + [Converted(kept[i], grayscale, luma)];
      meta := meta + [MetaOf(i, kept[i], dpi, grayscale)];
      i := i + 1;
    }
    assert kept[..i] == kept;
    ok := true;
  }

  /** pdf_to_images, given what rasterisation produced (RGB pages or an
      error). */
  method PdfToImages(
    raster: Result<seq<Image>, string>, dpi: nat, grayscale: bool, maxPages: Option<int>,
    maxTotalPixels: nat, returnMetadata: bool, luma: (int, int, int) -> int)
    returns (r: Result<Output, Error>)
    requires raster.Success? ==> RgbPages(raster.value)
    ensures raster.Failure? ==> r == Failure(RasterizationFailed(raster.error))
    ensures raster.Success? ==> (
      var kept := Truncate(raster.value, maxPages);
      && (r.Success? <==> TotalPixels(kept) <= maxTotalPixels)
      && (r.Failure? ==> r.error == PixelBudgetExceeded(maxTotalPixels))
      && (r.Success? ==>
        && (r.value.ImagesAndMeta? <==> returnMetadata)
        && |r.value.images| == |kept|
        && (forall k :: 0 <= k < |kept| ==> r.value.images[k] == Converted(kept[k], grayscale, luma))
        && (r.value.ImagesAndMeta? ==> |r.value.meta| == |kept|)
        && (r.value.ImagesAndMeta? ==> forall k :: 0 <= k < |kept| ==> r.value.meta[k] == MetaOf(k, kept[k], dpi, grayscale))))
  {
    if raster.Failure? {
      return Failure(RasterizationFailed(raster.error));
    }
    var kept := Truncate(raster.value, maxPages);
    var ok, images, meta := ConvertWithinBudget(kept, dpi, grayscale, maxTotalPixels, luma);
    if !ok {
      r := Failure(PixelBudgetExceeded(maxTotalPixels));
    } else if returnMetadata {
      r := Success(ImagesAndMeta(images, meta));
    } else {
      r := Success(Images(images));
    }
  }

  /** pdf_to_images_simple: 300 dpi, BGR, no page limit, default budget,
      images only. */
  method PdfToImagesSimple(raster: Result<seq<Image>, string>, luma: (int, int, int) -> int)
    returns (r: Result<Output, Error>)
    requires raster.Success? ==> RgbPages(raster.value)
    ensures r.Success? ==> r.value.Images? && raster.Success? && |r.value.images| == |raster.value|
    ensures r.Success? ==> forall k :: 0 <= k < |raster.value| ==> r.value.images[k].IsColor()
    ensures raster.Success? ==> (r.Success? <==> TotalPixels(raster.value) <= DefaultMaxTotalPixels)
  {
    r := PdfToImages(raster, DefaultDpi, false, None, DefaultMaxTotalPixels, false, luma);
  }

  // ------------------------------------------------------------ images -> PDF

  /** A numpy array, by its shape only: pixel values pass straight to the
      PDF writer and are not modelled. */
  datatype Array = Array(shape: seq<nat>)

  /** A page as handed to the PDF writer: Pillow mode and size. */
  datatype PdfPage = PdfPage(mode: string, width: nat, height: nat)

  /** The arguments images_to_pdf passes to Pillow's save. */
  datatype PdfPlan = PdfPlan(pages: seq<PdfPage>, optimize: bool, quality: Option<int>)

  /** An accepted shape: 2-D gray, or 3-D with three channels. */
  predicate Supported(a: Array) {
    |a.shape| == 2 || (|a.shape| == 3 && a.shape[2] == 3)
  }

  /** int(n * (dim / m)) for naturals, taken exactly. */
  function Scaled(n: nat, dim: nat, m: nat): (s: nat)
    requires m > 0
    ensures s * m <= n * dim < (s + 1) * m
  {
    n * dim / m
  }

  /** The longer side, the one the limit is compared with. */
  function Longer(width: nat, height: nat): nat {
    if width >= height then width else height
  }

  /** The page size after the optional downscale. Pillow refuses to resize
      to a size with a zero side, which a page much longer than it is wide
      reaches. */
  function Resized(width: nat, height: nat, maxDim: Option<nat>): (r: Result<(nat, nat), Error>)
    ensures maxDim.None? || maxDim == Some(0) ==> r == Success((width, height))
    ensures r.Failure? <==> (maxDim.Some? && maxDim.value > 0 &&
      (Longer(width, height) == 0 ||
       (maxDim.value < Longer(width, height) &&
        (width * maxDim.value < Longer(width, height) || height * maxDim.value < Longer(width, height)))))
    ensures r.Failure? && Longer(width, height) == 0 ==> r.error == ZeroSizedImage
    ensures r.Failure? && Longer(width, height) > 0 ==>
      r.error == EmptyResize(Scaled(width, maxDim.value, Longer(width, height)), Scaled(height, maxDim.value, Longer(width, height)))
    ensures r.Success? && maxDim.Some? && (width <= maxDim.value && height <= maxDim.value) ==> r.value == (width, height)
    ensures r.Success? && maxDim.Some? && maxDim.value > 0 ==> r.value.0 <= maxDim.value && r.value.1 <= maxDim.value
    ensures r.Success? ==> r.value.0 <= width && r.value.1 <= height
    ensures r.Success? ==> (r.value.0 > 0 <==> width > 0) && (r.value.1 > 0 <==> height > 0)
  {
    match maxDim
    case None => Success((width, height))
    case Some(d) =>
      if d == 0 then Success((width, height))
      else
        var m := Longer(width, height);
        if m == 0 then Failure(ZeroSizedImage)
        else if d >= m then Success((width, height))
        else
          ScaledBelow(width, d, m);
          ScaledBelow(height, d, m);
          ScaledZero(width, d, m);
          ScaledZero(height, d, m);
          var size := (Scaled(width, d, m), Scaled(height, d, m));
          if size.0 == 0 || size.1 == 0 then Failure(EmptyResize(size.0, size.1))
          else Success(size)
  }

  /** A page 3000 pixels wide and one high, limited to 1500, would be resized
      to 1500 by 0, which Pillow refuses. */
  lemma ThinPageRefused()
    ensures Resized(3000, 1, Some(1500)) == Failure(EmptyResize(1500, 0))
  {
  }

  /** A side scales to zero exactly when n * d falls short of m. */
  lemma ScaledZero(n: nat, d: nat, m: nat)
    requires m > 0
    ensures Scaled(n, d, m) == 0 <==> n * d < m
  {
    var s := Scaled(n, d, m);
    if s > 0 {
      MulLe(1, s, m);
    }
  }

  lemma ScaledBelow(n: nat, d: nat, m: nat)
    requires 0 < d < m && n <= m
    ensures Scaled(n, d, m) <= d && Scaled(n, d, m) <= n
  {
    ScaledBelowFactor(n, d, m);
    ScaledBelowFactor(d, n, m);
    assert n * d == d * n;
  }

  /** n * d / m is at most d whenever n <= m. */
  lemma ScaledBelowFactor(n: nat, d: nat, m: nat)
    requires 0 < m && n <= m
    ensures n * d / m <= d
  {
    var s := n * d / m;
    MulLe(n, m, d);
    assert s * m <= n * d;
    assert d * m < (d + 1) * m;
    MulCancel(s, d + 1, m);
  }

  /** The longer side of a downscaled page lands exactly on the limit, and the
      aspect ratio is kept to within truncation. */
  lemma DownscaleHitsLimit(width: nat, height: nat, d: nat)
    requires 0 < d < Longer(width, height)
    requires width * d >= Longer(width, height) && height * d >= Longer(width, height)
    ensures var r := Resized(width, height, Some(d));
      && r.Success?
      && (if width >= height then r.value.0 else r.value.1) == d
      && r.value.0 * Longer(width, height) <= width * d
      && r.value.1 * Longer(width, height) <= height * d
  {
    var m := Longer(width, height);
    ScaledSelf(m, d);
  }

  /** Scaling the longer side gives the limit itself. */
  lemma ScaledSelf(m: nat, d: nat)
    requires m > 0
    ensures Scaled(m, d, m) == d
  {
    var q := Scaled(m, d, m);
    assert q * m < (d + 1) * m && d * m < (q + 1) * m;
    MulCancel(q, d + 1, m);
    MulCancel(d, q + 1, m);
  }

  /** Whether the array goes through cv2.cvtColor: every colour array, and
      a gray one when force_rgb is set. */
  predicate GoesThroughCvtColor(a: Array, forceRgb: bool) {
    |a.shape| == 3 || forceRgb
  }

  /** An array without a single pixel. */
  predicate Empty(a: Array)
    requires Supported(a)
  {
    a.shape[0] == 0 || a.shape[1] == 0
  }

  /** One array's page: gray arrays become RGB when force_rgb is set. OpenCV
      refuses to convert an empty array. */
  function PageOf(a: Array, forceRgb: bool, maxDim: Option<nat>): (r: Result<PdfPage, Error>)
    ensures !Supported(a) ==> r == Failure(UnsupportedShape(a.shape))
    ensures Supported(a) && GoesThroughCvtColor(a, forceRgb) && Empty(a) ==> r == Failure(EmptyArray)
    ensures Supported(a) && !(GoesThroughCvtColor(a, forceRgb) && Empty(a)) ==>
      (r.Success? <==> Resized(a.shape[1], a.shape[0], maxDim).Success?) &&
      (r.Failure? ==> r.error == Resized(a.shape[1], a.shape[0], maxDim).error)
    ensures r.Success? ==> Supported(a) && (r.value.mode == "L" <==> |a.shape| == 2 && !forceRgb)
    ensures r.Success? ==> r.value.width <= a.shape[1] && r.value.height <= a.shape[0]
  {
    if !Supported(a) then Failure(UnsupportedShape(a.shape))
    else if GoesThroughCvtColor(a, forceRgb) && Empty(a) then Failure(EmptyArray)
    else
      var mode := if |a.shape| == 2 && !forceRgb then "L" else "RGB";
      match Resized(a.shape[1], a.shape[0], maxDim)
      case Failure(e) => Failure(e)
      case Success(size) => Success(PdfPage(mode, size.0, size.1))
  }

  /** The pages in order, stopping at the first array that raises. */
  function Pages(arrays: seq<Array>, forceRgb: bool, maxDim: Option<nat>): (r: Result<seq<PdfPage>, Error>)
    ensures r.Success? ==> |r.value| == |arrays|
    ensures r.Success? ==> forall k :: 0 <= k < |arrays| ==> Success(r.value[k]) == PageOf(arrays[k], forceRgb, maxDim)
    decreases |arrays|
  {
    if |arrays| == 0 then Success([])
    else
      match PageOf(arrays[0], forceRgb, maxDim)
      case Failure(e) => Failure(e)
      case Success(p) =>
        match Pages(arrays[1..], forceRgb, maxDim)
        case Failure(e) => Failure(e)
        case Success(rest) => Success([p] + rest)
  }

  /** Pages fails exactly when some array fails, with the first failure's
      error. */
  lemma PagesFailAtFirst(arrays: seq<Array>, forceRgb: bool, maxDim: Option<nat>)
    ensures Pages(arrays, forceRgb, maxDim).Failure? <==>
      exists k :: 0 <= k < |arrays| && PageOf(arrays[k], forceRgb, maxDim).Failure?
    ensures Pages(arrays, forceRgb, maxDim).Failure? ==>
      exists k :: 0 <= k < |arrays| && PageOf(arrays[k], forceRgb, maxDim) == Failure(Pages(arrays, forceRgb, maxDim).error) &&
        forall j :: 0 <= j < k ==> PageOf(arrays[j], forceRgb, maxDim).Success?
  {
    if Pages(arrays, forceRgb, maxDim).Failure? {
      var k := PagesFirstFailure(arrays, forceRgb, maxDim);
    } else {
      assert forall k :: 0 <= k < |arrays| ==> PageOf(arrays[k], forceRgb, maxDim).Success?;
    }
  }

  /** When Pages fails, the index of the array that raised: every earlier
      array converts. */
  lemma {:induction false} PagesFirstFailure(arrays: seq<Array>, forceRgb: bool, maxDim: Option<nat>) returns (k: nat)
    requires Pages(arrays, forceRgb, maxDim).Failure?
    ensures k < |arrays| && PageOf(arrays[k], forceRgb, maxDim) == Failure(Pages(arrays, forceRgb, maxDim).error)
    ensures forall j :: 0 <= j < k ==> PageOf(arrays[j], forceRgb, maxDim).Success?
    decreases |arrays|
  {
    if PageOf(arrays[0], forceRgb, maxDim).Failure? {
      k := 0;
    } else {
      var rest := arrays[1..];
      var k' := PagesFirstFailure(rest, forceRgb, maxDim);
      k := k' + 1;
      assert arrays[k] == rest[k'];
      forall j | 0 <= j < k
        ensures PageOf(arrays[j], forceRgb, maxDim).Success?
      {
        if j > 0 {
          assert arrays[j] == rest[j - 1];
        }
      }
    }
  }

  /** images_to_pdf up to the bytes Pillow writes. */
  function ImagesToPdf(arrays: seq<Array>, optimize: bool, jpegQuality: int, forceRgb: bool, maxDim: Option<nat>):
    (r: Result<PdfPlan, Error>)
    ensures |arrays| == 0 ==> r == Failure(NoImages)
    ensures r.Success? ==> |r.value.pages| == |arrays| > 0
    ensures r.Success? ==> (r.value.quality.Some? <==> 1 <= jpegQuality <= 95)
    ensures r.Success? && r.value.quality.Some? ==> r.value.quality.value == jpegQuality
    ensures r.Success? ==> r.value.optimize == optimize
    ensures |arrays| > 0 ==> (r.Success? <==> Pages(arrays, forceRgb, maxDim).Success?)
  {
    if |arrays| == 0 then Failure(NoImages)
    else
      match Pages(arrays, forceRgb, maxDim)
      case Failure(e) => Failure(e)
      case Success(pages) =>
        Success(PdfPlan(pages, optimize, if 1 <= jpegQuality <= 95 then Some(jpegQuality) else None))
  }

  /** A 4-channel page is refused wherever it sits in the list. */
  lemma FourChannelRefused(arrays: seq<Array>, k: nat, optimize: bool, q: int, forceRgb: bool, maxDim: Option<nat>)
    requires k < |arrays| && |arrays[k].shape| == 3 && arrays[k].shape[2] == 4
    ensures ImagesToPdf(arrays, optimize, q, forceRgb, maxDim).Failure?
  {
    PagesFailAtFirst(arrays, forceRgb, maxDim);
  }
}

=== FILE: language.dfy ===
/** LanguageModule of autoocr/api/modules/language.py: a quick OCR of the
    page gives a text sample whose language a fastText model predicts. The
    page itself is never changed. Tesseract and fastText are outside the
    model: their availability and answers arrive as `Probes`. */
module Language {
  import opened Wrappers
  import opened Raster

  /** What the external tools yield for one page. `ocr` is the text (or the
      error) Tesseract returns for the Otsu-binarised, downscaled page;
      `predict` is fastText's top-1 answer (labels, probabilities) for a
      sample, or the error it raises. */
  datatype Probes = Probes(
    modelLoaded: bool,
    tesseractPresent: bool,
    ocr: Result<string, string>,
    predict: string -> Result<(seq<string>, seq<real>), string>)

  datatype DetectMeta =
    | ModelUnavailable                   // reason "model_unavailable"
    | TesseractMissing                   // reason "tesseract_missing"
    | OcrFailed(error: string)           // reason "ocr_failed"
    | InsufficientText(length: nat)      // reason "insufficient_text"
    | NoPrediction                       // reason "no_prediction"
    | PredictionFailed(error: string)    // reason "prediction_failed"
    | Identified(language: string, probability: real, textSampleLength: nat)

  const MaxWidth: nat := 1600
  const MinTextLength: nat := 20
  const MaxSampleLength: nat := 1000

  // --------------------------------------------------------------- downscale

  /** The size (width, height) handed to OCR: pages wider than 1600 pixels are
      scaled by 1600 / w, the products truncated by int(). */
  function OcrSize(h: nat, w: nat): (size: (nat, nat))
    ensures w <= MaxWidth ==> size == (w, h)
    ensures w > MaxWidth ==> (size.0 == MaxWidth && size.1 <= h &&
      size.1 * w <= h * MaxWidth < (size.1 + 1) * w)
  {
    if w <= MaxWidth then (w, h) else (MaxWidth, h * MaxWidth / w)
  }

  // ---------------------------------------------------- whitespace cleanup

  /** The 29 code points str.split() separates on: \t \n \v \f \r, the
      information separators \x1c..\x1f, the space, NEL, NBSP, the Ogham
      space mark, U+2000..U+200A, the line and paragraph separators, the
      narrow NBSP, the medium mathematical space and the ideographic space. */
  predicate IsSpace(c: char) {
    || '\t' <= c <= '\r'
    || '\U{001C}' <= c <= ' '
    || c == '\U{0085}' || c == '\U{00A0}' || c == '\U{1680}'
    || '\U{2000}' <= c <= '\U{200A}'
    || c == '\U{2028}' || c == '\U{2029}' || c == '\U{202F}' || c == '\U{205F}' || c == '\U{3000}'
  }

  /** The same 29 code points listed one by one. */
  const Whitespace: seq<char> := [
    '\t', '\n', '\U{000B}', '\U{000C}', '\r', '\U{001C}', '\U{001D}', '\U{001E}', '\U{001F}', ' ',
    '\U{0085}', '\U{00A0}', '\U{1680}',
    '\U{2000}', '\U{2001}', '\U{2002}', '\U{2003}', '\U{2004}', '\U{2005}', '\U{2006}',
    '\U{2007}', '\U{2008}', '\U{2009}', '\U{200A}',
    '\U{2028}', '\U{2029}', '\U{202F}', '\U{205F}', '\U{3000}']

  /** IsSpace holds of exactly the listed code points, 29 distinct ones in
      increasing order. */
  lemma WhitespaceListed(c: char)
    ensures IsSpace(c) <==> c in Whitespace
    ensures |Whitespace| == 29
    ensures forall i :: 0 < i < |Whitespace| ==> Whitespace[i - 1] < Whitespace[i]
  {
  }

  /** "abc\xa0def" is two words, as in Python. */
  lemma NoBreakSpaceSeparates()
    ensures Words("abc\U{00A0}def") == ["abc", "def"]
  {
    var s := "abc\U{00A0}def";
    WordLengthOf("abc", "\U{00A0}def");
    assert s == "abc" + "\U{00A0}def";
    assert s[..3] == "abc" && s[3..] == "\U{00A0}def";
    var t := s[3..];
    assert t[1..] == "def";
    WordLengthOf("def", "");
    assert "def" + "" == "def";
    assert "def"[..3] == "def" && "def"[3..] == "";
  }

  predicate NoSpace(s: string) { forall k :: 0 <= k < |s| ==> !IsSpace(s[k]) }

  /** Length of the leading run of non-whitespace characters. */
  function WordLength(s: string): (n: nat)
    ensures n <= |s| && NoSpace(s[..n])
    ensures n < |s| ==> IsSpace(s[n])
    decreases |s|
  {
    if |s| > 0 && !IsSpace(s[0]) then
      var n := 1 + WordLength(s[1..]);
      assert forall k :: 1 <= k < n ==> s[..n][k] == s[1..][..n - 1][k - 1];
      n
    else 0
  }

  /** str.split(): the maximal runs of non-whitespace characters. */
  function Words(s: string): (ws: seq<string>)
    ensures forall k :: 0 <= k < |ws| ==> |ws[k]| > 0 && NoSpace(ws[k])
    decreases |s|
  {
    if |s| == 0 then []
    else if IsSpace(s[0]) then Words(s[1..])
    else
      var n := WordLength(s);
      [s[..n]] + Words(s[n..])
  }

  /** ' '.join(words). */
  function Join(ws: seq<string>): string
    decreases |ws|
  {
    if |ws| == 0 then ""
    else if |ws| == 1 then ws[0]
    else ws[0] + " " + Join(ws[1..])
  }

  /** ' '.join(text.split()): runs of whitespace become one space and the
      ends are trimmed. */
  function Clean(text: string): string {
    Join(Words(text))
  }

  /** A word followed by whitespace or by nothing is read as one word. */
  lemma {:induction false} WordLengthOf(w: string, rest: string)
    requires NoSpace(w)
    requires |rest| == 0 || IsSpace(rest[0])
    ensures WordLength(w + rest) == |w|
    decreases |w|
  {
    if |w| > 0 {
      assert (w + rest)[1..] == w[1..] + rest;
      WordLengthOf(w[1..], rest);
    } else {
      assert w + rest == rest;
    }
  }

  /** Splitting words joined by single spaces gives the words back. */
  lemma {:induction false} WordsOfJoin(ws: seq<string>)
    requires forall k :: 0 <= k < |ws| ==> |ws[k]| > 0 && NoSpace(ws[k])
    ensures Words(Join(ws)) == ws
    decreases |ws|
  {
    if |ws| == 1 {
      WordLengthOf(ws[0], "");
      assert ws[0][|ws[0]|..] == "";
      assert ws[0] + "" == ws[0];
    } else if |ws| > 1 {
      var rest := " " + Join(ws[1..]);
      var s := ws[0] + rest;
      assert Join(ws) == s;
      WordLengthOf(ws[0], rest);
      assert s[..|ws[0]|] == ws[0];
      assert s[|ws[0]|..] == rest;
      assert rest[1..] == Join(ws[1..]);
      WordsOfJoin(ws[1..]);
      assert Words(rest) == Words(Join(ws[1..]));
    }
  }

  /** Cleaning is idempotent. */
  lemma CleanIdempotent(text: string)
    ensures Clean(Clean(text)) == Clean(text)
  {
    WordsOfJoin(Words(text));
  }

  /** cleaned[:1000]. */
  function Sample(cleaned: string): (s: string)
    ensures |s| <= MaxSampleLength
    ensures |s| == (if |cleaned| <= MaxSampleLength then |cleaned| else MaxSampleLength)
    ensures s <= cleaned
  {
    if |cleaned| <= MaxSampleLength then cleaned else cleaned[..MaxSampleLength]
  }

  // ------------------------------------------------------------- labels

  const LabelPrefix: string := "__label__"

  /** label.replace('__label__', ''): every non-overlapping occurrence, left
      to right, is removed; the result is not rescanned. */
  function RemoveLabel(s: string): (r: string)
    ensures |r| <= |s|
    decreases |s|
  {
    if |s| >= |LabelPrefix| && s[..|LabelPrefix|] == LabelPrefix then RemoveLabel(s[|LabelPrefix|..])
    else if |s| == 0 then ""
    else [s[0]] + RemoveLabel(s[1..])
  }

  /** Text without an underscore is left alone. */
  lemma {:induction false} RemoveLabelNoUnderscore(s: string)
    requires forall k :: 0 <= k < |s| ==> s[k] != '_'
    ensures RemoveLabel(s) == s
    decreases |s|
  {
    if |s| > 0 {
      if |s| >= |LabelPrefix| {
        assert s[..|LabelPrefix|][0] == s[0];
      }
      RemoveLabelNoUnderscore(s[1..]);
    }
  }

  /** A fastText label "__label__xx" yields the code xx. */
  lemma LabelCode(code: string)
    requires forall k :: 0 <= k < |code| ==> code[k] != '_'
    ensures RemoveLabel(LabelPrefix + code) == code
  {
    var s := LabelPrefix + code;
    assert s[..|LabelPrefix|] == LabelPrefix;
    assert s[|LabelPrefix|..] == code;
    RemoveLabelNoUnderscore(code);
  }

  // ------------------------------------------------------------ rounding

  /** round(p, 4). */
  function Round4(p: real): (r: real)
    ensures -0.00005 <= r - p <= 0.00005
    ensures 0.0 <= p <= 1.0 ==> 0.0 <= r <= 1.0
  {
    RoundUnit(p, 10000);
    Round(p, 10000)
  }

  // ------------------------------------------------------------- detect

  /** LanguageModule.detect. The model is checked before Tesseract; short
      text and failing tools decline without raising. */
  function Detect(probes: Probes): (r: (bool, DetectMeta))
    ensures r.0 <==> r.1.Identified?
    ensures !probes.modelLoaded ==> r.1 == ModelUnavailable
    ensures probes.modelLoaded && !probes.tesseractPresent ==> r.1 == TesseractMissing
    ensures probes.modelLoaded && probes.tesseractPresent && probes.ocr.Failure? ==>
      r.1 == OcrFailed(probes.ocr.error)
    ensures r.1.InsufficientText? ==> r.1.length < MinTextLength
    ensures r.1.Identified? ==>
      && probes.modelLoaded && probes.tesseractPresent && probes.ocr.Success?
      && |Clean(probes.ocr.value)| >= MinTextLength
      && r.1.textSampleLength == |Sample(Clean(probes.ocr.value))| <= MaxSampleLength
      && var answer := probes.predict(Sample(Clean(probes.ocr.value)));
         answer.Success? && |answer.value.0| > 0 &&
         r.1.language == RemoveLabel(answer.value.0[0]) &&
         r.1.probability == (if |answer.value.1| > 0 then Round4(answer.value.1[0]) else 0.0)
    ensures probes.modelLoaded && probes.tesseractPresent && probes.ocr.Success? ==> (
      var c := Clean(probes.ocr.value);
      && (|c| < MinTextLength ==> r.1 == InsufficientText(|c|))
      && (|c| >= MinTextLength ==> (
            var answer := probes.predict(Sample(c));
            && (answer.Failure? ==> r.1 == PredictionFailed(answer.error))
            && (answer.Success? && |answer.value.0| == 0 ==> r.1 == NoPrediction)
            && (answer.Success? && |answer.value.0| > 0 ==> r.0))))
  {
    if !probes.modelLoaded then (false, ModelUnavailable)
    else if !probes.tesseractPresent then (false, TesseractMissing)
    else if probes.ocr.Failure? then (false, OcrFailed(probes.ocr.error))
    else
      var cleaned := Clean(probes.ocr.value);
      if |cleaned| < MinTextLength then (false, InsufficientText(|cleaned|))
      else
        var sample := Sample(cleaned);
        match probes.predict(sample)
        case Failure(e) => (false, PredictionFailed(e))
        case Success((labels, probs)) =>
          if |labels| == 0 then (false, NoPrediction)
          else
            var prob := if |probs| > 0 then Round4(probs[0]) else 0.0;
            (true, Identified(RemoveLabel(labels[0]), prob, |sample|))
  }

  /** Whitespace in the OCR output does not change the verdict: text that
      cleans to the same string is judged the same. */
  lemma DetectIgnoresSpacing(probes: Probes, other: string)
    requires probes.ocr.Success? && Clean(other) == Clean(probes.ocr.value)
    ensures Detect(probes.(ocr := Success(other))) == Detect(probes)
  {
  }

  /** The dummy model answering "__label__en" with 0.987654 identifies
      English with probability 0.9877 on any text of 20 or more characters. */
  lemma DummyModel(text: string)
    requires |Clean(text)| >= MinTextLength
    ensures var probes := Probes(true, true, Success(text), (s: string) => Success((["__label__en"], [0.987654])));
      Detect(probes) == (true, Identified("en", 0.9877, |Sample(Clean(text))|))
  {
    LabelCode("en");
    assert LabelPrefix + "en" == "__label__en";
    var x := 0.987654 * 10000.0;
    assert x == 9876.54;
    assert x.Floor == 9876;
  }

  datatype ProcessMeta = ProcessMeta(applied: bool)

  /** LanguageModule.process: the page is returned unchanged; applied iff a
      non-empty language was identified. */
  function Process<I>(img: I, meta: DetectMeta): (r: (I, ProcessMeta))
    ensures r.0 == img
    ensures r.1.applied <==> meta.Identified? && |meta.language| > 0
  {
    (img, ProcessMeta(meta.Identified? && meta.language != ""))
  }
}

=== FILE: mrz_enhancement.dfy ===
/** MRZEnhancementModule of autoocr/api/modules/mrz_enhancement.py: finds the
    machine readable zone at the bottom of a passport or ID page and
    rewrites only that rectangle with a baseline-free, sharpened, Otsu
    binarised copy. Otsu thresholds, contour bounding boxes and the 3x3
    sharpening filter are library work and arrive as inputs. */
module MrzEnhancement {
  import opened Wrappers
  import opened Raster
  import SecurityDetector

  /** An (x, y, w, h) bounding box. */
  datatype Rect = Rect(x: nat, y: nat, w: nat, h: nat) {
    function Area(): nat { w * h }
  }

  // ---------------------------------------------------------- bounding box

  /** int(height * 0.20), computed exactly: the rows _find_mrz_bbox searches. */
  function SearchRows(h: nat): nat {
    h * 20 / 100
  }

  /** A contour box is an MRZ candidate when it is wider than 60% of the page
      and lower than half the search band. */
  predicate Candidate(r: Rect, width: nat, searchHeight: nat) {
    10 * r.w > 6 * width && 2 * r.h < searchHeight
  }

  /** The scan of _find_mrz_bbox over the first n boxes: the index of the
      first candidate of largest positive area, None when there is none. */
  function Best(boxes: seq<Rect>, n: nat, width: nat, searchHeight: nat): (r: Option<nat>)
    requires n <= |boxes|
    ensures r.None? <==> forall k :: 0 <= k < n ==> !(Candidate(boxes[k], width, searchHeight) && boxes[k].Area() > 0)
    ensures r.Some? ==> r.value < n && Candidate(boxes[r.value], width, searchHeight) && boxes[r.value].Area() > 0
    ensures r.Some? ==> forall k :: 0 <= k < n && Candidate(boxes[k], width, searchHeight) ==>
      boxes[k].Area() <= boxes[r.value].Area()
    ensures r.Some? ==> forall k :: 0 <= k < r.value && Candidate(boxes[k], width, searchHeight) ==>
      boxes[k].Area() < boxes[r.value].Area()
  {
    if n == 0 then None
    else
      var b := Best(boxes, n - 1, width, searchHeight);
      var area := if b.Some? then boxes[b.value].Area() else 0;
      if Candidate(boxes[n - 1], width, searchHeight) && boxes[n - 1].Area() > area then Some(n - 1) else b
  }

  /** _find_mrz_bbox: `boxes` are the bounding boxes of the external contours
      of the Otsu-inverted bottom band, in band coordinates; the winner is
      moved to page coordinates. */
  function FindBbox(h: nat, width: nat, boxes: seq<Rect>): (r: Option<Rect>)
    ensures r.Some? <==> exists k :: 0 <= k < |boxes| && Candidate(boxes[k], width, SearchRows(h)) && boxes[k].Area() > 0
    ensures r.Some? ==> exists k :: (
      && 0 <= k < |boxes| && Candidate(boxes[k], width, SearchRows(h))
      && r.value == Rect(boxes[k].x, boxes[k].y + (h - SearchRows(h)), boxes[k].w, boxes[k].h)
      && forall m :: 0 <= m < |boxes| && Candidate(boxes[m], width, SearchRows(h)) ==> boxes[m].Area() <= boxes[k].Area())
  {
    if |boxes| == 0 then None
    else
      match Best(boxes, |boxes|, width, SearchRows(h))
      case None => None
      case Some(k) => Some(Rect(boxes[k].x, boxes[k].y + (h - SearchRows(h)), boxes[k].w, boxes[k].h))
  }

  // --------------------------------------------------------------- detect

  datatype DetectMeta = DetectMeta(textDensity: real, mrzBbox: Option<Rect>, searchRegionHeight: nat)

  /** MRZEnhancementModule.detect: the bottom band must be dense (strictly
      between 30% and 80% Otsu foreground) and hold a candidate box. */
  function Detect(gray: Grid, h: nat, w: nat, otsu: Grid -> int, boxes: seq<Rect>): (r: (bool, DetectMeta))
    requires IsGrid(gray, h, w) && h > 0 && w > 0
    ensures r.1.searchRegionHeight == SecurityDetector.MrzBandRows(h)
    ensures r.1.textDensity == SecurityDetector.BandDensity(gray, h, w, SecurityDetector.MrzBandStart(h), otsu)
    ensures r.0 <==> r.1.mrzBbox.Some?
    ensures r.0 <==> 0.30 < r.1.textDensity < 0.80 && FindBbox(h, w, boxes).Some?
    ensures r.1.mrzBbox.Some? ==> r.1.mrzBbox == FindBbox(h, w, boxes)
  {
    var d := SecurityDetector.BandDensity(gray, h, w, SecurityDetector.MrzBandStart(h), otsu);
    var bbox := if 0.30 < d < 0.80 then FindBbox(h, w, boxes) else None;
    (bbox.Some?, DetectMeta(d, bbox, SecurityDetector.MrzBandRows(h)))
  }

  /** The module only fires on pages the document classifier would call a
      passport: both test the same band with the same bounds. */
  lemma DetectImpliesPassportBand(gray: Grid, h: nat, w: nat, otsu: Grid -> int, boxes: seq<Rect>)
    requires IsGrid(gray, h, w) && h > 0 && w > 0
    ensures Detect(gray, h, w, otsu, boxes).0 ==> SecurityDetector.DetectMrz(gray, h, w, otsu)
  {
  }

  // ------------------------------------------------------------- baseline

  /** Zero-valued pixels of a row. */
  function Dark(row: seq<int>): nat {
    Count(row, (v: int) => v == 0)
  }

  function DarkCounts(region: Grid): (c: seq<int>)
    ensures |c| == |region| && forall i :: 0 <= i < |region| ==> c[i] == Dark(region[i])
  {
    seq(|region|, i requires 0 <= i < |region| => Dark(region[i]))
  }

  /** Squared deviations of the counts from their mean. */
  function Deviations(c: seq<int>, mean: real): (e: seq<real>)
    ensures |e| == |c| && forall i :: 0 <= i < |c| ==> e[i] == (c[i] as real - mean) * (c[i] as real - mean)
  {
    seq(|c|, i requires 0 <= i < |c| => (c[i] as real - mean) * (c[i] as real - mean))
  }

  /** np.var of the counts (population variance). */
  function Variance(c: seq<int>): real
    requires |c| > 0
  {
    SumR(Deviations(c, Mean(c))) / |c| as real
  }

  /** count > mean + 2 * std, with std = sqrt(var), stated without the
      square root (see BaselineTest). */
  predicate AboveBaseline(count: int, mean: real, variance: real) {
    count as real - mean > 0.0 && (count as real - mean) * (count as real - mean) > 4.0 * variance
  }

  /** The squared form is the source's test whenever std is the square root
      of the variance. */
  lemma BaselineTest(count: int, mean: real, variance: real, std: real)
    requires std >= 0.0 && std * std == variance
    ensures AboveBaseline(count, mean, variance) <==> count as real > mean + 2.0 * std
  {
    var d := count as real - mean;
    var s := 2.0 * std;
    assert s * s == 4.0 * variance;
    if d > s {
      SquareMono(s, d);
    }
    if d > 0.0 && d * d > s * s && d <= s {
      SquareMono(d, s);
    }
  }

  /** The rows whitened by _remove_mrz_baseline. */
  predicate Baseline(region: Grid, i: nat)
    requires i < |region|
  {
    var c := DarkCounts(region);
    AboveBaseline(c[i], Mean(c), Variance(c))
  }

  function WhiteRow(n: nat): (r: seq<int>)
    ensures |r| == n && forall j :: 0 <= j < n ==> r[j] == 255
  {
    seq(n, j requires 0 <= j < n => 255)
  }

  /** _remove_mrz_baseline: rows whose dark count exceeds mean + 2 std become
      white; an empty region is returned as it is. */
  function RemoveBaseline(region: Grid): (r: Grid)
    ensures |r| == |region|
    ensures forall i :: 0 <= i < |region| ==> |r[i]| == |region[i]|
    ensures forall i :: 0 <= i < |region| ==>
      r[i] == (if Baseline(region, i) then WhiteRow(|region[i]|) else region[i])
  {
    seq(|region|, i requires 0 <= i < |region| =>
      if Baseline(region, i) then WhiteRow(|region[i]|) else region[i])
  }

  /** How many flags are set. */
  function Flagged(flags: seq<bool>): nat {
    Count(flags, (b: bool) => b)
  }

  /** A weighted count: t for every flagged entry stays below the sum of
      the entries when flagged entries exceed t. */
  lemma {:induction false} FlaggedBelowSum(e: seq<real>, flags: seq<bool>, t: real)
    requires |e| == |flags| && t >= 0.0
    requires forall k :: 0 <= k < |e| ==> e[k] >= 0.0
    requires forall k :: 0 <= k < |e| && flags[k] ==> e[k] > t
    ensures SumR(e) >= 0.0
    ensures t * Flagged(flags) as real <= SumR(e)
    ensures Flagged(flags) > 0 ==> t * Flagged(flags) as real < SumR(e)
    decreases |e|
  {
    if |e| > 0 {
      FlaggedBelowSum(e[1..], flags[1..], t);
    }
  }

  lemma DeviationsNonNeg(c: seq<int>, mean: real)
    ensures forall i :: 0 <= i < |c| ==> Deviations(c, mean)[i] >= 0.0
  {
    forall i | 0 <= i < |c| ensures Deviations(c, mean)[i] >= 0.0 {
      SquareNonNeg(c[i] as real - mean);
    }
  }

  /** The variance times the row count is the sum of squared deviations. */
  lemma VarianceSum(c: seq<int>)
    requires |c| > 0
    ensures Variance(c) * |c| as real == SumR(Deviations(c, Mean(c)))
  {
  }

  /** From 4 v k < v n with v >= 0 (and no flagged entry when v is zero). */
  lemma QuarterBound(v: real, k: nat, n: nat, total: real)
    requires total == v * n as real && v >= 0.0
    requires 4.0 * v * k as real <= total
    requires k > 0 ==> 4.0 * v * k as real < total
    ensures 4 * k < n || (k == 0 && n == 0)
  {
    if k > 0 {
      assert v > 0.0;
      assert v * (4 * k) as real < v * n as real;
    }
  }

  /** For each row, whether it is whitened. */
  function BaselineFlags(region: Grid): (f: seq<bool>)
    ensures |f| == |region| && forall i :: 0 <= i < |region| ==> f[i] == Baseline(region, i)
  {
    seq(|region|, i requires 0 <= i < |region| => Baseline(region, i))
  }

  lemma VarianceNonNeg(c: seq<int>)
    requires |c| > 0
    ensures Variance(c) >= 0.0
  {
    var e := Deviations(c, Mean(c));
    DeviationsNonNeg(c, Mean(c));
    FlaggedBelowSum(e, seq(|c|, i requires 0 <= i < |c| => false), 0.0);
    VarianceSum(c);
  }

  lemma BaselinesDeviate(region: Grid)
    requires |region| > 0
    ensures var c := DarkCounts(region);
      forall i :: 0 <= i < |region| && BaselineFlags(region)[i] ==>
        Deviations(c, Mean(c))[i] > 4.0 * Variance(c)
  {
  }

  /** The whitened rows alone carry more than four variances each of the
      squared deviations. */
  lemma BaselineWeight(region: Grid)
    requires |region| > 0
    ensures var c := DarkCounts(region);
      var k := Flagged(BaselineFlags(region));
      && 4.0 * Variance(c) * k as real <= SumR(Deviations(c, Mean(c)))
      && (k > 0 ==> 4.0 * Variance(c) * k as real < SumR(Deviations(c, Mean(c))))
  {
    var e, f, v := WeightInputs(region);
    WeightedCount(e, f, v);
  }

  /** The squared deviations, the row flags and the variance of a region,
      with what WeightedCount needs of them. */
  lemma WeightInputs(region: Grid) returns (e: seq<real>, f: seq<bool>, v: real)
    requires |region| > 0
    ensures var c := DarkCounts(region);
      e == Deviations(c, Mean(c)) && f == BaselineFlags(region) && v == Variance(c)
    ensures |e| == |f| && v >= 0.0
    ensures forall k :: 0 <= k < |e| ==> e[k] >= 0.0
    ensures forall k :: 0 <= k < |e| && f[k] ==> e[k] > 4.0 * v
  {
    var c := DarkCounts(region);
    e, f, v := Deviations(c, Mean(c)), BaselineFlags(region), Variance(c);
    DeviationsNonNeg(c, Mean(c));
    VarianceNonNeg(c);
    BaselinesDeviate(region);
  }

  lemma WeightedCount(e: seq<real>, f: seq<bool>, v: real)
    requires |e| == |f| && v >= 0.0
    requires forall k :: 0 <= k < |e| ==> e[k] >= 0.0
    requires forall k :: 0 <= k < |e| && f[k] ==> e[k] > 4.0 * v
    ensures 4.0 * v * Flagged(f) as real <= SumR(e)
    ensures Flagged(f) > 0 ==> 4.0 * v * Flagged(f) as real < SumR(e)
  {
    FlaggedBelowSum(e, f, 4.0 * v);
  }

  /** Chebyshev's bound for the baseline test: fewer than a quarter of the
      rows of a non-empty region are ever whitened. */
  lemma FewBaselines(region: Grid)
    requires |region| > 0
    ensures 4 * Flagged(BaselineFlags(region)) < |region|
  {
    var c := DarkCounts(region);
    BaselineWeight(region);
    VarianceSum(c);
    VarianceNonNeg(c);
    QuarterBound(Variance(c), Flagged(BaselineFlags(region)), |c|, SumR(Deviations(c, Mean(c))));
  }

  // -------------------------------------------------------------- process

  /** With no box from detect, the bottom int(0.12 * h) rows at full width. */
  function Fallback(h: nat, w: nat): (r: Rect)
    ensures r.x == 0 && r.w == w && r.h == h * 12 / 100 && r.y + r.h == h
  {
    Rect(0, h - h * 12 / 100, w, h * 12 / 100)
  }

  function Min(a: nat, b: nat): nat { if a <= b then a else b }

  /** The slice gray[y:y+h, x:x+w] as NumPy clamps it to the page. */
  datatype Window = Window(r0: nat, r1: nat, c0: nat, c1: nat) {
    predicate Inside(i: int, j: int) { r0 <= i < r1 && c0 <= j < c1 }
  }

  function Clamp(r: Rect, h: nat, w: nat): (win: Window)
    ensures win.r0 <= win.r1 <= h && win.c0 <= win.c1 <= w
    ensures forall i, j :: win.Inside(i, j) <==> 0 <= i < h && 0 <= j < w && r.y <= i < r.y + r.h && r.x <= j < r.x + r.w
  {
    Window(Min(r.y, h), Min(r.y + r.h, h), Min(r.x, w), Min(r.x + r.w, w))
  }

  function Crop(g: Grid, h: nat, w: nat, win: Window): (c: Grid)
    requires IsGrid(g, h, w) && win.r0 <= win.r1 <= h && win.c0 <= win.c1 <= w
    ensures IsGrid(c, win.r1 - win.r0, win.c1 - win.c0)
    ensures forall i, j :: 0 <= i < win.r1 - win.r0 && 0 <= j < win.c1 - win.c0 ==> c[i][j] == g[win.r0 + i][win.c0 + j]
  {
    seq(win.r1 - win.r0, i requires 0 <= i < win.r1 - win.r0 => g[win.r0 + i][win.c0..win.c1])
  }

  /** result[y:y+h, x:x+w] = patch on one plane. */
  function Paste(g: Grid, h: nat, w: nat, win: Window, patch: Grid): (r: Grid)
    requires IsGrid(g, h, w) && win.r0 <= win.r1 <= h && win.c0 <= win.c1 <= w
    requires IsGrid(patch, win.r1 - win.r0, win.c1 - win.c0)
    ensures IsGrid(r, h, w)
    ensures forall i, j :: 0 <= i < h && 0 <= j < w ==>
      r[i][j] == (if win.Inside(i, j) then patch[i - win.r0][j - win.c0] else g[i][j])
  {
    Tabulate(h, w, (i: nat, j: nat) =>
      if i < h && j < w then (if win.Inside(i, j) then patch[i - win.r0][j - win.c0] else g[i][j]) else 0)
  }

  /** THRESH_BINARY at the Otsu threshold t. */
  function Binary(g: Grid, t: int): (b: Grid)
    ensures |b| == |g| && forall i :: 0 <= i < |g| ==> |b[i]| == |g[i]|
    ensures TwoLevel(b)
    ensures forall i, j :: 0 <= i < |g| && 0 <= j < |g[i]| ==> (b[i][j] == 255 <==> g[i][j] > t)
  {
    MapGrid(g, (v: int) => if v > t then 255 else 0)
  }

  datatype ProcessMeta = ProcessMeta(mrzBbox: Rect, baselineRemoved: bool)  // method "targeted_binarization"

  /** The library steps of process: the 3x3 sharpening filter and Otsu's
      threshold. */
  datatype Filters = Filters(sharpen: Grid -> Grid, otsu: Grid -> int)

  /** The patch written back: baseline removal, sharpening, Otsu. A patch
      pixel is white exactly where the sharpened, baseline-free crop lies
      above its own Otsu level. */
  function Patch(gray: Grid, h: nat, w: nat, win: Window, f: Filters): (p: Grid)
    requires IsGrid(gray, h, w) && win.r0 <= win.r1 <= h && win.c0 <= win.c1 <= w
    ensures IsGrid(p, win.r1 - win.r0, win.c1 - win.c0) && TwoLevel(p)
    ensures var sharp := Fit(f.sharpen(RemoveBaseline(Crop(gray, h, w, win))), win.r1 - win.r0, win.c1 - win.c0);
      forall i, j :: 0 <= i < win.r1 - win.r0 && 0 <= j < win.c1 - win.c0 ==>
        (p[i][j] == 255 <==> sharp[i][j] > f.otsu(sharp))
  {
    var region := Crop(gray, h, w, win);
    var sharp := Fit(f.sharpen(RemoveBaseline(region)), win.r1 - win.r0, win.c1 - win.c0);
    Binary(sharp, f.otsu(sharp))
  }

  /** The patch pasted into every plane of the page. */
  function PasteAll(img: Image, win: Window, patch: Grid): (r: Image)
    requires img.Valid() && win.r0 <= win.r1 <= img.h && win.c0 <= win.c1 <= img.w
    requires IsGrid(patch, win.r1 - win.r0, win.c1 - win.c0)
    ensures r.Valid() && SameShape(r, img)
    ensures forall c, i, j :: 0 <= c < |img.planes| && 0 <= i < img.h && 0 <= j < img.w ==>
      r.planes[c][i][j] == (if win.Inside(i, j) then patch[i - win.r0][j - win.c0] else img.planes[c][i][j])
  {
    var planes := seq(|img.planes|, c requires 0 <= c < |img.planes| => Paste(img.planes[c], img.h, img.w, win, patch));
    assert forall c :: 0 <= c < |img.planes| ==> planes[c] == Paste(img.planes[c], img.h, img.w, win, patch);
    Image(img.h, img.w, planes)
  }

  /** A two-level patch leaves every plane two-level inside the window and
      untouched outside it. */
  lemma PastedTwoLevel(img: Image, win: Window, patch: Grid)
    requires img.Valid() && win.r0 <= win.r1 <= img.h && win.c0 <= win.c1 <= img.w
    requires IsGrid(patch, win.r1 - win.r0, win.c1 - win.c0) && TwoLevel(patch)
    ensures var r := PasteAll(img, win, patch);
      forall c, i, j :: 0 <= c < |img.planes| && 0 <= i < img.h && 0 <= j < img.w && !win.Inside(i, j) ==>
        r.planes[c][i][j] == img.planes[c][i][j]
    ensures var r := PasteAll(img, win, patch);
      forall c, i, j :: 0 <= c < |img.planes| && win.Inside(i, j) ==>
        r.planes[c][i][j] == 0 || r.planes[c][i][j] == 255
  {
    var r := PasteAll(img, win, patch);
    forall c, i, j | 0 <= c < |img.planes| && win.Inside(i, j)
      ensures r.planes[c][i][j] == 0 || r.planes[c][i][j] == 255
    {
      assert r.planes[c][i][j] == patch[i - win.r0][j - win.c0];
    }
  }

  /** MRZEnhancementModule.process. */
  function Process(img: Image, luma: (int, int, int) -> int, meta: DetectMeta, f: Filters): (r: (Image, ProcessMeta))
    requires img.Valid()
    ensures r.0.Valid() && SameShape(r.0, img)
    ensures r.1.mrzBbox == meta.mrzBbox.GetOr(Fallback(img.h, img.w)) && r.1.baselineRemoved
    ensures var win := Clamp(r.1.mrzBbox, img.h, img.w);
      r.0 == PasteAll(img, win, Patch(GrayOf(img, luma), img.h, img.w, win, f))
    ensures var win := Clamp(r.1.mrzBbox, img.h, img.w);
      forall c, i, j :: 0 <= c < |img.planes| && 0 <= i < img.h && 0 <= j < img.w && !win.Inside(i, j) ==>
        r.0.planes[c][i][j] == img.planes[c][i][j]
    ensures var win := Clamp(r.1.mrzBbox, img.h, img.w);
      forall c, i, j :: 0 <= c < |img.planes| && win.Inside(i, j) ==>
        r.0.planes[c][i][j] == 0 || r.0.planes[c][i][j] == 255
  {
    var rect := meta.mrzBbox.GetOr(Fallback(img.h, img.w));
    var win := Clamp(rect, img.h, img.w);
    var patch := Patch(GrayOf(img, luma), img.h, img.w, win, f);
    PastedTwoLevel(img, win, patch);
    (PasteAll(img, win, patch), ProcessMeta(rect, true))
  }
}

=== FILE: orientation.dfy ===
/** OrientationModule of autoocr/api/modules/orientation.py: the page's
    rotation is read from Tesseract's orientation-and-script report (OSD) and
    undone with a quarter or half turn. Running Tesseract is outside the
    model: its outcome arrives as an `Osd` value. */
module Orientation {
  import opened Wrappers
  import opened Raster

  /** What asking Tesseract for OSD yields. */
  datatype Osd =
    | TesseractMissing        // get_tesseract_version raised
    | OsdFailed(error: string) // image_to_osd raised
    | OsdText(text: string)

  datatype DetectMeta =
    | Missing                          // reason "tesseract_missing"
    | Failed(error: string)            // reason "osd_failed"
    | Parsed(angle: nat, osd: string)

  // ------------------------------------------------------ parsing "Rotate:"

  /** The number of blocks of ten decimal digits (Unicode category Nd,
      Unicode 15.0). On a str, `\\d` matches exactly these 680 code points
      and int() reads the one at a block's zero + d as d. */
  const DigitBlockCount: nat := 68

  /** The zero of the k-th block, in ascending order. */
  function DigitZero(k: nat): char
    requires k < DigitBlockCount
  {
    match k
    case 0 => '0'
    case 1 => '\U{0660}'
    case 2 => '\U{06F0}'
    case 3 => '\U{07C0}'
    case 4 => '\U{0966}'
    case 5 => '\U{09E6}'
    case 6 => '\U{0A66}'
    case 7 => '\U{0AE6}'
    case 8 => '\U{0B66}'
    case 9 => '\U{0BE6}'
    case 10 => '\U{0C66}'
    case 11 => '\U{0CE6}'
    case 12 => '\U{0D66}'
    case 13 => '\U{0DE6}'
    case 14 => '\U{0E50}'
    case 15 => '\U{0ED0}'
    case 16 => '\U{0F20}'
    case 17 => '\U{1040}'
    case 18 => '\U{1090}'
    case 19 => '\U{17E0}'
    case 20 => '\U{1810}'
    case 21 => '\U{1946}'
    case 22 => '\U{19D0}'
    case 23 => '\U{1A80}'
    case 24 => '\U{1A90}'
    case 25 => '\U{1B50}'
    case 26 => '\U{1BB0}'
    case 27 => '\U{1C40}'
    case 28 => '\U{1C50}'
    case 29 => '\U{A620}'
    case 30 => '\U{A8D0}'
    case 31 => '\U{A900}'
    case 32 => '\U{A9D0}'
    case 33 => '\U{A9F0}'
    case 34 => '\U{AA50}'
    case 35 => '\U{ABF0}'
    case 36 => '\U{FF10}'
    case 37 => '\U{104A0}'
    case 38 => '\U{10D30}'
    case 39 => '\U{11066}'
    case 40 => '\U{110F0}'
    case 41 => '\U{11136}'
    case 42 => '\U{111D0}'
    case 43 => '\U{112F0}'
    case 44 => '\U{11450}'
    case 45 => '\U{114D0}'
    case 46 => '\U{11650}'
    case 47 => '\U{116C0}'
    case 48 => '\U{11730}'
    case 49 => '\U{118E0}'
    case 50 => '\U{11950}'
    case 51 => '\U{11C50}'
    case 52 => '\U{11D50}'
    case 53 => '\U{11DA0}'
    case 54 => '\U{11F50}'
    case 55 => '\U{16A60}'
    case 56 => '\U{16AC0}'
    case 57 => '\U{16B50}'
    case 58 => '\U{1D7CE}'
    case 59 => '\U{1D7D8}'
    case 60 => '\U{1D7E2}'
    case 61 => '\U{1D7EC}'
    case 62 => '\U{1D7F6}'
    case 63 => '\U{1E140}'
    case 64 => '\U{1E2F0}'
    case 65 => '\U{1E4F0}'
    case 66 => '\U{1E950}'
    case _ => '\U{1FBF0}'
  }

  /** c is one of the ten digits starting at zero z. */
  predicate InBlock(c: char, z: char) {
    z <= c && c as int <= z as int + 9
  }

  /** The zero of the first block from index k on that holds c. */
  function BlockZero(c: char, k: nat): (z: Option<char>)
    requires k <= DigitBlockCount
    ensures z.Some? ==> InBlock(c, z.value)
    decreases DigitBlockCount - k
  {
    if k == DigitBlockCount then None
    else if InBlock(c, DigitZero(k)) then Some(DigitZero(k))
    else BlockZero(c, k + 1)
  }

  /** What `\\d` matches. */
  predicate IsDigit(c: char) {
    BlockZero(c, 0).Some?
  }

  /** int() of one decimal digit. */
  function DigitValue(c: char): (d: nat)
    requires IsDigit(c)
    ensures d <= 9
  {
    c as int - BlockZero(c, 0).value as int
  }

  /** A digit is exactly a member of one of the listed blocks, and the ASCII
      digits are the first block, valued as their offset from '0'. */
  lemma DigitBlocks(c: char)
    ensures IsDigit(c) <==> exists k :: 0 <= k < DigitBlockCount && InBlock(c, DigitZero(k))
    ensures '0' <= c <= '9' ==> IsDigit(c) && DigitValue(c) == c as int - '0' as int
  {
    BlockZeroFinds(c, 0);
    if '0' <= c <= '9' {
      AsciiDigit(c);
    }
  }

  /** The blocks ascend without overlapping, so a digit lies in exactly one
      block and its value does not depend on which block the scan finds. */
  lemma DigitBlocksAscend()
    ensures forall k :: 0 < k < DigitBlockCount ==> DigitZero(k - 1) as int + 10 <= DigitZero(k) as int
  {
  }

  /** The scan from k finds a block exactly when one from k on holds c. */
  lemma {:induction false} BlockZeroFinds(c: char, k: nat)
    requires k <= DigitBlockCount
    ensures BlockZero(c, k).Some? <==> exists j :: k <= j < DigitBlockCount && InBlock(c, DigitZero(j))
    decreases DigitBlockCount - k
  {
    if k < DigitBlockCount && !InBlock(c, DigitZero(k)) {
      BlockZeroFinds(c, k + 1);
    }
  }

  lemma AsciiDigit(c: char)
    requires '0' <= c <= '9'
    ensures BlockZero(c, 0) == Some('0')
  {
  }

  lemma ArabicIndicDigit(c: char)
    requires InBlock(c, '\U{0660}')
    ensures BlockZero(c, 0) == Some('\U{0660}')
  {
    assert BlockZero(c, 0) == BlockZero(c, 1);
  }

  predicate AllDigits(s: string) { forall k :: 0 <= k < |s| ==> IsDigit(s[k]) }

  /** Length of the run of digits at the start of `s` (what `\\d+` consumes). */
  function DigitRun(s: string): (n: nat)
    ensures n <= |s| && AllDigits(s[..n])
    ensures n < |s| ==> !IsDigit(s[n])
    decreases |s|
  {
    if |s| > 0 && IsDigit(s[0]) then
      var n := 1 + DigitRun(s[1..]);
      assert forall k :: 1 <= k < n ==> s[..n][k] == s[1..][..n - 1][k - 1];
      n
    else 0
  }

  /** int() of a string of decimal digits. */
  function DigitsValue(s: string): nat
    requires AllDigits(s)
    decreases |s|
  {
    if |s| == 0 then 0
    else 10 * DigitsValue(s[..|s| - 1]) + DigitValue(s[|s| - 1])
  }

  /** The decimal text of n, without leading zeros. */
  function ShowNat(n: nat): (s: string)
    ensures |s| > 0 && AllDigits(s)
    decreases n
  {
    var d := ['0' + (n % 10) as char];
    AsciiDigit(d[0]);
    if n < 10 then d else ShowNat(n / 10) + d
  }

  /** Reading back a printed number gives the number. */
  lemma {:induction false} ShowNatValue(n: nat)
    ensures DigitsValue(ShowNat(n)) == n
    decreases n
  {
    var s := ShowNat(n);
    AsciiDigit(s[|s| - 1]);
    if n >= 10 {
      ShowNatValue(n / 10);
      assert s[..|s| - 1] == ShowNat(n / 10);
    }
  }

  const Marker: string := "Rotate: "

  /** `Rotate: (\\d+)` matches at position i of s. */
  predicate MatchAt(s: string, i: nat) {
    i <= |s| && Matches(s[i..])
  }

  /** `t` starts with the marker followed by a digit. */
  predicate Matches(t: string) {
    |Marker| < |t| && t[..|Marker|] == Marker && IsDigit(t[|Marker|])
  }

  /** The number a match at the start of `t` captures. */
  function Capture(t: string): nat
    requires Matches(t)
  {
    var rest := t[|Marker|..];
    DigitsValue(rest[..DigitRun(rest)])
  }

  /** The number a match at position i captures. */
  function CaptureAt(s: string, i: nat): nat
    requires MatchAt(s, i)
  {
    Capture(s[i..])
  }

  /** re.search from position i: the capture of the leftmost match. */
  function Search(s: string, i: nat): (r: Option<nat>)
    ensures r.None? <==> forall k :: i <= k ==> !MatchAt(s, k)
    ensures r.Some? ==> exists k :: (i <= k && MatchAt(s, k) && r.value == CaptureAt(s, k) &&
      forall k' :: i <= k' < k ==> !MatchAt(s, k'))
    decreases |s| - i
  {
    if i + |Marker| >= |s| then None
    else if MatchAt(s, i) then Some(CaptureAt(s, i))
    else Search(s, i + 1)
  }

  /** The parsed angle, 0 when the report has no "Rotate:" line. */
  function Angle(osd: string): (angle: nat)
    ensures (forall k :: !MatchAt(osd, k)) ==> angle == 0
  {
    Search(osd, 0).GetOr(0)
  }

  /** The search returns the capture of the first match. */
  lemma {:induction false} SearchFirst(s: string, i: nat, p: nat)
    requires i <= p && MatchAt(s, p) && forall k: nat :: i <= k < p ==> !MatchAt(s, k)
    ensures Search(s, i) == Some(CaptureAt(s, p))
    decreases p - i
  {
    if i < p {
      assert !MatchAt(s, i);
      SearchFirst(s, i + 1, p);
    }
  }

  /** A report whose first "Rotate: " line carries the number n parses to n,
      whatever precedes it (as long as no match starts there) and whatever
      non-digit follows it. */
  lemma ParsePrinted(prefix: string, n: nat, suffix: string)
    requires forall k: nat :: k < |prefix| ==> !MatchAt(prefix + Marker + ShowNat(n) + suffix, k)
    requires |suffix| == 0 || !IsDigit(suffix[0])
    ensures Angle(prefix + Marker + ShowNat(n) + suffix) == n
  {
    MatchPrinted(prefix, ShowNat(n), suffix);
    SearchFirst(prefix + Marker + ShowNat(n) + suffix, 0, |prefix|);
    ShowNatValue(n);
  }

  /** Arabic-Indic digits are read as Python reads them: "Rotate: ٩٠" is a
      turn of 90 degrees. */
  lemma ArabicIndicAngle()
    ensures Angle(Marker + "\U{0669}\U{0660}") == 90
  {
    var digits := "\U{0669}\U{0660}";
    ArabicIndicDigit(digits[0]);
    ArabicIndicDigit(digits[1]);
    assert DigitsValue(digits[..1]) == 9;
    MatchPrinted("", digits, "");
    assert "" + Marker + digits + "" == Marker + digits;
    SearchFirst(Marker + digits, 0, 0);
  }

  /** A digit of another script right after ASCII digits extends the number:
      "Rotate: 90٣" reads as 903. */
  lemma MixedScriptAngle()
    ensures Angle(Marker + "90\U{0663}") == 903
  {
    var digits := "90\U{0663}";
    AsciiDigit(digits[0]);
    AsciiDigit(digits[1]);
    ArabicIndicDigit(digits[2]);
    assert DigitsValue(digits[..1]) == 9;
    assert DigitsValue(digits[..2]) == 90;
    MatchPrinted("", digits, "");
    assert "" + Marker + digits + "" == Marker + digits;
    SearchFirst(Marker + digits, 0, 0);
  }

  /** The marker followed by a digit string is a match capturing its value. */
  lemma MatchPrinted(prefix: string, digits: string, suffix: string)
    requires |digits| > 0 && AllDigits(digits)
    requires |suffix| == 0 || !IsDigit(suffix[0])
    ensures MatchAt(prefix + Marker + digits + suffix, |prefix|)
    ensures CaptureAt(prefix + Marker + digits + suffix, |prefix|) == DigitsValue(digits)
  {
    var t := Marker + (digits + suffix);
    CapturePrinted(digits, suffix);
    MatchAfter(prefix, t);
    Regroup(prefix, Marker, digits, suffix);
  }

  lemma Regroup(a: string, b: string, c: string, d: string)
    ensures a + b + c + d == a + (b + (c + d))
  {
  }

  /** A match at the start of t is a match at the end of any prefix. */
  lemma MatchAfter(prefix: string, t: string)
    requires Matches(t)
    ensures MatchAt(prefix + t, |prefix|) && CaptureAt(prefix + t, |prefix|) == Capture(t)
  {
    assert (prefix + t)[|prefix|..] == t;
  }

  lemma CapturePrinted(digits: string, suffix: string)
    requires |digits| > 0 && AllDigits(digits)
    requires |suffix| == 0 || !IsDigit(suffix[0])
    ensures Matches(Marker + (digits + suffix))
    ensures Capture(Marker + (digits + suffix)) == DigitsValue(digits)
  {
    var t := Marker + (digits + suffix);
    assert t[|Marker|..] == digits + suffix;
    DigitRunPrinted(digits, suffix);
    assert (digits + suffix)[..|digits|] == digits;
  }

  lemma DigitRunPrinted(digits: string, suffix: string)
    requires AllDigits(digits)
    requires |suffix| == 0 || !IsDigit(suffix[0])
    ensures DigitRun(digits + suffix) == |digits|
    decreases |digits|
  {
    if |digits| > 0 {
      ConcatTail(digits, suffix);
      assert IsDigit(digits[0]);
      DigitRunPrinted(digits[1..], suffix);
    } else {
      assert digits + suffix == suffix;
    }
  }

  lemma ConcatTail(a: string, b: string)
    requires |a| > 0
    ensures (a + b)[0] == a[0] && (a + b)[1..] == a[1..] + b
  {
  }

  /** A quarter or half turn is needed. */
  predicate NeedsRotation(angle: nat) {
    angle == 90 || angle == 180 || angle == 270
  }

  /** OrientationModule.detect: never raises; a missing engine and a failing
      OSD call both decline. */
  function Detect(probe: Osd): (r: (bool, DetectMeta))
    ensures probe.TesseractMissing? ==> r == (false, Missing)
    ensures probe.OsdFailed? ==> r == (false, Failed(probe.error))
    ensures probe.OsdText? ==> r.1 == Parsed(Angle(probe.text), probe.text)
    ensures r.0 <==> probe.OsdText? && NeedsRotation(Angle(probe.text))
  {
    match probe
    case TesseractMissing => (false, Missing)
    case OsdFailed(e) => (false, Failed(e))
    case OsdText(text) =>
      var angle := Angle(text);
      (NeedsRotation(angle), Parsed(angle, text))
  }

  // ------------------------------------------------------------- rotations

  /** cv2.ROTATE_90_COUNTERCLOCKWISE of an h x w plane: w x h. */
  function RotateCcw(g: Grid, h: nat, w: nat): (r: Grid)
    requires IsGrid(g, h, w)
    ensures IsGrid(r, w, h)
    ensures forall i, j :: 0 <= i < w && 0 <= j < h ==> r[i][j] == g[j][w - 1 - i]
  {
    Tabulate(w, h, (i: nat, j: nat) => if j < h && i < w then g[j][w - 1 - i] else 0)
  }

  /** cv2.ROTATE_90_CLOCKWISE of an h x w plane: w x h. */
  function RotateCw(g: Grid, h: nat, w: nat): (r: Grid)
    requires IsGrid(g, h, w)
    ensures IsGrid(r, w, h)
    ensures forall i, j :: 0 <= i < w && 0 <= j < h ==> r[i][j] == g[h - 1 - j][i]
  {
    Tabulate(w, h, (i: nat, j: nat) => if j < h && i < w then g[h - 1 - j][i] else 0)
  }

  /** cv2.ROTATE_180: same size. */
  function Rotate180(g: Grid, h: nat, w: nat): (r: Grid)
    requires IsGrid(g, h, w)
    ensures IsGrid(r, h, w)
    ensures forall i, j :: 0 <= i < h && 0 <= j < w ==> r[i][j] == g[h - 1 - i][w - 1 - j]
  {
    Tabulate(h, w, (i: nat, j: nat) => if i < h && j < w then g[h - 1 - i][w - 1 - j] else 0)
  }

  /** A clockwise quarter turn undoes a counter-clockwise one. */
  lemma CwUndoesCcw(g: Grid, h: nat, w: nat)
    requires IsGrid(g, h, w)
    ensures RotateCw(RotateCcw(g, h, w), w, h) == g
  {
    var r := RotateCw(RotateCcw(g, h, w), w, h);
    forall i | 0 <= i < h ensures r[i] == g[i] {
      assert forall j :: 0 <= j < w ==> r[i][j] == g[i][j];
    }
  }

  /** A counter-clockwise quarter turn undoes a clockwise one. */
  lemma CcwUndoesCw(g: Grid, h: nat, w: nat)
    requires IsGrid(g, h, w)
    ensures RotateCcw(RotateCw(g, h, w), w, h) == g
  {
    var r := RotateCcw(RotateCw(g, h, w), w, h);
    forall i | 0 <= i < h ensures r[i] == g[i] {
      assert forall j :: 0 <= j < w ==> r[i][j] == g[i][j];
    }
  }

  /** A half turn is its own inverse. */
  lemma HalfTurnInvolution(g: Grid, h: nat, w: nat)
    requires IsGrid(g, h, w)
    ensures Rotate180(Rotate180(g, h, w), h, w) == g
  {
    var r := Rotate180(Rotate180(g, h, w), h, w);
    forall i | 0 <= i < h ensures r[i] == g[i] {
      assert forall j :: 0 <= j < w ==> r[i][j] == g[i][j];
    }
  }

  /** Two counter-clockwise quarter turns make a half turn. */
  lemma TwoQuartersMakeHalf(g: Grid, h: nat, w: nat)
    requires IsGrid(g, h, w)
    ensures RotateCcw(RotateCcw(g, h, w), w, h) == Rotate180(g, h, w)
  {
    var r := RotateCcw(RotateCcw(g, h, w), w, h);
    var s := Rotate180(g, h, w);
    forall i | 0 <= i < h ensures r[i] == s[i] {
      assert forall j :: 0 <= j < w ==> r[i][j] == s[i][j];
    }
  }

  /** The three exact rotations cv2.rotate offers. */
  datatype Turn = QuarterCcw | Half | QuarterCw {
    /** Height and width of an h x w plane after the turn. */
    function Size(h: nat, w: nat): (nat, nat) {
      if Half? then (h, w) else (w, h)
    }
  }

  function TurnPlane(t: Turn, g: Grid, h: nat, w: nat): (r: Grid)
    requires IsGrid(g, h, w)
    ensures IsGrid(r, t.Size(h, w).0, t.Size(h, w).1)
  {
    match t
    case QuarterCcw => RotateCcw(g, h, w)
    case Half => Rotate180(g, h, w)
    case QuarterCw => RotateCw(g, h, w)
  }

  /** Every plane turned by the same rotation. */
  function TurnPlanes(img: Image, t: Turn): (r: Image)
    requires img.Valid()
    ensures r.Valid() && (r.h, r.w) == t.Size(img.h, img.w) && |r.planes| == |img.planes|
    ensures forall c :: 0 <= c < |img.planes| ==> r.planes[c] == TurnPlane(t, img.planes[c], img.h, img.w)
  {
    var (oh, ow) := t.Size(img.h, img.w);
    Image(oh, ow, seq(|img.planes|, c requires 0 <= c < |img.planes| => TurnPlane(t, img.planes[c], img.h, img.w)))
  }

  datatype ProcessMeta =
    | NotApplied                       // applied False
    | Rotated(originalAngle: nat)      // applied True

  /** The angle process reads: detect_meta.get("angle", 0). */
  function MetaAngle(meta: DetectMeta): nat {
    if meta.Parsed? then meta.angle else 0
  }

  /** OrientationModule.process. 90 is undone counter-clockwise, 180 by a
      half turn, 270 clockwise; any other non-zero angle goes through an
      affine warp about the centre that keeps the page size, whose pixels
      are the library's `warp`. */
  function Process(img: Image, meta: DetectMeta, warp: (nat, nat, nat) -> int): (r: (Image, ProcessMeta))
    requires img.Valid()
    ensures r.0.Valid() && |r.0.planes| == |img.planes|
    ensures MetaAngle(meta) == 0 <==> r.1 == NotApplied
    ensures MetaAngle(meta) == 0 ==> r.0 == img
    ensures MetaAngle(meta) != 0 ==> r.1 == Rotated(MetaAngle(meta))
    ensures MetaAngle(meta) == 90 || MetaAngle(meta) == 270 ==> r.0.h == img.w && r.0.w == img.h
    ensures MetaAngle(meta) != 90 && MetaAngle(meta) != 270 ==> r.0.h == img.h && r.0.w == img.w
    ensures MetaAngle(meta) == 90 ==> forall c :: 0 <= c < |img.planes| ==>
      r.0.planes[c] == RotateCcw(img.planes[c], img.h, img.w)
    ensures MetaAngle(meta) == 180 ==> forall c :: 0 <= c < |img.planes| ==>
      r.0.planes[c] == Rotate180(img.planes[c], img.h, img.w)
    ensures MetaAngle(meta) == 270 ==> forall c :: 0 <= c < |img.planes| ==>
      r.0.planes[c] == RotateCw(img.planes[c], img.h, img.w)
  {
    var angle := MetaAngle(meta);
    if angle == 0 then (img, NotApplied)
    else if angle == 90 then (TurnPlanes(img, QuarterCcw), Rotated(angle))
    else if angle == 180 then (TurnPlanes(img, Half), Rotated(angle))
    else if angle == 270 then (TurnPlanes(img, QuarterCw), Rotated(angle))
    else (Sampled(img.h, img.w, |img.planes|, warp), Rotated(angle))
  }

  /** A page turned by a quarter turn and then corrected from an OSD report
      of "Rotate: 270" (clockwise) is restored exactly; likewise 90 after a
      clockwise turn and 180 after a half turn. */
  lemma CorrectionRestores(img: Image, warp: (nat, nat, nat) -> int)
    requires img.Valid()
    ensures var turned := TurnPlanes(img, QuarterCcw);
      Process(turned, Parsed(270, ""), warp).0 == img
    ensures var turned := TurnPlanes(img, QuarterCw);
      Process(turned, Parsed(90, ""), warp).0 == img
    ensures var turned := TurnPlanes(img, Half);
      Process(turned, Parsed(180, ""), warp).0 == img
  {
    var a := TurnPlanes(img, QuarterCcw);
    var b := TurnPlanes(img, QuarterCw);
    var c := TurnPlanes(img, Half);
    forall k | 0 <= k < |img.planes|
      ensures RotateCw(a.planes[k], img.w, img.h) == img.planes[k]
      ensures RotateCcw(b.planes[k], img.w, img.h) == img.planes[k]
      ensures Rotate180(c.planes[k], img.h, img.w) == img.planes[k]
    {
      CwUndoesCcw(img.planes[k], img.h, img.w);
      CcwUndoesCw(img.planes[k], img.h, img.w);
      HalfTurnInvolution(img.planes[k], img.h, img.w);
    }
    assert Process(a, Parsed(270, ""), warp).0.planes == img.planes;
    assert Process(b, Parsed(90, ""), warp).0.planes == img.planes;
    assert Process(c, Parsed(180, ""), warp).0.planes == img.planes;
  }
}

=== FILE: perspective.dfy ===
/** PerspectiveModule of autoocr/api/modules/perspective.py: a keystoned page
    is recognised from the four-vertex approximation of its largest edge
    contour and warped flat. Edge detection, contour approximation and the
    perspective warp are library work; the ordering of the four corners and
    the size of the output page are modelled exactly. */
module Perspective {
  import opened Wrappers
  import opened Raster

  const DefaultMinAreaRatio: real := 0.5
  const DefaultSkewTolerance: real := 0.015

  datatype Point = Point(x: int, y: int)

  /** The largest external contour of the Canny edges: its area, the vertices
      approxPolyDP keeps, and the width and height of boundingRect of them. */
  datatype Outline = Outline(area: real, approx: seq<Point>, boxWidth: nat, boxHeight: nat)

  datatype DetectMeta =
    | NoContours                                  // reason "no_contours"
    | NotQuadOrSmall(areaRatio: real)             // reason "not_quad_or_small"
    | ZeroBox                                     // reason "zero_box"
    | Quad(areaRatio: real, fillRatio: real, approx: seq<Point>)

  /** PerspectiveModule.detect on a non-empty BGR page of h x w pixels. */
  function Detect(outline: Option<Outline>, h: nat, w: nat, minAreaRatio: real, skewTolerance: real)
    : (r: (bool, DetectMeta))
    requires h > 0 && w > 0
    ensures outline.None? ==> r == (false, NoContours)
    ensures r.0 ==> r.1.Quad? && |r.1.approx| == 4
    ensures outline.Some? ==>
      var o := outline.value;
      var ratio := Quotient(o.area, h * w);
      && (|o.approx| != 4 || ratio < minAreaRatio <==> r.1 == NotQuadOrSmall(ratio))
      && (|o.approx| == 4 && ratio >= minAreaRatio && o.boxWidth * o.boxHeight == 0 <==> r.1 == ZeroBox)
      && (r.1.Quad? ==> (r.1.areaRatio == ratio && r.1.approx == o.approx &&
            r.1.fillRatio == Quotient(o.area, o.boxWidth * o.boxHeight) &&
            (r.0 <==> r.1.fillRatio < 1.0 - skewTolerance)))
  {
    if outline.None? then (false, NoContours)
    else
      var o := outline.value;
      var ratio := Quotient(o.area, h * w);
      if |o.approx| != 4 || ratio < minAreaRatio then (false, NotQuadOrSmall(ratio))
      else if o.boxWidth * o.boxHeight == 0 then (false, ZeroBox)
      else
        var fill := Quotient(o.area, o.boxWidth * o.boxHeight);
        (fill < 1.0 - skewTolerance, Quad(ratio, fill, o.approx))
  }

  /** The correction test "fill ratio below 1 - tolerance" in whole numbers
      for the default tolerance: the contour covers less than 98.5% of its
      bounding box. */
  lemma FillTestDefault(area: real, box: nat)
    requires box > 0
    ensures Quotient(area, box) < 1.0 - DefaultSkewTolerance <==> 1000.0 * area < 985.0 * box as real
  {
    var q := Quotient(area, box);
    var b := box as real;
    assert area == q * b;
    ScaleOrder(q, 0.985, b);
    assert 1000.0 * area == 1000.0 * (q * b);
    assert 985.0 * b == 1000.0 * (0.985 * b);
  }

  // ------------------------------------------------------- corner ordering

  /** np.argmin: the first index of a least element. */
  function ArgMin(s: seq<int>): (k: nat)
    requires |s| > 0
    ensures k < |s|
    ensures forall j :: 0 <= j < |s| ==> s[k] <= s[j]
    ensures forall j :: 0 <= j < k ==> s[j] > s[k]
    decreases |s|
  {
    if |s| == 1 then 0
    else
      var k := ArgMin(s[..|s| - 1]);
      if s[|s| - 1] < s[k] then |s| - 1 else k
  }

  /** np.argmax: the first index of a greatest element. */
  function ArgMax(s: seq<int>): (k: nat)
    requires |s| > 0
    ensures k < |s|
    ensures forall j :: 0 <= j < |s| ==> s[j] <= s[k]
    ensures forall j :: 0 <= j < k ==> s[j] < s[k]
    decreases |s|
  {
    if |s| == 1 then 0
    else
      var k := ArgMax(s[..|s| - 1]);
      if s[|s| - 1] > s[k] then |s| - 1 else k
  }

  /** pts.sum(axis=1). */
  function Sums(pts: seq<Point>): (s: seq<int>)
    ensures |s| == |pts| && forall k :: 0 <= k < |pts| ==> s[k] == pts[k].x + pts[k].y
  {
    seq(|pts|, k requires 0 <= k < |pts| => pts[k].x + pts[k].y)
  }

  /** np.diff(pts, axis=1): y - x of each point. */
  function Diffs(pts: seq<Point>): (s: seq<int>)
    ensures |s| == |pts| && forall k :: 0 <= k < |pts| ==> s[k] == pts[k].y - pts[k].x
  {
    seq(|pts|, k requires 0 <= k < |pts| => pts[k].y - pts[k].x)
  }

  datatype Corners = Corners(tl: Point, tr: Point, br: Point, bl: Point)

  /** _order_points: top-left has the least x + y, bottom-right the greatest;
      top-right has the least y - x, bottom-left the greatest; ties go to the
      earliest point. Every corner is one of the input points. */
  function OrderPoints(pts: seq<Point>): (c: Corners)
    requires |pts| > 0
    ensures c.tl in pts && c.tr in pts && c.br in pts && c.bl in pts
    ensures forall k :: 0 <= k < |pts| ==>
      c.tl.x + c.tl.y <= pts[k].x + pts[k].y <= c.br.x + c.br.y
    ensures forall k :: 0 <= k < |pts| ==>
      c.tr.y - c.tr.x <= pts[k].y - pts[k].x <= c.bl.y - c.bl.x
  {
    var s := Sums(pts);
    var d := Diffs(pts);
    Corners(pts[ArgMin(s)], pts[ArgMin(d)], pts[ArgMax(s)], pts[ArgMax(d)])
  }

  /** The corners of the axis-aligned rectangle [x0, x1] x [y0, y1]. */
  predicate RectangleCorners(pts: seq<Point>, x0: int, y0: int, x1: int, y1: int) {
    x0 < x1 && y0 < y1 &&
    (forall k :: 0 <= k < |pts| ==>
       pts[k] in {Point(x0, y0), Point(x1, y0), Point(x1, y1), Point(x0, y1)}) &&
    Point(x0, y0) in pts && Point(x1, y0) in pts && Point(x1, y1) in pts && Point(x0, y1) in pts
  }

  /** Whatever order the four corners of a rectangle come in, they are named
      correctly. */
  lemma RectangleOrdered(pts: seq<Point>, x0: int, y0: int, x1: int, y1: int)
    requires RectangleCorners(pts, x0, y0, x1, y1)
    ensures OrderPoints(pts) == Corners(Point(x0, y0), Point(x1, y0), Point(x1, y1), Point(x0, y1))
  {
    var c := OrderPoints(pts);
    Extremes(pts, Point(x0, y0));
    Extremes(pts, Point(x1, y1));
    Extremes(pts, Point(x1, y0));
    Extremes(pts, Point(x0, y1));
    RectangleCorner(pts, x0, y0, x1, y1, c.tl);
    RectangleCorner(pts, x0, y0, x1, y1, c.tr);
    RectangleCorner(pts, x0, y0, x1, y1, c.br);
    RectangleCorner(pts, x0, y0, x1, y1, c.bl);
    CornerByExtremes(c, x0, y0, x1, y1);
  }

  /** The named corners bound the sum and the difference of every point. */
  lemma Extremes(pts: seq<Point>, p: Point)
    requires p in pts
    ensures var c := OrderPoints(pts);
      c.tl.x + c.tl.y <= p.x + p.y <= c.br.x + c.br.y &&
      c.tr.y - c.tr.x <= p.y - p.x <= c.bl.y - c.bl.x
  {
    var m :| 0 <= m < |pts| && pts[m] == p;
  }

  /** A point drawn from a rectangle's corner list is one of its corners. */
  lemma RectangleCorner(pts: seq<Point>, x0: int, y0: int, x1: int, y1: int, p: Point)
    requires RectangleCorners(pts, x0, y0, x1, y1) && p in pts
    ensures IsCorner(p, x0, y0, x1, y1)
  {
    var m :| 0 <= m < |pts| && pts[m] == p;
  }

  /** Among a rectangle's corners, the extreme sums and differences single
      out each corner. */
  lemma CornerByExtremes(c: Corners, x0: int, y0: int, x1: int, y1: int)
    requires x0 < x1 && y0 < y1
    requires IsCorner(c.tl, x0, y0, x1, y1) && IsCorner(c.tr, x0, y0, x1, y1)
    requires IsCorner(c.br, x0, y0, x1, y1) && IsCorner(c.bl, x0, y0, x1, y1)
    requires c.tl.x + c.tl.y <= x0 + y0 && c.br.x + c.br.y >= x1 + y1
    requires c.tr.y - c.tr.x <= y0 - x1 && c.bl.y - c.bl.x >= y1 - x0
    ensures c == Corners(Point(x0, y0), Point(x1, y0), Point(x1, y1), Point(x0, y1))
  {
  }

  predicate IsCorner(p: Point, x0: int, y0: int, x1: int, y1: int) {
    p == Point(x0, y0) || p == Point(x1, y0) || p == Point(x1, y1) || p == Point(x0, y1)
  }

  // ------------------------------------------------------------ output size

  /** floor(sqrt(n)). */
  function ISqrt(n: nat): (r: nat)
    ensures r * r <= n < (r + 1) * (r + 1)
    decreases n
  {
    if n < 4 then (if n == 0 then 0 else 1)
    else
      var q := ISqrt(n / 4);
      var r := 2 * q;
      ISqrtStep(n, q);
      if (r + 1) * (r + 1) <= n then r + 1 else r
  }

  /** Doubling the root of n / 4 brackets the root of n. */
  lemma ISqrtStep(n: nat, q: nat)
    requires q * q <= n / 4 < (q + 1) * (q + 1)
    ensures (2 * q) * (2 * q) <= n < (2 * q + 2) * (2 * q + 2)
  {
    var m := n / 4;
    assert n == 4 * m + n % 4 && n % 4 < 4;
    assert (2 * q) * (2 * q) == 4 * (q * q);
    assert (2 * q + 2) * (2 * q + 2) == 4 * ((q + 1) * (q + 1));
    assert m + 1 <= (q + 1) * (q + 1);
  }

  /** int(np.linalg.norm(a - b)) in exact arithmetic: the Euclidean
      distance rounded down. The float32 rounding of the norm is not
      modelled. */
  function Distance(a: Point, b: Point): nat {
    ISqrt((a.x - b.x) * (a.x - b.x) + (a.y - b.y) * (a.y - b.y))
  }

  /** The integer root of a perfect square is its root. */
  lemma ISqrtSquare(d: nat)
    ensures ISqrt(d * d) == d
  {
    var r := ISqrt(d * d);
    SquareLess(d, r + 1);
    MulMonoImp(d + 1, d);
    SquareLess(r, d + 1);
  }

  lemma MulMono(a: nat, b: nat)
    requires a <= b
    ensures a * a <= b * b
  {
    assert a * a <= a * b <= b * b;
  }

  lemma MulMonoImp(a: nat, b: nat)
    ensures a <= b ==> a * a <= b * b
    ensures b < a ==> b * b < a * a
  {
    if a <= b {
      MulMono(a, b);
    } else {
      assert b * b <= b * a < a * a;
    }
  }

  /** Squares order their roots. */
  lemma SquareLess(a: nat, b: nat)
    requires a * a < b * b
    ensures a < b
  {
    MulMonoImp(b, a);
  }

  /** int(max(a, b)) of two distances is the larger of their floors. */
  function MaxNat(a: nat, b: nat): nat { if a >= b then a else b }

  /** The output page size (maxWidth, maxHeight): the longer of the top and
      bottom edges, and the longer of the left and right edges. */
  function OutputSize(c: Corners): (size: (nat, nat))
    ensures size.0 >= Distance(c.br, c.bl) && size.0 >= Distance(c.tr, c.tl)
    ensures size.0 == Distance(c.br, c.bl) || size.0 == Distance(c.tr, c.tl)
    ensures size.1 >= Distance(c.tr, c.br) && size.1 >= Distance(c.tl, c.bl)
    ensures size.1 == Distance(c.tr, c.br) || size.1 == Distance(c.tl, c.bl)
  {
    (MaxNat(Distance(c.br, c.bl), Distance(c.tr, c.tl)), MaxNat(Distance(c.tr, c.br), Distance(c.tl, c.bl)))
  }

  /** The destination corners (0, 0), (W - 1, 0), (W - 1, H - 1), (0, H - 1). */
  function Destination(width: nat, height: nat): (d: Corners)
    ensures d.tl == Point(0, 0)
    ensures d.br.x - d.tl.x == width - 1 && d.br.y - d.tl.y == height - 1
    ensures d.tr.y == d.tl.y && d.bl.x == d.tl.x && d.tr.x == d.br.x && d.bl.y == d.br.y
  {
    Corners(Point(0, 0), Point(width - 1, 0), Point(width - 1, height - 1), Point(0, height - 1))
  }

  datatype ProcessMeta =
    | NotApplied                                    // applied False
    | Warped(outputWidth: nat, outputHeight: nat)   // applied True, output_size

  /** The vertices process reads: detect_meta.get("approx"). */
  function MetaPoints(meta: DetectMeta): seq<Point> {
    if meta.Quad? then meta.approx else []
  }

  /** PerspectiveModule.process: with no vertices the page is returned as is;
      otherwise it is warped into a page of the output size, whose pixels
      are the library's `warp` (mapping the ordered corners onto
      Destination). */
  function Process(img: Image, meta: DetectMeta, warp: (nat, nat, nat) -> int): (r: (Image, ProcessMeta))
    requires img.Valid()
    ensures r.0.Valid() && |r.0.planes| == |img.planes|
    ensures |MetaPoints(meta)| == 0 <==> r.1 == NotApplied
    ensures |MetaPoints(meta)| == 0 ==> r.0 == img
    ensures |MetaPoints(meta)| > 0 ==>
      var size := OutputSize(OrderPoints(MetaPoints(meta)));
      r.1 == Warped(size.0, size.1) && r.0.w == size.0 && r.0.h == size.1
  {
    var pts := MetaPoints(meta);
    if |pts| == 0 then (img, NotApplied)
    else
      var (width, height) := OutputSize(OrderPoints(pts));
      (Sampled(height, width, |img.planes|, warp), Warped(width, height))
  }

  /** Distance along one axis is the coordinate difference. */
  lemma AxisDistance(a: Point, b: Point)
    requires a.y == b.y && a.x >= b.x
    ensures Distance(a, b) == a.x - b.x
  {
    var d: nat := a.x - b.x;
    assert a.y - b.y == 0;
    assert (a.x - b.x) * (a.x - b.x) + (a.y - b.y) * (a.y - b.y) == d * d;
    ISqrtSquare(d);
  }

  lemma VerticalDistance(a: Point, b: Point)
    requires a.x == b.x && a.y >= b.y
    ensures Distance(a, b) == a.y - b.y
  {
    var d: nat := a.y - b.y;
    assert a.x - b.x == 0;
    assert (a.x - b.x) * (a.x - b.x) + (a.y - b.y) * (a.y - b.y) == d * d;
    ISqrtSquare(d);
  }

  /** The output size of a rectangle is its width and height. */
  lemma RectangleSize(x0: int, y0: int, x1: int, y1: int)
    requires x0 < x1 && y0 < y1
    ensures OutputSize(Corners(Point(x0, y0), Point(x1, y0), Point(x1, y1), Point(x0, y1))) ==
      (x1 - x0, y1 - y0)
  {
    AxisDistance(Point(x1, y1), Point(x0, y1));
    AxisDistance(Point(x1, y0), Point(x0, y0));
    VerticalDistance(Point(x1, y1), Point(x1, y0));
    VerticalDistance(Point(x0, y1), Point(x0, y0));
    DistanceSymmetric(Point(x1, y0), Point(x1, y1));
    DistanceSymmetric(Point(x0, y0), Point(x0, y1));
  }

  lemma DistanceSymmetric(a: Point, b: Point)
    ensures Distance(a, b) == Distance(b, a)
  {
    assert (a.x - b.x) * (a.x - b.x) == (b.x - a.x) * (b.x - a.x);
    assert (a.y - b.y) * (a.y - b.y) == (b.y - a.y) * (b.y - a.y);
  }

  /** A page whose outline is an axis-aligned rectangle keeps that
      rectangle's size when flattened. */
  lemma RectangleKeepsSize(img: Image, pts: seq<Point>, x0: int, y0: int, x1: int, y1: int,
                           areaRatio: real, fillRatio: real, warp: (nat, nat, nat) -> int)
    requires img.Valid() && RectangleCorners(pts, x0, y0, x1, y1)
    ensures Process(img, Quad(areaRatio, fillRatio, pts), warp).1 == Warped(x1 - x0, y1 - y0)
  {
    RectangleOrdered(pts, x0, y0, x1, y1);
    RectangleSize(x0, y0, x1, y1);
  }
}

=== FILE: pipeline.dfy ===
/** The orchestrator of autoocr/api/pipeline.py: every module in list order
    first inspects the working image (detect) and, when it asks to, replaces
    it (process); each module leaves one step record behind. The image and
    metadata types are parameters, so nothing here depends on what a
    particular module does. */
module Pipeline {
  import opened Wrappers

  /** A preprocessing module (autoocr/api/modules/base_module.py): a name, a
      detect that answers "should I run?" with metadata, and a process that
      returns a new image with its own metadata. */
  datatype Stage<!I, !M> = Stage(name: string, detect: I -> (bool, M), process: (I, M) -> (I, M))

  /** Wall-clock durations in milliseconds. */
  datatype Timing = Timing(detectMs: real, processMs: real, totalMs: real)

  datatype Step<M> = Step(
    moduleName: string,
    detected: bool,
    applied: bool,
    detectMeta: M,
    processMeta: Option<M>,
    timing: Timing)

  datatype PageResult<I, M> = PageResult(original: I, final: I, preBinarize: Option<I>, steps: seq<Step<M>>)

  /** A page result tagged with its position in the document. */
  datatype DocumentPage<I, M> = DocumentPage(pageIndex: nat, result: PageResult<I, M>)

  /** The module name whose input is kept as the pre-binarization snapshot. */
  const BinarizeName: string := "binarize"

  /** The working image after module `m` has had its turn on `img`. */
  function Advance<I, M>(m: Stage<I, M>, img: I): I {
    var (detected, meta) := m.detect(img);
    if detected then m.process(img, meta).0 else img
  }

  /** Trace(mods, img)[k] is the working image module k inspects; the last
      entry is the final image. */
  function Trace<I, M>(mods: seq<Stage<I, M>>, img: I): (t: seq<I>)
    ensures |t| == |mods| + 1 && t[0] == img
    ensures forall k :: 0 <= k < |mods| ==> t[k + 1] == Advance(mods[k], t[k])
    decreases |mods|
  {
    if |mods| == 0 then [img] else [img] + Trace(mods[1..], Advance(mods[0], img))
  }

  /** Module k is a binarize module that fires on the image it sees. */
  ghost predicate SnapshotAt<I, M>(mods: seq<Stage<I, M>>, t: seq<I>, k: int)
    requires |t| == |mods| + 1
  {
    0 <= k < |mods| && mods[k].name == BinarizeName && mods[k].detect(t[k]).0
  }

  /** The step record module k writes; the clock is read before detect,
      after detect and after process, at readings 3k, 3k + 1 and 3k + 2. */
  function StepRecord<I, M>(m: Stage<I, M>, img: I, k: nat, clock: nat -> real): Step<M> {
    var (detected, detectMeta) := m.detect(img);
    var t0, t1, t2 := clock(3 * k), clock(3 * k + 1), clock(3 * k + 2);
    Step(m.name, detected, detected, detectMeta,
         if detected then Some(m.process(img, detectMeta).1) else None,
         Timing((t1 - t0) * 1000.0, if detected then (t2 - t1) * 1000.0 else 0.0, (t2 - t0) * 1000.0))
  }

  /** The snapshot held after the first i modules: the input of the last
      binarize module among them that fired. */
  ghost function LastSnapshot<I, M>(mods: seq<Stage<I, M>>, t: seq<I>, i: nat): Option<I>
    requires |t| == |mods| + 1 && i <= |mods|
  {
    if i == 0 then None
    else if SnapshotAt(mods, t, i - 1) then Some(t[i - 1])
    else LastSnapshot(mods, t, i - 1)
  }

  /** LastSnapshot is the input of the last firing binarize module, if any. */
  lemma {:induction false} LastSnapshotSpec<I, M>(mods: seq<Stage<I, M>>, t: seq<I>, i: nat)
    requires |t| == |mods| + 1 && i <= |mods|
    ensures LastSnapshot(mods, t, i).Some? <==> exists k :: k < i && SnapshotAt(mods, t, k)
    ensures LastSnapshot(mods, t, i).Some? ==>
      exists k :: k < i && SnapshotAt(mods, t, k) && LastSnapshot(mods, t, i).value == t[k] &&
        forall j :: k < j < i ==> !SnapshotAt(mods, t, j)
  {
    if i > 0 {
      LastSnapshotSpec(mods, t, i - 1);
      if SnapshotAt(mods, t, i - 1) {
        assert LastSnapshot(mods, t, i).value == t[i - 1];
      } else if LastSnapshot(mods, t, i - 1).Some? {
        var k :| k < i - 1 && SnapshotAt(mods, t, k) && LastSnapshot(mods, t, i - 1).value == t[k] &&
          forall j :: k < j < i - 1 ==> !SnapshotAt(mods, t, j);
        assert forall j :: k < j < i ==> !SnapshotAt(mods, t, j);
      }
    }
  }

  /** Facts every step record carries, read off StepRecord. */
  lemma StepRecordFacts<I, M>(mods: seq<Stage<I, M>>, t: seq<I>, clock: nat -> real, steps: seq<Step<M>>)
    requires |t| == |mods| + 1 && |steps| == |mods|
    requires forall k :: 0 <= k < |mods| ==> steps[k] == StepRecord(mods[k], t[k], k, clock)
    ensures forall k :: 0 <= k < |mods| ==> steps[k].moduleName == mods[k].name
    ensures forall k :: 0 <= k < |mods| ==> steps[k].applied == steps[k].detected
    ensures forall k :: 0 <= k < |mods| ==> (steps[k].detected, steps[k].detectMeta) == mods[k].detect(t[k])
    ensures forall k :: 0 <= k < |mods| && steps[k].applied ==>
      steps[k].processMeta == Some(mods[k].process(t[k], steps[k].detectMeta).1)
    ensures forall k :: 0 <= k < |mods| && !steps[k].applied ==>
      steps[k].processMeta == None && steps[k].timing.processMs == 0.0
    ensures forall k :: 0 <= k < |mods| ==>
      steps[k].timing.totalMs == steps[k].timing.detectMs + (clock(3 * k + 2) - clock(3 * k + 1)) * 1000.0
  {
  }

  /** One iteration of run_page's loop: module `stage`, k-th in the list, on
      the working image `work`. `snap` says whether the snapshot is taken. */
  method RunModule<I, M>(stage: Stage<I, M>, work: I, k: nat, clock: nat -> real)
    returns (next: I, step: Step<M>, snap: bool)
    ensures next == Advance(stage, work)
    ensures step == StepRecord(stage, work, k, clock)
    ensures snap <==> stage.name == BinarizeName && stage.detect(work).0
  {
    var t0 := clock(3 * k);
    var (detected, detectMeta) := stage.detect(work);
    var t1 := clock(3 * k + 1);
    var applied := false;
    var processMeta: Option<M> := None;
    next := work;
    snap := false;
    if detected {
      if stage.name == BinarizeName {
        snap := true;
      }
      var (image, meta) := stage.process(work, detectMeta);
      next := image;
      processMeta := Some(meta);
      applied := true;
    }
    var t2 := clock(3 * k + 2);
    step := Step(stage.name, detected, applied, detectMeta, processMeta,
                 Timing((t1 - t0) * 1000.0, if applied then (t2 - t1) * 1000.0 else 0.0, (t2 - t0) * 1000.0));
  }

  /** What run_page promises about the result `r` of running `mods` on
      `image`: the original is kept, one step per module in order, each
      step records its module's detect on the image it saw and process iff
      detect said so, the final image is the trace's last, and pre_binarize
      is the input of the last binarize module that fired. */
  ghost predicate IsPageRun<I, M>(mods: seq<Stage<I, M>>, image: I, clock: nat -> real, r: PageResult<I, M>) {
    var t := Trace(mods, image);
    && r.original == image
    && |r.steps| == |mods|
    && (forall k :: 0 <= k < |mods| ==> r.steps[k].moduleName == mods[k].name)
    && (forall k :: 0 <= k < |mods| ==> r.steps[k].applied == r.steps[k].detected)
    && (forall k :: 0 <= k < |mods| ==> (r.steps[k].detected, r.steps[k].detectMeta) == mods[k].detect(t[k]))
    && (forall k :: 0 <= k < |mods| && r.steps[k].applied ==>
          r.steps[k].processMeta == Some(mods[k].process(t[k], r.steps[k].detectMeta).1))
    && (forall k :: 0 <= k < |mods| && !r.steps[k].applied ==>
          r.steps[k].processMeta == None && r.steps[k].timing.processMs == 0.0)
    && (forall k :: 0 <= k < |mods| ==>
          r.steps[k].timing.totalMs == r.steps[k].timing.detectMs + (clock(3 * k + 2) - clock(3 * k + 1)) * 1000.0)
    && r.final == t[|mods|]
    && ((forall k :: 0 <= k < |mods| ==> !r.steps[k].detected) ==> r.final == image)
    && (r.preBinarize.Some? <==> exists k :: k < |mods| && SnapshotAt(mods, t, k))
    && (r.preBinarize.Some? ==>
          exists k :: k < |mods| && SnapshotAt(mods, t, k) && r.preBinarize.value == t[k] &&
            forall j :: k < j < |mods| ==> !SnapshotAt(mods, t, j))
  }


  /** What the finished loop of run_page establishes about the page result. */
  lemma PageResultFacts<I, M>(mods: seq<Stage<I, M>>, image: I, clock: nat -> real, r: PageResult<I, M>)
    requires r.original == image && |r.steps| == |mods|
    requires forall k :: 0 <= k < |mods| ==> r.steps[k] == StepRecord(mods[k], Trace(mods, image)[k], k, clock)
    requires r.final == Trace(mods, image)[|mods|]
    requires (forall k :: 0 <= k < |mods| ==> !r.steps[k].detected) ==> r.final == image
    requires r.preBinarize == LastSnapshot(mods, Trace(mods, image), |mods|)
    ensures IsPageRun(mods, image, clock, r)
  {
    StepRecordFacts(mods, Trace(mods, image), clock, r.steps);
    LastSnapshotSpec(mods, Trace(mods, image), |mods|);
  }

  /** run_page: thread one page through every module in order. */
  method RunPage<I, M>(mods: seq<Stage<I, M>>, image: I, clock: nat -> real) returns (r: PageResult<I, M>)
    ensures IsPageRun(mods, image, clock, r)
  {
    var work, steps, snapshot := RunModules(mods, image, clock);
    r := PageResult(image, work, snapshot, steps);
    PageResultFacts(mods, image, clock, r);
  }

  /** run_page's loop over the modules: the final working image, the step
      records and the pre-binarization snapshot. */
  method RunModules<I, M>(mods: seq<Stage<I, M>>, image: I, clock: nat -> real)
    returns (work: I, steps: seq<Step<M>>, snapshot: Option<I>)
    ensures work == Trace(mods, image)[|mods|]
    ensures |steps| == |mods|
    ensures forall k :: 0 <= k < |mods| ==> steps[k] == StepRecord(mods[k], Trace(mods, image)[k], k, clock)
    ensures (forall k :: 0 <= k < |mods| ==> !steps[k].detected) ==> work == image
    ensures snapshot == LastSnapshot(mods, Trace(mods, image), |mods|)
  {
    work := image;
    steps := [];
    snapshot := None;
    var i := 0;
    while i < |mods|
      invariant 0 <= i <= |mods|
      invariant Progress(mods, image, clock, i, work, steps, snapshot)
    {
      var seen := work;
      var step, snap;
      work, step, snap := RunModule(mods[i], seen, i, clock);
      ProgressStep(mods, image, clock, i, seen, steps, snapshot);
      if snap {
        snapshot := Some(seen);
      }
      steps := steps + [step];
      i := i + 1;
    }
  }

  /** What run_page's loop has established after the first i modules. */
  ghost predicate Progress<I, M>(mods: seq<Stage<I, M>>, image: I, clock: nat -> real, i: nat,
                                 work: I, steps: seq<Step<M>>, snapshot: Option<I>)
  {
    var t := Trace(mods, image);
    && i <= |mods|
    && work == t[i]
    && |steps| == i
    && (forall k :: 0 <= k < i ==> steps[k] == StepRecord(mods[k], t[k], k, clock))
    && ((forall k :: 0 <= k < i ==> !steps[k].detected) ==> work == image)
    && snapshot == LastSnapshot(mods, t, i)
  }

  /** One more module keeps the loop's account up to date. */
  lemma ProgressStep<I, M>(mods: seq<Stage<I, M>>, image: I, clock: nat -> real, i: nat,
                           work: I, steps: seq<Step<M>>, snapshot: Option<I>)
    requires i < |mods| && Progress(mods, image, clock, i, work, steps, snapshot)
    ensures Progress(mods, image, clock, i + 1, Advance(mods[i], work), steps + [StepRecord(mods[i], work, i, clock)],
      if mods[i].name == BinarizeName && mods[i].detect(work).0 then Some(work) else snapshot)
  {
    var t := Trace(mods, image);
    StepsExtend(mods, t, clock, i, steps);
    assert LastSnapshot(mods, t, i + 1) ==
      (if mods[i].name == BinarizeName && mods[i].detect(work).0 then Some(work) else snapshot);
  }

  /** Appending module i's record to the first i records. */
  lemma StepsExtend<I, M>(mods: seq<Stage<I, M>>, t: seq<I>, clock: nat -> real, i: nat, steps: seq<Step<M>>)
    requires |t| == |mods| + 1 && i < |mods| && |steps| == i
    requires forall k :: 0 <= k < i ==> steps[k] == StepRecord(mods[k], t[k], k, clock)
    ensures var steps' := steps + [StepRecord(mods[i], t[i], i, clock)];
      && (forall k :: 0 <= k < i + 1 ==> steps'[k] == StepRecord(mods[k], t[k], k, clock))
      && ((forall k :: 0 <= k < i + 1 ==> !steps'[k].detected) ==>
            !mods[i].detect(t[i]).0 && forall k :: 0 <= k < i ==> !steps[k].detected)
  {
    SnocIndex(steps, StepRecord(mods[i], t[i], i, clock));
  }

  lemma SnocIndex<M>(steps: seq<Step<M>>, step: Step<M>)
    ensures forall k :: 0 <= k < |steps| ==> (steps + [step])[k] == steps[k]
    ensures (steps + [step])[|steps|] == step
  {
  }

  /** The clock as seen by page p of a document: every page reads it three
      times per module, one page after another. */
  function PageClock(clock: nat -> real, moduleCount: nat, p: nat): nat -> real {
    (k: nat) => clock(3 * moduleCount * p + k)
  }

  /** run_document: run every page in order and tag it with its index. */
  method RunDocument<I, M>(mods: seq<Stage<I, M>>, pages: seq<I>, clock: nat -> real)
    returns (rs: seq<DocumentPage<I, M>>)
    ensures |rs| == |pages|
    ensures forall p :: 0 <= p < |pages| ==>
      rs[p].pageIndex == p && IsPageRun(mods, pages[p], PageClock(clock, |mods|, p), rs[p].result)
  {
    rs := [];
    var p := 0;
    while p < |pages|
      invariant 0 <= p <= |pages|
      invariant |rs| == p
      invariant forall q :: 0 <= q < p ==>
        rs[q].pageIndex == q && IsPageRun(mods, pages[q], PageClock(clock, |mods|, q), rs[q].result)
    {
      var result := RunPage(mods, pages[p], PageClock(clock, |mods|, p));
      rs := rs + [DocumentPage(p, result)];
      p := p + 1;
    }
  }

  /** Each module inspects the output of the most recent module that fired,
      or the page itself when none has fired yet. */
  lemma {:induction false} TraceMostRecent<I, M>(mods: seq<Stage<I, M>>, img: I, i: nat)
    requires i <= |mods|
    ensures (forall k :: 0 <= k < i ==> !mods[k].detect(Trace(mods, img)[k]).0) ==> Trace(mods, img)[i] == img
    ensures forall k ::
      (0 <= k < i && mods[k].detect(Trace(mods, img)[k]).0 &&
       forall j :: k < j < i ==> !mods[j].detect(Trace(mods, img)[j]).0) ==>
        Trace(mods, img)[i] == mods[k].process(Trace(mods, img)[k], mods[k].detect(Trace(mods, img)[k]).1).0
  {
    var t := Trace(mods, img);
    if i > 0 {
      TraceMostRecent(mods, img, i - 1);
      forall k | 0 <= k < i && mods[k].detect(t[k]).0 && forall j :: k < j < i ==> !mods[j].detect(t[j]).0
        ensures t[i] == mods[k].process(t[k], mods[k].detect(t[k]).1).0
      {
        if k < i - 1 {
          assert !mods[i - 1].detect(t[i - 1]).0;
          assert t[i] == t[i - 1];
        }
      }
    }
  }
}

=== FILE: preprocessor.dfy ===
/** The three preprocessors of autoocr/api/preprocessor.py around their module
    lists: process_file of each profile, the legal-compliance gate of the
    OCR-optimised profile and the bookkeeping of process_batch. Reading and
    writing image files is outside the model: a read arrives as
    `Option<Image>` (None when cv2.imread fails) and the image that would be
    written is part of the result. */
module Preprocessor {
  import opened Wrappers
  import opened Raster
  import opened Pipeline
  import opened Registry
  import opened Config
  import opened Profiles
  import opened SecurityDetector

  /** Why process_file gives up. */
  datatype Failure =
    | NotLoaded(path: string)       // ValueError("Could not load image: ...")
    | LibraryRejected               // cv2.cvtColor raising on a missing image
    | AuthorizationRequired         // the {'success': False, 'error': ...} refusal

  /** What process_file returns on success, with the image it writes. */
  datatype FileResult<I, M> = FileResult(
    inputPath: string,
    outputPath: string,
    written: I,
    documentType: Option<string>,
    features: seq<string>,
    compliance: Option<string>,
    steps: seq<Step<M>>)

  function FeatureNames(fs: seq<Feature>): (r: seq<string>)
    ensures |r| == |fs| && forall i :: 0 <= i < |fs| ==> r[i] == FeatureName(fs[i])
  {
    seq(|fs|, i requires 0 <= i < |fs| => FeatureName(fs[i]))
  }

  // ------------------------------------------------------------ standard

  /** DocumentPreprocessor.process_file: run the configured list on the page. */
  method ProcessStandard<I, M>(c: AnyConfig, lib: ModuleId -> Stage<I, M>,
                               inputPath: string, outputPath: string,
                               loaded: Option<I>, clock: nat -> real)
    returns (res: Result<FileResult<I, M>, Failure>)
    ensures loaded.None? <==> res.Failure?
    ensures loaded.None? ==> res.error == NotLoaded(inputPath)
    ensures res.Success? ==>
      var mods := Instantiate(BuildStandard(c), lib);
      && res.value.written == Trace(mods, loaded.value)[|mods|]
      && |res.value.steps| == |mods|
      && (forall k :: 0 <= k < |mods| ==> res.value.steps[k].moduleName == mods[k].name)
      && res.value.documentType.None? && res.value.compliance.None?
  {
    if loaded.None? {
      return Failure(NotLoaded(inputPath));
    }
    var mods := Instantiate(BuildStandard(c), lib);
    var r := RunPage(mods, loaded.value, clock);
    return Success(FileResult(inputPath, outputPath, r.final, None, [], None, r.steps));
  }

  // ------------------------------------------------------------ security

  /** The skew gate: the conservative list runs only for a skew above 2 degrees. */
  predicate SignificantSkew(angle: real) {
    angle > 2.0 || angle < -2.0
  }

  /** The compliance label of SecurityDocumentPreprocessor.process_file. */
  function Compliance(t: DocumentType): (tag: string)
    ensures tag == "ICAO 9303" <==> t == Passport
    ensures tag != "ICAO 9303" ==> tag == "N/A"
  {
    if t == Passport then "ICAO 9303" else "N/A"
  }

  /** SecurityDocumentPreprocessor.process_file: analyse, then run the
      conservative list only when the page is visibly skewed; otherwise the
      loaded page is written back untouched with an empty step list. */
  method ProcessSecurity<M>(c: SecurityDocumentConfig, lib: ModuleId -> Stage<Image, M>,
                            inputPath: string, outputPath: string,
                            loaded: Option<Image>, obs: Observations, clock: nat -> real)
    returns (res: Result<FileResult<Image, M>, Failure>)
    requires loaded.Some? ==> WellFormed(loaded.value, obs)
    ensures loaded.None? <==> res.Failure?
    ensures loaded.None? ==> res.error == NotLoaded(inputPath)
    ensures res.Success? ==>
      var img := loaded.value;
      var a := Analyze(img, obs);
      var mods := Instantiate(BuildConservative(c), lib);
      && res.value.documentType == Some(TypeName(a.documentType))
      && res.value.features == FeatureNames(a.features)
      && res.value.compliance == Some(Compliance(a.documentType))
      && (SignificantSkew(a.skewAngle) ==>
            res.value.written == Trace(mods, img)[|mods|] && |res.value.steps| == |mods|)
      && (!SignificantSkew(a.skewAngle) ==> res.value.written == img && res.value.steps == [])
  {
    if loaded.None? {
      return Failure(NotLoaded(inputPath));
    }
    var img := loaded.value;
    var a := Analyze(img, obs);
    var written := img;
    var steps: seq<Step<M>> := [];
    if SignificantSkew(a.skewAngle) {
      var mods := Instantiate(BuildConservative(c), lib);
      var r := RunPage(mods, img, clock);
      written := r.final;
      steps := r.steps;
    }
    return Success(FileResult(inputPath, outputPath, written, Some(TypeName(a.documentType)),
                              FeatureNames(a.features), Some(Compliance(a.documentType)), steps));
  }

  /** The skew gate opens exactly for a measured skew beyond 2 degrees
      either way; when the skew library fails the page counts as straight
      and is preserved. */
  lemma SkewGate(img: Image, obs: Observations)
    requires WellFormed(img, obs)
    ensures SignificantSkew(Analyze(img, obs).skewAngle) <==>
      obs.skew.Some? && (obs.skew.value > 2.0 || obs.skew.value < -2.0)
  {
  }

  // ------------------------------------------------------------ OCR

  datatype LegalVerdict = LegalVerdict(proceed: bool, warned: bool)

  /** _check_legal_compliance. With the check enabled the page is analysed
      first (which fails on an unreadable file), and passports and currency
      draw the legal warning; every path that returns says "proceed". */
  function LegalCompliance(check: bool, loaded: Option<Image>, obs: Observations): (v: Result<LegalVerdict, Failure>)
    requires loaded.Some? ==> WellFormed(loaded.value, obs)
    ensures v.Failure? <==> check && loaded.None?
    ensures v.Success? ==> v.value.proceed
    ensures v.Success? ==>
      (v.value.warned <==> check && Analyze(loaded.value, obs).documentType in {Passport, Currency})
  {
    if !check then Success(LegalVerdict(true, false))
    else if loaded.None? then Failure(NotLoaded(""))
    else
      var t := Analyze(loaded.value, obs).documentType;
      if t in {Passport, Currency} then Success(LegalVerdict(true, true))
      else Success(LegalVerdict(true, false))
  }

  /** OCROptimizedPreprocessor.process_file. */
  method ProcessOcr<M>(c: OcrOptimizedConfig, lib: ModuleId -> Stage<Image, M>,
                       inputPath: string, outputPath: string,
                       loaded: Option<Image>, obs: Observations, clock: nat -> real)
    returns (res: Result<FileResult<Image, M>, Failure>)
    requires loaded.Some? ==> WellFormed(loaded.value, obs)
    ensures res.Failure? <==> loaded.None?
    ensures res.Failure? ==> res.error == (if c.legalComplianceCheck then NotLoaded(inputPath) else LibraryRejected)
    ensures res.Success? ==>
      var a := Analyze(loaded.value, obs);
      var mods := Instantiate(BuildOcr(c), lib);
      && res.value.written == Trace(mods, loaded.value)[|mods|]
      && |res.value.steps| == |mods|
      && res.value.documentType == Some(TypeName(a.documentType))
      && res.value.features == FeatureNames(a.features)
      && res.value.compliance.None?
  {
    var verdict := LegalCompliance(c.legalComplianceCheck, loaded, obs);
    if verdict.Failure? {
      return Failure(NotLoaded(inputPath));
    }
    if !verdict.value.proceed {
      return Failure(AuthorizationRequired);
    }
    if loaded.None? {
      // analyze_image(cv2.imread(...)) raises before the None check is reached
      return Failure(LibraryRejected);
    }
    var img := loaded.value;
    var a := Analyze(img, obs);
    var mods := Instantiate(BuildOcr(c), lib);
    var r := RunPage(mods, img, clock);
    return Success(FileResult(inputPath, outputPath, r.final, Some(TypeName(a.documentType)),
                              FeatureNames(a.features), None, r.steps));
  }

  /** The refusal branch of OCROptimizedPreprocessor.process_file cannot be
      reached: the compliance gate never says "do not proceed". */
  lemma OcrNeverRefuses(check: bool, loaded: Option<Image>, obs: Observations)
    requires loaded.Some? ==> WellFormed(loaded.value, obs)
    ensures LegalCompliance(check, loaded, obs).Success? ==> LegalCompliance(check, loaded, obs).value.proceed
    ensures LegalCompliance(check, loaded, obs) != Failure(AuthorizationRequired)
  {
  }

  // ------------------------------------------------------------ batch

  /** str.rfind('.'), None when there is no dot. */
  function LastDot(s: string): (i: Option<nat>)
    ensures i.Some? ==> (i.value < |s| && s[i.value] == '.' &&
      forall k :: i.value < k < |s| ==> s[k] != '.')
    ensures i.None? ==> forall k :: 0 <= k < |s| ==> s[k] != '.'
    decreases |s|
  {
    if |s| == 0 then None
    else if s[|s| - 1] == '.' then Some(|s| - 1)
    else LastDot(s[..|s| - 1])
  }

  /** Position of the dot that starts pathlib's suffix, if the name has one:
      a last dot that is neither the first nor the final character. */
  function SuffixDot(name: string): Option<nat> {
    match LastDot(name)
    case Some(i) => if 0 < i < |name| - 1 then Some(i) else None
    case None => None
  }

  /** PurePath.suffix. */
  function Suffix(name: string): (s: string)
    ensures s == "" || (|s| >= 2 && s[0] == '.' && forall k :: 0 < k < |s| ==> s[k] != '.')
  {
    match SuffixDot(name)
    case Some(i) => name[i..]
    case None => ""
  }

  /** PurePath.stem. */
  function Stem(name: string): string {
    match SuffixDot(name)
    case Some(i) => name[..i]
    case None => name
  }

  /** A file name is its stem followed by its suffix. */
  lemma StemSuffix(name: string)
    ensures Stem(name) + Suffix(name) == name
  {
    match SuffixDot(name)
    case Some(i) =>
      assert name[..i] + name[i..] == name;
    case None =>
  }

  /** f"{file.stem}_processed{file.suffix}". */
  function OutputName(name: string): string {
    Stem(name) + "_processed" + Suffix(name)
  }

  /** The last dot of a + b lies in b when b has one. */
  lemma {:induction false} LastDotAppend(a: string, b: string)
    requires LastDot(b).Some?
    ensures LastDot(a + b) == Some(|a| + LastDot(b).value)
    decreases |b|
  {
    var ab := a + b;
    assert ab[|ab| - 1] == b[|b| - 1];
    if b[|b| - 1] != '.' {
      var b' := b[..|b| - 1];
      assert LastDot(b) == LastDot(b');
      assert ab[..|ab| - 1] == a + b';
      assert LastDot(ab) == LastDot(a + b');
      LastDotAppend(a, b');
    }
  }

  /** An output name keeps the input's extension, so "scan.png" is written
      as "scan_processed.png". */
  lemma OutputKeepsSuffix(name: string)
    requires Suffix(name) != ""
    ensures Suffix(OutputName(name)) == Suffix(name)
    ensures Stem(OutputName(name)) == Stem(name) + "_processed"
  {
    var s := Suffix(name);
    var pre := Stem(name) + "_processed";
    assert LastDot(s) == Some(0);
    LastDotAppend(pre, s);
    assert OutputName(name) == pre + s;
    assert (pre + s)[|pre|..] == s;
    assert (pre + s)[..|pre|] == pre;
  }

  /** The glob patterns of process_batch, in the order they are searched. */
  const Extensions: seq<string> := [".pdf", ".tif", ".tiff", ".png", ".jpg", ".jpeg"]

  /** fnmatch of "*" + ext: the name ends with ext. */
  predicate Matches(name: string, ext: string) {
    |name| >= |ext| && name[|name| - |ext|..] == ext
  }

  function Filter(names: seq<string>, ext: string): (r: seq<string>)
    ensures forall x :: x in r <==> x in names && Matches(x, ext)
    ensures |r| <= |names|
  {
    if |names| == 0 then []
    else (if Matches(names[0], ext) then [names[0]] else []) + Filter(names[1..], ext)
  }

  function GlobAll(names: seq<string>, exts: seq<string>): (r: seq<string>)
    ensures forall x :: x in r <==> x in names && exists e :: e in exts && Matches(x, e)
  {
    if |exts| == 0 then []
    else Filter(names, exts[0]) + GlobAll(names, exts[1..])
  }

  /** The files process_batch finds in a directory listing: every pdf, then
      every tif, and so on. */
  function Discover(listing: seq<string>): (files: seq<string>)
    ensures forall x :: x in files <==> x in listing && exists e :: e in Extensions && Matches(x, e)
  {
    GlobAll(listing, Extensions)
  }

  /** One process_batch entry: the file's name and what processing it gave. */
  datatype BatchEntry<R> = BatchEntry(file: string, outcome: Result<R, Failure>)

  /** process_batch: one entry per discovered file, in discovery order; a
      failure is recorded and the remaining files are still processed.
      Paths are plain strings joined with "/"; pathlib's `/`, which does not
      double a separator already ending the directory, is not modelled. */
  function ProcessBatch<R>(listing: seq<string>, inputDir: string, outputDir: string,
                           process: (string, string) -> Result<R, Failure>): (entries: seq<BatchEntry<R>>)
    ensures var files := Discover(listing);
      && |entries| == |files|
      && forall i :: 0 <= i < |files| ==>
           && entries[i].file == files[i]
           && entries[i].outcome == process(inputDir + "/" + files[i], outputDir + "/" + OutputName(files[i]))
  {
    var files := Discover(listing);
    seq(|files|, i requires 0 <= i < |files| =>
      BatchEntry(files[i], process(inputDir + "/" + files[i], outputDir + "/" + OutputName(files[i]))))
  }

  /** A failing file does not stop the batch: the entries after it are the
      outcomes of their own files. */
  lemma BatchContinuesAfterFailure<R>(listing: seq<string>, inputDir: string, outputDir: string,
                                      process: (string, string) -> Result<R, Failure>, i: nat, j: nat)
    requires i < j < |Discover(listing)|
    requires ProcessBatch(listing, inputDir, outputDir, process)[i].outcome.Failure?
    ensures ProcessBatch(listing, inputDir, outputDir, process)[j].file == Discover(listing)[j]
    ensures ProcessBatch(listing, inputDir, outputDir, process)[j].outcome ==
      process(inputDir + "/" + Discover(listing)[j], outputDir + "/" + OutputName(Discover(listing)[j]))
  {
  }
}

=== FILE: profiles.dfy ===
/** The module lists the three preprocessors of autoocr/api/preprocessor.py
    build from their configuration. */
module Profiles {
  import opened Wrappers
  import opened Config
  import opened Registry

  /** r followed by m when `cond` holds (modules.append under an `if`). */
  function AppendIf(r: seq<ModuleId>, cond: bool, m: ModuleId): (r': seq<ModuleId>)
    ensures |r'| == |r| + (if cond then 1 else 0)
  {
    if cond then r + [m] else r
  }

  /** The list keeps its entries in place and gains m exactly when `cond`. */
  lemma AppendIfFacts(r: seq<ModuleId>, cond: bool, m: ModuleId)
    ensures forall x :: x in AppendIf(r, cond, m) <==> x in r || (cond && x == m)
    ensures forall i :: 0 <= i < |r| ==> AppendIf(r, cond, m)[i] == r[i]
    ensures cond ==> AppendIf(r, cond, m)[|r|] == m
  {
  }

  /** Membership after a conditional append. */
  lemma AppendIfMembers(r: seq<ModuleId>, cond: bool, m: ModuleId)
    ensures forall x :: x in AppendIf(r, cond, m) <==> x in r || (cond && x == m)
  {
  }

  /** r is rank-sorted and every module in it ranks below `bound`. */
  predicate SortedBelow(r: seq<ModuleId>, bound: nat) {
    RankSorted(r) && forall i :: 0 <= i < |r| ==> Rank(r[i]) < bound
  }

  /** Appending m to a list ranked below m keeps it sorted, now below any
      bound above m's rank. */
  lemma AppendSorted(r: seq<ModuleId>, cond: bool, m: ModuleId, b: nat)
    requires SortedBelow(r, Rank(m)) && Rank(m) < b
    ensures SortedBelow(AppendIf(r, cond, m), b)
  {
    var r' := AppendIf(r, cond, m);
    AppendIfFacts(r, cond, m);
    forall i, j | 0 <= i < j < |r'|
      ensures Rank(r'[i]) < Rank(r'[j])
    {
      if j < |r| {
        assert r'[i] == r[i] && r'[j] == r[j];
      } else {
        assert r'[i] == r[i];
      }
    }
  }

  /** Whether DocumentPreprocessor runs module m under configuration c. */
  predicate StandardIncludes(c: AnyConfig, m: ModuleId) {
    m == EdgeMask || m == Orientation || m == Perspective || m == TextRefine ||
    (m == Deskew && Base(c).deskewEnabled) ||
    (m == Denoise && Base(c).noiseReduction) ||
    (m == Enhance && Base(c).contrastEnhancement) ||
    (m == Binarize && AllowBinarization(c) != Some(false))
  }

  /** The geometric and photometric corrections DocumentPreprocessor always
      considers: edge mask, orientation, perspective, then the optional
      deskew, denoise and enhancement. */
  function StandardCorrections(p: ProcessingConfig): (r: seq<ModuleId>)
    ensures 3 <= |r| <= 6
    ensures r[0] == EdgeMask && r[1] == Orientation && r[2] == Perspective
  {
    var r0 := [EdgeMask, Orientation, Perspective];
    var r1 := AppendIf(r0, p.deskewEnabled, Deskew);
    var r2 := AppendIf(r1, p.noiseReduction, Denoise);
    AppendIfFacts(r0, p.deskewEnabled, Deskew);
    AppendIfFacts(r1, p.noiseReduction, Denoise);
    AppendIfFacts(r2, p.contrastEnhancement, Enhance);
    AppendIf(r2, p.contrastEnhancement, Enhance)
  }

  /** DocumentPreprocessor._build_pipeline. */
  function BuildStandard(c: AnyConfig): (r: seq<ModuleId>)
    ensures |r| >= 4
  {
    var r4 := AppendIf(StandardCorrections(Base(c)), true, TextRefine);
    AppendIf(r4, AllowBinarization(c).None? || AllowBinarization(c).value, Binarize)
  }

  /** The corrections are rank-sorted and precede text refinement. */
  lemma CorrectionsSorted(p: ProcessingConfig)
    ensures SortedBelow(StandardCorrections(p), Rank(TextRefine))
  {
    var r0 := [EdgeMask, Orientation, Perspective];
    OpeningSorted();
    AppendSorted(r0, p.deskewEnabled, Deskew, Rank(Denoise));
    var r1 := AppendIf(r0, p.deskewEnabled, Deskew);
    AppendSorted(r1, p.noiseReduction, Denoise, Rank(Enhance));
    var r2 := AppendIf(r1, p.noiseReduction, Denoise);
    AppendSorted(r2, p.contrastEnhancement, Enhance, Rank(TextRefine));
  }

  lemma OpeningSorted()
    ensures SortedBelow([EdgeMask, Orientation, Perspective], Rank(Deskew))
  {
  }

  /** The corrections hold the three fixed ones and exactly the enabled
      optional ones. */
  lemma CorrectionsMembers(p: ProcessingConfig)
    ensures forall m :: m in StandardCorrections(p) <==>
      m == EdgeMask || m == Orientation || m == Perspective ||
      (m == Deskew && p.deskewEnabled) || (m == Denoise && p.noiseReduction) ||
      (m == Enhance && p.contrastEnhancement)
  {
    var r0 := [EdgeMask, Orientation, Perspective];
    var r1 := AppendIf(r0, p.deskewEnabled, Deskew);
    var r2 := AppendIf(r1, p.noiseReduction, Denoise);
    AppendIfMembers(r0, p.deskewEnabled, Deskew);
    AppendIfMembers(r1, p.noiseReduction, Denoise);
    AppendIfMembers(r2, p.contrastEnhancement, Enhance);
  }

  /** The standard list holds exactly the modules its configuration enables;
      binarization is dropped only by an explicit allow_binarization = False. */
  lemma StandardMembers(c: AnyConfig)
    ensures forall m :: m in BuildStandard(c) <==> StandardIncludes(c, m)
    ensures Binarize in BuildStandard(c) <==> (c.Plain? || AllowBinarization(c) == Some(true))
  {
    var r3 := StandardCorrections(Base(c));
    CorrectionsMembers(Base(c));
    var r4 := AppendIf(r3, true, TextRefine);
    var allow := AllowBinarization(c).None? || AllowBinarization(c).value;
    AppendIfMembers(r3, true, TextRefine);
    AppendIfMembers(r4, allow, Binarize);
  }

  /** The standard list follows the package-wide order. */
  lemma StandardOrder(c: AnyConfig)
    ensures RankSorted(BuildStandard(c))
  {
    CorrectionsSorted(Base(c));
    var r3 := StandardCorrections(Base(c));
    AppendSorted(r3, true, TextRefine, Rank(Binarize));
    var r4 := AppendIf(r3, true, TextRefine);
    var allow := AllowBinarization(c).None? || AllowBinarization(c).value;
    AppendSorted(r4, allow, Binarize, Rank(Binarize) + 1);
  }

  /** Edge masking, orientation and perspective open the standard list;
      binarization (when present) closes it, otherwise text refinement. */
  lemma StandardEnds(c: AnyConfig)
    ensures BuildStandard(c)[0] == EdgeMask && BuildStandard(c)[1] == Orientation && BuildStandard(c)[2] == Perspective
    ensures var r := BuildStandard(c); r[|r| - 1] == (if Binarize in r then Binarize else TextRefine)
  {
    var r3 := StandardCorrections(Base(c));
    CorrectionsSorted(Base(c));
    var r4 := AppendIf(r3, true, TextRefine);
    AppendIfFacts(r3, true, TextRefine);
    assert forall k :: 0 <= k < |r3| ==> r3[k] != Binarize;
    assert Binarize !in r4;
    var allow := AllowBinarization(c).None? || AllowBinarization(c).value;
    AppendIfFacts(r4, allow, Binarize);
    assert BuildStandard(c) == AppendIf(r4, allow, Binarize);
  }

  /** Whether SecurityDocumentPreprocessor runs module m. */
  predicate ConservativeIncludes(c: SecurityDocumentConfig, m: ModuleId) {
    m == Orientation ||
    (m == Deskew && c.base.deskewEnabled) ||
    (m == Denoise && c.base.noiseReduction && c.maxDenoising > 0)
  }

  /** SecurityDocumentPreprocessor._build_conservative_pipeline: geometry and
      at most a light denoise, never an enhancement or a binarization. */
  function BuildConservative(c: SecurityDocumentConfig): (r: seq<ModuleId>)
    ensures RankSorted(r)
    ensures forall m :: m in r <==> ConservativeIncludes(c, m)
    ensures 1 <= |r| <= 3 && r[0] == Orientation
    ensures Binarize !in r && Enhance !in r && EdgeMask !in r
  {
    var skew := c.base.deskewEnabled;
    var light := c.base.noiseReduction && c.maxDenoising > 0;
    var r := AppendIf(AppendIf([Orientation], skew, Deskew), light, Denoise);
    assert skew && light ==> r == [Orientation, Deskew, Denoise];
    assert skew && !light ==> r == [Orientation, Deskew];
    assert !skew && light ==> r == [Orientation, Denoise];
    assert !skew && !light ==> r == [Orientation];
    r
  }

  /** Whether OCROptimizedPreprocessor runs module m. */
  predicate OcrIncludes(c: OcrOptimizedConfig, m: ModuleId) {
    (m == GuillocheRemoval && c.removeGuilloche) ||
    (m == WatermarkRemoval && c.removeWatermarks) ||
    (m == HologramRemoval && c.flattenHolograms) ||
    m == EdgeMask || m == Orientation || m == Perspective || m == Deskew || m == Denoise || m == Enhance ||
    (m == MrzEnhancement && c.mrzPriority) ||
    m == TextRefine ||
    (m == Binarize && c.allowBinarization)
  }

  /** The security-feature removals OCROptimizedPreprocessor puts first. */
  function OcrRemovals(c: OcrOptimizedConfig): (r: seq<ModuleId>)
    ensures |r| <= 3
  {
    var r0 := AppendIf([], c.removeGuilloche, GuillocheRemoval);
    var r1 := AppendIf(r0, c.removeWatermarks, WatermarkRemoval);
    AppendIf(r1, c.flattenHolograms, HologramRemoval)
  }

  /** The six standard corrections OCROptimizedPreprocessor always runs. */
  const OcrCore: seq<ModuleId> := [EdgeMask, Orientation, Perspective, Deskew, Denoise, Enhance]

  lemma OcrCoreBetween()
    ensures RankSorted(OcrCore)
    ensures forall x :: x in OcrCore ==> Rank(EdgeMask) <= Rank(x) < Rank(MrzEnhancement)
  {
  }

  /** The removals, the six standard corrections and the optional MRZ
      enhancement. */
  function OcrCorrections(c: OcrOptimizedConfig): (r: seq<ModuleId>)
    ensures 6 <= |r| <= 10
  {
    AppendIf(OcrRemovals(c) + OcrCore, c.mrzPriority, MrzEnhancement)
  }

  /** OCROptimizedPreprocessor._build_ocr_pipeline. */
  function BuildOcr(c: OcrOptimizedConfig): (r: seq<ModuleId>)
    ensures |r| >= 7
  {
    var r5 := AppendIf(OcrCorrections(c), true, TextRefine);
    AppendIf(r5, c.allowBinarization, Binarize)
  }

  /** The removals are exactly the enabled ones. */
  lemma RemovalsMembers(c: OcrOptimizedConfig)
    ensures forall m :: m in OcrRemovals(c) <==>
      (m == GuillocheRemoval && c.removeGuilloche) ||
      (m == WatermarkRemoval && c.removeWatermarks) ||
      (m == HologramRemoval && c.flattenHolograms)
  {
    var r0 := AppendIf([], c.removeGuilloche, GuillocheRemoval);
    var r1 := AppendIf(r0, c.removeWatermarks, WatermarkRemoval);
    AppendIfMembers([], c.removeGuilloche, GuillocheRemoval);
    AppendIfMembers(r0, c.removeWatermarks, WatermarkRemoval);
    AppendIfMembers(r1, c.flattenHolograms, HologramRemoval);
  }

  /** The OCR list holds exactly the modules its switches enable. */
  lemma OcrMembers(c: OcrOptimizedConfig)
    ensures forall m :: m in BuildOcr(c) <==> OcrIncludes(c, m)
  {
    RemovalsMembers(c);
    var r3 := OcrRemovals(c) + OcrCore;
    assert forall m :: m in r3 <==> m in OcrRemovals(c) || m in OcrCore;
    AppendIfMembers(r3, c.mrzPriority, MrzEnhancement);
    var r4 := OcrCorrections(c);
    AppendIfMembers(r4, true, TextRefine);
    AppendIfMembers(AppendIf(r4, true, TextRefine), c.allowBinarization, Binarize);
  }

  /** The removals are rank-sorted and precede edge masking. */
  lemma RemovalsSorted(c: OcrOptimizedConfig)
    ensures SortedBelow(OcrRemovals(c), Rank(EdgeMask))
  {
    AppendSorted([], c.removeGuilloche, GuillocheRemoval, Rank(WatermarkRemoval));
    var r0 := AppendIf([], c.removeGuilloche, GuillocheRemoval);
    AppendSorted(r0, c.removeWatermarks, WatermarkRemoval, Rank(HologramRemoval));
    var r1 := AppendIf(r0, c.removeWatermarks, WatermarkRemoval);
    AppendSorted(r1, c.flattenHolograms, HologramRemoval, Rank(EdgeMask));
  }

  /** The OCR corrections are rank-sorted and precede text refinement. */
  lemma OcrCorrectionsSorted(c: OcrOptimizedConfig)
    ensures SortedBelow(OcrCorrections(c), Rank(TextRefine))
  {
    RemovalsSorted(c);
    OcrCoreBetween();
    ConcatSorted(OcrRemovals(c), OcrCore, Rank(EdgeMask), Rank(MrzEnhancement));
    AppendSorted(OcrRemovals(c) + OcrCore, c.mrzPriority, MrzEnhancement, Rank(TextRefine));
  }

  /** The OCR list follows the package-wide order: feature removal before the
      standard chain. */
  lemma OcrOrder(c: OcrOptimizedConfig)
    ensures RankSorted(BuildOcr(c))
  {
    OcrCorrectionsSorted(c);
    AppendSorted(OcrCorrections(c), true, TextRefine, Rank(Binarize));
    var r5 := AppendIf(OcrCorrections(c), true, TextRefine);
    AppendSorted(r5, c.allowBinarization, Binarize, Rank(Binarize) + 1);
  }

  /** In the OCR list MRZ enhancement comes immediately before text
      refinement, and binarization (when allowed) closes the list. */
  lemma OcrEnds(c: OcrOptimizedConfig)
    ensures var r := BuildOcr(c);
      forall i :: 0 <= i < |r| && r[i] == MrzEnhancement ==> i + 1 < |r| && r[i + 1] == TextRefine
    ensures var r := BuildOcr(c); r[|r| - 1] == (if c.allowBinarization then Binarize else TextRefine)
  {
    var r4 := OcrCorrections(c);
    var j := |r4|;
    var r5 := AppendIf(r4, true, TextRefine);
    var r := AppendIf(r5, c.allowBinarization, Binarize);
    assert r == BuildOcr(c);
    AppendIfFacts(r4, true, TextRefine);
    AppendIfFacts(r5, c.allowBinarization, Binarize);
    MrzLast(c);
    forall i | 0 <= i < |r| && r[i] == MrzEnhancement
      ensures i + 1 < |r| && r[i + 1] == TextRefine
    {
      assert i < j && r[i] == r4[i];
    }
  }

  /** Among the OCR corrections, MRZ enhancement can only be the last. */
  lemma MrzLast(c: OcrOptimizedConfig)
    ensures var r := OcrCorrections(c);
      forall i :: 0 <= i < |r| && r[i] == MrzEnhancement ==> i == |r| - 1
  {
    RemovalsMembers(c);
    var r3 := OcrRemovals(c) + OcrCore;
    assert MrzEnhancement !in r3;
    AppendIfFacts(r3, c.mrzPriority, MrzEnhancement);
  }

  /** Concatenating a list below `a` with a sorted list whose ranks lie in [a, b). */
  lemma ConcatSorted(r: seq<ModuleId>, s: seq<ModuleId>, a: nat, b: nat)
    requires SortedBelow(r, a) && RankSorted(s) && a <= b
    requires forall x :: x in s ==> a <= Rank(x) < b
    ensures SortedBelow(r + s, b)
  {
    forall i, j | 0 <= i < j < |r + s|
      ensures Rank((r + s)[i]) < Rank((r + s)[j])
    {
      if i < |r| <= j {
        assert (r + s)[i] in r && (r + s)[j] in s;
      } else if |r| <= i {
        assert (r + s)[i] == s[i - |r|] && (r + s)[j] == s[j - |r|];
      }
    }
    forall x | x in r + s
      ensures Rank(x) < b
    {
      assert x in r || x in s;
    }
  }

  /** `config or XConfig()`: a missing configuration is the dataclass default. */
  function ConfigOrDefault<C>(given: Option<C>, default: C): (c: C)
    ensures given.Some? ==> c == given.value
    ensures given.None? ==> c == default
  {
    given.GetOr(default)
  }

  /** The list DocumentPreprocessor builds from the default configuration. */
  lemma DefaultStandard()
    ensures BuildStandard(Plain(DefaultProcessingConfig())) ==
      [EdgeMask, Orientation, Perspective, Deskew, Denoise, Enhance, TextRefine, Binarize]
  {
    var r0 := [EdgeMask, Orientation, Perspective];
    assert AppendIf(r0, true, Deskew) == r0 + [Deskew];
    var r1 := r0 + [Deskew];
    assert AppendIf(r1, true, Denoise) == r1 + [Denoise];
    var r2 := r1 + [Denoise];
    assert AppendIf(r2, true, Enhance) == r2 + [Enhance];
    var r3 := r2 + [Enhance];
    assert AppendIf(r3, true, TextRefine) == r3 + [TextRefine];
    var r4 := r3 + [TextRefine];
    assert AppendIf(r4, true, Binarize) == r4 + [Binarize];
  }

  /** The list SecurityDocumentPreprocessor builds from the default configuration. */
  lemma DefaultConservative()
    ensures BuildConservative(DefaultSecurityDocumentConfig()) == [Orientation, Deskew, Denoise]
  {
    assert AppendIf([Orientation], true, Deskew) == [Orientation, Deskew];
    assert AppendIf([Orientation, Deskew], true, Denoise) == [Orientation, Deskew, Denoise];
  }

  /** The list OCROptimizedPreprocessor builds from the default configuration. */
  lemma DefaultOcr()
    ensures BuildOcr(DefaultOcrOptimizedConfig()) ==
      [GuillocheRemoval, WatermarkRemoval, HologramRemoval, EdgeMask, Orientation, Perspective,
       Deskew, Denoise, Enhance, MrzEnhancement, TextRefine, Binarize]
  {
    var r0 := [GuillocheRemoval];
    assert AppendIf([], true, GuillocheRemoval) == r0;
    var r1 := r0 + [WatermarkRemoval];
    assert AppendIf(r0, true, WatermarkRemoval) == r1;
    var r2 := r1 + [HologramRemoval];
    assert AppendIf(r1, true, HologramRemoval) == r2;
    var r3 := r2 + OcrCore;
    var r4 := r3 + [MrzEnhancement];
    assert AppendIf(r3, true, MrzEnhancement) == r4;
    var r5 := r4 + [TextRefine];
    assert AppendIf(r4, true, TextRefine) == r5;
    assert AppendIf(r5, true, Binarize) == r5 + [Binarize];
  }

  /** The standard preprocessor given the security defaults drops binarization. */
  lemma DefaultStandardUnderSecurity()
    ensures BuildStandard(Security(DefaultSecurityDocumentConfig())) ==
      [EdgeMask, Orientation, Perspective, Deskew, Denoise, Enhance, TextRefine]
  {
    var r0 := [EdgeMask, Orientation, Perspective];
    assert AppendIf(r0, true, Deskew) == r0 + [Deskew];
    var r1 := r0 + [Deskew];
    assert AppendIf(r1, true, Denoise) == r1 + [Denoise];
    var r2 := r1 + [Denoise];
    assert AppendIf(r2, true, Enhance) == r2 + [Enhance];
    var r3 := r2 + [Enhance];
    assert AppendIf(r3, true, TextRefine) == r3 + [TextRefine];
    var r4 := r3 + [TextRefine];
    assert AppendIf(r4, false, Binarize) == r4;
  }
}

=== FILE: raster.dfy ===
/** Page rasters as NumPy arrays: a grayscale page is an h x w array of 8-bit
    intensities, a colour page three such planes in OpenCV's B, G, R order.
    Counting, summing and flattening helpers used by every module. */
module Raster {

  type Grid = seq<seq<int>>
  type RealGrid = seq<seq<real>>

  /** `g` has exactly `h` rows of `w` entries. */
  predicate IsGrid<T>(g: seq<seq<T>>, h: nat, w: nat) {
    |g| == h && forall i :: 0 <= i < h ==> |g[i]| == w
  }

  predicate IsByte(v: int) { 0 <= v <= 255 }

  /** Every entry of `g` is an 8-bit value. */
  predicate Bytes(g: Grid) {
    forall i, j :: 0 <= i < |g| && 0 <= j < |g[i]| ==> IsByte(g[i][j])
  }

  /** An OpenCV image: one plane (shape (h, w)) or three planes (shape (h, w, 3)). */
  datatype Image = Image(h: nat, w: nat, planes: seq<Grid>) {
    predicate Valid() {
      (|planes| == 1 || |planes| == 3) &&
      forall c :: 0 <= c < |planes| ==> IsGrid(planes[c], h, w)
    }
    predicate IsColor() { |planes| == 3 }
    predicate NonEmpty() { h > 0 && w > 0 }
  }

  /** Same height, width and channel count. */
  predicate SameShape(a: Image, b: Image) {
    a.h == b.h && a.w == b.w && |a.planes| == |b.planes|
  }

  /** The h x w array whose entry (i, j) is f(i, j). */
  function Tabulate<T>(h: nat, w: nat, f: (nat, nat) -> T): (g: seq<seq<T>>)
    ensures IsGrid(g, h, w)
    ensures forall i, j :: 0 <= i < h && 0 <= j < w ==> g[i][j] == f(i, j)
  {
    seq(h, i requires 0 <= i < h => seq(w, j requires 0 <= j < w => f(i, j)))
  }

  /** Element-wise map, as a NumPy ufunc applied to an array. */
  function MapGrid<A, B>(g: seq<seq<A>>, f: A -> B): (r: seq<seq<B>>)
    ensures |r| == |g| && forall i :: 0 <= i < |g| ==> |r[i]| == |g[i]|
    ensures forall i, j :: 0 <= i < |g| && 0 <= j < |g[i]| ==> r[i][j] == f(g[i][j])
  {
    seq(|g|, i requires 0 <= i < |g| => seq(|g[i]|, j requires 0 <= j < |g[i]| => f(g[i][j])))
  }

  /** A single-plane image of the given grid. */
  function FromGray(g: Grid, h: nat, w: nat): (img: Image)
    requires IsGrid(g, h, w)
    ensures img.Valid() && !img.IsColor() && img.planes[0] == g
  {
    Image(h, w, [g])
  }

  /** cv2.cvtColor(gray, COLOR_GRAY2BGR): the same grid in all three planes. */
  function ToBgr(g: Grid, h: nat, w: nat): (img: Image)
    requires IsGrid(g, h, w)
    ensures img.Valid() && img.IsColor()
    ensures forall c :: 0 <= c < 3 ==> img.planes[c] == g
  {
    Image(h, w, [g, g, g])
  }

  /** cv2.cvtColor(image, COLOR_BGR2GRAY) on a colour page, the page itself on a
      gray one; `luma` is OpenCV's per-pixel weighting of (B, G, R). */
  function GrayOf(img: Image, luma: (int, int, int) -> int): (g: Grid)
    requires img.Valid()
    ensures IsGrid(g, img.h, img.w)
    ensures !img.IsColor() ==> g == img.planes[0]
  {
    if img.IsColor() then
      Tabulate(img.h, img.w, (i: nat, j: nat) =>
        if i < img.h && j < img.w
        then luma(img.planes[0][i][j], img.planes[1][i][j], img.planes[2][i][j])
        else 0)
    else img.planes[0]
  }

  /** Row-major flattening (ndarray.ravel()). */
  function Flatten<T>(g: seq<seq<T>>): seq<T>
    decreases |g|
  {
    if |g| == 0 then [] else g[0] + Flatten(g[1..])
  }

  /** Number of elements of `s` satisfying `p` (np.count_nonzero of a mask). */
  function Count<T>(s: seq<T>, p: T -> bool): nat
    decreases |s|
  {
    if |s| == 0 then 0 else (if p(s[0]) then 1 else 0) + Count(s[1..], p)
  }

  function Sum(s: seq<int>): int
    decreases |s|
  {
    if |s| == 0 then 0 else s[0] + Sum(s[1..])
  }

  function SumR(s: seq<real>): real
    decreases |s|
  {
    if |s| == 0 then 0.0 else s[0] + SumR(s[1..])
  }

  /** np.mean of a non-empty integer array. */
  function Mean(s: seq<int>): real
    requires |s| > 0
  {
    Sum(s) as real / |s| as real
  }

  /** The predicate "x == v" as a value. */
  function Equals(v: int): int -> bool {
    (x: int) => x == v
  }

  /** A sum of |s| copies of v is |s| * v. */
  lemma {:induction false} SumOfEquals(s: seq<int>, v: int)
    requires Count(s, Equals(v)) == |s|
    ensures Sum(s) == |s| * v
    decreases |s|
  {
    if |s| > 0 {
      CountBound(s[1..], Equals(v));
      SumOfEquals(s[1..], v);
    }
  }

  /** The mean of |s| copies of v is v. */
  lemma MeanOfEquals(s: seq<int>, v: int)
    requires |s| > 0 && Sum(s) == |s| * v
    ensures Mean(s) == v as real
  {
    var n := |s| as real;
    assert (|s| * v) as real == n * (v as real);
    assert Mean(s) * n == n * (v as real);
  }

  /** A real area over a positive pixel count, as a Python true division. */
  function Quotient(a: real, b: nat): (q: real)
    requires b > 0
    ensures q * b as real == a
  {
    var q := a / b as real;
    assert q * b as real == a;
    q
  }

  /** count / total as a Python true division; the caller rules out total == 0. */
  function Ratio(count: nat, total: nat): (r: real)
    requires total > 0
    ensures 0.0 <= r
    ensures count <= total ==> r <= 1.0
    ensures count < total ==> r < 1.0
    ensures count == 0 <==> r == 0.0
  {
    RatioFacts(count, total);
    count as real / total as real
  }

  lemma RatioFacts(count: nat, total: nat)
    requires total > 0
    ensures 0.0 <= count as real / total as real
    ensures count <= total ==> count as real / total as real <= 1.0
    ensures count < total ==> count as real / total as real < 1.0
    ensures count == 0 <==> count as real / total as real == 0.0
  {
    var q := count as real / total as real;
    assert q * total as real == count as real;
  }

  /** A count over its own total is one. */
  lemma RatioWhole(n: nat)
    requires n > 0
    ensures Ratio(n, n) == 1.0
  {
  }

  /** Multiplying by a positive factor preserves the order. */
  lemma ScaleOrder(a: real, b: real, k: real)
    requires k > 0.0
    ensures a < b <==> a * k < b * k
  {
  }

  /** count / (h * w), the share of an h x w page's pixels. */
  function PageRatio(count: nat, h: nat, w: nat): real
    requires h > 0 && w > 0
  {
    MulPositive(h, w);
    Ratio(count, h * w)
  }

  /** count / total compared with num / den, cross-multiplied. */
  lemma RatioCompare(count: nat, total: nat, num: nat, den: nat)
    requires total > 0 && den > 0
    ensures Ratio(count, total) > num as real / den as real <==> den * count > num * total
    ensures Ratio(count, total) < num as real / den as real <==> den * count < num * total
  {
    var c := count as real;
    var t := total as real;
    var n := num as real;
    var d := den as real;
    var q := c / t;
    var p := n / d;
    assert q * t == c;
    assert p * d == n;
    ScaleOrder(q, p, t * d);
    ScaleOrder(p, q, t * d);
    assert q * (t * d) == (q * t) * d == c * d;
    assert p * (t * d) == (p * d) * t == n * t;
    assert (den * count) as real == c * d;
    assert (num * total) as real == n * t;
  }

  lemma {:induction false} FlattenLength<T>(g: seq<seq<T>>, h: nat, w: nat)
    requires IsGrid(g, h, w)
    ensures |Flatten(g)| == h * w
    decreases h
  {
    if h > 0 {
      assert IsGrid(g[1..], h - 1, w);
      FlattenLength(g[1..], h - 1, w);
    }
  }

  /** An element of the flattened array is an entry of the array and back. */
  lemma {:induction false} FlattenMembers<T>(g: seq<seq<T>>, x: T)
    ensures x in Flatten(g) <==> exists i, j :: 0 <= i < |g| && 0 <= j < |g[i]| && g[i][j] == x
    decreases |g|
  {
    if |g| > 0 {
      FlattenMembers(g[1..], x);
      if x in Flatten(g[1..]) {
        var i, j :| 0 <= i < |g[1..]| && 0 <= j < |g[1..][i]| && g[1..][i][j] == x;
        assert g[i + 1][j] == x;
      }
      if exists i, j :: 0 <= i < |g| && 0 <= j < |g[i]| && g[i][j] == x {
        var i, j :| 0 <= i < |g| && 0 <= j < |g[i]| && g[i][j] == x;
        if i == 0 {
          assert g[0][j] in g[0];
        } else {
          assert g[1..][i - 1][j] == x;
        }
      }
    }
  }

  lemma {:induction false} CountAppend<T>(a: seq<T>, b: seq<T>, p: T -> bool)
    ensures Count(a + b, p) == Count(a, p) + Count(b, p)
    decreases |a|
  {
    if |a| > 0 {
      assert (a + b)[0] == a[0] && (a + b)[1..] == a[1..] + b;
      CountAppend(a[1..], b, p);
    } else {
      assert a + b == b;
    }
  }

  lemma {:induction false} CountBound<T>(s: seq<T>, p: T -> bool)
    ensures Count(s, p) <= |s|
    decreases |s|
  {
    if |s| > 0 {
      CountBound(s[1..], p);
    }
  }

  /** Elements satisfying `p` and elements not satisfying it partition the array. */
  lemma {:induction false} CountComplement<T>(s: seq<T>, p: T -> bool, q: T -> bool)
    requires forall x :: q(x) == !p(x)
    ensures Count(s, p) + Count(s, q) == |s|
    decreases |s|
  {
    if |s| > 0 {
      CountComplement(s[1..], p, q);
    }
  }

  /** The count is positive exactly when some element satisfies `p`. */
  lemma {:induction false} CountPositive<T>(s: seq<T>, p: T -> bool)
    ensures Count(s, p) > 0 <==> exists k :: 0 <= k < |s| && p(s[k])
    decreases |s|
  {
    if |s| > 0 {
      CountPositive(s[1..], p);
      if exists k :: 0 <= k < |s[1..]| && p(s[1..][k]) {
        var k :| 0 <= k < |s[1..]| && p(s[1..][k]);
        assert p(s[k + 1]);
      }
      if exists k :: 0 <= k < |s| && p(s[k]) {
        var k :| 0 <= k < |s| && p(s[k]);
        if k > 0 {
          assert p(s[1..][k - 1]);
        }
      }
    }
  }

  /** When every element satisfies `p`, the count is the length. */
  lemma {:induction false} CountAll<T>(s: seq<T>, p: T -> bool)
    requires forall k :: 0 <= k < |s| ==> p(s[k])
    ensures Count(s, p) == |s|
    decreases |s|
  {
    if |s| > 0 {
      CountAll(s[1..], p);
    }
  }

  /** Counting is monotone in the predicate. */
  lemma {:induction false} CountMono<T>(s: seq<T>, p: T -> bool, q: T -> bool)
    requires forall k :: 0 <= k < |s| && p(s[k]) ==> q(s[k])
    ensures Count(s, p) <= Count(s, q)
    decreases |s|
  {
    if |s| > 0 {
      CountMono(s[1..], p, q);
    }
  }

  lemma {:induction false} SumAppend(a: seq<int>, b: seq<int>)
    ensures Sum(a + b) == Sum(a) + Sum(b)
    decreases |a|
  {
    if |a| > 0 {
      assert (a + b)[0] == a[0] && (a + b)[1..] == a[1..] + b;
      SumAppend(a[1..], b);
    } else {
      assert a + b == b;
    }
  }

  lemma {:induction false} SumRAppend(a: seq<real>, b: seq<real>)
    ensures SumR(a + b) == SumR(a) + SumR(b)
    decreases |a|
  {
    if |a| > 0 {
      assert (a + b)[0] == a[0] && (a + b)[1..] == a[1..] + b;
      SumRAppend(a[1..], b);
    } else {
      assert a + b == b;
    }
  }

  /** A sum of values each below `bound` is below |s| * bound. */
  lemma {:induction false} SumBelow(s: seq<int>, bound: int)
    requires forall k :: 0 <= k < |s| ==> s[k] < bound
    ensures |s| > 0 ==> Sum(s) < |s| * bound
    ensures Sum(s) <= |s| * bound
    decreases |s|
  {
    if |s| > 0 {
      SumBelow(s[1..], bound);
    }
  }

  /** Sums are monotone under a pointwise order. */
  lemma {:induction false} SumRMono(a: seq<real>, b: seq<real>)
    requires |a| == |b|
    requires forall k :: 0 <= k < |a| ==> a[k] <= b[k]
    ensures SumR(a) <= SumR(b)
    decreases |a|
  {
    if |a| > 0 {
      SumRMono(a[1..], b[1..]);
    }
  }

  /** Number of pixel positions (i, j) of an h-by-w grid where `p` holds:
      np.count_nonzero of a boolean mask. */
  function PixelCount(h: nat, w: nat, p: (nat, nat) -> bool): (n: nat)
    ensures n <= h * w
  {
    var m := Tabulate(h, w, p);
    FlattenLength(m, h, w);
    CountBound(Flatten(m), (b: bool) => b);
    Count(Flatten(m), (b: bool) => b)
  }

  /** Truthy entries of `a` plus truthy entries of its negation `b`. */
  lemma {:induction false} CountNegation(a: seq<bool>, b: seq<bool>)
    requires |a| == |b| && forall k :: 0 <= k < |a| ==> b[k] == !a[k]
    ensures Count(a, (x: bool) => x) + Count(b, (x: bool) => x) == |a|
    decreases |a|
  {
    if |a| > 0 {
      CountNegation(a[1..], b[1..]);
    }
  }

  /** The first row's count plus the count over the remaining rows. */
  lemma PixelCountStep(h: nat, w: nat, p: (nat, nat) -> bool)
    requires h > 0
    ensures PixelCount(h, w, p) ==
      Count(Tabulate(h, w, p)[0], (x: bool) => x) + PixelCount(h - 1, w, (i: nat, j: nat) => p(i + 1, j))
  {
    var mp := Tabulate(h, w, p);
    var p' := (i: nat, j: nat) => p(i + 1, j);
    var tp := Tabulate(h - 1, w, p');
    forall i | 0 <= i < h - 1
      ensures mp[1..][i] == tp[i]
    {
      assert forall j :: 0 <= j < w ==> mp[i + 1][j] == tp[i][j];
    }
    assert mp[1..] == tp;
    CountAppend(mp[0], Flatten(mp[1..]), (x: bool) => x);
  }

  /** The pixels where `p` holds and those where its negation holds partition
      the grid. */
  lemma {:induction false} PixelCountComplement(h: nat, w: nat, p: (nat, nat) -> bool, q: (nat, nat) -> bool)
    requires forall i: nat, j: nat :: q(i, j) == !p(i, j)
    ensures PixelCount(h, w, p) + PixelCount(h, w, q) == h * w
    decreases h
  {
    if h > 0 {
      var p' := (i: nat, j: nat) => p(i + 1, j);
      var q' := (i: nat, j: nat) => q(i + 1, j);
      PixelCountStep(h, w, p);
      PixelCountStep(h, w, q);
      PixelCountComplement(h - 1, w, p', q');
      var mp := Tabulate(h, w, p);
      var mq := Tabulate(h, w, q);
      CountNegation(mp[0], mq[0]);
      assert h * w == w + (h - 1) * w;
    }
  }

  /** The rows r0 .. r1-1 and columns c0 .. c1-1 of `g`, flattened row by row
      (g[r0:r1, c0:c1].flatten()). */
  function Window(g: Grid, h: nat, w: nat, r0: nat, r1: nat, c0: nat, c1: nat): (s: seq<int>)
    requires IsGrid(g, h, w) && r0 <= r1 <= h && c0 <= c1 <= w
    ensures |s| == (r1 - r0) * (c1 - c0)
  {
    var rows := seq(r1 - r0, i requires 0 <= i < r1 - r0 => g[r0 + i][c0..c1]);
    FlattenLength(rows, r1 - r0, c1 - c0);
    Flatten(rows)
  }

  /** When `p` holds on every entry of the rows, it holds on every element of
      their flattening. */
  lemma {:induction false} FlattenAll(rows: seq<seq<int>>, p: int -> bool)
    requires forall i, j :: 0 <= i < |rows| && 0 <= j < |rows[i]| ==> p(rows[i][j])
    ensures Count(Flatten(rows), p) == |Flatten(rows)|
    decreases |rows|
  {
    if |rows| > 0 {
      FlattenAll(rows[1..], p);
      CountAll(rows[0], p);
      CountAppend(rows[0], Flatten(rows[1..]), p);
    }
  }

  /** A window whose entries all satisfy `p` counts every element. */
  lemma WindowAll(g: Grid, h: nat, w: nat, r0: nat, r1: nat, c0: nat, c1: nat, p: int -> bool)
    requires IsGrid(g, h, w) && r0 <= r1 <= h && c0 <= c1 <= w
    requires forall i, j :: r0 <= i < r1 && c0 <= j < c1 ==> p(g[i][j])
    ensures Count(Window(g, h, w, r0, r1, c0, c1), p) == (r1 - r0) * (c1 - c0)
  {
    var rows := seq(r1 - r0, i requires 0 <= i < r1 - r0 => g[r0 + i][c0..c1]);
    forall i, j | 0 <= i < |rows| && 0 <= j < |rows[i]|
      ensures p(rows[i][j])
    {
      assert rows[i][j] == g[r0 + i][c0 + j];
    }
    FlattenAll(rows, p);
  }

  /** An image of the given size whose pixel (i, j) of channel c is f(c, i, j):
      the output of a library resampling (warpAffine, warpPerspective) whose
      values are not modelled. */
  function Sampled(h: nat, w: nat, channels: nat, f: (nat, nat, nat) -> int): (img: Image)
    requires channels == 1 || channels == 3
    ensures img.Valid() && img.h == h && img.w == w && |img.planes| == channels
  {
    Image(h, w, seq(channels, c requires 0 <= c < channels =>
      Tabulate(h, w, (i: nat, j: nat) => f(c, i, j))))
  }

  /** An h x w grid agreeing with `g` wherever `g` has an entry: the shape
      guarantee of a size-preserving library filter applied to an h x w
      grid, whose values are not modelled. */
  function Fit(g: Grid, h: nat, w: nat): (r: Grid)
    ensures IsGrid(r, h, w)
    ensures forall i, j :: 0 <= i < h && 0 <= j < w && i < |g| && j < |g[i]| ==> r[i][j] == g[i][j]
  {
    Tabulate(h, w, (i: nat, j: nat) => if i < |g| && j < |g[i]| then g[i][j] else 0)
  }

  /** Every entry is 0 or 255. */
  predicate TwoLevel(g: Grid) {
    forall i, j :: 0 <= i < |g| && 0 <= j < |g[i]| ==> g[i][j] == 0 || g[i][j] == 255
  }

  /** (gray > thresh).astype('uint8') * 255 for a per-pixel threshold map. */
  function Threshold(gray: Grid, thresh: RealGrid, h: nat, w: nat): (b: Grid)
    requires IsGrid(gray, h, w) && IsGrid(thresh, h, w)
    ensures IsGrid(b, h, w) && TwoLevel(b)
    ensures forall i, j :: 0 <= i < h && 0 <= j < w ==>
      (b[i][j] == 255 <==> gray[i][j] as real > thresh[i][j])
  {
    Tabulate(h, w, (i: nat, j: nat) =>
      if i < |gray| && j < |gray[i]| && i < |thresh| && j < |thresh[i]| &&
         gray[i][j] as real > thresh[i][j] then 255 else 0)
  }

  /** A 0/255 mask from a boolean one (an OpenCV binary threshold with
      maximum value 255). */
  function FromMask(m: seq<seq<bool>>, h: nat, w: nat): (b: Grid)
    requires IsGrid(m, h, w)
    ensures IsGrid(b, h, w) && TwoLevel(b)
    ensures forall i, j :: 0 <= i < h && 0 <= j < w ==> (b[i][j] == 255 <==> m[i][j])
  {
    Tabulate(h, w, (i: nat, j: nat) => if i < |m| && j < |m[i]| && m[i][j] then 255 else 0)
  }

  /** The integer nearest to y, ties to even. */
  function Nearest(y: real): (m: int)
    ensures y - 0.5 <= m as real <= y + 0.5
  {
    var n := y.Floor;
    var frac := y - n as real;
    if frac > 0.5 then n + 1 else if frac < 0.5 then n else if n % 2 == 0 then n else n + 1
  }

  /** Python's round(x, d) on an exactly represented real, with scale = 10^d:
      the nearest multiple of 1/scale, ties to the even multiple. */
  function Round(x: real, scale: nat): (r: real)
    requires scale > 0
    ensures r * (scale as real) == Nearest(x * (scale as real)) as real
    ensures x - 0.5 / (scale as real) <= r <= x + 0.5 / (scale as real)
  {
    DivMul(Nearest(x * (scale as real)), scale as real);
    RoundBounds(x, scale as real, Nearest(x * (scale as real)));
    Nearest(x * (scale as real)) as real / (scale as real)
  }

  lemma DivMul(m: int, k: real)
    requires k > 0.0
    ensures m as real / k * k == m as real
  {
  }

  lemma RoundBounds(x: real, k: real, m: int)
    requires k > 0.0 && x * k - 0.5 <= m as real <= x * k + 0.5
    ensures x - 0.5 / k <= m as real / k <= x + 0.5 / k
  {
    var q := m as real / k;
    assert q * k == m as real;
    assert (x - 0.5 / k) * k == x * k - 0.5;
    assert (x + 0.5 / k) * k == x * k + 0.5;
    ScaleOrder(q, x - 0.5 / k, k);
    ScaleOrder(x + 0.5 / k, q, k);
  }

  /** Rounding keeps a value of [0, 1] within [0, 1]. */
  lemma RoundUnit(x: real, scale: nat)
    requires scale > 0
    ensures 0.0 <= x <= 1.0 ==> 0.0 <= Round(x, scale) <= 1.0
  {
    if 0.0 <= x <= 1.0 {
      var r := Round(x, scale);
      NearestUnit(x, scale);
      UnitQuotient(r, Nearest(x * (scale as real)), scale);
    }
  }

  lemma NearestUnit(x: real, scale: nat)
    requires scale > 0 && 0.0 <= x <= 1.0
    ensures 0 <= Nearest(x * (scale as real)) <= scale
  {
    var k := scale as real;
    MulNonNeg(x, k);
    MulNonNeg(1.0 - x, k);
    assert (1.0 - x) * k == k - x * k;
  }

  lemma UnitQuotient(r: real, m: int, k: nat)
    requires 0 <= m <= k && k > 0 && r * (k as real) == m as real
    ensures 0.0 <= r <= 1.0
  {
    if r < 0.0 {
      MulPos(-r, k as real);
    } else if r > 1.0 {
      MulPos(r - 1.0, k as real);
    }
  }

  lemma MulPositive(a: nat, b: nat)
    requires a > 0 && b > 0
    ensures a * b > 0
  {
  }

  /** A positive factor can be cancelled from a strict comparison. */
  lemma MulCancel(a: nat, b: nat, m: nat)
    requires m > 0
    ensures a * m < b * m ==> a < b
  {
    if b <= a {
      var k: nat := a - b;
      MulNat(k, m);
      assert a * m == b * m + k * m;
    }
  }

  /** A non-negative factor keeps the order. */
  lemma MulLe(a: nat, b: nat, k: nat)
    requires a <= b
    ensures a * k <= b * k
  {
    var c: nat := b - a;
    MulNat(c, k);
    assert b * k == a * k + c * k;
  }

  lemma MulNat(a: nat, b: nat)
    ensures a * b >= 0
  {
  }

  lemma MulPos(x: real, y: real)
    requires x > 0.0 && y > 0.0
    ensures x * y > 0.0
  {
  }

  lemma MulNonNeg(x: real, y: real)
    requires x >= 0.0 && y >= 0.0
    ensures x * y >= 0.0
  {
  }

  /** Squaring is monotone on the non-negative reals. */
  lemma SquareMono(a: real, b: real)
    requires 0.0 <= a <= b
    ensures a * a <= b * b
    ensures a < b ==> a * a < b * b
  {
    assert b * b - a * a == (b - a) * (b + a);
    if a < b {
      MulPos(b - a, b + a);
    } else {
      MulNonNeg(b - a, b + a);
    }
  }

  /** A square is never negative. */
  lemma SquareNonNeg(x: real)
    ensures x * x >= 0.0
  {
    if x < 0.0 {
      MulPos(0.0 - x, 0.0 - x);
    } else {
      MulNonNeg(x, x);
    }
  }

  /** Counting depends only on the values of the predicate. */
  lemma PixelCountExt(h: nat, w: nat, p: (nat, nat) -> bool, q: (nat, nat) -> bool)
    requires forall i: nat, j: nat :: i < h && j < w ==> p(i, j) == q(i, j)
    ensures PixelCount(h, w, p) == PixelCount(h, w, q)
  {
    var a := Tabulate(h, w, p);
    var b := Tabulate(h, w, q);
    forall i | 0 <= i < h ensures a[i] == b[i] {
      assert forall j :: 0 <= j < w ==> a[i][j] == b[i][j];
    }
    assert a == b;
  }
}

=== FILE: registry.dfy ===
/** The preprocessing modules by name (the `name` attribute of each module
    class), the default module list of autoocr/api/pipeline.py, and the one
    relative order every module list of the package respects. */
module Registry {
  import opened Wrappers
  import opened Pipeline

  datatype ModuleId =
    | GuillocheRemoval | WatermarkRemoval | HologramRemoval
    | EdgeMask | Orientation | Perspective | Language | Deskew | DeRaster
    | Denoise | BackgroundClean | Enhance | MrzEnhancement | TextRefine
    | Sharpen | Smooth | Binarize | ColorCorrection | TextSegmentation
    | ArtifactRemoval | DotsRemoval

  /** The module's `name` class attribute. */
  function Name(m: ModuleId): string {
    match m
    case GuillocheRemoval => "guilloche_removal"
    case WatermarkRemoval => "watermark_removal"
    case HologramRemoval => "hologram_removal"
    case EdgeMask => "edge_mask"
    case Orientation => "orientation"
    case Perspective => "perspective"
    case Language => "language"
    case Deskew => "deskew"
    case DeRaster => "de_raster"
    case Denoise => "denoise"
    case BackgroundClean => "background_clean"
    case Enhance => "enhance"
    case MrzEnhancement => "mrz_enhancement"
    case TextRefine => "text_refine"
    case Sharpen => "sharpen"
    case Smooth => "smooth"
    case Binarize => "binarize"
    case ColorCorrection => "color_correction"
    case TextSegmentation => "text_segmentation"
    case ArtifactRemoval => "artifact_removal"
    case DotsRemoval => "dots_removal"
  }

  /** Position in the package-wide order: security-feature removal first,
      then geometry, cleanup, refinement, binarization and analysis. */
  function Rank(m: ModuleId): nat {
    match m
    case GuillocheRemoval => 0
    case WatermarkRemoval => 1
    case HologramRemoval => 2
    case EdgeMask => 3
    case Orientation => 4
    case Perspective => 5
    case Language => 6
    case Deskew => 7
    case DeRaster => 8
    case Denoise => 9
    case BackgroundClean => 10
    case Enhance => 11
    case MrzEnhancement => 12
    case TextRefine => 13
    case Sharpen => 14
    case Smooth => 15
    case Binarize => 16
    case ColorCorrection => 17
    case TextSegmentation => 18
    case ArtifactRemoval => 19
    case DotsRemoval => 20
  }

  /** The list respects the package-wide order (hence has no repeats). */
  predicate RankSorted(r: seq<ModuleId>) {
    forall i, j :: 0 <= i < j < |r| ==> Rank(r[i]) < Rank(r[j])
  }

  /** The only module whose name could have this length and first letter
      (no two names share both). */
  function Candidate(len: nat, first: char): Option<ModuleId> {
    if len == 17 && first == 'g' then Some(GuillocheRemoval)
    else if len == 17 && first == 'w' then Some(WatermarkRemoval)
    else if len == 16 && first == 'h' then Some(HologramRemoval)
    else if len == 9 && first == 'e' then Some(EdgeMask)
    else if len == 11 && first == 'o' then Some(Orientation)
    else if len == 11 && first == 'p' then Some(Perspective)
    else if len == 8 && first == 'l' then Some(Language)
    else if len == 6 && first == 'd' then Some(Deskew)
    else if len == 9 && first == 'd' then Some(DeRaster)
    else if len == 7 && first == 'd' then Some(Denoise)
    else if len == 16 && first == 'b' then Some(BackgroundClean)
    else if len == 7 && first == 'e' then Some(Enhance)
    else if len == 15 && first == 'm' then Some(MrzEnhancement)
    else if len == 11 && first == 't' then Some(TextRefine)
    else if len == 7 && first == 's' then Some(Sharpen)
    else if len == 6 && first == 's' then Some(Smooth)
    else if len == 8 && first == 'b' then Some(Binarize)
    else if len == 16 && first == 'c' then Some(ColorCorrection)
    else if len == 17 && first == 't' then Some(TextSegmentation)
    else if len == 16 && first == 'a' then Some(ArtifactRemoval)
    else if len == 12 && first == 'd' then Some(DotsRemoval)
    else None
  }

  /** The module a name refers to, if any. */
  function FromName(s: string): (r: Option<ModuleId>)
    ensures r.Some? ==> Name(r.value) == s
  {
    if |s| == 0 then None
    else
      match Candidate(|s|, s[0])
      case None => None
      case Some(m) => if Name(m) == s then Some(m) else None
  }

  /** Every module is found again from its name. */
  lemma NameRoundTrip(m: ModuleId)
    ensures FromName(Name(m)) == Some(m)
  {
    match m
    case GuillocheRemoval =>
    case WatermarkRemoval =>
    case HologramRemoval =>
    case EdgeMask =>
    case Orientation =>
    case Perspective =>
    case Language =>
    case Deskew =>
    case DeRaster =>
    case Denoise =>
    case BackgroundClean =>
    case Enhance =>
    case MrzEnhancement =>
    case TextRefine =>
    case Sharpen =>
    case Smooth =>
    case Binarize =>
    case ColorCorrection =>
    case TextSegmentation =>
    case ArtifactRemoval =>
    case DotsRemoval =>
  }

  /** Distinct modules have distinct names, so a step's name identifies its module. */
  lemma NameInjective(a: ModuleId, b: ModuleId)
    ensures Name(a) == Name(b) <==> a == b
  {
    NameRoundTrip(a);
    NameRoundTrip(b);
  }

  /** The modules Pipeline() runs when given no list. */
  const DefaultModules: seq<ModuleId> := [
    EdgeMask, Orientation, Perspective, Language, Deskew, DeRaster, Denoise,
    BackgroundClean, Enhance, TextRefine, Sharpen, Smooth, Binarize,
    ColorCorrection, TextSegmentation, ArtifactRemoval]

  /** Pipeline.__init__: an explicit list is kept as given, a missing one is
      replaced by the default sixteen. */
  function PipelineModules(given: Option<seq<ModuleId>>): (r: seq<ModuleId>)
    ensures given.Some? ==> r == given.value
    ensures given.None? ==>
      |r| == 16 && RankSorted(r) && r[0] == EdgeMask && r[12] == Binarize && r[15] == ArtifactRemoval
    ensures given.None? ==> forall m :: m in r <==> !IsSecurityOnly(m)
  {
    match given
    case Some(ms) => ms
    case None => DefaultModulesMembers(); DefaultModules
  }

  /** Modules only the OCR-optimized profile uses (and dots removal, which
      no list uses). */
  predicate IsSecurityOnly(m: ModuleId) {
    m.GuillocheRemoval? || m.WatermarkRemoval? || m.HologramRemoval? || m.MrzEnhancement? || m.DotsRemoval?
  }

  lemma DefaultModulesMembers()
    ensures forall m :: m in DefaultModules <==> !IsSecurityOnly(m)
  {
    forall m
      ensures m in DefaultModules <==> !IsSecurityOnly(m)
    {
      if !IsSecurityOnly(m) {
        assert DefaultModules[Rank(m) - 3 - (if Rank(m) > 12 then 1 else 0)] == m;
      }
    }
  }

  /** The names of a module list, in order. */
  function Names(ms: seq<ModuleId>): (r: seq<string>)
    ensures |r| == |ms| && forall i :: 0 <= i < |ms| ==> r[i] == Name(ms[i])
  {
    seq(|ms|, i requires 0 <= i < |ms| => Name(ms[i]))
  }

  /** A stage library gives every module its own name. */
  predicate NamedAfter<I, M>(lib: ModuleId -> Stage<I, M>) {
    forall m :: lib(m).name == Name(m)
  }

  /** The stages a module list stands for. */
  function Instantiate<I, M>(ms: seq<ModuleId>, lib: ModuleId -> Stage<I, M>): (r: seq<Stage<I, M>>)
    ensures |r| == |ms| && forall i :: 0 <= i < |ms| ==> r[i] == lib(ms[i])
  {
    seq(|ms|, i requires 0 <= i < |ms| => lib(ms[i]))
  }

  /** With a faithful library, a stage is called "binarize" exactly when it
      stands for the binarize module. */
  lemma BinarizeStages<I, M>(ms: seq<ModuleId>, lib: ModuleId -> Stage<I, M>)
    requires NamedAfter(lib)
    ensures forall k :: 0 <= k < |ms| ==> (Instantiate(ms, lib)[k].name == BinarizeName <==> ms[k] == Binarize)
  {
    forall k | 0 <= k < |ms|
      ensures Instantiate(ms, lib)[k].name == BinarizeName <==> ms[k] == Binarize
    {
      NameInjective(ms[k], Binarize);
    }
  }

  /** Two lists sorted by rank with the same members are the same list. */
  lemma {:induction false} SortedUnique(a: seq<ModuleId>, b: seq<ModuleId>)
    requires RankSorted(a) && RankSorted(b)
    requires forall m :: m in a <==> m in b
    ensures a == b
    decreases |a|
  {
    if |b| > 0 {
      assert b[0] in b;
    }
    if |a| > 0 {
      assert a[0] in a;
    }
    if |a| > 0 && |b| > 0 {
      assert a[0] == b[0];
      forall m
        ensures m in a[1..] <==> m in b[1..]
      {
        if m in a[1..] {
          var i :| 0 <= i < |a[1..]| && a[1..][i] == m;
          assert Rank(a[0]) < Rank(m);
          assert m in b && m != b[0];
          var j :| 0 <= j < |b| && b[j] == m;
          assert j > 0 && b[1..][j - 1] == m;
        }
        if m in b[1..] {
          var j :| 0 <= j < |b[1..]| && b[1..][j] == m;
          assert Rank(b[0]) < Rank(m);
          assert m in a && m != a[0];
          var i :| 0 <= i < |a| && a[i] == m;
          assert i > 0 && a[1..][i - 1] == m;
        }
      }
      SortedUnique(a[1..], b[1..]);
      assert a == [a[0]] + a[1..] && b == [b[0]] + b[1..];
    }
  }
}

=== FILE: security_detector.dfy ===
/** SecurityFeatureDetector of autoocr/api/utils/security_detector.py: the
    document classifier, the security-feature list, the warp heuristic and the
    risk lookup. Every image statistic the detector obtains from OpenCV, numpy
    or the deskew package enters through `Observations`; the decisions made from
    those statistics are computed exactly. */
module SecurityDetector {
  import opened Wrappers
  import opened Raster
  import Spectrum

  datatype DocumentType = Passport | IdCard | Certificate | Currency | StandardDocument

  /** The strings the detector reports. */
  function TypeName(t: DocumentType): string {
    match t
    case Passport => "passport"
    case IdCard => "id_card"
    case Certificate => "certificate"
    case Currency => "currency"
    case StandardDocument => "standard"
  }

  datatype Feature = Watermark | Microtext | Guilloche | Hologram

  function FeatureName(f: Feature): string {
    match f
    case Watermark => "watermark"
    case Microtext => "microtext"
    case Guilloche => "guilloche"
    case Hologram => "hologram"
  }

  /** Position of a feature in the order the detector tests them. */
  function FeatureRank(f: Feature): nat {
    match f
    case Watermark => 0
    case Microtext => 1
    case Guilloche => 2
    case Hologram => 3
  }

  /** Library results for one colour page of size h x w. */
  datatype Observations = Observations(
    luma: (int, int, int) -> int,      // cvtColor(BGR2GRAY)
    otsu: Grid -> int,                 // Otsu threshold of a gray region
    sat: Grid,                         // HSV saturation plane
    val: Grid,                         // HSV value plane
    sealCircles: nat,                  // HoughCircles on the gradient edges (0 when None)
    opening: Grid,                     // 15x15 morphological opening of the gray page
    laplacianVariance: real,           // Laplacian(gray).var()
    magnitude: RealGrid,               // |fftshift(fft2(gray))|
    skew: Option<real>,                // determine_skew, None when it raises
    lineAngles: Option<seq<real>>)     // |atan2| in degrees of each HoughLinesP line; None when no lines

  predicate WellFormed(img: Image, o: Observations) {
    img.Valid() && img.IsColor() && img.NonEmpty() &&
    IsGrid(o.sat, img.h, img.w) && IsGrid(o.val, img.h, img.w) &&
    IsGrid(o.opening, img.h, img.w) &&
    IsGrid(o.magnitude, img.h, img.w) && Spectrum.NonNegative(o.magnitude)
  }

  // ---------------------------------------------------------------- MRZ

  /** int(height * 0.15), computed exactly. */
  function MrzBandRows(h: nat): nat {
    h * 15 / 100
  }

  /** First row of `gray[-search_height:, :]`; a zero band is `[-0:]`, the
      whole image. */
  function MrzBandStart(h: nat): (start: nat)
    ensures start < h || h == 0
    ensures MrzBandRows(h) == 0 ==> start == 0
    ensures MrzBandRows(h) > 0 ==> start + MrzBandRows(h) == h
  {
    var n := MrzBandRows(h);
    if n == 0 then 0 else h - n
  }

  /** The search band is the whole page exactly for pages of fewer than seven
      rows, where int(0.15 * h) is zero. */
  lemma MrzBandWholePage(h: nat)
    ensures MrzBandStart(h) == 0 <==> h < 7
  {
  }

  /** Otsu-foreground density: the fraction of band pixels at or below the
      Otsu threshold (THRESH_BINARY_INV makes exactly those nonzero). */
  function BandDensity(gray: Grid, h: nat, w: nat, start: nat, otsu: Grid -> int): (d: real)
    requires IsGrid(gray, h, w) && start < h && w > 0
    ensures 0.0 <= d <= 1.0
  {
    var band := gray[start..];
    var t := otsu(band);
    var dark := PixelCount(h - start, w, (i: nat, j: nat) =>
      i < |band| && j < |band[i]| && band[i][j] <= t);
    Ratio(dark, (h - start) * w)
  }

  /** _detect_mrz: the density lies strictly between 0.30 and 0.80. */
  predicate DetectMrz(gray: Grid, h: nat, w: nat, otsu: Grid -> int)
    requires IsGrid(gray, h, w) && h > 0 && w > 0
  {
    var d := BandDensity(gray, h, w, MrzBandStart(h), otsu);
    0.30 < d < 0.80
  }

  // ---------------------------------------------------------- hologram

  /** count(s < 50 and v > 200) over the page. */
  function BrightUnsaturated(sat: Grid, val: Grid, h: nat, w: nat): nat
    requires IsGrid(sat, h, w) && IsGrid(val, h, w)
  {
    PixelCount(h, w, (i: nat, j: nat) =>
      i < |sat| && j < |sat[i]| && i < |val| && j < |val[i]| && sat[i][j] < 50 && val[i][j] > 200)
  }

  /** _detect_hologram (and _has_hologram, which delegates to it). */
  predicate DetectHologram(sat: Grid, val: Grid, h: nat, w: nat)
    requires IsGrid(sat, h, w) && IsGrid(val, h, w) && h > 0 && w > 0
  {
    Ratio(BrightUnsaturated(sat, val, h, w), h * w) > 0.05
  }

  /** The ratio test is "more than one page pixel in twenty". */
  lemma HologramOneInTwenty(sat: Grid, val: Grid, h: nat, w: nat)
    requires IsGrid(sat, h, w) && IsGrid(val, h, w) && h > 0 && w > 0
    ensures DetectHologram(sat, val, h, w) <==> 20 * BrightUnsaturated(sat, val, h, w) > h * w
  {
    RatioCompare(BrightUnsaturated(sat, val, h, w), h * w, 1, 20);
    assert 0.05 == 1 as real / 20 as real;
  }

  // -------------------------------------------------------- watermark

  /** The fraction of pixels whose distance from the opening exceeds 10. */
  function WatermarkRatio(gray: Grid, opening: Grid, h: nat, w: nat): (r: real)
    requires IsGrid(gray, h, w) && IsGrid(opening, h, w) && h > 0 && w > 0
    ensures 0.0 <= r <= 1.0
  {
    var n := PixelCount(h, w, (i: nat, j: nat) =>
      i < |gray| && j < |gray[i]| && i < |opening| && j < |opening[i]| &&
      (gray[i][j] - opening[i][j] > 10 || opening[i][j] - gray[i][j] > 10));
    Ratio(n, h * w)
  }

  // ------------------------------------------------------------- warp

  /** A line is neither horizontal nor vertical when 5 < angle < 85. */
  predicate Oblique(angle: real) {
    5.0 < angle < 85.0
  }

  /** _detect_warp: false without lines; otherwise more than 30% of the
      lines are oblique. */
  function DetectWarp(lineAngles: Option<seq<real>>): (warped: bool)
    ensures lineAngles.None? ==> !warped
    ensures lineAngles.Some? ==>
      (warped <==> 10 * Count(lineAngles.value, Oblique) > 3 * |lineAngles.value|)
  {
    match lineAngles
    case None => false
    case Some(angles) =>
      var oblique := Count(angles, Oblique);
      assert oblique as real > |angles| as real * 0.3 <==> 10 * oblique > 3 * |angles|;
      oblique as real > |angles| as real * 0.3
  }

  /** Pages whose lines are all horizontal or vertical are never warped, and
      a page whose lines are all oblique is warped. */
  lemma WarpExtremes(angles: seq<real>)
    ensures (forall k :: 0 <= k < |angles| ==> !Oblique(angles[k])) ==> !DetectWarp(Some(angles))
    ensures |angles| > 0 && (forall k :: 0 <= k < |angles| ==> Oblique(angles[k])) ==> DetectWarp(Some(angles))
  {
    if forall k :: 0 <= k < |angles| ==> !Oblique(angles[k]) {
      CountPositive(angles, Oblique);
    }
    if forall k :: 0 <= k < |angles| ==> Oblique(angles[k]) {
      CountAll(angles, Oblique);
    }
  }

  // ------------------------------------------------------ classification

  /** _classify_document_type: MRZ, then hologram, then embossed seal. */
  function Classify(mrz: bool, hologram: bool, seal: bool): (t: DocumentType)
    ensures t == Passport <==> mrz
    ensures t == IdCard <==> !mrz && hologram
    ensures t == Certificate <==> !mrz && !hologram && seal
    ensures t == StandardDocument <==> !mrz && !hologram && !seal
  {
    if mrz then Passport
    else if hologram then IdCard
    else if seal then Certificate
    else StandardDocument
  }

  /** The classifier never yields currency. */
  lemma NeverCurrency(mrz: bool, hologram: bool, seal: bool)
    ensures Classify(mrz, hologram, seal) != Currency
  {
  }

  /** _assess_processing_risk: risk_levels.get(doc_type, 'medium'). */
  function RiskLevel(docType: string): (risk: string)
    ensures docType == "passport" ==> risk == "high"
    ensures docType == "currency" ==> risk == "critical"
    ensures docType in {"certificate", "standard"} ==> risk == "low"
    ensures docType !in {"passport", "certificate", "currency", "standard"} ==> risk == "medium"
  {
    if docType == "passport" then "high"
    else if docType == "id_card" then "medium"
    else if docType == "certificate" then "low"
    else if docType == "currency" then "critical"
    else if docType == "standard" then "low"
    else "medium"
  }

  /** A classified page is never rated critical: only currency is, and the
      classifier never produces it. */
  lemma ClassifiedRiskNotCritical(mrz: bool, hologram: bool, seal: bool)
    ensures RiskLevel(TypeName(Classify(mrz, hologram, seal))) in {"high", "medium", "low"}
  {
  }

  // --------------------------------------------------------- features

  /** Whether each security feature is present. */
  predicate HasFeature(img: Image, o: Observations, f: Feature)
    requires WellFormed(img, o)
  {
    match f
    case Watermark => HasWatermark(img, o)
    case Microtext => o.laplacianVariance > 150.0
    case Guilloche => HasGuilloche(img, o)
    case Hologram => DetectHologram(o.sat, o.val, img.h, img.w)
  }

  /** _has_watermark: more than 20% of the page departs from its opening. */
  predicate HasWatermark(img: Image, o: Observations)
    requires WellFormed(img, o)
  {
    WatermarkRatio(GrayOf(img, o.luma), o.opening, img.h, img.w) > 0.20
  }

  /** _has_guilloche: the band test of the spectrum at strength 0.15. */
  predicate HasGuilloche(img: Image, o: Observations)
    requires WellFormed(img, o)
  {
    Spectrum.HasPattern(o.magnitude, img.h, img.w, Spectrum.MinPatternStrength)
  }

  /** The order in which _detect_security_features runs its tests. */
  const TestOrder: seq<Feature> := [Watermark, Microtext, Guilloche, Hologram]

  /** Entries strictly ascending by rank. */
  predicate Ranked(fs: seq<Feature>) {
    forall i, j :: 0 <= i < j < |fs| ==> FeatureRank(fs[i]) < FeatureRank(fs[j])
  }

  /** `features.append(f)` under a test. */
  function AddIf(fs: seq<Feature>, cond: bool, f: Feature): seq<Feature> {
    if cond then fs + [f] else fs
  }

  /** The features appended after running the tests of `order` in turn. */
  function Appended(order: seq<Feature>, present: Feature -> bool): seq<Feature>
    decreases |order|
  {
    if |order| == 0 then []
    else
      var last := order[|order| - 1];
      AddIf(Appended(order[..|order| - 1], present), present(last), last)
  }

  /** One test: the feature is appended after lower-ranked ones. */
  lemma AddIfFacts(fs: seq<Feature>, cond: bool, f: Feature)
    requires Ranked(fs) && forall i :: 0 <= i < |fs| ==> FeatureRank(fs[i]) < FeatureRank(f)
    ensures Ranked(AddIf(fs, cond, f))
    ensures forall g :: g in AddIf(fs, cond, f) <==> g in fs || (cond && g == f)
  {
    if cond {
      var r := fs + [f];
      assert forall i :: 0 <= i < |fs| ==> r[i] == fs[i];
    }
  }

  /** The last test of a ranked order outranks every earlier feature. */
  lemma LastOutranks(order: seq<Feature>, fs: seq<Feature>)
    requires Ranked(order) && |order| > 0
    requires forall g :: g in fs ==> g in order[..|order| - 1]
    ensures forall i :: 0 <= i < |fs| ==> FeatureRank(fs[i]) < FeatureRank(order[|order| - 1])
  {
    forall i | 0 <= i < |fs| ensures FeatureRank(fs[i]) < FeatureRank(order[|order| - 1]) {
      assert fs[i] in fs;
      var k :| 0 <= k < |order| - 1 && order[..|order| - 1][k] == fs[i];
      assert order[k] == fs[i];
    }
  }

  /** Running the tests in rank order appends exactly the present features
      of the order, in rank order. */
  lemma {:induction false} AppendedFacts(order: seq<Feature>, present: Feature -> bool)
    requires Ranked(order)
    ensures forall f :: f in Appended(order, present) <==> f in order && present(f)
    ensures Ranked(Appended(order, present))
    decreases |order|
  {
    if |order| > 0 {
      var init := order[..|order| - 1];
      var last := order[|order| - 1];
      var fs := Appended(init, present);
      assert Ranked(init);
      AppendedFacts(init, present);
      LastOutranks(order, fs);
      AddIfFacts(fs, present(last), last);
      assert order == init + [last];
      assert forall f :: f in order <==> f in init || f == last;
    }
  }

  lemma EveryFeature(f: Feature)
    ensures f in TestOrder
  {
    match f
    case Watermark => assert TestOrder[0] == f;
    case Microtext => assert TestOrder[1] == f;
    case Guilloche => assert TestOrder[2] == f;
    case Hologram => assert TestOrder[3] == f;
  }

  /** The `features.append` sequence given the four test outcomes. */
  function FeatureList(present: Feature -> bool): (fs: seq<Feature>)
    ensures forall f :: f in fs <==> present(f)
    ensures Ranked(fs)
  {
    AppendedFacts(TestOrder, present);
    forall f ensures f in TestOrder { EveryFeature(f); }
    Appended(TestOrder, present)
  }

  /** _detect_security_features: the present features, in test order. */
  function SecurityFeatures(img: Image, o: Observations): (fs: seq<Feature>)
    requires WellFormed(img, o)
    ensures forall f :: f in fs <==> HasFeature(img, o, f)
    ensures Ranked(fs)
  {
    FeatureList(f => WellFormed(img, o) && HasFeature(img, o, f))
  }

  /** The feature list has no repeated entry. */
  lemma FeaturesDistinct(img: Image, o: Observations)
    requires WellFormed(img, o)
    ensures var fs := SecurityFeatures(img, o);
      forall i, j :: 0 <= i < j < |fs| ==> fs[i] != fs[j]
  {
  }

  /** The classifier's hologram feature and its id_card test are one
      predicate: a page classified id_card always lists the hologram feature. */
  lemma IdCardHasHologram(img: Image, o: Observations)
    requires WellFormed(img, o)
    ensures var t := Classify(DetectMrz(GrayOf(img, o.luma), img.h, img.w, o.otsu),
                              DetectHologram(o.sat, o.val, img.h, img.w),
                              o.sealCircles > 0);
      t == IdCard ==> Hologram in SecurityFeatures(img, o)
  {
  }

  // --------------------------------------------------------- analysis

  datatype Analysis = Analysis(
    documentType: DocumentType,
    features: seq<Feature>,
    skewAngle: real,
    riskLevel: string,
    hasWarp: bool)

  /** analyze_image. */
  function Analyze(img: Image, o: Observations): (a: Analysis)
    requires WellFormed(img, o)
    ensures var mrz := DetectMrz(GrayOf(img, o.luma), img.h, img.w, o.otsu);
      var hologram := DetectHologram(o.sat, o.val, img.h, img.w);
      && (a.documentType == Passport <==> mrz)
      && (a.documentType == IdCard <==> !mrz && hologram)
      && (a.documentType == Certificate <==> !mrz && !hologram && o.sealCircles > 0)
      && (a.documentType == StandardDocument <==> !mrz && !hologram && o.sealCircles == 0)
    ensures a.documentType != Currency
    ensures a.features == SecurityFeatures(img, o) && Ranked(a.features)
    ensures forall f :: f in a.features <==> HasFeature(img, o, f)
    ensures a.skewAngle == (if o.skew.Some? then o.skew.value else 0.0)
    ensures a.riskLevel == RiskLevel(TypeName(a.documentType))
    ensures a.riskLevel != "critical"
    ensures a.hasWarp == DetectWarp(o.lineAngles)
    ensures a.hasWarp ==> o.lineAngles.Some?
  {
    var gray := GrayOf(img, o.luma);
    var t := Classify(DetectMrz(gray, img.h, img.w, o.otsu),
                      DetectHologram(o.sat, o.val, img.h, img.w),
                      o.sealCircles > 0);
    ClassifiedRiskNotCritical(DetectMrz(gray, img.h, img.w, o.otsu),
                              DetectHologram(o.sat, o.val, img.h, img.w),
                              o.sealCircles > 0);
    Analysis(t, SecurityFeatures(img, o), o.skew.GetOr(0.0), RiskLevel(TypeName(t)), DetectWarp(o.lineAngles))
  }
}

=== FILE: sharpen.dfy ===
/** SharpenModule of autoocr/api/modules/sharpen.py: blur detection from the
    Laplacian variance, then unsharp masking and high-pass detail
    refinement on the gray page. The saturating uint8 arithmetic is
    modelled exactly; the gray conversion and the Gaussian blurs are
    library work and enter as inputs. */
module Sharpen {
  import opened Wrappers
  import opened Raster
  import Enhance

  datatype DetectMeta = DetectMeta(laplacianVariance: real, isBlurry: bool)

  /** SharpenModule.detect, given the Laplacian variance. */
  function Detect(laplacianVariance: real): (r: (bool, DetectMeta))
    ensures r.0 <==> laplacianVariance < 100.0
    ensures r.1.isBlurry == r.0
    ensures r.1.laplacianVariance * 100.0 == Nearest(laplacianVariance * 100.0) as real
  {
    (laplacianVariance < 100.0, DetectMeta(Round(laplacianVariance, 100), laplacianVariance < 100.0))
  }

  /** cv2.subtract on uint8: the difference clipped to [0, 255]. */
  function SatSub(a: int, b: int): (d: int)
    ensures IsByte(d)
    ensures IsByte(a) && b >= 0 ==> d <= a
    ensures IsByte(a) ==> (d == 0 <==> a <= b)
    ensures IsByte(a) && IsByte(b) && a >= b ==> d == a - b
  {
    var x := a - b;
    if x < 0 then 0 else if x > 255 then 255 else x
  }

  lemma SaturateAbove(g: int, x: real)
    requires IsByte(g) && x >= g as real
    ensures Enhance.Saturate(x) >= g
  {
  }

  lemma EdgeFacts(g: int, b: int, e: int)
    requires e == SatSub(g, b)
    ensures IsByte(g) ==> Enhance.Saturate(g as real + 0.8 * e as real) >= g
    ensures IsByte(g) && g > b && g < 255 ==> Enhance.Saturate(g as real + 0.8 * e as real) > g
  {
    if IsByte(g) {
      SaturateAbove(g, g as real + 0.8 * e as real);
    }
  }

  /** cv2.addWeighted(gray, 1.0, edges, 0.8, 0) at one pixel, with
      edges = cv2.subtract(gray, blurred). */
  function EdgePixel(g: int, b: int): (v: int)
    ensures IsByte(v)
    ensures IsByte(g) ==> v >= g
    ensures IsByte(g) && g <= b ==> v == g
    ensures IsByte(g) && g > b && g < 255 ==> v > g
  {
    var e := SatSub(g, b);
    EdgeFacts(g, b, e);
    Enhance.Saturate(g as real + 0.8 * e as real)
  }

  /** _enhance_edges's sharpened gray plane. */
  function EdgeEnhanced(gray: Grid, blurred: Grid, h: nat, w: nat): (r: Grid)
    requires IsGrid(gray, h, w) && IsGrid(blurred, h, w)
    ensures IsGrid(r, h, w) && Bytes(r)
    ensures forall i, j :: 0 <= i < h && 0 <= j < w && IsByte(gray[i][j]) ==> (
      && r[i][j] >= gray[i][j]
      && (gray[i][j] <= blurred[i][j] ==> r[i][j] == gray[i][j])
      && (blurred[i][j] < gray[i][j] < 255 ==> r[i][j] > gray[i][j]))
  {
    Tabulate(h, w, (i: nat, j: nat) =>
      if i < h && j < w then EdgePixel(gray[i][j], blurred[i][j]) else 0)
  }

  /** _refine_details at one pixel: gray / 255 + high_pass / 255 * 0.5,
      clipped to [0, 1], times 255, truncated to uint8. */
  function DetailPixel(g: int, hp: int): (v: int)
    ensures IsByte(v)
    ensures IsByte(g) && hp >= 0 ==> g <= v && v as real <= g as real + hp as real / 2.0
    ensures IsByte(g) && hp == 0 ==> v == g
  {
    var x := g as real / 255.0 + hp as real / 255.0 * 0.5;
    var c := if x < 0.0 then 0.0 else if x > 1.0 then 1.0 else x;
    DetailScale(g, hp, x, c);
    (c * 255.0).Floor
  }

  lemma DetailScale(g: int, hp: int, x: real, c: real)
    requires x == g as real / 255.0 + hp as real / 255.0 * 0.5
    requires c == (if x < 0.0 then 0.0 else if x > 1.0 then 1.0 else x)
    ensures 0.0 <= c * 255.0 <= 255.0
    ensures IsByte(g) && hp >= 0 ==> g as real <= c * 255.0 <= g as real + hp as real / 2.0
  {
    assert x * 255.0 == g as real + hp as real / 2.0;
  }

  /** _refine_details's detailed gray plane, with
      high_pass = cv2.subtract(gray, low_pass). */
  function Refined(gray: Grid, lowPass: Grid, h: nat, w: nat): (r: Grid)
    requires IsGrid(gray, h, w) && IsGrid(lowPass, h, w)
    ensures IsGrid(r, h, w) && Bytes(r)
    ensures forall i, j :: 0 <= i < h && 0 <= j < w && IsByte(gray[i][j]) ==> (
      && r[i][j] >= gray[i][j]
      && (gray[i][j] <= lowPass[i][j] ==> r[i][j] == gray[i][j]))
  {
    Tabulate(h, w, (i: nat, j: nat) =>
      if i < h && j < w then DetailPixel(gray[i][j], SatSub(gray[i][j], lowPass[i][j])) else 0)
  }

  /** The library steps: BGR to gray, GaussianBlur(sigma 1.0) for the edges
      and GaussianBlur((5, 5), 1) for the low pass. */
  datatype Filters = Filters(luma: (int, int, int) -> int, edgeBlur: Grid -> Grid, lowPass: Grid -> Grid)

  /** A gray plane handed back in the page's layout (GRAY2BGR for a colour
      page). */
  function Relayout(g: Grid, page: Image): (r: Image)
    requires page.Valid() && IsGrid(g, page.h, page.w)
    ensures r.Valid() && SameShape(r, page)
    ensures forall c :: 0 <= c < |r.planes| ==> r.planes[c] == g
  {
    if page.IsColor() then ToBgr(g, page.h, page.w) else FromGray(g, page.h, page.w)
  }

  predicate AllBytes(img: Image) {
    forall c :: 0 <= c < |img.planes| ==> Bytes(img.planes[c])
  }

  function EnhanceEdges(img: Image, f: Filters): (r: Image)
    requires img.Valid()
    ensures r.Valid() && SameShape(r, img) && AllBytes(r)
    ensures forall c :: 0 <= c < |r.planes| ==> r.planes[c] == r.planes[0]
  {
    var gray := GrayOf(img, f.luma);
    Relayout(EdgeEnhanced(gray, Fit(f.edgeBlur(gray), img.h, img.w), img.h, img.w), img)
  }

  function RefineDetails(img: Image, f: Filters): (r: Image)
    requires img.Valid()
    ensures r.Valid() && SameShape(r, img) && AllBytes(r)
    ensures forall c :: 0 <= c < |r.planes| ==> r.planes[c] == r.planes[0]
  {
    var gray := GrayOf(img, f.luma);
    Relayout(Refined(gray, Fit(f.lowPass(gray), img.h, img.w), img.h, img.w), img)
  }

  datatype ProcessMeta = ProcessMeta(edgeEnhanced: bool, detailsRefined: bool, laplacianVarianceInput: real)
  // method "Unsharp_Mask + High_Pass"

  /** SharpenModule.process; a missing variance reads as 0. */
  function Process(img: Image, laplacianVariance: Option<real>, f: Filters): (r: (Image, ProcessMeta))
    requires img.Valid()
    ensures r.0.Valid() && SameShape(r.0, img) && AllBytes(r.0)
    ensures r.1 == ProcessMeta(true, true, laplacianVariance.GetOr(0.0))
    ensures forall c :: 0 <= c < |r.0.planes| ==> r.0.planes[c] == r.0.planes[0]
    ensures r.0 == RefineDetails(EnhanceEdges(img, f), f)
  {
    (RefineDetails(EnhanceEdges(img, f), f), ProcessMeta(true, true, laplacianVariance.GetOr(0.0)))
  }

  /** On a gray 8-bit page sharpening never darkens a pixel: both steps
      only add non-negative detail. */
  lemma GrayPageNeverDarkened(img: Image, v: Option<real>, f: Filters, i: nat, j: nat)
    requires img.Valid() && !img.IsColor() && Bytes(img.planes[0])
    requires i < img.h && j < img.w
    ensures Process(img, v, f).0.planes[0][i][j] >= img.planes[0][i][j]
  {
    var e := EnhanceEdges(img, f);
    assert e.planes[0][i][j] >= img.planes[0][i][j];
    assert Process(img, v, f).0.planes[0][i][j] >= e.planes[0][i][j];
  }

  /** A colour page comes back as three copies of one gray plane. */
  lemma ColorPageLosesColor(img: Image, v: Option<real>, f: Filters)
    requires img.Valid() && img.IsColor()
    ensures var r := Process(img, v, f).0;
      r.IsColor() && r.planes[0] == r.planes[1] == r.planes[2]
  {
  }
}

=== FILE: smooth.dfy ===
/** SmoothModule of autoocr/api/modules/smooth.py: graininess detection and
    a tiered chain of Gaussian, median and bilateral smoothing. The
    graininess measure (mean Sobel gradient magnitude) and the filters
    themselves are library work and enter as inputs. */
module Smooth {
  import opened Wrappers
  import opened Raster

  datatype DetectMeta = DetectMeta(graininess: real, isGrainy: bool)

  /** SmoothModule.detect, given the mean gradient magnitude. */
  function Detect(graininess: real): (r: (bool, DetectMeta))
    ensures r.0 <==> graininess > 20.0
    ensures r.1.isGrainy == r.0
    ensures r.1.graininess * 100.0 == Nearest(graininess * 100.0) as real
  {
    (graininess > 20.0, DetectMeta(Round(graininess, 100), graininess > 20.0))
  }

  /** The three strengths of process. */
  datatype Tier = Strong | Medium | Light

  function TierOf(graininess: real): (t: Tier)
    ensures t == Strong <==> graininess > 40.0
    ensures t == Medium <==> 25.0 < graininess <= 40.0
    ensures t == Light <==> graininess <= 25.0
  {
    if graininess > 40.0 then Strong else if graininess > 25.0 then Medium else Light
  }

  /** One library smoothing call with its parameters. */
  datatype Step =
    | Gaussian(kernel: nat, sigma: real)
    | MedianBlur(kernel: nat)
    | Bilateral(diameter: nat, sigmaColor: nat, sigmaSpace: nat)

  /** _gaussian_smoothing's parameter table. */
  function GaussianFor(t: Tier): (s: Step)
    ensures s.Gaussian? && s.kernel % 2 == 1 && s.sigma > 0.0
  {
    match t
    case Strong => Gaussian(5, 1.5)
    case Medium => Gaussian(3, 1.0)
    case Light => Gaussian(3, 0.5)
  }

  /** _bilateral_smoothing's parameter table. */
  function BilateralFor(t: Tier): (s: Step)
    ensures s.Bilateral? && s.sigmaColor == s.sigmaSpace
  {
    match t
    case Strong => Bilateral(15, 80, 80)
    case Medium => Bilateral(9, 75, 75)
    case Light => Bilateral(9, 50, 50)
  }

  predicate HasGaussian(steps: seq<Step>) {
    exists k :: 0 <= k < |steps| && steps[k].Gaussian?
  }

  predicate HasMedian(steps: seq<Step>) {
    exists k :: 0 <= k < |steps| && steps[k].MedianBlur?
  }

  /** The chain process runs for a tier. */
  function Steps(t: Tier): (s: seq<Step>)
    ensures |s| == (if t == Strong then 3 else 2)
    ensures s[|s| - 1] == BilateralFor(t)
    ensures HasGaussian(s) <==> t != Light
    ensures HasMedian(s) <==> t != Medium
  {
    match t
    case Strong =>
      var s := [GaussianFor(Strong), MedianBlur(5), BilateralFor(Strong)];
      assert s[0].Gaussian? && s[1].MedianBlur?;
      s
    case Medium =>
      var s := [GaussianFor(Medium), BilateralFor(Medium)];
      assert s[0].Gaussian?;
      s
    case Light =>
      var s := [MedianBlur(3), BilateralFor(Light)];
      assert s[0].MedianBlur?;
      s
  }

  /** Runs a chain of steps, each through the library filter, keeping the
      page's shape (the bilateral filter on a gray page goes through BGR and
      back, which keeps one plane). */
  function Apply(page: Image, steps: seq<Step>, filter: (Image, Step) -> (nat, nat, nat) -> int): (r: Image)
    requires page.Valid()
    ensures r.Valid() && SameShape(r, page)
    ensures |steps| == 0 ==> r == page
    decreases |steps|
  {
    if |steps| == 0 then page
    else Apply(Sampled(page.h, page.w, |page.planes|, filter(page, steps[0])), steps[1..], filter)
  }

  /** The chain ends with its last step applied to the page the earlier
      steps produced. */
  lemma {:induction false} ApplyLast(page: Image, steps: seq<Step>, filter: (Image, Step) -> (nat, nat, nat) -> int)
    requires page.Valid() && |steps| > 0
    ensures var before := Apply(page, steps[..|steps| - 1], filter);
      Apply(page, steps, filter) == Sampled(page.h, page.w, |page.planes|, filter(before, steps[|steps| - 1]))
    decreases |steps|
  {
    if |steps| > 1 {
      var next := Sampled(page.h, page.w, |page.planes|, filter(page, steps[0]));
      ApplyLast(next, steps[1..], filter);
      assert steps[1..][..|steps[1..]| - 1] == steps[..|steps| - 1][1..];
      assert steps[1..][|steps[1..]| - 1] == steps[|steps| - 1];
    }
  }

  datatype ProcessMeta = ProcessMeta(gaussianApplied: bool, medianApplied: bool, bilateralApplied: bool, graininessInput: real)
  // method "Gaussian + Median + Bilateral"

  /** SmoothModule.process; a missing graininess reads as 0. */
  function Process(img: Image, graininess: Option<real>, filter: (Image, Step) -> (nat, nat, nat) -> int): (r: (Image, ProcessMeta))
    requires img.Valid()
    ensures r.0.Valid() && SameShape(r.0, img)
    ensures var t := TierOf(graininess.GetOr(0.0));
      var before := Apply(img, Steps(t)[..|Steps(t)| - 1], filter);
      r.0 == Sampled(img.h, img.w, |img.planes|, filter(before, BilateralFor(t)))
    ensures r.1 == ProcessMeta(true, true, true, graininess.GetOr(0.0))
  {
    var g := graininess.GetOr(0.0);
    ApplyLast(img, Steps(TierOf(g)), filter);
    (Apply(img, Steps(TierOf(g)), filter), ProcessMeta(true, true, true, g))
  }

  /** The metadata reports a Gaussian step on every page, but a page of
      graininess at most 25 gets none, and one between 25 and 40 gets no
      median step. */
  lemma MetadataOverclaims(img: Image, g: real, filter: (Image, Step) -> (nat, nat, nat) -> int)
    requires img.Valid()
    ensures Process(img, Some(g), filter).1.gaussianApplied && Process(img, Some(g), filter).1.medianApplied
    ensures g <= 25.0 ==> !HasGaussian(Steps(TierOf(g)))
    ensures 25.0 < g <= 40.0 ==> !HasMedian(Steps(TierOf(g)))
  {
  }

  /** process reads the rounded graininess: a page measured at 40.004 gets
      the medium chain. */
  lemma RoundingLowersTier()
    ensures 40.004 > 40.0 && TierOf(Detect(40.004).1.graininess) == Medium
  {
    assert Nearest(40.004 * 100.0) == 4000;
  }

  /** A page that is not grainy, and a grainy page of graininess at most
      25, both get the light chain. */
  lemma TierAgreesWithDetect(g: real)
    ensures !Detect(g).0 ==> TierOf(Detect(g).1.graininess) == Light
    ensures Detect(g).0 && g <= 25.0 ==> TierOf(Detect(g).1.graininess) == Light
  {
    var d := Detect(g).1.graininess;
    assert d * 100.0 <= g * 100.0 + 0.5;
  }
}

=== FILE: spectrum.dfy ===
/** The circular frequency bands shared by the guilloche detector of
    autoocr/api/modules/guilloche_removal.py and the classifier's guilloche
    predicate in autoocr/api/utils/security_detector.py. The magnitude of the
    shifted 2-D FFT is a library result and enters as a grid of non-negative
    reals; everything computed from it here is exact. */
module Spectrum {
  import opened Raster

  /** range(30, 120, 10): 30, 40, ..., 110. */
  function Radii(): (r: seq<int>)
    ensures |r| == 9 && r[0] == 30 && r[8] == 110
    ensures forall k :: 0 <= k < |r| ==> r[k] == 30 + 10 * k
  {
    seq(9, k requires 0 <= k < 9 => 30 + 10 * k)
  }

  /** The 1e-10 added to the total energy before dividing. */
  const Epsilon: real := 0.0000000001

  /** Default min_pattern_strength, also the classifier's cut-off. */
  const MinPatternStrength: real := 0.15

  predicate NonNegative(g: RealGrid) {
    forall i, j :: 0 <= i < |g| && 0 <= j < |g[i]| ==> g[i][j] >= 0.0
  }

  /** A point lies in the band of `radius` around the centre (crow, ccol) when
      its squared distance is between (radius - 5)^2 and (radius + 5)^2. */
  predicate InBand(y: int, x: int, crow: int, ccol: int, radius: int) {
    var d2 := (x - ccol) * (x - ccol) + (y - crow) * (y - crow);
    (radius - 5) * (radius - 5) <= d2 <= (radius + 5) * (radius + 5)
  }

  function RowSums(g: RealGrid): (s: seq<real>)
    ensures |s| == |g| && forall i :: 0 <= i < |g| ==> s[i] == SumR(g[i])
  {
    seq(|g|, i requires 0 <= i < |g| => SumR(g[i]))
  }

  /** np.sum over a whole grid. */
  function GridSum(g: RealGrid): real {
    SumR(RowSums(g))
  }

  /** The magnitude with every point outside the band set to zero. */
  function BandMasked(mag: RealGrid, rows: nat, cols: nat, radius: int): (m: RealGrid)
    requires IsGrid(mag, rows, cols)
    ensures IsGrid(m, rows, cols)
    ensures forall i, j :: 0 <= i < rows && 0 <= j < cols ==>
      m[i][j] == (if InBand(i, j, rows / 2, cols / 2, radius) then mag[i][j] else 0.0)
  {
    Tabulate(rows, cols, (i: nat, j: nat) =>
      if i < |mag| && j < |mag[i]| && InBand(i, j, rows / 2, cols / 2, radius) then mag[i][j] else 0.0)
  }

  /** np.sum(magnitude[mask]) for the band of `radius`. */
  function BandEnergy(mag: RealGrid, rows: nat, cols: nat, radius: int): real
    requires IsGrid(mag, rows, cols)
  {
    GridSum(BandMasked(mag, rows, cols, radius))
  }

  /** A grid sum is monotone under the pointwise order. */
  lemma GridSumMono(a: RealGrid, b: RealGrid, rows: nat, cols: nat)
    requires IsGrid(a, rows, cols) && IsGrid(b, rows, cols)
    requires forall i, j :: 0 <= i < rows && 0 <= j < cols ==> a[i][j] <= b[i][j]
    ensures GridSum(a) <= GridSum(b)
  {
    forall i | 0 <= i < rows
      ensures SumR(a[i]) <= SumR(b[i])
    {
      SumRMono(a[i], b[i]);
    }
    SumRMono(RowSums(a), RowSums(b));
  }

  /** The energy of one band lies between zero and the total energy. */
  lemma BandBelowTotal(mag: RealGrid, rows: nat, cols: nat, radius: int)
    requires IsGrid(mag, rows, cols) && NonNegative(mag)
    ensures 0.0 <= BandEnergy(mag, rows, cols, radius) <= GridSum(mag)
  {
    var m := BandMasked(mag, rows, cols, radius);
    GridSumMono(m, mag, rows, cols);
    var zero := Tabulate(rows, cols, (i: nat, j: nat) => 0.0);
    GridSumMono(zero, m, rows, cols);
    ZeroSum(rows, cols);
  }

  lemma ZeroSum(rows: nat, cols: nat)
    ensures GridSum(Tabulate(rows, cols, (i: nat, j: nat) => 0.0)) == 0.0
  {
    var z := Tabulate(rows, cols, (i: nat, j: nat) => 0.0);
    forall i | 0 <= i < rows
      ensures SumR(z[i]) == 0.0
    {
      SumRZero(z[i]);
    }
    SumRZero(RowSums(z));
  }

  lemma {:induction false} SumRZero(s: seq<real>)
    requires forall k :: 0 <= k < |s| ==> s[k] == 0.0
    ensures SumR(s) == 0.0
    decreases |s|
  {
    if |s| > 0 {
      SumRZero(s[1..]);
    }
  }

  /** The loop `pattern_strength = max(pattern_strength, band_energy)` over
      `radii`, starting from `acc`. */
  function PeakFrom(mag: RealGrid, rows: nat, cols: nat, acc: real, radii: seq<int>): (r: real)
    requires IsGrid(mag, rows, cols)
    ensures r >= acc
    ensures forall k :: 0 <= k < |radii| ==> r >= BandEnergy(mag, rows, cols, radii[k])
    ensures r == acc || exists k :: 0 <= k < |radii| && r == BandEnergy(mag, rows, cols, radii[k])
    decreases |radii|
  {
    if |radii| == 0 then acc
    else
      var e := BandEnergy(mag, rows, cols, radii[0]);
      var r := PeakFrom(mag, rows, cols, if acc >= e then acc else e, radii[1..]);
      assert forall k :: 1 <= k < |radii| ==> radii[k] == radii[1..][k - 1];
      r
  }

  /** The strongest of the nine bands (0.0 when all are empty). */
  function PeakBandEnergy(mag: RealGrid, rows: nat, cols: nat): real
    requires IsGrid(mag, rows, cols)
  {
    PeakFrom(mag, rows, cols, 0.0, Radii())
  }

  /** pattern_strength: the peak band energy normalised by the total energy. */
  function PatternStrength(mag: RealGrid, rows: nat, cols: nat): (s: real)
    requires IsGrid(mag, rows, cols) && NonNegative(mag)
    ensures 0.0 <= s < 1.0
  {
    var peak := PeakBandEnergy(mag, rows, cols);
    var total := GridSum(mag);
    PeakBounds(mag, rows, cols);
    DivBelowOne(peak, total + Epsilon);
    peak / (total + Epsilon)
  }

  lemma DivBelowOne(a: real, d: real)
    requires 0.0 <= a < d
    ensures 0.0 <= a / d < 1.0
  {
    assert a / d * d == a;
  }

  /** The peak is one of the band energies or zero, and never above the total. */
  lemma PeakBounds(mag: RealGrid, rows: nat, cols: nat)
    requires IsGrid(mag, rows, cols) && NonNegative(mag)
    ensures 0.0 <= PeakBandEnergy(mag, rows, cols) <= GridSum(mag)
  {
    PeakFromBelowTotal(mag, rows, cols, Radii());
  }

  lemma PeakFromBelowTotal(mag: RealGrid, rows: nat, cols: nat, radii: seq<int>)
    requires IsGrid(mag, rows, cols) && NonNegative(mag)
    ensures 0.0 <= PeakFrom(mag, rows, cols, 0.0, radii) <= GridSum(mag)
  {
    forall k | 0 <= k < |radii|
      ensures BandEnergy(mag, rows, cols, radii[k]) <= GridSum(mag)
    {
      BandBelowTotal(mag, rows, cols, radii[k]);
    }
    BandBelowTotal(mag, rows, cols, 30);
  }

  /** A guilloche pattern is reported iff the normalised strength exceeds
      the threshold. */
  predicate HasPattern(mag: RealGrid, rows: nat, cols: nat, threshold: real)
    requires IsGrid(mag, rows, cols) && NonNegative(mag)
  {
    PatternStrength(mag, rows, cols) > threshold
  }

  /** A spectrum whose bands carry no energy never shows a pattern. */
  lemma NoPatternWithoutBandEnergy(mag: RealGrid, rows: nat, cols: nat, threshold: real)
    requires IsGrid(mag, rows, cols) && NonNegative(mag)
    requires threshold >= 0.0
    requires forall k :: 0 <= k < |Radii()| ==> BandEnergy(mag, rows, cols, Radii()[k]) == 0.0
    ensures !HasPattern(mag, rows, cols, threshold)
  {
    PeakZero(mag, rows, cols);
    ZeroPeakZeroStrength(mag, rows, cols);
  }

  lemma ZeroPeakZeroStrength(mag: RealGrid, rows: nat, cols: nat)
    requires IsGrid(mag, rows, cols) && NonNegative(mag)
    requires PeakBandEnergy(mag, rows, cols) == 0.0
    ensures PatternStrength(mag, rows, cols) == 0.0
  {
    PeakBounds(mag, rows, cols);
    ZeroOver(PeakBandEnergy(mag, rows, cols), GridSum(mag) + Epsilon);
  }

  lemma ZeroOver(a: real, d: real)
    requires d > 0.0 && a == 0.0
    ensures a / d == 0.0
  {
  }

  lemma PeakZero(mag: RealGrid, rows: nat, cols: nat)
    requires IsGrid(mag, rows, cols)
    requires forall k :: 0 <= k < |Radii()| ==> BandEnergy(mag, rows, cols, Radii()[k]) == 0.0
    ensures PeakBandEnergy(mag, rows, cols) == 0.0
  {
  }

  /** A threshold of 1 or more can never be exceeded. */
  lemma ThresholdOneUnreachable(mag: RealGrid, rows: nat, cols: nat, threshold: real)
    requires IsGrid(mag, rows, cols) && NonNegative(mag) && threshold >= 1.0
    ensures !HasPattern(mag, rows, cols, threshold)
  {
  }
}

=== FILE: text_refine.dfy ===
/** TextRefineModule of autoocr/api/modules/text_refine.py: speckle cleanup.
    Detection counts tiny connected components of the Otsu binarisation;
    processing re-binarises with Sauvola, drops the components smaller than
    SPECKLE_COMPONENT_MAX_AREA and smooths the strokes, unless that would
    throw away more than 70% of the components. Thresholds, labelling and
    morphology are library work and arrive as inputs. */
module TextRefine {
  import opened Wrappers
  import opened Raster
  import opened Components
  import Config

  const MaxContrastStd: real := 65.0

  /** A component is a speckle when its area is below 30 pixels. */
  predicate Small(area: nat) { area < Config.SpeckleComponentMaxArea }
  predicate Large(area: nat) { area >= Config.SpeckleComponentMaxArea }

  datatype DetectMeta =
    | SufficientContrast(contrastStd: real)              // reason "sufficient_contrast"
    | TooFewLabels(numLabels: nat, contrastStd: real)
    | Speckle(numComponents: nat, smallComponents: nat, speckleRatio: real, contrastStd: real)

  /** 255 - g. */
  function Invert(g: Grid, h: nat, w: nat): (r: Grid)
    requires IsGrid(g, h, w)
    ensures IsGrid(r, h, w)
    ensures forall i, j :: 0 <= i < h && 0 <= j < w ==> r[i][j] == 255 - g[i][j]
  {
    Tabulate(h, w, (i: nat, j: nat) => if i < |g| && j < |g[i]| then 255 - g[i][j] else 0)
  }

  /** np.mean(g) < 127 over all pixels, compared exactly as
      sum < 127 * pixels. */
  predicate MostlyDark(g: Grid) {
    Sum(Flatten(g)) < 127 * |Flatten(g)|
  }

  /** The Otsu binarisation with the text made dark: inverted when its mean
      is below 127. */
  function DarkText(otsu: Grid, h: nat, w: nat): (r: Grid)
    requires IsGrid(otsu, h, w)
    ensures IsGrid(r, h, w)
    ensures r == (if MostlyDark(otsu) then Invert(otsu, h, w) else otsu)
  {
    if MostlyDark(otsu) then Invert(otsu, h, w) else otsu
  }

  /** The sum of an inverted row. */
  lemma {:induction false} SumInvertRow(row: seq<int>, inv: seq<int>)
    requires |inv| == |row| && forall k :: 0 <= k < |row| ==> inv[k] == 255 - row[k]
    ensures Sum(inv) == 255 * |row| - Sum(row)
    decreases |row|
  {
    if |row| > 0 {
      SumInvertRow(row[1..], inv[1..]);
    }
  }

  /** The sum of an inverted grid. */
  lemma {:induction false} SumInvert(g: Grid, inv: Grid)
    requires |inv| == |g| && forall i :: 0 <= i < |g| ==> |inv[i]| == |g[i]|
    requires forall i, j :: 0 <= i < |g| && 0 <= j < |g[i]| ==> inv[i][j] == 255 - g[i][j]
    ensures Sum(Flatten(inv)) == 255 * |Flatten(g)| - Sum(Flatten(g))
    ensures |Flatten(inv)| == |Flatten(g)|
    decreases |g|
  {
    if |g| > 0 {
      SumInvertRow(g[0], inv[0]);
      SumInvert(g[1..], inv[1..]);
      SumAppend(g[0], Flatten(g[1..]));
      SumAppend(inv[0], Flatten(inv[1..]));
    }
  }

  /** After the inversion rule the page is never mostly dark: the text is the
      minority. */
  lemma DarkTextIsLight(otsu: Grid, h: nat, w: nat)
    requires IsGrid(otsu, h, w)
    ensures !MostlyDark(DarkText(otsu, h, w))
  {
    if MostlyDark(otsu) {
      SumInvert(otsu, Invert(otsu, h, w));
    }
  }

  /** TextRefineModule.detect. `contrastStd` is np.std of the gray page;
      `components` gives the component areas (labels 1 ..) of a binary
      image. */
  function Detect(contrastStd: real, otsu: Grid, h: nat, w: nat, components: Grid -> seq<nat>)
    : (r: (bool, DetectMeta))
    requires IsGrid(otsu, h, w)
    ensures contrastStd > MaxContrastStd ==> r == (false, SufficientContrast(contrastStd))
    ensures r.0 ==> contrastStd <= MaxContrastStd && r.1.Speckle?
    ensures contrastStd <= MaxContrastStd ==>
      var areas := components(DarkText(otsu, h, w));
      && (|areas| == 0 <==> r.1 == TooFewLabels(1, contrastStd))
      && (|areas| > 0 ==>
            && r.1 == Speckle(|areas|, Count(areas, Small), Ratio(Count(areas, Small), |areas|), contrastStd)
            && (r.0 <==> r.1.speckleRatio > Config.SpeckleRatioThreshold && r.1.smallComponents > 5))
  {
    if contrastStd > MaxContrastStd then (false, SufficientContrast(contrastStd))
    else
      var areas := components(DarkText(otsu, h, w));
      if |areas| == 0 then (false, TooFewLabels(1, contrastStd))
      else
        var small := Count(areas, Small);
        CountBound(areas, Small);
        var ratio := Ratio(small, |areas|);
        (ratio > Config.SpeckleRatioThreshold && small > 5, Speckle(|areas|, small, ratio, contrastStd))
  }

  /** The speckle rule in whole numbers: more than 7 speckles in every 20
      components, and more than 5 speckles. */
  lemma SpeckleByCounts(small: nat, total: nat)
    requires total > 0
    ensures (Ratio(small, total) > Config.SpeckleRatioThreshold && small > 5) <==>
      (20 * small > 7 * total && small > 5)
  {
    RatioCompare(small, total, 7, 20);
    assert Config.SpeckleRatioThreshold == 7 as real / 20 as real;
  }

  // ------------------------------------------------------------ process

  /** The 70% safety rule: revert when more than 70% of the components would
      be removed. */
  predicate Revert(removed: nat, kept: nat) {
    removed + kept > 0 && Ratio(removed, removed + kept) > 0.7
  }

  lemma RevertByCounts(removed: nat, kept: nat)
    ensures Revert(removed, kept) <==> 3 * removed > 7 * kept
  {
    if removed + kept > 0 {
      RatioCompare(removed, removed + kept, 7, 10);
      assert 0.7 == 7 as real / 10 as real;
    }
  }

  datatype Method = SauvolaCleanup | AdaptiveCleanup

  datatype ProcessMeta = ProcessMeta(
    applied: bool,
    componentsRemoved: nat,
    componentsKept: nat,
    preSmallRatio: Option<real>,
    whitePixelRatio: real,
    revertedCleanup: bool,
    via: Method)

  /** The speckle ratio detect recorded, if any. */
  function PreSmallRatio(meta: DetectMeta): Option<real> {
    if meta.Speckle? then Some(meta.speckleRatio) else None
  }

  /** The binarisation process starts from: Sauvola (gray > threshold) when
      the threshold map is available, otherwise the adaptive mean threshold
      (block 21, C = 10) given by `adaptive`. */
  function Binarised(gray: Grid, h: nat, w: nat, sauvola: Option<RealGrid>, adaptive: seq<seq<bool>>): (b: Grid)
    requires IsGrid(gray, h, w)
    requires sauvola.Some? ==> IsGrid(sauvola.value, h, w)
    requires sauvola.None? ==> IsGrid(adaptive, h, w)
    ensures IsGrid(b, h, w) && TwoLevel(b)
  {
    if sauvola.Some? then Threshold(gray, sauvola.value, h, w) else FromMask(adaptive, h, w)
  }

  /** The outcome of the component filter: the cleaned binary page, the
      kept and removed counts and whether the 70% rule reverted it. */
  datatype Cleanup = Cleanup(cleaned: Grid, kept: nat, removed: nat, reverted: bool)

  function Filter(bin: Grid, h: nat, w: nat, cc: Labelling, morph: Grid -> Grid): (c: Cleanup)
    requires IsGrid(bin, h, w) && WellFormed(cc, h, w)
    ensures IsGrid(c.cleaned, h, w)
    ensures c.kept == Count(cc.areas, Large) && c.removed == Count(cc.areas, Small)
    ensures c.kept + c.removed == |cc.areas|
    ensures c.reverted <==> Revert(c.removed, c.kept)
    ensures c.reverted ==> c.cleaned == bin
    ensures !c.reverted ==> c.cleaned == Fit(morph(Keep(cc, h, w, Large)), h, w)
  {
    var kept := Count(cc.areas, Large);
    var removed := Count(cc.areas, Small);
    CountComplement(cc.areas, Large, Small);
    var reverted := Revert(removed, kept);
    Cleanup(if reverted then bin else Fit(morph(Keep(cc, h, w, Large)), h, w), kept, removed, reverted)
  }

  /** np.mean(cleaned > 0). */
  function WhiteRatio(g: Grid, h: nat, w: nat): real
    requires IsGrid(g, h, w) && h > 0 && w > 0
  {
    Ratio(PixelCount(h, w, (i: nat, j: nat) => i < |g| && j < |g[i]| && g[i][j] > 0), h * w)
  }

  /** TextRefineModule.process on a non-empty BGR page. `cc` is the
      component labelling of the binarisation and `morph` the 3x3 closing
      followed by opening. */
  function Process(img: Image, luma: (int, int, int) -> int, meta: DetectMeta,
                   sauvola: Option<RealGrid>, adaptive: seq<seq<bool>>,
                   cc: Labelling, morph: Grid -> Grid): (r: (Image, ProcessMeta))
    requires img.Valid() && img.IsColor() && img.NonEmpty()
    requires sauvola.Some? ==> IsGrid(sauvola.value, img.h, img.w)
    requires sauvola.None? ==> IsGrid(adaptive, img.h, img.w)
    requires WellFormed(cc, img.h, img.w)
    ensures r.0.Valid() && r.0.IsColor() && SameShape(r.0, img)
    ensures var c := Filter(Binarised(GrayOf(img, luma), img.h, img.w, sauvola, adaptive), img.h, img.w, cc, morph);
      && r.0.planes == [c.cleaned, c.cleaned, c.cleaned]
      && r.1 == ProcessMeta(true, c.removed, c.kept, PreSmallRatio(meta),
                            WhiteRatio(c.cleaned, img.h, img.w), c.reverted,
                            if sauvola.Some? then SauvolaCleanup else AdaptiveCleanup)
  {
    var (h, w) := (img.h, img.w);
    var c := Filter(Binarised(GrayOf(img, luma), h, w, sauvola, adaptive), h, w, cc, morph);
    (ToBgr(c.cleaned, h, w),
     ProcessMeta(true, c.removed, c.kept, PreSmallRatio(meta), WhiteRatio(c.cleaned, h, w), c.reverted,
                 if sauvola.Some? then SauvolaCleanup else AdaptiveCleanup))
  }

  /** A page of only large components is cleaned, never reverted, and
      nothing is removed. */
  lemma NoSpecklesNoRevert(img: Image, luma: (int, int, int) -> int, meta: DetectMeta,
                           sauvola: Option<RealGrid>, adaptive: seq<seq<bool>>,
                           cc: Labelling, morph: Grid -> Grid)
    requires img.Valid() && img.IsColor() && img.NonEmpty()
    requires sauvola.Some? ==> IsGrid(sauvola.value, img.h, img.w)
    requires sauvola.None? ==> IsGrid(adaptive, img.h, img.w)
    requires WellFormed(cc, img.h, img.w)
    requires forall k :: 0 <= k < |cc.areas| ==> Large(cc.areas[k])
    ensures var r := Process(img, luma, meta, sauvola, adaptive, cc, morph).1;
      r.componentsRemoved == 0 && !r.revertedCleanup
  {
    CountAll(cc.areas, Large);
    CountComplement(cc.areas, Large, Small);
  }
}

=== FILE: text_segmentation.dfy ===
/** TextSegmentationModule of autoocr/api/modules/text_segmentation.py:
    splits the page into lines (runs of rows holding ink), words (runs of
    columns holding ink) and characters (mid-sized connected components in
    reading order). The page itself passes through unchanged. Connected
    component labelling is library work: its per-label statistics arrive as
    an input. */
module TextSegmentation {
  import opened Wrappers
  import opened Raster

  // ------------------------------------------------------------- detect

  /** A pixel counts as ink when its gray value is at most 127 (the zero
      pixels of a THRESH_BINARY at 127). */
  predicate Ink(v: int) { v <= 127 }

  function InkPixels(gray: Grid, h: nat, w: nat): (n: nat)
    ensures n <= h * w
  {
    PixelCount(h, w, (i: nat, j: nat) => i < |gray| && j < |gray[i]| && Ink(gray[i][j]))
  }

  /** text_ratio is None where NumPy divides by an empty page (NaN). */
  datatype DetectMeta = DetectMeta(textRatio: Option<real>, hasText: bool)

  /** TextSegmentationModule.detect: the page has text iff ink covers
      strictly between 5% and 95% of it. */
  function Detect(gray: Grid, h: nat, w: nat): (r: (bool, DetectMeta))
    requires IsGrid(gray, h, w)
    ensures r.0 == r.1.hasText
    ensures r.0 <==> h * w > 0 && 20 * InkPixels(gray, h, w) > h * w && 20 * InkPixels(gray, h, w) < 19 * (h * w)
    ensures r.1.textRatio.Some? <==> h * w > 0
    ensures r.1.textRatio.Some? ==> r.1.textRatio.value == Round(Ratio(InkPixels(gray, h, w), h * w), 1000)
  {
    if h * w == 0 then (false, DetectMeta(None, false))
    else
      var n := InkPixels(gray, h, w);
      var ratio := Ratio(n, h * w);
      TextBand(n, h * w);
      var hasText := 0.05 < ratio < 0.95;
      (hasText, DetectMeta(Some(Round(ratio, 1000)), hasText))
  }

  /** The 5% and 95% bounds without the division. */
  lemma TextBand(n: nat, total: nat)
    requires total > 0
    ensures 0.05 < Ratio(n, total) <==> 20 * n > total
    ensures Ratio(n, total) < 0.95 <==> 20 * n < 19 * total
  {
    RatioCompare(n, total, 5, 100);
    RatioCompare(n, total, 95, 100);
    assert 0.05 == 5 as real / 100 as real;
    assert 0.95 == 95 as real / 100 as real;
  }

  // -------------------------------------------------------- projections

  /** THRESH_BINARY_INV at 127: ink becomes 255, paper 0. */
  function InkMask(gray: Grid, h: nat, w: nat): (b: Grid)
    requires IsGrid(gray, h, w)
    ensures IsGrid(b, h, w) && TwoLevel(b)
    ensures forall i, j :: 0 <= i < h && 0 <= j < w ==> (b[i][j] == 255 <==> Ink(gray[i][j]))
  {
    Tabulate(h, w, (i: nat, j: nat) => if i < |gray| && j < |gray[i]| && Ink(gray[i][j]) then 255 else 0)
  }

  /** np.sum(binary, axis=1). */
  function RowProfile(b: Grid, h: nat, w: nat): (p: seq<int>)
    requires IsGrid(b, h, w)
    ensures |p| == h && forall i :: 0 <= i < h ==> p[i] == Sum(b[i])
  {
    seq(h, i requires 0 <= i < h => Sum(b[i]))
  }

  function Column(b: Grid, h: nat, j: nat): (c: seq<int>)
    requires |b| == h && forall i :: 0 <= i < h ==> j < |b[i]|
    ensures |c| == h && forall i :: 0 <= i < h ==> c[i] == b[i][j]
  {
    seq(h, i requires 0 <= i < h => b[i][j])
  }

  /** np.sum(binary, axis=0). */
  function ColumnProfile(b: Grid, h: nat, w: nat): (p: seq<int>)
    requires IsGrid(b, h, w)
    ensures |p| == w && forall j :: 0 <= j < w ==> p[j] == Sum(Column(b, h, j))
  {
    seq(w, j requires 0 <= j < w => Sum(Column(b, h, j)))
  }

  /** A 0/255 vector sums to a positive value iff it holds a 255, and never
      to a negative one. */
  lemma {:induction false} TwoLevelSum(s: seq<int>)
    requires forall k :: 0 <= k < |s| ==> s[k] == 0 || s[k] == 255
    ensures Sum(s) >= 0
    ensures Sum(s) > 0 <==> exists k :: 0 <= k < |s| && s[k] == 255
    decreases |s|
  {
    if |s| > 0 {
      TwoLevelSum(s[1..]);
      if Sum(s[1..]) > 0 {
        var k :| 0 <= k < |s[1..]| && s[1..][k] == 255;
        assert s[k + 1] == 255;
      }
      if s[0] != 255 && Sum(s) == 0 {
        forall k | 0 <= k < |s| ensures s[k] != 255 {
          if k > 0 {
            assert s[k] == s[1..][k - 1];
          }
        }
      }
    }
  }

  /** A row of the profile is positive iff that row of the page holds ink. */
  lemma RowProfileInk(gray: Grid, h: nat, w: nat, i: nat)
    requires IsGrid(gray, h, w) && i < h
    ensures RowProfile(InkMask(gray, h, w), h, w)[i] >= 0
    ensures RowProfile(InkMask(gray, h, w), h, w)[i] > 0 <==> exists j :: 0 <= j < w && Ink(gray[i][j])
  {
    var b := InkMask(gray, h, w);
    TwoLevelSum(b[i]);
    if exists j :: 0 <= j < w && Ink(gray[i][j]) {
      var j :| 0 <= j < w && Ink(gray[i][j]);
      assert b[i][j] == 255;
    }
  }

  /** A column of the profile is positive iff that column of the page holds
      ink. */
  lemma ColumnProfileInk(gray: Grid, h: nat, w: nat, j: nat)
    requires IsGrid(gray, h, w) && j < w
    ensures ColumnProfile(InkMask(gray, h, w), h, w)[j] >= 0
    ensures ColumnProfile(InkMask(gray, h, w), h, w)[j] > 0 <==> exists i :: 0 <= i < h && Ink(gray[i][j])
  {
    var b := InkMask(gray, h, w);
    var c := Column(b, h, j);
    TwoLevelSum(c);
    if exists i :: 0 <= i < h && Ink(gray[i][j]) {
      var i :| 0 <= i < h && Ink(gray[i][j]);
      assert c[i] == 255;
    }
  }

  // --------------------------------------------------------------- runs

  /** A half-open run [start, end) of profile positions; its height (for
      lines) or width (for words) is end - start. */
  datatype Run = Run(start: nat, end: nat) {
    predicate Contains(k: int) { start <= k < end }
  }

  /** `r` is a maximal run of positive entries of `p`. */
  predicate MaximalRun(p: seq<int>, r: Run) {
    r.start < r.end <= |p| &&
    (forall k :: r.start <= k < r.end ==> p[k] > 0) &&
    (r.start == 0 || p[r.start - 1] <= 0) &&
    (r.end == |p| || p[r.end] <= 0)
  }

  /** Position k lies in one of the runs. */
  predicate Covered(runs: seq<Run>, k: int) {
    exists n :: 0 <= n < |runs| && runs[n].Contains(k)
  }

  /** Every run is maximal and each ends before the next begins. */
  predicate Separated(p: seq<int>, runs: seq<Run>) {
    (forall n :: 0 <= n < |runs| ==> MaximalRun(p, runs[n])) &&
    (forall n :: 0 < n < |runs| ==> runs[n - 1].end < runs[n].start)
  }

  /** `runs` are exactly the maximal runs of positive entries of `p`, in
      increasing order. */
  predicate Segmentation(p: seq<int>, runs: seq<Run>) {
    Separated(p, runs) &&
    forall k :: 0 <= k < |p| && p[k] > 0 ==> Covered(runs, k)
  }

  /** An open run [start, i) of positive entries that began after a zero. */
  predicate Open(p: seq<int>, start: nat, i: nat)
    requires i <= |p|
  {
    start < i && (forall k :: start <= k < i ==> p[k] > 0) && (start == 0 || p[start - 1] <= 0)
  }

  lemma CoveredAppend(runs: seq<Run>, r: Run, k: int)
    requires Covered(runs, k) || r.Contains(k)
    ensures Covered(runs + [r], k)
  {
    if r.Contains(k) {
      assert (runs + [r])[|runs|] == r;
    } else {
      var n :| 0 <= n < |runs| && runs[n].Contains(k);
      assert (runs + [r])[n] == runs[n];
    }
  }

  /** Closing the open run [start, end) keeps the runs separated. */
  lemma SeparatedAppend(p: seq<int>, runs: seq<Run>, start: nat, end: nat)
    requires Separated(p, runs) && end <= |p| && Open(p, start, end)
    requires end == |p| || p[end] <= 0
    requires |runs| == 0 || runs[|runs| - 1].end < start
    ensures Separated(p, runs + [Run(start, end)])
  {
  }

  /** What the scan has established after the first i entries of p: the
      closed runs, and the run still open from `start` when inRun. */
  predicate Scanned(p: seq<int>, i: nat, runs: seq<Run>, inRun: bool, start: nat)
    requires i <= |p|
  {
    && Separated(p, runs)
    && (|runs| > 0 ==> runs[|runs| - 1].end < i)
    && (inRun ==> Open(p, start, i) && (|runs| == 0 || runs[|runs| - 1].end < start))
    && (!inRun && 0 < i ==> p[i - 1] == 0)
    && (forall k :: 0 <= k < i && p[k] > 0 ==> Covered(runs, k) || (inRun && start <= k))
  }

  /** A positive entry after a zero opens a run. */
  lemma ScanOpen(p: seq<int>, i: nat, runs: seq<Run>, start: nat)
    requires i < |p| && p[i] > 0 && Scanned(p, i, runs, false, start)
    ensures Scanned(p, i + 1, runs, true, i)
  {
  }

  /** A zero entry closes the open run. */
  lemma ScanClose(p: seq<int>, i: nat, runs: seq<Run>, start: nat)
    requires i < |p| && p[i] == 0 && Scanned(p, i, runs, true, start)
    ensures Scanned(p, i + 1, runs + [Run(start, i)], false, start)
  {
    SeparatedAppend(p, runs, start, i);
    forall k | 0 <= k < i + 1 && p[k] > 0 ensures Covered(runs + [Run(start, i)], k) {
      CoveredAppend(runs, Run(start, i), k);
    }
  }

  /** A positive entry inside a run, or a zero outside one, changes nothing. */
  lemma ScanKeep(p: seq<int>, i: nat, runs: seq<Run>, inRun: bool, start: nat)
    requires i < |p| && p[i] >= 0 && Scanned(p, i, runs, inRun, start)
    requires inRun <==> p[i] > 0
    ensures Scanned(p, i + 1, runs, inRun, start)
  {
  }

  /** At the end of the profile a run still open closes at |p|. */
  lemma ScanFinish(p: seq<int>, runs: seq<Run>, inRun: bool, start: nat)
    requires Scanned(p, |p|, runs, inRun, start)
    ensures Segmentation(p, if inRun then runs + [Run(start, |p|)] else runs)
  {
    if inRun {
      SeparatedAppend(p, runs, start, |p|);
      forall k | 0 <= k < |p| && p[k] > 0 ensures Covered(runs + [Run(start, |p|)], k) {
        CoveredAppend(runs, Run(start, |p|), k);
      }
    }
  }

  /** The loop of _segment_lines / _segment_words over a non-negative
      projection profile: a run opens at a positive entry and closes at the
      next zero; one still open at the end closes at |p|. */
  method FindRuns(p: seq<int>) returns (runs: seq<Run>)
    requires forall k :: 0 <= k < |p| ==> p[k] >= 0
    ensures Segmentation(p, runs)
  {
    runs := [];
    var inRun := false;
    var start := 0;
    for i := 0 to |p|
      invariant Scanned(p, i, runs, inRun, start)
    {
      if p[i] > 0 && !inRun {
        ScanOpen(p, i, runs, start);
        start := i;
        inRun := true;
      } else if p[i] == 0 && inRun {
        ScanClose(p, i, runs, start);
        runs := runs + [Run(start, i)];
        inRun := false;
      } else {
        ScanKeep(p, i, runs, inRun, start);
      }
    }
    ScanFinish(p, runs, inRun, start);
    if inRun {
      runs := runs + [Run(start, |p|)];
    }
  }

  /** Every run ends before the start of every later run. */
  lemma {:induction false} RunsIncrease(p: seq<int>, runs: seq<Run>, m: nat, n: nat)
    requires Separated(p, runs)
    requires m < n < |runs|
    ensures runs[m].end < runs[n].start
    decreases n - m
  {
    if m + 1 < n {
      RunsIncrease(p, runs, m, n - 1);
      assert MaximalRun(p, runs[n - 1]);
    }
  }

  /** No position lies in two runs. */
  lemma RunsDisjoint(p: seq<int>, runs: seq<Run>, k: int, m: nat, n: nat)
    requires Segmentation(p, runs)
    requires m < n < |runs|
    ensures !(runs[m].Contains(k) && runs[n].Contains(k))
  {
    RunsIncrease(p, runs, m, n);
  }

  // --------------------------------------------------------- characters

  /** stats[k] and centroids[k] of one label. */
  datatype Stat = Stat(left: nat, top: nat, width: nat, height: nat, area: nat, cx: real, cy: real)

  /** One entry of characters_detected. */
  datatype Character = Character(
    cc: nat, x: nat, y: nat, width: nat, height: nat, area: nat, centerX: real, centerY: real)

  /** Components with 10 < area < 10000 are taken as characters. */
  predicate CharacterSized(area: nat) { 10 < area < 10000 }

  function Entry(cc: nat, s: Stat): Character {
    Character(cc, s.left, s.top, s.width, s.height, s.area, Round(s.cx, 100), Round(s.cy, 100))
  }

  /** `c` is the entry of a character-sized label. */
  predicate IsCandidate(stats: seq<Stat>, c: Character) {
    1 <= c.cc <= |stats| && CharacterSized(stats[c.cc - 1].area) && c == Entry(c.cc, stats[c.cc - 1])
  }

  /** cs lists, in label order, the entries of exactly the character-sized
      labels from .. |stats|. */
  predicate Listing(stats: seq<Stat>, from: nat, cs: seq<Character>) {
    && (forall n :: 0 <= n < |cs| ==> IsCandidate(stats, cs[n]) && from <= cs[n].cc)
    && (forall n, m :: 0 <= n < m < |cs| ==> cs[n].cc < cs[m].cc)
    && (forall t :: 0 <= t && from <= t + 1 <= |stats| && CharacterSized(stats[t].area) ==> Entry(t + 1, stats[t]) in cs)
  }

  /** The character entries for labels from .. |stats| in label order;
      stats[k - 1] belongs to label k, label 0 is the background. */
  function Candidates(stats: seq<Stat>, from: nat): (cs: seq<Character>)
    requires from >= 1
    ensures Listing(stats, from, cs)
    decreases |stats| + 1 - from
  {
    if from > |stats| then []
    else
      var rest := Candidates(stats, from + 1);
      if CharacterSized(stats[from - 1].area) then
        ListingCons(stats, from, rest);
        [Entry(from, stats[from - 1])] + rest
      else
        ListingSkip(stats, from, rest);
        rest
  }

  /** A character-sized label goes in front of the later labels' listing. */
  lemma ListingCons(stats: seq<Stat>, from: nat, rest: seq<Character>)
    requires 1 <= from <= |stats| && CharacterSized(stats[from - 1].area)
    requires Listing(stats, from + 1, rest)
    ensures Listing(stats, from, [Entry(from, stats[from - 1])] + rest)
  {
    var cs := [Entry(from, stats[from - 1])] + rest;
    assert forall n :: 0 < n < |cs| ==> cs[n] == rest[n - 1];
  }

  /** Any other label is left out. */
  lemma ListingSkip(stats: seq<Stat>, from: nat, rest: seq<Character>)
    requires 1 <= from <= |stats| && !CharacterSized(stats[from - 1].area)
    requires Listing(stats, from + 1, rest)
    ensures Listing(stats, from, rest)
  {
  }

  /** Reading order: by top edge, then left edge; on a tie the lower label
      first, which is where Python's stable sort leaves it. */
  predicate Before(a: Character, b: Character) {
    a.y < b.y || (a.y == b.y && (a.x < b.x || (a.x == b.x && a.cc < b.cc)))
  }

  predicate Ordered(cs: seq<Character>) {
    forall n :: 0 < n < |cs| ==> Before(cs[n - 1], cs[n])
  }

  function Insert(c: Character, cs: seq<Character>): (r: seq<Character>)
    requires Ordered(cs)
    requires forall n :: 0 <= n < |cs| ==> cs[n].cc != c.cc
    ensures multiset(r) == multiset(cs) + multiset{c}
    ensures Ordered(r)
    ensures |r| == |cs| + 1
    ensures r[0] == c || (|cs| > 0 && r[0] == cs[0])
  {
    if |cs| == 0 || Before(c, cs[0]) then
      ConsOrdered(c, cs);
      [c] + cs
    else
      OrderedTail(cs);
      var rest := Insert(c, cs[1..]);
      BeforeTotal(c, cs[0]);
      assert Before(cs[0], rest[0]);
      ConsOrdered(cs[0], rest);
      MultisetCons(cs);
      [cs[0]] + rest
  }

  /** Two entries of different labels are ordered one way or the other. */
  lemma BeforeTotal(a: Character, b: Character)
    requires a.cc != b.cc
    ensures Before(a, b) || Before(b, a)
  {
  }

  lemma OrderedTail(cs: seq<Character>)
    requires Ordered(cs) && |cs| > 0
    ensures Ordered(cs[1..])
  {
    assert forall n :: 0 < n < |cs| - 1 ==> cs[1..][n - 1] == cs[n] && cs[1..][n] == cs[n + 1];
  }

  lemma ConsOrdered(x: Character, rest: seq<Character>)
    requires Ordered(rest) && (|rest| == 0 || Before(x, rest[0]))
    ensures Ordered([x] + rest)
  {
    assert forall n :: 0 < n <= |rest| ==> ([x] + rest)[n] == rest[n - 1];
  }

  lemma MultisetCons(cs: seq<Character>)
    requires |cs| > 0
    ensures multiset(cs) == multiset{cs[0]} + multiset(cs[1..])
  {
    assert cs == [cs[0]] + cs[1..];
  }

  function Sort(cs: seq<Character>): (r: seq<Character>)
    requires forall n, m :: 0 <= n < m < |cs| ==> cs[n].cc != cs[m].cc
    ensures multiset(r) == multiset(cs)
    ensures Ordered(r)
  {
    if |cs| == 0 then []
    else
      var rest := Sort(cs[1..]);
      forall n | 0 <= n < |rest| ensures rest[n].cc != cs[0].cc {
        assert rest[n] in multiset(cs[1..]);
      }
      assert cs == [cs[0]] + cs[1..];
      Insert(cs[0], rest)
  }

  /** _segment_characters. */
  function Characters(stats: seq<Stat>): (cs: seq<Character>)
    ensures Ordered(cs)
    ensures forall c :: c in cs <==> IsCandidate(stats, c)
  {
    var cands := Candidates(stats, 1);
    var r := Sort(cands);
    assert forall c :: c in r <==> c in multiset(cands);
    forall c ensures c in cands <==> IsCandidate(stats, c) {
      if IsCandidate(stats, c) {
        assert c == Entry(c.cc - 1 + 1, stats[c.cc - 1]);
      }
    }
    r
  }

  // ------------------------------------------------------------ process

  datatype ProcessMeta = ProcessMeta(
    lineCount: nat,
    wordCount: nat,
    characterCount: nat,
    lines: seq<Run>,
    words: seq<Run>,
    characters: seq<Character>)

  /** TextSegmentationModule.process: the page is returned unchanged, with
      the three segmentations and their sizes. `stats` are the component
      statistics of the ink mask. */
  method Process(img: Image, luma: (int, int, int) -> int, stats: seq<Stat>)
    returns (out: Image, meta: ProcessMeta)
    requires img.Valid()
    ensures out == img
    ensures var b := InkMask(GrayOf(img, luma), img.h, img.w);
      && Segmentation(RowProfile(b, img.h, img.w), meta.lines)
      && Segmentation(ColumnProfile(b, img.h, img.w), meta.words)
    ensures meta.characters == Characters(stats)
    ensures meta.lineCount == |meta.lines| && meta.wordCount == |meta.words| &&
      meta.characterCount == |meta.characters|
  {
    var gray := GrayOf(img, luma);
    var b := InkMask(gray, img.h, img.w);
    var rows := RowProfile(b, img.h, img.w);
    forall i | 0 <= i < img.h ensures rows[i] >= 0 {
      RowProfileInk(gray, img.h, img.w, i);
    }
    var lines := FindRuns(rows);
    var cols := ColumnProfile(b, img.h, img.w);
    forall j | 0 <= j < img.w ensures cols[j] >= 0 {
      ColumnProfileInk(gray, img.h, img.w, j);
    }
    var words := FindRuns(cols);
    var chars := Characters(stats);
    out := img;
    meta := ProcessMeta(|lines|, |words|, |chars|, lines, words, chars);
  }
}

=== FILE: watermark_removal.dfy ===
/** WatermarkRemovalModule of autoocr/api/modules/watermark_removal.py:
    estimates the background with a large morphological opening and
    subtracts half of it from the lightness channel. The opening, the LAB
    conversions and CLAHE are library work and arrive as inputs; the kernel
    size rule and the saturating subtraction are modelled exactly. */
module WatermarkRemoval {
  import opened Raster
  import SecurityDetector

  /** Default min_watermark_ratio. */
  const DefaultMinRatio: real := 0.20

  function Min(a: nat, b: nat): nat { if a <= b then a else b }

  /** max(15, min(h, w) // 50), the side of the square opening kernel in
      both detect and process. */
  function KernelSize(h: nat, w: nat): (k: nat)
    ensures k >= 15
    ensures k == 15 <==> Min(h, w) < 800
    ensures k > 15 ==> k == Min(h, w) / 50
  {
    var m := Min(h, w) / 50;
    if m > 15 then m else 15
  }

  datatype DetectMeta = DetectMeta(watermarkRatio: real, watermarkPixels: nat, threshold: real)

  /** |gray - opening| > 10. */
  function Patterned(gray: Grid, opening: Grid, h: nat, w: nat): nat
    requires IsGrid(gray, h, w) && IsGrid(opening, h, w)
  {
    PixelCount(h, w, (i: nat, j: nat) =>
      i < |gray| && j < |gray[i]| && i < |opening| && j < |opening[i]| &&
      (gray[i][j] - opening[i][j] > 10 || opening[i][j] - gray[i][j] > 10))
  }

  /** WatermarkRemovalModule.detect; `opening(k)` is the gray page opened
      with a k x k rectangle. */
  function Detect(gray: Grid, h: nat, w: nat, opening: nat -> Grid, minRatio: real): (r: (bool, DetectMeta))
    requires IsGrid(gray, h, w) && h > 0 && w > 0
    ensures var est := Fit(opening(KernelSize(h, w)), h, w);
      && r.1.watermarkPixels == Patterned(gray, est, h, w)
      && r.1.watermarkRatio == Ratio(r.1.watermarkPixels, h * w)
      && r.1.threshold == minRatio
    ensures r.0 <==> r.1.watermarkRatio > minRatio
  {
    var est := Fit(opening(KernelSize(h, w)), h, w);
    var n := Patterned(gray, est, h, w);
    var ratio := Ratio(n, h * w);
    (ratio > minRatio, DetectMeta(ratio, n, minRatio))
  }

  /** On pages under 800 pixels on the short side the kernel is the
      classifier's 15 x 15, so at the default ratio the module fires exactly
      when the classifier lists a watermark. */
  lemma AgreesWithClassifier(gray: Grid, h: nat, w: nat, opening: nat -> Grid)
    requires IsGrid(gray, h, w) && h > 0 && w > 0 && Min(h, w) < 800
    ensures var est := Fit(opening(15), h, w);
      Detect(gray, h, w, opening, DefaultMinRatio).0 <==> SecurityDetector.WatermarkRatio(gray, est, h, w) > 0.20
  {
  }

  // -------------------------------------------------------------- process

  /** cv2.subtract(l, estimate // 2) on 8-bit planes: saturates at 0. */
  function Subtract(l: Grid, est: Grid, h: nat, w: nat): (r: Grid)
    requires IsGrid(l, h, w) && IsGrid(est, h, w)
    ensures IsGrid(r, h, w)
    ensures forall i, j :: 0 <= i < h && 0 <= j < w ==>
      r[i][j] == (if l[i][j] - est[i][j] / 2 < 0 then 0 else l[i][j] - est[i][j] / 2)
  {
    Tabulate(h, w, (i: nat, j: nat) =>
      if i < h && j < w then (if l[i][j] - est[i][j] / 2 < 0 then 0 else l[i][j] - est[i][j] / 2) else 0)
  }

  /** The subtraction only darkens: on 8-bit inputs every result lies
      between 0 and the original lightness. */
  lemma SubtractDarkens(l: Grid, est: Grid, h: nat, w: nat)
    requires IsGrid(l, h, w) && IsGrid(est, h, w) && Bytes(l) && Bytes(est)
    ensures Bytes(Subtract(l, est, h, w))
    ensures forall i, j :: 0 <= i < h && 0 <= j < w ==> 0 <= Subtract(l, est, h, w)[i][j] <= l[i][j]
  {
  }

  /** A flat background (opening equal to the page) loses half its
      lightness, rounded the way integer halving rounds. */
  lemma FlatLosesHalf(l: Grid, h: nat, w: nat)
    requires IsGrid(l, h, w) && Bytes(l)
    ensures forall i, j :: 0 <= i < h && 0 <= j < w ==> Subtract(l, l, h, w)[i][j] == l[i][j] - l[i][j] / 2
  {
  }

  /** The library steps of process: the k x k opening of a plane, CLAHE
      (clip 3.0, 8x8 tiles), and the LAB conversions of a colour page. */
  datatype Filters = Filters(
    opening: (Grid, nat) -> Grid,
    clahe: Grid -> Grid,
    toLab: Image -> seq<Grid>,
    fromLab: seq<Grid> -> (nat, nat, nat) -> int)

  datatype ProcessMeta = ProcessMeta(watermarkRatio: real, contrastEnhanced: bool)  // method "morphological_subtraction"

  /** The three LAB planes of a colour page, shaped to the page. */
  function LabPlanes(img: Image, f: Filters): (lab: seq<Grid>)
    ensures |lab| == 3 && forall c :: 0 <= c < 3 ==> IsGrid(lab[c], img.h, img.w)
  {
    var raw := f.toLab(img);
    [Fit(if 0 < |raw| then raw[0] else [], img.h, img.w),
     Fit(if 1 < |raw| then raw[1] else [], img.h, img.w),
     Fit(if 2 < |raw| then raw[2] else [], img.h, img.w)]
  }

  /** The enhanced lightness: subtraction of half the opening, then CLAHE. */
  function CleanLightness(l: Grid, h: nat, w: nat, f: Filters): (r: Grid)
    requires IsGrid(l, h, w)
    ensures IsGrid(r, h, w)
  {
    var est := Fit(f.opening(l, KernelSize(h, w)), h, w);
    Fit(f.clahe(Subtract(l, est, h, w)), h, w)
  }

  /** WatermarkRemovalModule.process: a colour page has only its L plane
      replaced before converting back; a gray page is its own lightness. */
  function Process(img: Image, meta: DetectMeta, f: Filters): (r: (Image, ProcessMeta))
    requires img.Valid()
    ensures r.0.Valid() && SameShape(r.0, img)
    ensures r.1 == ProcessMeta(meta.watermarkRatio, true)
    ensures !img.IsColor() ==> r.0.planes == [CleanLightness(img.planes[0], img.h, img.w, f)]
    ensures img.IsColor() ==> var lab := LabPlanes(img, f);
      r.0 == Sampled(img.h, img.w, 3, f.fromLab([CleanLightness(lab[0], img.h, img.w, f), lab[1], lab[2]]))
  {
    if img.IsColor() then
      var lab := LabPlanes(img, f);
      var merged := [CleanLightness(lab[0], img.h, img.w, f), lab[1], lab[2]];
      (Sampled(img.h, img.w, 3, f.fromLab(merged)), ProcessMeta(meta.watermarkRatio, true))
    else
      (FromGray(CleanLightness(img.planes[0], img.h, img.w, f), img.h, img.w), ProcessMeta(meta.watermarkRatio, true))
  }
}

=== FILE: wrappers.dfy ===
/** Failure-compatible wrappers shared by the model: an optional value and a
    value-or-error result (an exception escaping a Python call is a `Failure`). */
module Wrappers {

  datatype Option<+T> = None | Some(value: T) {
    predicate IsFailure() { None? }

    function PropagateFailure<U>(): Option<U>
      requires None?
    {
      None
    }

    function Extract(): T
      requires Some?
    {
      value
    }

    function GetOr(default: T): T {
      match this
      case Some(v) => v
      case None => default
    }
  }

  datatype Result<+R, +E> = Success(value: R) | Failure(error: E) {
    predicate IsFailure() { Failure? }

    function PropagateFailure<U>(): Result<U, E>
      requires Failure?
    {
      Failure(error)
    }

    function Extract(): R
      requires Success?
    {
      value
    }
  }
}
